=== FILE: README.md ===
# schedsim scheduling policies and event-driven simulator, in Dafny

This project models the core of schedsim, a discrete-event simulator of
size-based scheduling policies for a single shared resource (one server,
divided among jobs in arbitrary proportions). The policies live in
`schedulers.py`. They are PS, FIFO, SRPT, SRPT+PS, FSP, FSP+PS, LAS,
SRPT+LAS and FSP+LAS. All of them answer the same four calls:
`enqueue(t, id, estimate)`, `dequeue(t, id)`, `schedule(t)` and
`next_internal_event()`. The event loop lives in `simulator.py`. It pops
ARRIVAL, COMPLETE and INTERNAL events off a heap and debits the work done
since the last event. It calls the policy, pushes the speculative
INTERNAL and COMPLETE events, and yields `(time, id)` when a job
completes. The `identity` and `fixed_estimations` size estimators are
modelled too.

Modelling choices:

- **Ids and numbers.**
  - Job ids are `nat`.
  - Times, sizes and resource shares are `real`, so arithmetic is exact.
  - An allocation (`Alloc`) is a `map<JobId, real>`.
- **Queues.**
  - Each priority queue of the source is a sorted `seq` with the same
    pop-min order. These are the SRPT heaps, FSP's virtual queue, the SRPT
    queue of SRPT+LAS, the virtual queue of FSP+LAS, and the simulator's
    event heap, ordered by (time, rank).
  - The LAS family's discretised attained-service queues are
    `map<int, set<JobId>>` (`Buckets`).
- **Errors.** Every path on which the source raises becomes `Result.Err`
  with a named `Error`. Examples are dequeuing a missing job, an empty
  heap, `StopIteration` from an empty generator, and a division by zero.
- **Iteration order.** SRPT+LAS and FSP+LAS walk a Python set or dict, and
  the order of that walk is not specified. It is modelled as an arbitrary
  but fixed enumeration (`Base.Enumerate`). Every property is proved for
  any order: `ServeAll` is proved over an arbitrary sequence of ids.
- **Division.** Each real division sits in a small function of its own:
  - the equal share `1 / n` (`Allocation.EqualShares`);
  - the service since the last update (`SrptPs.Served`, `Fsp.FairShare`);
  - the whole `eps` steps since the last update and in a size
    (`Buckets.StepsSince`, `Buckets.Units`);
  - FSP+LAS's virtual share per job (`FspLas.FairSteps`);
  - the time to the next completion (`Simulator.Earliest`).

  SRPT+PS, FSP, LAS, SRPT+LAS and FSP+LAS update through an `Advance`
  applied to that amount. SRPT ages its head directly in `Srpt.Update`.
  PS and FIFO keep no time.
- **Policies and the loop.**
  - `Policies.Policy` is a tagged union of the nine states. It dispatches
    the four calls.
  - `Simulator` runs the loop for at most `fuel` iterations.
  - `SimulatorSafety` proves the loop's main promise. On valid jobs it never
    raises. When the heap runs out, every job has been yielded exactly once,
    in order of time, with no work left (`simulator.py:100`).
- **The unit tests.** `Scenarios` works out examples of `test.py` on the
  model, iteration by iteration:
  - `test_empty`;
  - `test_one` under FIFO, PS, SRPT and FSP;
  - `test_two` under FIFO and PS;
  - `test_two_delayed` under SRPT;
  - `test_error` under FSP.
  - The tests' ids `job1`, `job2`, ... are the ids 1, 2, ... here, in the
    same order.
  - A test's expected `(time, id)` list is the list of completions, each
    recording zero work left.
  - Each run is proved for any fuel at least its number of iterations,
    one per event popped. Under FSP that count includes the INTERNAL
    events, so it can exceed two per job.

Two behaviours of the code that are easy to overlook:

- No policy rejects an id that is already tracked; enqueuing one again
  goes unchecked and leaves the bookkeeping inconsistent. The invariant lemmas
  therefore require fresh ids, which is what the simulator supplies.
- FSP+LAS's `next_internal_event` treats a zero virtual prediction as
  "none" (`not res`). When two or more buckets exist, it then answers with
  the bucket catch-up time. `FspLas.NextInternal` keeps this.

## Model

| member | source | states |
|---|---|---|
| Base.Ceil | schedulers.py:12-13 | `intceil` returns the least integer not below its argument |
| Base.CeilOfInt | schedulers.py:12-13 | `intceil` of an integer is that integer |
| Base.FirstIndex | schedulers.py:49-53 | `list.index`: absent exactly when not in the list; otherwise the first position holding it |
| Base.RemoveAt | schedulers.py:49-53 | deleting one position keeps every other element, in order, and removes exactly one occurrence |
| Base.RemoveAtDistinct | schedulers.py:49-53 | deleting from a duplicate-free list leaves it duplicate-free and drops exactly that element |
| Base.Without | schedulers.py:205-207 | dropping a job from FSP's ordered late table: that job is gone and every other one stays; an absent job leaves the table unchanged, and from a table without repeats exactly the job's one position is cut, the rest keeping their order |
| Base.Enumerate | schedulers.py:477-478 | a set's iteration order visits exactly the set's members |
| Base.EnumerateDistinct | schedulers.py:477-478 | that iteration visits each member once |
| Allocation.EqualShares | schedulers.py:33-39 | every listed job gets a share `x` with `x * n == 1` for `n` jobs |
| Allocation.SharesDetermined | schedulers.py:33-39 | any allocation giving `n` jobs shares of 1/n each is the equal-share allocation |
| Allocation.EqualSharesValid | schedulers.py:33-39 | every equal share lies in (0, 1] |
| Allocation.TotalOfEqualShares | schedulers.py:33-39 | the equal shares of a non-empty set sum to exactly 1 |
| ProcessorSharing.Enqueue | schedulers.py:24-25 | the running set gains the job |
| ProcessorSharing.Dequeue | schedulers.py:27-31 | succeeds exactly when the job is running, removing it; otherwise the missing-job error |
| ProcessorSharing.Schedule | schedulers.py:33-39 | every running job, and only those, gets 1/n of the resource |
| ProcessorSharing.ScheduleUsesWholeResource | schedulers.py:33-39 | PS hands out the whole resource in valid shares |
| ProcessorSharing.DequeueUndoesEnqueue | schedulers.py:24-31 | dequeuing a freshly enqueued job restores the previous state |
| Fifo.Enqueue | schedulers.py:46-47 | the job goes to the back of the queue |
| Fifo.Dequeue | schedulers.py:49-53 | succeeds exactly when the job is queued, removing its first occurrence; otherwise the missing-job error |
| Fifo.Schedule | schedulers.py:55-60 | the head of the queue gets the whole resource; an empty queue gets nothing |
| Fifo.EnqueueAddsJob | schedulers.py:46-47 | a fresh job joins the queue and the queue stays duplicate-free |
| Fifo.DequeueRemovesJob | schedulers.py:49-53 | dequeuing removes exactly that job and keeps the queue duplicate-free |
| Fifo.ArrivalDoesNotPreempt | schedulers.py:46-60 | an arrival never changes who is served |
| Fifo.DequeueKeepsOrder | schedulers.py:49-60 | removing a non-head job keeps the head served; removing the head promotes the next job |
| Fifo.EnqueueAllKeepsOrder | schedulers.py:46-47 | jobs are served in order of arrival |
| Srpt.Update | schedulers.py:68-75 | only the head's remaining work goes down, by the elapsed time; no time elapsed means no change |
| Srpt.UpdatePreservesInv | schedulers.py:68-75 | an update keeps the heap ordered and its ids unchanged |
| Srpt.Enqueue | schedulers.py:77-79 | after the update, the heap gains the job with its estimate |
| Srpt.EnqueuePreservesInv | schedulers.py:77-79 | enqueuing a fresh job keeps the heap ordered and adds exactly that id |
| Srpt.Dequeue | schedulers.py:81-97 | corrected: succeeds exactly when the job is in the heap, wherever it sits |
| Srpt.DequeueAsWritten | schedulers.py:81-97 | as written: succeeds only when the job is at the head of a non-empty heap |
| Srpt.DequeueAsWrittenRejectsTrackedJob | schedulers.py:86-94 | with jobs 1 (5 left) and 2 (10 left), dequeuing job 2 fails under the code as written and succeeds under the corrected one |
| Srpt.DequeuePreservesInv | schedulers.py:81-97 | the corrected dequeue keeps the heap ordered and removes exactly that id |
| Srpt.Schedule | schedulers.py:99-105 | after the update, the head alone gets the whole resource |
| Srpt.ScheduleServesLeastRemaining | schedulers.py:99-105 | the served job has the least remaining work of all tracked jobs |
| Srpt.ScheduleIdempotent | schedulers.py:99-105 | scheduling twice at the same time gives the same answer |
| SrptPs.Served | schedulers.py:116-125 | the service each served job receives is never negative, and is zero when no time elapsed |
| SrptPs.Advance | schedulers.py:116-125 | the late set only grows; the head left in the heap has at least `eps` to go; no id is lost or gained |
| SrptPs.AdvancePreservesInv | schedulers.py:116-125 | an update keeps the invariant and the set of tracked jobs |
| SrptPs.AdvanceMovesExhaustedToLate | schedulers.py:119-125 | a job whose remaining work drops below `eps` moves to the late set; every job left in the heap has at least `eps` |
| SrptPs.UpdateMovesExhaustedToLate | schedulers.py:116-125 | the same facts for the update at time `t` |
| SrptPs.UpdateIdempotent | schedulers.py:116-125 | updating twice at the same time equals updating once |
| SrptPs.NextInternalPredictsLateness | schedulers.py:127-131 | at the predicted time the head has received exactly its remaining work and is late |
| SrptPs.NextInternalAfterUpdate | schedulers.py:127-131 | after an update the predicted delay is positive |
| SrptPs.PushPreservesInv | schedulers.py:145-147 | enqueuing a fresh job keeps the invariant and tracks exactly one more job |
| SrptPs.EnqueuePreservesInv | schedulers.py:145-147 | the same for the enqueue at time `t` |
| SrptPs.Remove | schedulers.py:149-169 | corrected: succeeds exactly when the job is tracked; a late job leaves the late set, any other leaves the heap |
| SrptPs.RemoveAsWritten | schedulers.py:149-169 | as written: succeeds only for a late job or the heap's head |
| SrptPs.RemoveAsWrittenRejectsTrackedJob | schedulers.py:158-166 | with heap jobs 1 (5 left) and 2 (10 left), removing job 2 fails as written and succeeds when corrected |
| SrptPs.DequeuePreservesInv | schedulers.py:149-169 | the corrected dequeue keeps the invariant and untracks exactly that job |
| SrptPs.Running | schedulers.py:133-143 | the jobs served are all late jobs plus the heap's head, and only tracked jobs |
| SrptPs.RunningSharesEqually | schedulers.py:133-143 | `1 + |late|` jobs share when the heap is non-empty; nobody is served exactly when nothing is tracked; shares sum to 1 |
| SrptPs.ScheduleSharesEqually | schedulers.py:133-143 | the schedule gives equal shares to the late jobs and the head |
| SrptPs.ScheduleIdempotent | schedulers.py:133-143 | scheduling twice at the same time gives the same answer |
| Fsp.MarkLate | schedulers.py:228-229 | a job is appended to the late list unless already there |
| Fsp.MarkAll | schedulers.py:222-231 | the late list keeps its prefix and gains exactly the finished jobs still running, without duplicates; the jobs it gains come after the old ones, in virtual-queue order |
| Fsp.Survivors | schedulers.py:222-235 | the virtual queue loses exactly the jobs whose virtual work is within `eps` of the fair share; every other job stays with its work reduced by exactly the fair share, and more than `eps` left; the survivors stay sorted and duplicate-free, and the ids split into finished and surviving |
| Fsp.AdvancePreservesInv | schedulers.py:209-237 | a virtual-time update keeps FSP's invariant |
| Fsp.AdvanceMarksFinishedLate | schedulers.py:222-231 | every running job that finished in virtual time becomes late, and only such jobs |
| Fsp.UpdateFinishesExactly | schedulers.py:209-237 | virtual jobs beyond the fair share are aged by it; those within it that still run become late; all left exceed `eps` |
| Fsp.UpdateIdempotent | schedulers.py:209-237 | updating twice at the same time equals updating once |
| Fsp.UpdateShrinksQueue | schedulers.py:209-237 | an update never adds a job to the virtual queue |
| Fsp.NextInternalPredictsCompletion | schedulers.py:254-261 | at the predicted time the virtual head has finished |
| Fsp.NextInternalAfterUpdate | schedulers.py:254-261 | after an update the predicted delay is positive |
| Fsp.Enqueue | schedulers.py:196-199 | after the update, the job joins the running set and the virtual queue with its estimate |
| Fsp.EnqueuePreservesInv | schedulers.py:196-199 | enqueuing a fresh job keeps FSP's invariant |
| Fsp.Dequeue | schedulers.py:201-207 | succeeds exactly when the job runs; it leaves the running set and the late list, the other late jobs keeping their order, while the virtual queue is untouched |
| Fsp.DequeuePreservesInv | schedulers.py:201-207 | dequeuing keeps FSP's invariant |
| Fsp.FirstRunning | schedulers.py:245-252 | finds the first virtual job still running, or reports none |
| Fsp.Pick | schedulers.py:239-252 | the first late job gets everything; otherwise the first running virtual job does; the `next` error arises exactly when a job runs but none is in the virtual queue |
| Fsp.PickServesFirstVirtual | schedulers.py:239-252 | under the invariant the choice never fails and serves the earliest running job in virtual order |
| Fsp.ScheduleNeverFails | schedulers.py:239-252 | FSP's schedule never raises under the invariant |
| Fsp.PickPs | schedulers.py:271-285 | FSP+PS shares the resource equally among all late jobs, and otherwise behaves as FSP |
| Fsp.PickPsUsesWholeResource | schedulers.py:271-285 | with late jobs, the shares sum to 1 |
| Fsp.PsAgreesWithSingleLate | schedulers.py:271-285 | with at most one late job, FSP+PS chooses exactly as FSP |
| Las.Advance | schedulers.py:325-368 | attained-service keys stay the same set, the time moves to `t`, and nothing is scheduled anew |
| Las.AdvanceIndexes | schedulers.py:325-368 | the buckets stay an exact index of every job's attained service |
| Las.AdvanceCreditsServed | schedulers.py:350-367 | every served job's attained service grows by the discretised work, snapped to a neighbouring bucket |
| Las.AdvanceWithoutSchedule | schedulers.py:325-368 | with nothing scheduled an update changes only the time |
| Las.CreditMovesBucket | schedulers.py:350-367 | the served bucket moves to the new key, merging into an adjacent bucket when one is there |
| Las.UpdateIndexes | schedulers.py:325-368 | the update keeps the bucket index exact |
| Las.Enqueue | schedulers.py:311-314 | the new job starts at zero attained service in bucket 0; other buckets are untouched |
| Las.EnqueuePreservesInv | schedulers.py:311-314 | enqueuing a fresh job keeps the index exact |
| Las.Dequeue | schedulers.py:316-323 | an unknown job is the missing-job error; otherwise the job leaves its bucket and the attained table |
| Las.DequeuePreservesInv | schedulers.py:316-323 | dequeuing succeeds exactly for tracked jobs and keeps the index exact |
| Las.Pick | schedulers.py:370-384 | nothing is served when no bucket exists; otherwise the least bucket's jobs share equally, and an empty least bucket is the division error |
| Las.PickServesLeastAttained | schedulers.py:370-384 | under the invariant the jobs served are exactly those of least attained service, in equal shares |
| Las.ScheduleServesLeastAttained | schedulers.py:370-384 | the same after the update at `t` |
| Las.ScheduleKeepsJobs | schedulers.py:370-384 | scheduling keeps the index exact and tracks the same jobs |
| Las.NextInternal | schedulers.py:386-397 | a prediction exists exactly when there are two or more buckets |
| Las.NextInternalMerges | schedulers.py:386-397 | at the predicted time the least bucket has merged into the next one |
| SrptLas.Enqueue | schedulers.py:427-431 | the job starts at zero attained service and joins the SRPT queue with its estimate in whole `eps` units |
| SrptLas.EnqueuePreservesInv | schedulers.py:427-431 | enqueuing a fresh job keeps the invariant and tracks one more job |
| SrptLas.Dequeue | schedulers.py:433-450 | an unknown job is the missing-job error; a late job leaves its bucket, a queued job leaves the SRPT queue |
| SrptLas.DequeuePreservesInv | schedulers.py:433-450 | dequeuing succeeds exactly for tracked jobs, keeps the invariant and untracks exactly that job |
| SrptLas.ServeLatePreservesInv | schedulers.py:464-489 | crediting a late job never fails and keeps the invariant; the job is refiled under its old attained service plus `intceil(delta*service)`, snapped by at most one step to a neighbouring bucket, and every other job keeps its attained service |
| SrptLas.ServeQueuedPreservesInv | schedulers.py:490-504 | serving a queued job never fails and keeps the invariant |
| SrptLas.ServeAtReduces | schedulers.py:494-504 | a queued job with work left stays queued with its estimate reduced by the work done |
| SrptLas.ServeAtTurnsLate | schedulers.py:491-498 | a queued job whose estimate is used up leaves the queue and becomes late |
| SrptLas.ServeAllPreservesInv | schedulers.py:476-504 | serving the scheduled jobs in any order never fails and keeps the invariant |
| SrptLas.UpdatePreservesInv | schedulers.py:452-507 | the update never fails and keeps the invariant and the tracked jobs |
| SrptLas.UpdateKeepsNonNegative | schedulers.py:452-507 | no estimate left in the SRPT queue becomes negative |
| SrptLas.Chosen | schedulers.py:509-527 | the SRPT head and the least-attained late bucket are chosen |
| SrptLas.Pick | schedulers.py:509-527 | the chosen jobs get equal shares and become the scheduled set |
| SrptLas.ChosenIsNonEmpty | schedulers.py:509-527 | only tracked jobs are chosen, and someone is chosen whenever a job is tracked |
| SrptLas.ChosenLeastLate | schedulers.py:509-527 | the late jobs chosen have the least attained service of all late jobs |
| SrptLas.ChosenHead | schedulers.py:509-527 | the only queued job chosen is the SRPT head, which has the least estimate |
| SrptLas.ScheduleNeverFails | schedulers.py:509-527 | scheduling never raises, keeps the invariant and the tracked jobs |
| SrptLas.NextInternalMakesHeadLate | schedulers.py:529-534 | at the predicted time the SRPT head's estimate is used up |
| FspLas.ServeOne | schedulers.py:614-626 | crediting a job touches only its attained service and its late bucket; it fails exactly for an unknown job or a broken bucket |
| FspLas.ServeAllPreservesInv | schedulers.py:614-626 | serving the scheduled jobs in any order never fails and keeps the invariant |
| FspLas.MarkAllIndexes | schedulers.py:635-647 | marking the virtually finished running jobs late never fails and keeps the index exact, so each sits in the bucket of its attained service |
| FspLas.MarkAllAttained | schedulers.py:635-643 | a job turning late is filed under its own attained service, snapped by at most one step to a neighbouring bucket, and every other job keeps its attained service |
| FspLas.FinishFinishesExactly | schedulers.py:630-650 | every virtual job within the fair share leaves the virtual queue |
| FspLas.FinishAgesTheRest | schedulers.py:630-650 | every virtual job beyond the fair share stays, aged by exactly that share |
| FspLas.UpdatePreservesInv | schedulers.py:590-652 | the update never fails, keeps the invariant, the running set and the attained table's jobs |
| FspLas.Enqueue | schedulers.py:568-573 | the job joins the running set, the virtual queue and the attained table after the update |
| FspLas.EnqueuePreservesInv | schedulers.py:568-573 | enqueuing a fresh job never fails and keeps the invariant |
| FspLas.Dequeue | schedulers.py:575-588 | an unknown job is the missing-job error; a late job leaves its bucket, any other only the running set |
| FspLas.DequeuePreservesInv | schedulers.py:575-588 | dequeuing succeeds exactly for running jobs and keeps the invariant |
| FspLas.PickServesLeastLate | schedulers.py:654-672 | with late jobs, exactly the least-attained late bucket shares the resource equally |
| FspLas.PickServesFirstVirtual | schedulers.py:654-672 | otherwise the earliest running virtual job gets everything, and nothing is served when nothing runs |
| FspLas.ScheduleServesRunning | schedulers.py:654-672 | scheduling never raises, keeps the invariant, and serves running jobs in equal shares |
| FspLas.NextInternal | schedulers.py:674-695 | no prediction exactly when the virtual queue is empty and fewer than two buckets exist |
| FspLas.NextInternalIsEarliest | schedulers.py:674-695 | the answer is the earlier of the virtual and the catch-up predictions, with a zero virtual prediction ignored |
| FspLas.NextInternalFinishesHead | schedulers.py:674-695 | at the virtual prediction the virtual head leaves the virtual queue, and becomes late if running |
| FspLas.NextInternalPositive | schedulers.py:674-695 | every prediction is positive |
| Policies.InitialIsIdle | schedulers.py:20-695 | a fresh policy of any class tracks nothing and predicts nothing |
| Policies.ScheduleContract | schedulers.py:20-695 | every policy's `schedule` never raises and shares the resource equally among some tracked jobs, serving someone whenever a job is tracked |
| Policies.EnqueueContract | schedulers.py:20-695 | every policy's `enqueue` of a fresh job never raises and tracks exactly one more job |
| Policies.DequeueContract | schedulers.py:20-695 | every policy's `dequeue` succeeds exactly for tracked jobs and untracks exactly that job |
| Events.Rank | simulator.py:9 | arrivals rank before completions, which rank before internal events |
| Events.HeapOrderIsTimeOrder | simulator.py:43-45 | events in heap order come out in order of time |
| Events.Insert | simulator.py:81 | `heappush` adds exactly the event |
| Events.InsertKeepsOrder | simulator.py:81 | `heappush` keeps heap order |
| Events.ArrivalsOf | simulator.py:34 | one ARRIVAL per job, at its arrival time with its id and size |
| Events.HeapifyOrders | simulator.py:35 | `heapify` yields heap order over the same events |
| Events.PushKeepsOrder | simulator.py:78-81 | pushing only when earlier than the head keeps heap order |
| Estimators.Estimate | simulator.py:13-14 | `identity` returns the size unchanged |
| Estimators.FixedReturnsEstimates | simulator.py:26-30 | `fixed_estimations` returns its estimates in order, and fails once they run out |
| Estimators.IdentityReturnsSizes | simulator.py:13-14 | `identity` returns every size unchanged |
| Estimators.EstimateUsesSupply | simulator.py:26-30 | an estimate is available exactly when the supply is not exhausted, and using one consumes one |
| Simulator.Start | simulator.py:34-41 | the heap starts as exactly the arrivals of the jobs, in heap order |
| Simulator.DebitIsPointwise | simulator.py:47-53 | the debit succeeds exactly when every scheduled job has remaining work, and subtracts `delta * share` from each |
| Simulator.EarliestIsLeast | simulator.py:83-89 | the completion chosen has the least `remaining / share` of the scheduled jobs; a zero share is the division error |
| Simulator.PushInternal | simulator.py:77-81 | an INTERNAL event is pushed exactly when the policy predicts one earlier than the heap's head |
| SimulatorSafety.DebitSafe | simulator.py:47-53 | under the invariant the debit never fails, takes exactly `delta * share` off each scheduled job, and no remaining work becomes negative |
| SimulatorSafety.DebitSinceSafe | simulator.py:43-53 | debiting the work done since the last event never fails, leaves no work negative, and leaves exactly zero work for a job whose COMPLETE is being popped |
| SimulatorSafety.EarliestPushed | simulator.py:83-96 | the COMPLETE pushed for the earliest finisher is due exactly when that job's work runs out at its share, and keeps the heap consistent |
| SimulatorSafety.HandleArrival | simulator.py:57-60 | an arrival never raises and leaves the state consistent |
| SimulatorSafety.HandleComplete | simulator.py:61-66 | a completion never raises, yields the job once with no work left, and leaves the state consistent |
| SimulatorSafety.ScheduleSafe | simulator.py:67-96 | scheduling and the speculative pushes never raise and restore the invariant |
| SimulatorSafety.StepSafe | simulator.py:43-98 | one iteration never raises and restores the invariant at the popped time |
| SimulatorSafety.Drained | simulator.py:100 | when the heap is empty no work is left and every job has been yielded |
| SimulatorSafety.RunSafe | simulator.py:43-100 | a run from a state satisfying the invariant only stops for want of fuel, and yields jobs in order, each once |
| SimulatorSafety.StartInv | simulator.py:34-41 | the state before the loop satisfies the invariant |
| SimulatorSafety.SimulateSafe | simulator.py:32-100 | on valid jobs the simulator never raises; when it finishes it has yielded every job exactly once, in order of time, and each job is yielded exactly when its remaining work reaches zero (the commented assertion at simulator.py:63) |
| Scenarios.Empty | test.py:28-29 | `test_empty`: with no jobs, every scheduler's run finishes at once and yields nothing |
| Scenarios.FifoOne | test.py:31-33 | `test_one` under FIFO: the one job completes at 10 with no work left |
| Scenarios.FifoTwo | test.py:39-41 | `test_two` under FIFO: job 1 completes at 10, then job 2 at 20 |
| Scenarios.PsOne | test.py:31-33 | `test_one` under PS: the one job completes at 10 |
| Scenarios.PsTwo | test.py:51-53 | `test_two` under PS: both jobs complete at 20, job 1 first |
| Scenarios.SrptOne | test.py:31-33 | `test_one` under SRPT: the one job completes at 10 |
| Scenarios.SrptDelayed | test.py:67-69 | `test_two_delayed` under SRPT: job 2 completes at 15, then job 1 at 30 |
| Scenarios.FspOne | test.py:31-33 | `test_one` under FSP: the one job completes at 10 |
| Scenarios.FspError | test.py:103-106 | `test_error` under FSP with estimates 15 and 20: job 1 completes at 10, then job 2 at 20 |

## Left out

- The other examples of `test.py`: `test_two_delayed` under FIFO and PS (test.py:43-45, 55-57), `test_two` and `test_starvation` under SRPT (test.py:63-65, 71-79), and `test_two`, `test_two_delayed` and `test_starvation` under FSP (test.py:85-101). A worked run costs one group of literal lemmas per iteration. These cases use the same policies and simulator paths as the cases kept, so they are left out to keep the proof small.

- `lognorm_error` and `normal_error` (simulator.py:16-24): they draw random numbers, which the model does not have.
- Floating-point rounding: all arithmetic is on exact reals. The source's `eps` tolerances are kept as parameters.
- The concrete iteration order of Python sets and dicts. It is modelled as an arbitrary fixed enumeration, and every property is proved for any order.
- The error precedence between failures inside one call, and the text of exception messages. Only the kind of error is kept.
- The laziness of the generator: the model returns the list of completions. The source turns an exhausted fixed estimator into a `StopIteration` inside the generator; the model reports it as `EstimatesExhausted`.
- The commented-out assertions of the loop (simulator.py:53, 69-72, 91-93) as run-time checks. The one at simulator.py:63 is proved instead, in exact arithmetic: `SimulatorSafety.SimulateSafe` shows every yielded job has exactly zero work left.
- Srpt.DequeueAsWritten and SrptPs.RemoveAsWritten: they report `MissingJob`, the outcome for string ids of two or more characters such as the tests' `'job2'`. With integer ids the source raises a `TypeError` instead. Both are errors, and the members state exactly when the call succeeds.
- Simulator.Run: the loop is bounded by `fuel`, because an unbounded number of INTERNAL events could otherwise keep it going. A run that stops for want of fuel reports `OutOfFuel`.
- SimulatorSafety.SimulateSafe: it requires distinct job ids, arrival times and sizes that are not negative, and a fixed estimator holding enough non-negative estimates. The source assumes these of its input but never checks them.
- Las.Update: the source narrows `scheduled` in place while updating. The model does not keep that narrowing, because `schedule` replaces `scheduled` right after every update.
- The invariant lemmas of every policy require enqueued ids to be fresh. The source never checks this, and the simulator only enqueues fresh ids.

## Findings

| source | as written | input that shows it | evidently intended | confidence | as-written member | corrected member |
|---|---|---|---|---|---|---|
| schedulers.py:92 | SRPT's dequeue of a job that is not at the heap's head searches with `for i, v in jobs` without `enumerate`. Each `[remaining, id]` pair unpacks into `i = remaining` and `v = id`, and the test `v[1] == jobid` subscripts the id. That raises on an integer id, and on a string id it compares one character with the whole id. Either way no non-head job is ever found | jobs 1 (5 left) and 2 (10 left); dequeue job 2 | remove job 2 from the heap and re-heapify | high; not executed | Srpt.DequeueAsWritten, Srpt.DequeueAsWrittenRejectsTrackedJob | Srpt.Dequeue |
| schedulers.py:164 | SRPT+PS's dequeue searches with the same `for i, v in jobs` for a job that is neither late nor at the head. So every such job is rejected, exactly as in SRPT | heap jobs 1 (5 left) and 2 (10 left), nothing late; dequeue job 2 | remove job 2 from the heap and re-heapify | high; not executed | SrptPs.RemoveAsWritten, SrptPs.RemoveAsWrittenRejectsTrackedJob | SrptPs.Remove |

=== FILE: allocation.dfy ===
/** Resource allocations: what `schedule(t)` returns, a map from job to the
    share of the single resource it receives. Every policy of the model
    splits the resource equally among the jobs it names. */
module Allocation {
  import opened Base

  type Alloc = map<JobId, real>

  /** The allocation giving each job of `jobs` the share `1/|jobs|`, or the
      empty allocation when there are no jobs. */
  function EqualShares(jobs: set<JobId>): (a: Alloc)
    ensures a.Keys == jobs
    ensures forall j :: j in a ==> a[j] * |jobs| as real == 1.0
  {
    if jobs == {} then map[] else map j | j in jobs :: 1.0 / |jobs| as real
  }

  /** A single job served alone: the shape of FIFO, SRPT and FSP schedules. */
  lemma AloneIsEqualShares(j: JobId)
    ensures EqualShares({j}) == map[j := 1.0]
  {
    var a := EqualShares({j});
    assert a[j] * 1.0 == 1.0;
  }

  /** Shares of `1/|jobs|` to exactly the jobs `jobs` are the equal split. */
  lemma SharesDetermined(a: Alloc, jobs: set<JobId>)
    requires a.Keys == jobs
    requires forall j :: j in a ==> a[j] * |jobs| as real == 1.0
    ensures a == EqualShares(jobs)
  {
    var e := EqualShares(jobs);
    forall j | j in a ensures a[j] == e[j] {
      assert a[j] * |jobs| as real == e[j] * |jobs| as real;
    }
  }

  /** `x` is at least `1/m`. */
  predicate AtLeastOneIn(x: real, m: nat) {
    x * m as real >= 1.0
  }

  /** A share of an equal split among at most `m` jobs is at least `1/m`. */
  lemma EqualShareAtLeast(a: Alloc, j: JobId, m: nat)
    requires a == EqualShares(a.Keys) && j in a && |a.Keys| <= m
    ensures AtLeastOneIn(a[j], m)
  {
    var n := |a.Keys| as real;
    assert a[j] * n == 1.0;
    assert a[j] > 0.0;
    assert a[j] * n <= a[j] * m as real;
  }

  /** Every share lies in (0, 1]. */
  predicate ValidShares(a: Alloc) {
    forall j :: j in a ==> 0.0 < a[j] <= 1.0
  }

  lemma EqualSharesValid(jobs: set<JobId>)
    ensures ValidShares(EqualShares(jobs))
  {
    var a := EqualShares(jobs);
    forall j | j in a
      ensures 0.0 < a[j] <= 1.0
    {
      assert a[j] * |jobs| as real == 1.0;
      assert |jobs| >= 1;
    }
  }

  /** Sum of the shares of the jobs `ks` in `a`; `Total` sums all of them. */
  ghost function SumOver(a: Alloc, ks: set<JobId>): real
    requires ks <= a.Keys
    decreases ks
  {
    if ks == {} then 0.0
    else var j :| j in ks; a[j] + SumOver(a, ks - {j})
  }

  ghost function Total(a: Alloc): real {
    SumOver(a, a.Keys)
  }

  lemma {:induction false} SumOfConstant(a: Alloc, ks: set<JobId>, c: real)
    requires ks <= a.Keys
    requires forall j :: j in ks ==> a[j] == c
    ensures SumOver(a, ks) == |ks| as real * c
    decreases ks
  {
    if ks != {} {
      var j :| j in ks && SumOver(a, ks) == a[j] + SumOver(a, ks - {j});
      SumOfConstant(a, ks - {j}, c);
      var n := |ks - {j}|;
      assert |ks| == n + 1;
      assert (n + 1) as real * c == n as real * c + c;
    }
  }

  /** An equal split of a non-empty set of jobs hands out the whole resource:
      the shares sum to exactly 1. */
  lemma TotalOfEqualShares(jobs: set<JobId>)
    requires jobs != {}
    ensures Total(EqualShares(jobs)) == 1.0
  {
    var a := EqualShares(jobs);
    var c := 1.0 / |jobs| as real;
    assert forall j :: j in a ==> a[j] == c by {
      forall j | j in a ensures a[j] == c {
        assert a[j] * |jobs| as real == 1.0;
      }
    }
    SumOfConstant(a, a.Keys, c);
  }
}

=== FILE: base.dfy ===
/** Vocabulary shared by every part of the model: job identifiers, optional
    values, the errors the schedulers and the simulator raise, and the integer
    ceiling used to discretise times in the LAS family. */
module Base {

  /** Job identifiers. The simulator accepts any hashable, ordered token; the
      model uses natural numbers, so the tests' `job1`, `job2` become 1, 2. */
  type JobId = nat

  /** The tolerance `eps` every epsilon-aware policy is built with. */
  type PosReal = x: real | 0.0 < x witness 1.0

  datatype Option<+T> = None | Some(value: T)

  /** The exceptions of the source, one constructor per distinct cause. */
  datatype Error =
    | MissingJob(id: JobId)   // "dequeuing missing job" (ValueError or KeyError)
    | EmptyHeap               // IndexError: the head of an empty heap is read
    | NoRunningJob            // StopIteration: no running job in the virtual queue
    | BrokenIndex             // KeyError inside a policy's own tables
    | EmptyBucket             // ZeroDivisionError: a least bucket without jobs
    | UnknownJob(id: JobId)   // KeyError on the simulator's remaining-work table
    | ZeroShare(id: JobId)    // ZeroDivisionError computing a completion time
    | EstimatesExhausted      // a fixed estimator called once too often
    | WorkLeft                // the simulator's final `assert not remaining`
    | OutOfFuel               // the model's bound on the number of events

  datatype Result<+T> = Ok(value: T) | Err(error: Error)

  /** `intceil`: the least integer not below `x`. */
  function Ceil(x: real): (r: int)
    ensures r as real - 1.0 < x <= r as real
  {
    -((-x).Floor)
  }

  lemma CeilOfInt(n: int)
    ensures Ceil(n as real) == n
  {
  }

  /** Index of the first occurrence of `x` in `s`. */
  function FirstIndex<T(==)>(s: seq<T>, x: T): (r: Option<nat>)
    ensures r.None? <==> x !in s
    ensures r.Some? ==> r.value < |s| && s[r.value] == x && x !in s[..r.value]
  {
    if s == [] then None
    else if s[0] == x then Some(0)
    else match FirstIndex(s[1..], x)
      case None => None
      case Some(i) => assert s[1..][..i] == s[1..i + 1]; Some(i + 1)
  }

  /** `s` with the element at index `i` taken out. */
  function RemoveAt<T>(s: seq<T>, i: nat): (r: seq<T>)
    requires i < |s|
    ensures |r| == |s| - 1
    ensures multiset(r) == multiset(s) - multiset{s[i]}
    ensures forall k :: 0 <= k < i ==> r[k] == s[k]
    ensures forall k :: i <= k < |r| ==> r[k] == s[k + 1]
  {
    assert s == s[..i] + [s[i]] + s[i + 1..];
    s[..i] + s[i + 1..]
  }

  /** Taking one element out of a sequence without repeats takes that value
      out altogether and keeps the rest without repeats. */
  lemma RemoveAtDistinct<T>(s: seq<T>, i: nat)
    requires NoDuplicates(s) && i < |s|
    ensures NoDuplicates(RemoveAt(s, i))
    ensures forall x :: x in RemoveAt(s, i) <==> x in s && x != s[i]
  {
    var r := RemoveAt(s, i);
    forall a, b | 0 <= a < b < |r| ensures r[a] != r[b] {
      var a' := if a < i then a else a + 1;
      var b' := if b < i then b else b + 1;
      assert r[a] == s[a'] && r[b] == s[b'];
    }
    forall x | x in s && x != s[i] ensures x in r {
      var k :| 0 <= k < |s| && s[k] == x;
      if k < i { assert r[k] == x; } else { assert r[k - 1] == x; }
    }
    forall x | x in r ensures x in s && x != s[i] {
      var k :| 0 <= k < |r| && r[k] == x;
      if k < i { assert s[k] == x; } else { assert s[k + 1] == x; }
    }
  }

  /** `s` with every occurrence of `x` taken out, the rest in order: an
      absent `x` leaves `s` as it is, and from a sequence without repeats
      exactly the one position holding `x` is cut out. */
  function Without(s: seq<JobId>, x: JobId): (r: seq<JobId>)
    ensures x !in r
    ensures forall y :: y in r <==> y in s && y != x
    ensures |r| <= |s|
    ensures x !in s ==> r == s
    ensures NoDuplicates(s) && x in s ==>
      exists i :: 0 <= i < |s| && s[i] == x && r == s[..i] + s[i + 1..]
  {
    if s == [] then []
    else
      var w := Without(s[1..], x);
      TailNoDuplicates(s);
      if s[0] == x then
        assert s[..0] + s[0 + 1..] == s[1..];
        w
      else
        KeptHeadCut(s, x, w);
        [s[0]] + w
  }

  /** When the head of `s` is kept, a cut of `x` from the tail, with the head
      put back, is a cut of `x` from the whole. */
  lemma KeptHeadCut(s: seq<JobId>, x: JobId, w: seq<JobId>)
    requires s != [] && s[0] != x
    requires NoDuplicates(s[1..]) && x in s[1..] ==>
      exists i :: 0 <= i < |s[1..]| && s[1..][i] == x && w == s[1..][..i] + s[1..][i + 1..]
    ensures NoDuplicates(s) && x in s ==>
      exists i :: 0 <= i < |s| && s[i] == x && [s[0]] + w == s[..i] + s[i + 1..]
  {
    if NoDuplicates(s) && x in s {
      TailNoDuplicates(s);
      assert x in s[1..];
      var i :| 0 <= i < |s[1..]| && s[1..][i] == x && w == s[1..][..i] + s[1..][i + 1..];
      ConsCut(s, i, w);
    }
  }

  /** The tail of a sequence without repeats has none, nor its head. */
  lemma TailNoDuplicates<T>(s: seq<T>)
    requires s != []
    ensures NoDuplicates(s) ==> NoDuplicates(s[1..]) && s[0] !in s[1..]
  {
  }

  /** Cutting position `i` out of the tail, then putting the head back, cuts
      position `i + 1` out of the whole. */
  lemma ConsCut(s: seq<JobId>, i: nat, w: seq<JobId>)
    requires i + 1 < |s| && w == s[1..][..i] + s[1..][i + 1..]
    ensures s[i + 1] == s[1..][i] && [s[0]] + w == s[..i + 1] + s[i + 2..]
  {
    assert s[..i + 1] == [s[0]] + s[1..][..i];
    assert s[i + 2..] == s[1..][i + 1..];
  }

  /** The elements of `s` in some fixed order: the iteration order of a
      Python set or of a dictionary built from one, which the model leaves
      open. */
  ghost function Enumerate(s: set<JobId>): (r: seq<JobId>)
    ensures forall j :: j in r <==> j in s
    decreases s
  {
    if s == {} then []
    else
      var j :| j in s;
      [j] + Enumerate(s - {j})
  }

  /** The enumeration lists every element once. */
  lemma {:induction false} EnumerateDistinct(s: set<JobId>)
    ensures NoDuplicates(Enumerate(s))
    decreases s
  {
    if s != {} {
      var r := Enumerate(s);
      var rest := Enumerate(s - {r[0]});
      assert r == [r[0]] + rest;
      EnumerateDistinct(s - {r[0]});
      forall i, k | 0 <= i < k < |r| ensures r[i] != r[k] {
        assert r[k] == rest[k - 1];
        if i > 0 { assert r[i] == rest[i - 1]; }
      }
    }
  }

  /** No element occurs twice. */
  predicate NoDuplicates<T(==)>(s: seq<T>) {
    forall i, j :: 0 <= i < j < |s| ==> s[i] != s[j]
  }
}

=== FILE: buckets.dfy ===
/** Attained-service buckets: the `sorteddict` `{attained: {jobid}}` of LAS
    and the late queues of SRPT+LAS and FSP+LAS. Keys count attained service
    in whole multiples of `eps`; keys one apart are treated as equal by the
    coalescing rule `Snap`, which is the single place where these policies
    absorb rounding. */
module Buckets {
  import opened Base

  type Buckets = map<int, set<JobId>>

  /** The number of `eps` steps elapsed since the last update, rounded up. */
  function StepsSince(lastT: real, t: real, eps: PosReal): (n: int)
    ensures lastT <= t ==> n >= 0
    ensures t == lastT ==> n == 0
  {
    Ceil((t - lastT) / eps)
  }

  /** The steps credited to a job served `service` for `delta` steps,
      rounded up. */
  function Work(service: real, delta: int): (w: int)
    ensures w as real - 1.0 < service * delta as real <= w as real
  {
    Ceil(service * delta as real)
  }

  /** A size counted in whole `eps` steps, rounded up. */
  function Units(size: real, eps: PosReal): (n: int)
    ensures (n as real - 1.0) * eps < size <= n as real * eps
  {
    var x := size / eps;
    var n := Ceil(x);
    assert x * eps == size;
    MulRight(n as real - 1.0, x, eps);
    MulRight(x, n as real, eps);
    assert (n as real - 1.0) * eps < x * eps <= n as real * eps;
    n
  }

  lemma MulRight(a: real, b: real, c: real)
    requires c > 0.0
    ensures a < b ==> a * c < b * c
    ensures a <= b ==> a * c <= b * c
  {
  }

  /** The key a job reaching attained service `a` is filed under: the first
      of `a`, `a - 1`, `a + 1` that is already a key, or `a` itself. */
  function Snap(q: Buckets, a: int): (r: int)
    ensures a in q ==> r == a
    ensures a !in q && a - 1 in q ==> r == a - 1
    ensures a !in q && a - 1 !in q && a + 1 in q ==> r == a + 1
    ensures a !in q && a - 1 !in q && a + 1 !in q ==> r == a
  {
    if a in q then a else if a - 1 in q then a - 1 else if a + 1 in q then a + 1 else a
  }

  /** Coalescing never opens a bucket next to an existing one: the chosen key
      is either an existing key or at distance two or more from every key. */
  lemma SnapNeverAdjacent(q: Buckets, a: int)
    ensures var r := Snap(q, a); r in q || (r - 1 !in q && r + 1 !in q)
    ensures -1 <= Snap(q, a) - a <= 1
  {
  }

  /** The jobs `js` join bucket `k`, which is created when missing. */
  function Join(q: Buckets, k: int, js: set<JobId>): (r: Buckets)
    ensures r.Keys == q.Keys + {k}
    ensures r[k] == (if k in q then q[k] else {}) + js
    ensures forall k' :: k' in q && k' != k ==> r[k'] == q[k']
  {
    q[k := (if k in q then q[k] else {}) + js]
  }

  /** `qinsert` of the LAS hybrids: job `j`, whose attained service has become
      `a`, joins the bucket chosen by `Snap`; the chosen key is returned. */
  function QInsert(q: Buckets, j: JobId, a: int): (r: (Buckets, int))
    ensures r.1 == Snap(q, a)
    ensures r.0 == Join(q, r.1, {j})
  {
    var k := Snap(q, a);
    (Join(q, k, {j}), k)
  }

  /** Takes the jobs `js` out of bucket `k` and deletes the bucket when
      nothing is left, as the LAS update does. A missing bucket is left
      alone. */
  function Strip(q: Buckets, k: int, js: set<JobId>): (r: Buckets)
    ensures k in r ==> k in q && r[k] == q[k] - js && r[k] != {}
    ensures k in q && q[k] - js != {} ==> k in r
    ensures forall k' :: k' != k ==> (k' in r <==> k' in q)
    ensures forall k' :: k' in r && k' != k ==> r[k'] == q[k']
  {
    if k in q then
      var rest := q[k] - js;
      if rest == {} then q - {k} else q[k := rest]
    else q
  }

  /** Removal as written in the dequeue methods: a bucket of size one is
      deleted without looking at its member; otherwise `j` is removed and a
      missing `j` is a KeyError. */
  function Evict(q: Buckets, k: int, j: JobId): (r: Result<Buckets>)
    ensures r.Ok? <==> k in q && (|q[k]| == 1 || j in q[k])
  {
    if k !in q then Err(BrokenIndex)
    else if |q[k]| == 1 then Ok(q - {k})
    else if j !in q[k] then Err(BrokenIndex)
    else Ok(q[k := q[k] - {j}])
  }

  /** Removal as written in the update methods: `j` must be present (else a
      KeyError); a bucket left empty is deleted. */
  function Discard(q: Buckets, k: int, j: JobId): (r: Result<Buckets>)
    ensures r.Ok? <==> k in q && j in q[k]
  {
    if k !in q || j !in q[k] then Err(BrokenIndex)
    else
      var rest := q[k] - {j};
      if rest == {} then Ok(q - {k}) else Ok(q[k := rest])
  }

  /** The two removal idioms agree whenever the job is where it should be. */
  lemma EvictIsDiscard(q: Buckets, k: int, j: JobId)
    requires k in q && j in q[k]
    ensures Evict(q, k, j) == Discard(q, k, j)
  {
    if |q[k]| == 1 {
      assert |q[k] - {j}| == 0;
      assert q[k] - {j} == {};
    } else {
      assert |q[k] - {j}| == |q[k]| - 1;
      assert q[k] - {j} != {};
    }
  }

  /** Least element of a non-empty set of integers. */
  ghost function LeastOf(s: set<int>): (m: int)
    requires s != {}
    ensures m in s
    ensures forall x :: x in s ==> m <= x
    decreases s
  {
    assert exists x :: x in s by {
      if forall x :: x !in s {
        assert false;
      }
    }
    var x :| x in s;
    if s == {x} then x
    else
      var m := LeastOf(s - {x});
      assert forall y :: y in s ==> y == x || y in s - {x};
      if x <= m then x else m
  }

  /** `items()[0]`: the least key. */
  ghost function LeastKey(q: Buckets): (k: int)
    requires q != map[]
    ensures k in q
    ensures forall k' :: k' in q ==> k <= k'
  {
    LeastOf(q.Keys)
  }

  /** `items()[1]`: the second least key. */
  ghost function SecondKey(q: Buckets): (k: int)
    requires |q| >= 2
    ensures k in q && k != LeastKey(q)
    ensures forall k' :: k' in q && k' != LeastKey(q) ==> k <= k'
  {
    var k0 := LeastKey(q);
    assert (q - {k0}).Keys == q.Keys - {k0};
    assert |(q - {k0}).Keys| >= 1;
    var k := LeastKey(q - {k0});
    assert k in (q - {k0}).Keys;
    assert forall k' :: k' in q && k' != k0 ==> k' in (q - {k0});
    k
  }

  /** Time until the least bucket, served alone and shared equally, reaches
      the second least key: `(k1 - k0) * len(bucket) * eps`. */
  ghost function CatchUp(q: Buckets, eps: PosReal): (d: real)
    requires |q| >= 2
    ensures q[LeastKey(q)] != {} ==> d > 0.0
  {
    var k0 := LeastKey(q);
    var gap := (SecondKey(q) - k0) as real;
    var n := |q[k0]| as real;
    assert q[k0] != {} ==> gap * n * eps > 0.0 by {
      if q[k0] != {} {
        var x :| x in q[k0];
        MulRight(1.0, n, gap);
        MulRight(0.0, gap * n, eps);
      }
    }
    gap * n * eps
  }

  /** `CatchUp` spelled out for given least and second keys. */
  lemma CatchUpOf(q: Buckets, eps: PosReal, k0: int, k1: int)
    requires |q| >= 2 && k0 == LeastKey(q) && k1 == SecondKey(q)
    ensures CatchUp(q, eps) == (k1 - k0) as real * |q[k0]| as real * eps
  {
  }

  /** The buckets hold exactly the jobs `members`; each member is in the one
      bucket named by its attained service `att`; no bucket is empty. */
  ghost predicate Indexes(q: Buckets, att: map<JobId, int>, members: set<JobId>) {
    && (forall k :: k in q ==> q[k] != {})
    && (forall k, j :: k in q && j in q[k] ==> j in members && j in att && att[j] == k)
    && (forall j :: j in members ==> j in att && att[j] in q && j in q[att[j]])
  }

  /** Only the attained service of members matters to `Indexes`. */
  lemma IndexesFrame(q: Buckets, att: map<JobId, int>, att': map<JobId, int>, members: set<JobId>)
    requires Indexes(q, att, members)
    requires forall j :: j in members ==> j in att' && att'[j] == att[j]
    ensures Indexes(q, att', members)
  {
  }

  /** New jobs joining one bucket, with their attained service set to its key. */
  lemma JoinIndexes(q: Buckets, att: map<JobId, int>, members: set<JobId>,
                    k: int, js: set<JobId>, att': map<JobId, int>)
    requires Indexes(q, att, members)
    requires js != {} && js !! members
    requires forall j :: j in members ==> j in att' && att'[j] == att[j]
    requires forall j :: j in js ==> j in att' && att'[j] == k
    ensures Indexes(Join(q, k, js), att', members + js)
  {
  }

  /** `qinsert` keeps the index exact: the job is filed under the key it is
      recorded with. */
  lemma QInsertIndexes(q: Buckets, att: map<JobId, int>, members: set<JobId>, j: JobId, a: int)
    requires Indexes(q, att, members)
    requires j !in members
    ensures var (q', k) := QInsert(q, j, a);
      Indexes(q', att[j := k], members + {j})
  {
    var (q', k) := QInsert(q, j, a);
    JoinIndexes(q, att, members, k, {j}, att[j := k]);
  }

  /** Taking a set of jobs out of their common bucket. */
  lemma StripIndexes(q: Buckets, att: map<JobId, int>, members: set<JobId>, k: int, js: set<JobId>)
    requires Indexes(q, att, members)
    requires forall j :: j in js && j in members ==> att[j] == k
    ensures Indexes(Strip(q, k, js), att, members - js)
  {
    var r := Strip(q, k, js);
    forall j | j in members - js
      ensures att[j] in r && j in r[att[j]]
    {
      if att[j] == k {
        assert j in q[k] - js;
      }
    }
  }

  /** The update-time removal of a member succeeds and keeps the index exact. */
  lemma DiscardIndexes(q: Buckets, att: map<JobId, int>, members: set<JobId>, j: JobId)
    requires Indexes(q, att, members)
    requires j in members
    ensures Discard(q, att[j], j).Ok?
    ensures Indexes(Discard(q, att[j], j).value, att, members - {j})
  {
    assert Discard(q, att[j], j).value == Strip(q, att[j], {j});
    StripIndexes(q, att, members, att[j], {j});
  }

  /** The dequeue-time removal of a member succeeds and keeps the index exact. */
  lemma EvictIndexes(q: Buckets, att: map<JobId, int>, members: set<JobId>, j: JobId)
    requires Indexes(q, att, members)
    requires j in members
    ensures Evict(q, att[j], j).Ok?
    ensures Indexes(Evict(q, att[j], j).value, att, members - {j})
  {
    EvictIsDiscard(q, att[j], j);
    DiscardIndexes(q, att, members, j);
  }

  /** Every job of the least bucket has the least attained service. */
  lemma LeastBucketIsLeastAttained(q: Buckets, att: map<JobId, int>, members: set<JobId>)
    requires Indexes(q, att, members) && q != map[]
    ensures forall j, j' :: j in q[LeastKey(q)] && j' in members ==> att[j] <= att[j']
  {
  }
}

=== FILE: entry_queue.dfy ===
/** Queues of `[remaining, jobid]` pairs kept in ascending order: the heaps of
    SRPT and SRPT+PS, the `sortedlist` of SRPT+LAS and the virtual `blist`
    queues of FSP and FSP+LAS. A heap is only ever observed through its
    minimum, and a pair determines its job, so a sorted sequence pops the
    same pairs in the same order as the heap does. */
module EntryQueue {
  import opened Base

  /** One `[remaining, jobid]` pair. In SRPT+LAS and FSP+LAS the remaining
      work is counted in whole multiples of `eps`. */
  datatype Entry = Entry(rem: real, id: JobId)

  /** Python's comparison of two-element lists: by remaining, then by id. */
  predicate NotAfter(a: Entry, b: Entry) {
    a.rem < b.rem || (a.rem == b.rem && a.id <= b.id)
  }

  predicate Sorted(q: seq<Entry>) {
    forall i, j :: 0 <= i < j < |q| ==> NotAfter(q[i], q[j])
  }

  /** No job appears in two entries. */
  predicate DistinctIds(q: seq<Entry>) {
    forall i, j :: 0 <= i < j < |q| ==> q[i].id != q[j].id
  }

  function Ids(q: seq<Entry>): set<JobId> {
    set e | e in q :: e.id
  }

  lemma IdsOfConcat(a: seq<Entry>, b: seq<Entry>)
    ensures Ids(a + b) == Ids(a) + Ids(b)
  {
    assert forall e :: e in a + b <==> e in a || e in b;
  }

  lemma IdsOfSplit(q: seq<Entry>, k: nat)
    requires k <= |q|
    ensures Ids(q) == Ids(q[..k]) + Ids(q[k..])
  {
    assert q == q[..k] + q[k..];
    IdsOfConcat(q[..k], q[k..]);
  }

  lemma SortedSuffix(q: seq<Entry>, k: nat)
    requires Sorted(q) && k <= |q|
    ensures Sorted(q[k..])
  {
  }

  /** The head of a sorted queue has the least remaining work. */
  lemma HeadIsLeast(q: seq<Entry>)
    requires Sorted(q) && q != []
    ensures forall e :: e in q ==> q[0].rem <= e.rem
  {
    forall e | e in q ensures q[0].rem <= e.rem {
      var i :| 0 <= i < |q| && q[i] == e;
      if i > 0 { assert NotAfter(q[0], q[i]); }
    }
  }

  /** `heappush`, `insort` and `sortedlist.add`: the pair goes after every
      pair that is not greater than it. */
  function Insert(q: seq<Entry>, e: Entry): (r: seq<Entry>)
    ensures multiset(r) == multiset(q) + multiset{e}
    ensures |r| == |q| + 1
  {
    if q == [] || !NotAfter(q[0], e) then [e] + q
    else
      assert q == [q[0]] + q[1..];
      [q[0]] + Insert(q[1..], e)
  }

  /** Inserting keeps a queue sorted. */
  lemma {:induction false} InsertSorted(q: seq<Entry>, e: Entry)
    requires Sorted(q)
    ensures Sorted(Insert(q, e))
  {
    if q != [] && NotAfter(q[0], e) {
      InsertSorted(q[1..], e);
      var tail := Insert(q[1..], e);
      assert Insert(q, e) == [q[0]] + tail;
      forall k | 0 <= k < |tail| ensures NotAfter(q[0], tail[k]) {
        assert tail[k] in multiset(tail);
        assert tail[k] == e || tail[k] in multiset(q[1..]);
        if tail[k] != e {
          var m :| 0 <= m < |q[1..]| && q[1..][m] == tail[k];
          assert q[1..][m] == q[m + 1];
        }
      }
    } else if q != [] {
      forall k | 0 <= k < |q| ensures NotAfter(e, q[k]) {
        if k > 0 { assert NotAfter(q[0], q[k]); }
      }
    }
  }

  lemma InsertIds(q: seq<Entry>, e: Entry)
    ensures Ids(Insert(q, e)) == Ids(q) + {e.id}
  {
    var r := Insert(q, e);
    forall x | x in r ensures x == e || x in q {
      assert x in multiset(r);
    }
    assert e in multiset(r);
    forall x | x in q ensures x in r {
      assert x in multiset(q);
      assert x in multiset(r);
    }
  }

  /** Position of the first pair of job `j`. */
  function IndexOfId(q: seq<Entry>, j: JobId): (r: Option<nat>)
    ensures r.None? <==> j !in Ids(q)
    ensures r.Some? ==> r.value < |q| && q[r.value].id == j
    ensures r.Some? ==> forall k :: 0 <= k < r.value ==> q[k].id != j
  {
    if q == [] then None
    else if q[0].id == j then Some(0)
    else
      assert Ids(q) == {q[0].id} + Ids(q[1..]) by {
        assert q == [q[0]] + q[1..];
        IdsOfConcat([q[0]], q[1..]);
      }
      match IndexOfId(q[1..], j)
      case None => None
      case Some(i) => Some(i + 1)
  }

  lemma RemovePreservesSorted(q: seq<Entry>, i: nat)
    requires Sorted(q) && i < |q|
    ensures Sorted(RemoveAt(q, i))
  {
    var r := RemoveAt(q, i);
    forall a, b | 0 <= a < b < |r| ensures NotAfter(r[a], r[b]) {
      var a' := if a < i then a else a + 1;
      var b' := if b < i then b else b + 1;
      assert r[a] == q[a'] && r[b] == q[b'];
    }
  }

  /** Removing the pair at `i` of a queue without repeated jobs takes out
      exactly that pair's job. */
  lemma IdsAfterRemove(q: seq<Entry>, i: nat)
    requires DistinctIds(q) && i < |q|
    ensures Ids(RemoveAt(q, i)) == Ids(q) - {q[i].id}
    ensures DistinctIds(RemoveAt(q, i))
  {
    var r := RemoveAt(q, i);
    forall x | x in Ids(q) - {q[i].id} ensures x in Ids(r) {
      var k :| 0 <= k < |q| && q[k].id == x;
      if k < i { assert r[k] == q[k]; } else { assert r[k - 1] == q[k]; }
    }
    forall x | x in Ids(r) ensures x in Ids(q) - {q[i].id} {
      var k :| 0 <= k < |r| && r[k].id == x;
      if k < i { assert r[k] == q[k]; } else { assert r[k] == q[k + 1]; }
    }
  }

  lemma DistinctAfterInsert(q: seq<Entry>, e: Entry)
    requires DistinctIds(q) && e.id !in Ids(q)
    ensures DistinctIds(Insert(q, e))
  {
    if q != [] && NotAfter(q[0], e) {
      assert Ids(q) == {q[0].id} + Ids(q[1..]) by {
        assert q == [q[0]] + q[1..];
        IdsOfConcat([q[0]], q[1..]);
      }
      DistinctAfterInsert(q[1..], e);
      var tail := Insert(q[1..], e);
      InsertIds(q[1..], e);
      forall k | 0 <= k < |tail| ensures tail[k].id != q[0].id {
        assert tail[k].id in Ids(tail);
      }
    } else {
      forall k | 0 <= k < |q| ensures q[k].id != e.id {
        assert q[k] in q;
      }
    }
  }

  /** Number of leading pairs whose remaining is at most `bound`: the FSP
      update loop stops at the first pair above it. */
  function CountAtMost(q: seq<Entry>, bound: real): (k: nat)
    ensures k <= |q|
    ensures forall i :: 0 <= i < k ==> q[i].rem <= bound
    ensures k < |q| ==> q[k].rem > bound
  {
    if q == [] || q[0].rem > bound then 0 else 1 + CountAtMost(q[1..], bound)
  }

  /** Number of leading pairs whose remaining is strictly below `bound`:
      the SRPT+PS loop pops heads while this holds. */
  function CountBelow(q: seq<Entry>, bound: real): (k: nat)
    ensures k <= |q|
    ensures forall i :: 0 <= i < k ==> q[i].rem < bound
    ensures k < |q| ==> q[k].rem >= bound
  {
    if q == [] || q[0].rem >= bound then 0 else 1 + CountBelow(q[1..], bound)
  }

  /** In a sorted queue the counted prefix is exactly the set of pairs at or
      below the bound: nothing further on qualifies. */
  lemma CountAtMostIsExact(q: seq<Entry>, bound: real)
    requires Sorted(q)
    ensures forall i :: 0 <= i < |q| ==> (q[i].rem <= bound <==> i < CountAtMost(q, bound))
  {
    var k := CountAtMost(q, bound);
    forall i | k <= i < |q| ensures q[i].rem > bound {
      if i > k { assert NotAfter(q[k], q[i]); }
    }
  }

  /** In a sorted queue the pairs below the bound are exactly the counted
      prefix. */
  lemma CountBelowIsExact(q: seq<Entry>, bound: real)
    requires Sorted(q)
    ensures forall i :: 0 <= i < |q| ==> (q[i].rem < bound <==> i < CountBelow(q, bound))
  {
    var k := CountBelow(q, bound);
    forall i | k <= i < |q| ensures q[i].rem >= bound {
      if i > k { assert NotAfter(q[k], q[i]); }
    }
  }

  /** In a sorted queue, cutting at `CountBelow` leaves every pair below the
      bound in the prefix and none in the rest. */
  lemma SplitBelow(q: seq<Entry>, bound: real)
    requires Sorted(q)
    ensures var k := CountBelow(q, bound);
      && (forall e :: e in q[k..] ==> e.rem >= bound)
      && (forall e :: e in q && e.rem < bound ==> e in q[..k])
  {
    var k := CountBelow(q, bound);
    CountBelowIsExact(q, bound);
    forall e | e in q[k..] ensures e.rem >= bound {
      var i :| 0 <= i < |q[k..]| && q[k..][i] == e;
      assert q[k + i] == e;
    }
    forall e | e in q && e.rem < bound ensures e in q[..k] {
      var i :| 0 <= i < |q| && q[i] == e;
      assert q[..k][i] == e;
    }
  }

  /** Splitting a queue keeps both parts ordered and without repeated jobs,
      and no job is in both parts. */
  lemma SplitPreserves(q: seq<Entry>, k: nat)
    requires Sorted(q) && DistinctIds(q) && k <= |q|
    ensures Sorted(q[k..]) && DistinctIds(q[k..])
    ensures Ids(q[..k]) !! Ids(q[k..])
    ensures Ids(q) == Ids(q[..k]) + Ids(q[k..])
  {
    IdsOfSplit(q, k);
    forall x | x in Ids(q[..k]) ensures x !in Ids(q[k..]) {
      var i :| 0 <= i < k && q[i].id == x;
      forall m | k <= m < |q| ensures q[m].id != x {
        assert q[i].id != q[m].id;
      }
    }
    forall i, j | 0 <= i < j < |q| - k
      ensures NotAfter(q[k..][i], q[k..][j]) && q[k..][i].id != q[k..][j].id
    {
      assert q[k..][i] == q[k + i] && q[k..][j] == q[k + j];
    }
  }

  /** Every pair loses `amount` of its remaining work; order and jobs are kept. */
  function Age(q: seq<Entry>, amount: real): (r: seq<Entry>)
    ensures |r| == |q|
    ensures forall i :: 0 <= i < |q| ==> r[i] == Entry(q[i].rem - amount, q[i].id)
  {
    if q == [] then [] else [Entry(q[0].rem - amount, q[0].id)] + Age(q[1..], amount)
  }

  lemma AgePreserves(q: seq<Entry>, amount: real)
    ensures Sorted(q) ==> Sorted(Age(q, amount))
    ensures Ids(Age(q, amount)) == Ids(q)
    ensures DistinctIds(q) ==> DistinctIds(Age(q, amount))
  {
    var r := Age(q, amount);
    forall x | x in Ids(q) ensures x in Ids(r) {
      var k :| 0 <= k < |q| && q[k].id == x;
      assert r[k].id == x;
    }
    forall x | x in Ids(r) ensures x in Ids(q) {
      var k :| 0 <= k < |r| && r[k].id == x;
      assert q[k].id == x;
    }
  }
}

=== FILE: estimators.dfy ===
/** The deterministic size estimators of simulator.py: `identity`, which
    reports every size exactly, and `fixed_estimations(estimations)`, which
    reports the given estimates one per call, in order, whatever the size.
    The random error models are not part of this model. */
module Estimators {
  import opened Base

  /** An estimator together with what it still has to say: `Fixed` holds the
      estimates its iterator has not yet produced. */
  datatype Estimator = Identity | Fixed(pending: seq<real>)

  /** One call `size_estimation(size)`: the estimate and the estimator as it
      is afterwards. A fixed estimator with nothing left raises
      StopIteration. */
  function Estimate(e: Estimator, size: real): (r: Result<(real, Estimator)>)
    ensures e.Identity? ==> r == Ok((size, Identity))
    ensures e.Fixed? ==> (r.Ok? <==> e.pending != [])
    ensures r.Ok? && e.Fixed? ==> r.value.1.Fixed? && [r.value.0] + r.value.1.pending == e.pending
  {
    match e
    case Identity => Ok((size, Identity))
    case Fixed(pending) =>
      if pending == [] then Err(EstimatesExhausted)
      else Ok((pending[0], Fixed(pending[1..])))
  }

  /** Successive calls on `sizes`, in order; the first failure ends them. */
  function EstimateAll(e: Estimator, sizes: seq<real>): (r: Result<(seq<real>, Estimator)>)
    ensures r.Ok? ==> |r.value.0| == |sizes|
    decreases |sizes|
  {
    if sizes == [] then Ok(([], e))
    else
      match Estimate(e, sizes[0])
      case Err(err) => Err(err)
      case Ok((x, e')) =>
        match EstimateAll(e', sizes[1..])
        case Err(err) => Err(err)
        case Ok((xs, e'')) => Ok(([x] + xs, e''))
  }

  /** `identity` returns every size unchanged, for ever. */
  lemma {:induction false} IdentityReturnsSizes(sizes: seq<real>)
    ensures EstimateAll(Identity, sizes) == Ok((sizes, Identity))
    decreases |sizes|
  {
    if sizes != [] {
      IdentityReturnsSizes(sizes[1..]);
      assert [sizes[0]] + sizes[1..] == sizes;
    }
  }

  /** `fixed_estimations` hands out its estimates in call order, ignoring the
      sizes it is called with, and fails once they are exhausted. */
  lemma {:induction false} FixedReturnsEstimates(pending: seq<real>, sizes: seq<real>)
    ensures |sizes| <= |pending| ==>
      EstimateAll(Fixed(pending), sizes) == Ok((pending[..|sizes|], Fixed(pending[|sizes|..])))
    ensures |sizes| > |pending| ==> EstimateAll(Fixed(pending), sizes) == Err(EstimatesExhausted)
    decreases |sizes|
  {
    if sizes != [] && pending != [] {
      FixedReturnsEstimates(pending[1..], sizes[1..]);
      if |sizes| <= |pending| {
        assert [pending[0]] + pending[1..][..|sizes| - 1] == pending[..|sizes|];
        assert pending[1..][|sizes| - 1..] == pending[|sizes|..];
      }
    }
  }

  /** How many more calls succeed: `None` for ever. */
  function Supply(e: Estimator): (n: Option<nat>)
    ensures e.Identity? <==> n.None?
  {
    match e
    case Identity => None
    case Fixed(pending) => Some(|pending|)
  }

  /** A call succeeds exactly while the supply lasts, and uses up one. */
  lemma EstimateUsesSupply(e: Estimator, size: real)
    ensures Estimate(e, size).Ok? <==> Supply(e) != Some(0)
    ensures Estimate(e, size).Ok? && e.Fixed? ==> Supply(Estimate(e, size).value.1) == Some(Supply(e).value - 1)
  {
  }
}

=== FILE: events.dfy ===
/** The simulator's event heap (simulator.py): `(time, kind, data)` tuples
    with the kinds ARRIVAL, COMPLETE and INTERNAL ranked 0, 1 and 2. The heap
    is a sequence kept in heap order; it is only ever observed through its
    least element, so popping the head pops what `heappop` pops. */
module Events {
  import opened Base

  /** One input job `(jobid, arrival time, size)`. */
  datatype Job = Job(id: JobId, arrival: real, size: real)

  /** An ARRIVAL carries `(jobid, size)`, a COMPLETE the job id, an INTERNAL
      nothing. */
  datatype Event =
    | Arrival(time: real, id: JobId, size: real)
    | Complete(time: real, id: JobId)
    | Internal(time: real)

  /** `ARRIVAL, COMPLETE, INTERNAL = 0, 1, 2`. */
  function Rank(e: Event): (k: nat)
    ensures k <= 2
    ensures e.Arrival? <==> k == 0
    ensures e.Internal? <==> k == 2
  {
    match e
    case Arrival(_, _, _) => 0
    case Complete(_, _) => 1
    case Internal(_) => 2
  }

  /** Tuple comparison of two events: time, then kind, then the data — the
      `(jobid, size)` pairs of two arrivals, the ids of two completions. */
  predicate Precedes(a: Event, b: Event) {
    || a.time < b.time
    || (a.time == b.time && Rank(a) < Rank(b))
    || (a.time == b.time && a.Arrival? && b.Arrival?
        && (a.id < b.id || (a.id == b.id && a.size <= b.size)))
    || (a.time == b.time && a.Complete? && b.Complete? && a.id <= b.id)
    || (a.time == b.time && a.Internal? && b.Internal?)
  }

  predicate HeapOrder(q: seq<Event>) {
    forall i, j :: 0 <= i < j < |q| ==> Precedes(q[i], q[j])
  }

  /** Events in heap order are in time order. */
  lemma HeapOrderIsTimeOrder(q: seq<Event>)
    requires HeapOrder(q)
    ensures forall i, j :: 0 <= i <= j < |q| ==> q[i].time <= q[j].time
  {
    forall i, j | 0 <= i < j < |q| ensures q[i].time <= q[j].time {
      assert Precedes(q[i], q[j]);
    }
  }

  /** Insertion of one event after every event that precedes it. */
  function Insert(q: seq<Event>, e: Event): (r: seq<Event>)
    ensures multiset(r) == multiset(q) + multiset{e}
  {
    if q == [] || !Precedes(q[0], e) then [e] + q
    else
      assert q == [q[0]] + q[1..];
      [q[0]] + Insert(q[1..], e)
  }

  /** Precedence is total, so an event that does not precede another comes
      after it. */
  lemma PrecedesTotal(a: Event, b: Event)
    ensures Precedes(a, b) || Precedes(b, a)
  {
  }

  /** Precedence is transitive. */
  lemma PrecedesTransitive(a: Event, b: Event, c: Event)
    requires Precedes(a, b) && Precedes(b, c)
    ensures Precedes(a, c)
  {
  }

  lemma {:induction false} InsertKeepsOrder(q: seq<Event>, e: Event)
    requires HeapOrder(q)
    ensures HeapOrder(Insert(q, e))
    decreases |q|
  {
    if q != [] && Precedes(q[0], e) {
      InsertKeepsOrder(q[1..], e);
      HeadPrecedesInsert(q, e);
      ConsKeepsOrder(q[0], Insert(q[1..], e));
      assert Insert(q, e) == [q[0]] + Insert(q[1..], e);
    } else if q != [] {
      PrecedesTotal(q[0], e);
      forall k | 0 <= k < |q| ensures Precedes(e, q[k]) {
        if k > 0 { PrecedesTransitive(e, q[0], q[k]); }
      }
      ConsKeepsOrder(e, q);
    }
  }

  /** The head of an ordered queue precedes every event of the insertion
      into its tail of an event it precedes. */
  lemma HeadPrecedesInsert(q: seq<Event>, e: Event)
    requires HeapOrder(q) && q != [] && Precedes(q[0], e)
    ensures forall k :: 0 <= k < |Insert(q[1..], e)| ==> Precedes(q[0], Insert(q[1..], e)[k])
  {
    var tail := Insert(q[1..], e);
    forall k | 0 <= k < |tail| ensures Precedes(q[0], tail[k]) {
      assert tail[k] in multiset(tail);
      if tail[k] != e {
        assert tail[k] in multiset(q[1..]);
        var m :| 0 <= m < |q[1..]| && q[1..][m] == tail[k];
        assert q[1..][m] == q[m + 1];
      }
    }
  }

  /** An event that precedes every event of an ordered queue can go in
      front of it. */
  lemma ConsKeepsOrder(h: Event, q: seq<Event>)
    requires HeapOrder(q) && forall k :: 0 <= k < |q| ==> Precedes(h, q[k])
    ensures HeapOrder([h] + q)
  {
    var r := [h] + q;
    forall i, j | 0 <= i < j < |r| ensures Precedes(r[i], r[j]) {
      if i > 0 { assert r[i] == q[i - 1] && r[j] == q[j - 1]; }
    }
  }

  /** The initial event list: one ARRIVAL per job, in the jobs' order, at
      the job's arrival time and carrying its id and size. */
  function ArrivalsOf(jobs: seq<Job>): (r: seq<Event>)
    ensures |r| == |jobs|
    ensures forall i :: 0 <= i < |jobs| ==> r[i] == Arrival(jobs[i].arrival, jobs[i].id, jobs[i].size)
  {
    seq(|jobs|, i requires 0 <= i < |jobs| => Arrival(jobs[i].arrival, jobs[i].id, jobs[i].size))
  }

  /** `heapify`: the same events, in heap order. */
  function Heapify(q: seq<Event>): (r: seq<Event>)
    ensures multiset(r) == multiset(q)
    decreases |q|
  {
    if q == [] then []
    else
      assert q == [q[0]] + q[1..];
      Insert(Heapify(q[1..]), q[0])
  }

  lemma {:induction false} HeapifyOrders(q: seq<Event>)
    ensures HeapOrder(Heapify(q))
    decreases |q|
  {
    if q != [] {
      HeapifyOrders(q[1..]);
      InsertKeepsOrder(Heapify(q[1..]), q[0]);
    }
  }

  /** The speculative `heappush` of the main loop: the event goes in only
      when the heap is empty or it comes strictly before the head, and then
      it is the new head. */
  function PushIfEarlier(q: seq<Event>, e: Event): (r: seq<Event>)
    ensures q == [] || e.time < q[0].time ==> r == [e] + q
    ensures !(q == [] || e.time < q[0].time) ==> r == q
  {
    if q == [] || e.time < q[0].time then [e] + q else q
  }

  /** A speculative push keeps heap order. */
  lemma PushKeepsOrder(q: seq<Event>, e: Event)
    requires HeapOrder(q)
    ensures HeapOrder(PushIfEarlier(q, e))
  {
    if q != [] && e.time < q[0].time {
      HeapOrderIsTimeOrder(q);
    }
  }
}

=== FILE: fifo.dfy ===
/** First-in first-out (schedulers.py, class `FIFO`): the job enqueued
    earliest among those still present gets the whole resource. */
module Fifo {
  import opened Base
  import opened Allocation

  /** The `deque` of job ids, in enqueue order. */
  datatype State = State(jobs: seq<JobId>)

  function Init(): State {
    State([])
  }

  /** `enqueue`: append at the back. */
  function Enqueue(s: State, j: JobId): (r: State)
    ensures r.jobs == s.jobs + [j]
  {
    State(s.jobs + [j])
  }

  /** `dequeue`: `deque.remove` takes out the first occurrence of the job and
      keeps the others in their order; a missing job is an error. */
  function Dequeue(s: State, j: JobId): (r: Result<State>)
    ensures r.Ok? <==> j in s.jobs
    ensures r.Err? ==> r.error == MissingJob(j)
    ensures r.Ok? ==> exists i :: 0 <= i < |s.jobs| && s.jobs[i] == j && j !in s.jobs[..i]
                                && r.value.jobs == RemoveAt(s.jobs, i)
  {
    match FirstIndex(s.jobs, j)
    case None => Err(MissingJob(j))
    case Some(i) => Ok(State(RemoveAt(s.jobs, i)))
  }

  /** `schedule`: share 1 to the head of the queue, `{}` when it is empty. */
  function Schedule(s: State): (a: Alloc)
    ensures s.jobs == [] ==> a == map[]
    ensures s.jobs != [] ==> a == map[s.jobs[0] := 1.0]
  {
    if s.jobs == [] then map[] else map[s.jobs[0] := 1.0]
  }

  /** The jobs waiting, as a set. */
  function Waiting(s: State): set<JobId> {
    set j | j in s.jobs
  }

  /** A new job joins the waiting jobs once. */
  lemma EnqueueAddsJob(s: State, j: JobId)
    requires NoDuplicates(s.jobs) && j !in s.jobs
    ensures NoDuplicates(Enqueue(s, j).jobs)
    ensures Waiting(Enqueue(s, j)) == Waiting(s) + {j}
  {
  }

  /** With no job twice in the queue, `remove` takes the job out altogether. */
  lemma DequeueRemovesJob(s: State, j: JobId)
    requires NoDuplicates(s.jobs)
    ensures Dequeue(s, j).Ok? ==> NoDuplicates(Dequeue(s, j).value.jobs)
    ensures Dequeue(s, j).Ok? ==> Waiting(Dequeue(s, j).value) == Waiting(s) - {j}
  {
    if j in s.jobs {
      RemoveAtDistinct(s.jobs, FirstIndex(s.jobs, j).value);
    }
  }

  /** An arrival never preempts: the served job stays the served job. */
  lemma ArrivalDoesNotPreempt(s: State, j: JobId)
    requires s.jobs != []
    ensures Schedule(Enqueue(s, j)) == Schedule(s)
  {
  }

  /** Removing any job other than the served one keeps serving it; removing
      the served job passes the resource to the next in line. */
  lemma DequeueKeepsOrder(s: State, j: JobId)
    requires NoDuplicates(s.jobs) && j in s.jobs
    ensures s.jobs[0] != j ==> Schedule(Dequeue(s, j).value) == Schedule(s)
    ensures s.jobs[0] == j ==> Dequeue(s, j).value.jobs == s.jobs[1..]
  {
    var i :| 0 <= i < |s.jobs| && s.jobs[i] == j && j !in s.jobs[..i]
              && Dequeue(s, j).value.jobs == RemoveAt(s.jobs, i);
    if s.jobs[0] != j {
      assert i > 0;
      assert Dequeue(s, j).value.jobs[0] == s.jobs[0];
    } else {
      assert i == 0;
    }
  }

  /** The queue lists jobs in enqueue order: enqueuing `js` one after the
      other appends them in that order, so the served head is always the
      earliest-enqueued job still present. */
  lemma {:induction false} EnqueueAllKeepsOrder(s: State, js: seq<JobId>)
    ensures EnqueueAll(s, js).jobs == s.jobs + js
    decreases |js|
  {
    if js != [] {
      EnqueueAllKeepsOrder(Enqueue(s, js[0]), js[1..]);
      assert s.jobs + [js[0]] + js[1..] == s.jobs + js;
    }
  }

  /** Successive enqueues of the jobs `js`. */
  function EnqueueAll(s: State, js: seq<JobId>): State
    decreases |js|
  {
    if js == [] then s else EnqueueAll(Enqueue(s, js[0]), js[1..])
  }
}

=== FILE: fsp.dfy ===
/** Fair sojourn protocol (schedulers.py, classes `FSP` and `FSP_plus_PS`).
    A virtual processor-sharing schedule runs on the size estimates; the real
    resource goes to the job that finishes first in that virtual schedule. A
    job that finishes virtually but is still running in reality is "late":
    FSP serves the earliest-late job alone, FSP+PS shares among all late jobs.
    Dequeuing a job leaves its virtual counterpart in the virtual queue. */
module Fsp {
  import opened Base
  import opened Allocation
  import opened EntryQueue

  /** The virtual queue of `[remaining, jobid]` pairs, the late jobs in the
      order they became late, the jobs running in reality, the time of the
      last update and `eps`. */
  datatype State = State(queue: seq<Entry>, late: seq<JobId>, running: set<JobId>,
                         lastT: real, eps: PosReal)

  function Init(eps: PosReal): State {
    State([], [], {}, 0.0, eps)
  }

  /** The virtual queue is ordered and holds each job once; late jobs are
      distinct, running, and out of the virtual queue; every running job is
      either still virtual or late. */
  predicate Inv(s: State) {
    && Sorted(s.queue) && DistinctIds(s.queue)
    && NoDuplicates(s.late)
    && (forall j :: j in s.late ==> j in s.running && j !in Ids(s.queue))
    && (forall j :: j in s.running ==> j in Ids(s.queue) || j in s.late)
  }

  /** Marking a job late in an ordered dictionary: a new job goes last, a
      job already late keeps its place. */
  function MarkLate(late: seq<JobId>, j: JobId): (r: seq<JobId>)
    ensures j in late ==> r == late
    ensures j !in late ==> r == late + [j]
  {
    if j in late then late else late + [j]
  }

  /** The virtual completions of one update, in queue order: each one whose
      job is still running is marked late. Jobs already late keep their
      places in front. */
  function MarkAll(late: seq<JobId>, done: seq<Entry>, running: set<JobId>): (r: seq<JobId>)
    ensures forall x :: x in r <==> x in late || (x in running && x in Ids(done))
    ensures |late| <= |r| && r[..|late|] == late
    ensures NoDuplicates(late) ==> NoDuplicates(r)
    ensures MarkedInOrder(r, late, done, running)
    decreases |done|
  {
    if done == [] then late
    else
      assert Ids(done) == {done[0].id} + Ids(done[1..]) by {
        assert done == [done[0]] + done[1..];
        IdsOfConcat([done[0]], done[1..]);
      }
      var late' := if done[0].id in running then MarkLate(late, done[0].id) else late;
      assert late'[..|late|] == late;
      var rest := done[1..];
      var r := MarkAll(late', rest, running);
      MarkedInQueueOrder(late, late', done, rest, running, r);
      r
  }

  /** The ids `r` adds after `late`: each is new, running and the id of a
      pair of `done`, and they come in the order in which they first appear
      in `done`. */
  predicate MarkedInOrder(r: seq<JobId>, late: seq<JobId>, done: seq<Entry>, running: set<JobId>)
    requires |late| <= |r|
  {
    && (forall i :: |late| <= i < |r| ==> r[i] !in late && r[i] in running && r[i] in Ids(done))
    && (forall i, k :: |late| <= i < k < |r| ==>
          IndexOfId(done, r[i]).value < IndexOfId(done, r[k]).value)
  }

  /** One step of `MarkAll`: when `rest`, the tail of `done`, was marked in
      order after `late'`, which is `late` with the head of `done` marked
      when it runs, the whole of `done` was marked in order after `late`. */
  lemma MarkedInQueueOrder(late: seq<JobId>, late': seq<JobId>, done: seq<Entry>, rest: seq<Entry>,
                           running: set<JobId>, r: seq<JobId>)
    requires done != [] && rest == done[1..]
    requires late' == if done[0].id in running then MarkLate(late, done[0].id) else late
    requires |late'| <= |r| && r[..|late'|] == late'
    requires MarkedInOrder(r, late', rest, running)
    ensures |late| <= |r| && MarkedInOrder(r, late, done, running)
  {
    var d := done[0].id;
    assert Ids(done) == {d} + Ids(rest) by {
      assert done == [done[0]] + rest;
      IdsOfConcat([done[0]], rest);
    }
    forall i | |late'| <= i < |r|
      ensures r[i] != d && IndexOfId(done, r[i]).value == IndexOfId(rest, r[i]).value + 1
    {
      if d in running {
        assert d in late';
      }
    }
    forall i | |late| <= i < |r| ensures r[i] !in late && r[i] in running && r[i] in Ids(done) {
      if i < |late'| {
        assert r[i] == r[..|late'|][i] == late'[i] == d;
      }
    }
    forall i, k | |late| <= i < k < |r|
      ensures IndexOfId(done, r[i]).value < IndexOfId(done, r[k]).value
    {
      if i < |late'| {
        assert r[i] == r[..|late'|][i] == late'[i] == d;
      }
    }
  }

  /** The virtual share each queued job received since the last update. */
  function FairShare(s: State, t: real): (fs: real)
    requires s.queue != []
    ensures s.lastT <= t ==> fs >= 0.0
    ensures t == s.lastT ==> fs == 0.0
  {
    (t - s.lastT) / |s.queue| as real
  }

  /** The body of `update` once the fair share `fs` is known: the leading
      pairs with at most `fs + eps` left finish virtually (their running jobs
      become late), and when `fs` is positive the rest age by `fs`. */
  function Advance(s: State, fs: real, t: real): (r: State)
    ensures r.running == s.running && r.lastT == t && r.eps == s.eps
    ensures |s.late| <= |r.late| && r.late[..|s.late|] == s.late
  {
    var k := CountAtMost(s.queue, fs + s.eps);
    State(Survivors(s.queue, fs, s.eps), MarkAll(s.late, s.queue[..k], s.running),
          s.running, t, s.eps)
  }

  /** The virtual queue after an update: the pairs past the finished prefix,
      aged by `fs` when it is positive. On a sorted queue and a non-negative
      share, every pair with more than `fs + eps` left stays and loses `fs`,
      and every pair left has more than `eps` to go; on a sorted queue
      without repeated ids, the survivors stay sorted and distinct and their
      ids are exactly the ones not in the finished prefix. */
  function Survivors(q: seq<Entry>, fs: real, eps: real): (r: seq<Entry>)
    ensures |r| == |q| - CountAtMost(q, fs + eps)
    ensures Sorted(q) && fs >= 0.0 ==>
      forall e :: e in q && e.rem > fs + eps ==> Entry(e.rem - fs, e.id) in r
    ensures Sorted(q) && fs >= 0.0 ==> forall e :: e in r ==> e.rem > eps
    ensures Sorted(q) && DistinctIds(q) ==>
      && Sorted(r) && DistinctIds(r)
      && Ids(q) == Ids(q[..CountAtMost(q, fs + eps)]) + Ids(r)
      && Ids(q[..CountAtMost(q, fs + eps)]) !! Ids(r)
  {
    var k := CountAtMost(q, fs + eps);
    var r := if fs > 0.0 then Age(q[k..], fs) else q[k..];
    if Sorted(q) && fs >= 0.0 then
      SuffixAged(q, fs, eps, k, r);
      SuffixAboveEps(q, fs, eps, k, r);
      SuffixSplits(q, fs, k, r);
      r
    else
      SuffixSplits(q, fs, k, r);
      r
  }

  /** `update`: nothing but the clock moves while the virtual queue is empty. */
  function Update(s: State, t: real): (r: State)
    ensures s.queue == [] ==> r == s.(lastT := t)
    ensures s.queue != [] ==> r == Advance(s, FairShare(s, t), t)
  {
    if s.queue == [] then s.(lastT := t) else Advance(s, FairShare(s, t), t)
  }

  /** Advancing by a non-negative share keeps the state well formed. */
  lemma AdvancePreservesInv(s: State, fs: real, t: real)
    requires Inv(s) && fs >= 0.0
    ensures Inv(Advance(s, fs, t))
  {
  }

  /** The pairs past the prefix of the `k` that finish at `fs + eps`, aged
      by a non-negative `fs`, include every pair with more than `fs + eps`
      left, less `fs`. */
  lemma SuffixAged(q: seq<Entry>, fs: real, eps: real, k: nat, r: seq<Entry>)
    requires Sorted(q) && fs >= 0.0 && k == CountAtMost(q, fs + eps)
    requires r == if fs > 0.0 then Age(q[k..], fs) else q[k..]
    ensures forall e :: e in q && e.rem > fs + eps ==> Entry(e.rem - fs, e.id) in r
  {
    CountAtMostIsExact(q, fs + eps);
    var rest := q[k..];
    assert forall i :: 0 <= i < |rest| ==> r[i] == Entry(rest[i].rem - fs, rest[i].id);
    forall e | e in q && e.rem > fs + eps ensures Entry(e.rem - fs, e.id) in r {
      var i :| 0 <= i < |q| && q[i] == e;
      assert rest[i - k] == e;
      assert r[i - k] == Entry(e.rem - fs, e.id);
    }
  }

  /** Those aged pairs all have more than `eps` left. */
  lemma SuffixAboveEps(q: seq<Entry>, fs: real, eps: real, k: nat, r: seq<Entry>)
    requires Sorted(q) && fs >= 0.0 && k == CountAtMost(q, fs + eps)
    requires r == if fs > 0.0 then Age(q[k..], fs) else q[k..]
    ensures forall e :: e in r ==> e.rem > eps
  {
    CountAtMostIsExact(q, fs + eps);
    var rest := q[k..];
    forall e | e in r ensures e.rem > eps {
      var i :| 0 <= i < |r| && r[i] == e;
      assert rest[i] == q[k + i];
    }
  }

  /** Cutting a prefix off a sorted queue without repeated ids, and ageing
      the rest, keeps it sorted and distinct and splits the ids in two. */
  lemma SuffixSplits(q: seq<Entry>, fs: real, k: nat, r: seq<Entry>)
    requires k <= |q| && r == if fs > 0.0 then Age(q[k..], fs) else q[k..]
    ensures Sorted(q) && DistinctIds(q) ==>
      && Sorted(r) && DistinctIds(r)
      && Ids(q) == Ids(q[..k]) + Ids(r)
      && Ids(q[..k]) !! Ids(r)
  {
    if Sorted(q) && DistinctIds(q) {
      SplitPreserves(q, k);
      AgePreserves(q[k..], fs);
    }
  }

  /** One update: every pair with at most `fs + eps` left finishes virtually,
      and its job becomes late when it still runs; only running jobs become
      late. */
  lemma AdvanceMarksFinishedLate(s: State, fs: real, t: real)
    requires Sorted(s.queue)
    ensures forall e :: e in s.queue && e.rem <= fs + s.eps && e.id in s.running ==> e.id in Advance(s, fs, t).late
    ensures forall x :: x in Advance(s, fs, t).late ==> x in s.late || x in s.running
  {
    var q := s.queue;
    var k := CountAtMost(q, fs + s.eps);
    CountAtMostIsExact(q, fs + s.eps);
    forall e | e in q && e.rem <= fs + s.eps && e.id in s.running ensures e.id in Advance(s, fs, t).late {
      var i :| 0 <= i < |q| && q[i] == e;
      assert q[..k][i] == e;
    }
  }

  /** `update` keeps the state well formed when time does not go back. */
  lemma UpdatePreservesInv(s: State, t: real)
    requires Inv(s) && s.lastT <= t
    ensures Inv(Update(s, t))
  {
    if s.queue != [] {
      AdvancePreservesInv(s, FairShare(s, t), t);
    }
  }

  /** `update` with `fs` the fair share: the pairs with at most `fs + eps`
      left finish (their running jobs become late), the others age by `fs`,
      and every pair left has more than `eps` to go. */
  lemma UpdateFinishesExactly(s: State, t: real, fs: real)
    requires Sorted(s.queue) && s.queue != [] && s.lastT <= t
    requires fs == FairShare(s, t)
    ensures forall e :: e in s.queue && e.rem > fs + s.eps ==> Entry(e.rem - fs, e.id) in Update(s, t).queue
    ensures forall e :: e in s.queue && e.rem <= fs + s.eps && e.id in s.running ==> e.id in Update(s, t).late
    ensures forall e :: e in Update(s, t).queue ==> e.rem > s.eps
  {
    AdvanceFinishesExactly(s, fs, t);
  }

  /** The same for the body of `update` with any non-negative share. */
  lemma AdvanceFinishesExactly(s: State, fs: real, t: real)
    requires Sorted(s.queue) && fs >= 0.0
    ensures forall e :: e in s.queue && e.rem > fs + s.eps ==> Entry(e.rem - fs, e.id) in Advance(s, fs, t).queue
    ensures forall e :: e in s.queue && e.rem <= fs + s.eps && e.id in s.running ==> e.id in Advance(s, fs, t).late
    ensures forall e :: e in Advance(s, fs, t).queue ==> e.rem > s.eps
  {
    assert Advance(s, fs, t).queue == Survivors(s.queue, fs, s.eps);
    AdvanceMarksFinishedLate(s, fs, t);
  }

  /** With no time elapsed and nothing about to finish, advancing only moves
      the clock. */
  lemma AdvanceAtNoService(s: State, t: real)
    requires forall e :: e in s.queue ==> e.rem > s.eps
    ensures Advance(s, 0.0, t) == s.(lastT := t)
  {
    if s.queue != [] {
      assert s.queue[0] in s.queue;
    }
    assert CountAtMost(s.queue, 0.0 + s.eps) == 0;
  }

  /** A second `update` at the same instant changes nothing. */
  lemma UpdateIdempotent(s: State, t: real)
    requires Sorted(s.queue) && s.lastT <= t
    ensures Update(Update(s, t), t) == Update(s, t)
  {
    var u := Update(s, t);
    if s.queue != [] {
      if u.queue != [] {
        assert FairShare(u, t) == 0.0;
        AdvanceAtNoService(u, t);
      }
    }
  }

  /** `update` only ever takes jobs out of the virtual queue. */
  lemma UpdateShrinksQueue(s: State, t: real)
    ensures Ids(Update(s, t).queue) <= Ids(s.queue)
  {
    if s.queue != [] {
      SurvivorsAreFromQueue(s.queue, FairShare(s, t), s.eps);
    }
  }

  /** The survivors of an update are pairs of jobs that were in the queue. */
  lemma SurvivorsAreFromQueue(q: seq<Entry>, fs: real, eps: real)
    ensures Ids(Survivors(q, fs, eps)) <= Ids(q)
  {
    var k := CountAtMost(q, fs + eps);
    IdsOfSplit(q, k);
    AgePreserves(q[k..], fs);
    assert Survivors(q, fs, eps) == if fs > 0.0 then Age(q[k..], fs) else q[k..];
  }

  /** `next_internal_event`: the head of the virtual queue finishes after its
      remaining work times the number of virtual jobs. */
  function NextInternal(s: State): (r: Option<real>)
    ensures r.None? <==> s.queue == []
  {
    if s.queue == [] then None else Some(s.queue[0].rem * |s.queue| as real)
  }

  /** With every pair above `eps`, the prediction is in the future. */
  lemma NextInternalPositive(u: State)
    requires forall e :: e in u.queue ==> e.rem > u.eps
    ensures NextInternal(u).Some? ==> NextInternal(u).value > 0.0
  {
    if u.queue != [] {
      assert u.queue[0] in u.queue;
      assert u.queue[0].rem * |u.queue| as real >= u.queue[0].rem * 1.0;
    }
  }

  /** After an update that does not go back in time the prediction is
      never in the past. */
  lemma NextInternalAfterUpdate(s: State, t: real)
    requires Sorted(s.queue) && s.lastT <= t
    ensures NextInternal(Update(s, t)).Some? ==> NextInternal(Update(s, t)).value > 0.0
  {
    if s.queue != [] {
      UpdateFinishesExactly(s, t, FairShare(s, t));
    }
    NextInternalPositive(Update(s, t));
  }

  lemma FairShareAtPrediction(s: State)
    requires s.queue != []
    ensures FairShare(s, s.lastT + s.queue[0].rem * |s.queue| as real) == s.queue[0].rem
  {
    var n := |s.queue| as real;
    assert s.lastT + s.queue[0].rem * n - s.lastT == s.queue[0].rem * n;
  }

  /** The prediction is exact: updating at the predicted instant finishes the
      head virtually, and makes it late when it still runs. */
  lemma NextInternalPredictsCompletion(s: State)
    requires Inv(s) && s.queue != []
    ensures var u := Update(s, s.lastT + NextInternal(s).value);
      && s.queue[0].id !in Ids(u.queue)
      && (s.queue[0].id in s.running ==> s.queue[0].id in u.late)
  {
    var t := s.lastT + NextInternal(s).value;
    FairShareAtPrediction(s);
    assert t == s.lastT + s.queue[0].rem * |s.queue| as real;
    var fs := FairShare(s, t);
    assert fs == s.queue[0].rem;
    assert s.queue[0].rem <= fs + s.eps;
    var k := CountAtMost(s.queue, fs + s.eps);
    assert s.queue[0] in s.queue[..k];
    SplitPreserves(s.queue, k);
    AgePreserves(s.queue[k..], fs);
  }

  /** `enqueue`: bring the virtual schedule up to `t`, then add the job to
      the virtual queue and to the running set. */
  function Enqueue(s: State, t: real, j: JobId, size: real): (r: State)
    ensures r.running == s.running + {j} && r.late == Update(s, t).late
    ensures multiset(r.queue) == multiset(Update(s, t).queue) + multiset{Entry(size, j)}
  {
    var u := Update(s, t);
    u.(queue := Insert(u.queue, Entry(size, j)), running := u.running + {j})
  }

  /** Enqueuing a job new to the policy keeps the state well formed. */
  lemma EnqueuePreservesInv(s: State, t: real, j: JobId, size: real)
    requires Inv(s) && s.lastT <= t && j !in s.running && j !in Ids(s.queue)
    ensures Inv(Enqueue(s, t, j, size))
  {
    UpdatePreservesInv(s, t);
    var u := Update(s, t);
    assert j !in Ids(u.queue) by {
      if s.queue != [] {
        var k := CountAtMost(s.queue, FairShare(s, t) + s.eps);
        IdsOfSplit(s.queue, k);
        AgePreserves(s.queue[k..], FairShare(s, t));
      }
    }
    assert j !in u.late;
    InsertSorted(u.queue, Entry(size, j));
    InsertIds(u.queue, Entry(size, j));
    DistinctAfterInsert(u.queue, Entry(size, j));
  }

  /** `dequeue`: the job stops running and stops being late, the other late
      jobs keeping their order; the virtual schedule is neither updated nor
      changed. Fails exactly when the job is not running. */
  function Dequeue(s: State, j: JobId): (r: Result<State>)
    ensures r.Ok? <==> j in s.running
    ensures r.Err? ==> r.error == MissingJob(j)
    ensures r.Ok? ==> r.value.queue == s.queue && r.value.lastT == s.lastT
    ensures r.Ok? ==> r.value.running == s.running - {j}
    ensures r.Ok? ==> forall x :: x in r.value.late <==> x in s.late && x != j
    ensures r.Ok? && j !in s.late ==> r.value.late == s.late
    ensures r.Ok? && NoDuplicates(s.late) && j in s.late ==>
      exists i :: 0 <= i < |s.late| && s.late[i] == j && r.value.late == s.late[..i] + s.late[i + 1..]
  {
    if j !in s.running then Err(MissingJob(j))
    else Ok(s.(running := s.running - {j}, late := Without(s.late, j)))
  }

  /** Removing a value keeps a sequence free of repetitions. */
  lemma {:induction false} WithoutNoDuplicates(s: seq<JobId>, x: JobId)
    requires NoDuplicates(s)
    ensures NoDuplicates(Without(s, x))
  {
    if s != [] {
      WithoutNoDuplicates(s[1..], x);
      if s[0] != x {
        assert s[0] !in s[1..];
        assert s[0] !in Without(s[1..], x);
      }
    }
  }

  lemma DequeuePreservesInv(s: State, j: JobId)
    requires Inv(s) && j in s.running
    ensures Inv(Dequeue(s, j).value)
  {
    WithoutNoDuplicates(s.late, j);
  }

  /** Position of the first pair in the virtual queue whose job runs. */
  function FirstRunning(q: seq<Entry>, running: set<JobId>): (r: Option<nat>)
    ensures r.None? <==> forall e :: e in q ==> e.id !in running
    ensures r.Some? ==> r.value < |q| && q[r.value].id in running
    ensures r.Some? ==> forall k :: 0 <= k < r.value ==> q[k].id !in running
  {
    if q == [] then None
    else if q[0].id in running then Some(0)
    else
      assert forall e :: e in q ==> e == q[0] || e in q[1..];
      match FirstRunning(q[1..], running)
      case None => None
      case Some(i) => Some(i + 1)
  }

  /** The choice of `schedule` after the update: the earliest-late job alone;
      otherwise the running job that is first in the virtual queue; nothing
      when no job runs. Fails when jobs run but none is virtual or late. */
  function Pick(u: State): (r: Result<Alloc>)
    ensures u.late != [] ==> r == Ok(map[u.late[0] := 1.0])
    ensures u.late == [] && u.running == {} ==> r == Ok(map[])
    ensures r.Err? <==> u.late == [] && u.running != {} && forall e :: e in u.queue ==> e.id !in u.running
    ensures u.late == [] && r.Ok? && r.value != map[] ==>
      exists i :: 0 <= i < |u.queue| && r.value == map[u.queue[i].id := 1.0] && u.queue[i].id in u.running
                 && forall k :: 0 <= k < i ==> u.queue[k].id !in u.running
  {
    if u.late != [] then Ok(map[u.late[0] := 1.0])
    else if u.running == {} then Ok(map[])
    else
      match FirstRunning(u.queue, u.running)
      case None => Err(NoRunningJob)
      case Some(i) => Ok(map[u.queue[i].id := 1.0])
  }

  /** With the state well formed, `schedule` never fails; without late jobs
      it serves the running job least advanced in the virtual schedule. */
  lemma PickServesFirstVirtual(u: State)
    requires Inv(u)
    ensures Pick(u).Ok?
    ensures u.late == [] && u.running != {} ==>
      exists e :: e in u.queue && e.id in u.running && Pick(u).value == map[e.id := 1.0]
                  && forall f :: f in u.queue && f.id in u.running ==> NotAfter(e, f)
  {
    if u.late == [] && u.running != {} {
      var j :| j in u.running;
      assert j in Ids(u.queue);
      var e0 :| e0 in u.queue && e0.id == j;
      FirstRunningIsLeast(u.queue, u.running, e0);
      var e := u.queue[FirstRunning(u.queue, u.running).value];
      assert Pick(u).value == map[e.id := 1.0];
    }
  }

  /** In a sorted queue holding a running job, the first pair whose job runs
      comes no later than any other pair whose job runs. */
  lemma FirstRunningIsLeast(q: seq<Entry>, running: set<JobId>, e0: Entry)
    requires Sorted(q) && e0 in q && e0.id in running
    ensures FirstRunning(q, running).Some?
    ensures forall f :: f in q && f.id in running ==> NotAfter(q[FirstRunning(q, running).value], f)
  {
    var i := FirstRunning(q, running).value;
    forall f | f in q && f.id in running ensures NotAfter(q[i], f) {
      var m :| 0 <= m < |q| && q[m] == f;
      if m > i { assert NotAfter(q[i], q[m]); }
    }
  }

  /** `schedule` of FSP: advance to `t`, then pick. */
  function Schedule(s: State, t: real): (r: (State, Result<Alloc>))
    ensures r.0 == Update(s, t)
    ensures r.1 == Pick(r.0)
  {
    var u := Update(s, t);
    (u, Pick(u))
  }

  /** `schedule` of FSP never fails on a well-formed state, and serves a
      late job first. */
  lemma ScheduleNeverFails(s: State, t: real)
    requires Inv(s) && s.lastT <= t
    ensures Schedule(s, t).1.Ok?
    ensures Schedule(s, t).0.late != [] ==> Schedule(s, t).1.value.Keys == {Schedule(s, t).0.late[0]}
  {
    UpdatePreservesInv(s, t);
    PickServesFirstVirtual(Update(s, t));
  }

  /** The set of late jobs. */
  function LateSet(u: State): (r: set<JobId>)
    ensures forall x :: x in r <==> x in u.late
  {
    set x | x in u.late
  }

  /** The choice of FSP+PS after the update: an equal share to every late
      job; otherwise as FSP. */
  function PickPs(u: State): (r: Result<Alloc>)
    ensures u.late != [] ==> r.Ok? && r.value.Keys == LateSet(u)
    ensures u.late != [] ==> forall j :: j in r.value ==> r.value[j] * |LateSet(u)| as real == 1.0
    ensures u.late == [] ==> r == Pick(u)
  {
    if u.late != [] then Ok(EqualShares(LateSet(u))) else Pick(u)
  }

  /** FSP+PS hands the whole resource to the late jobs when there are any. */
  lemma PickPsUsesWholeResource(u: State)
    requires Inv(u) && u.late != []
    ensures Total(PickPs(u).value) == 1.0
  {
    assert u.late[0] in LateSet(u);
    TotalOfEqualShares(LateSet(u));
  }

  /** `schedule` of FSP+PS. */
  function SchedulePs(s: State, t: real): (r: (State, Result<Alloc>))
    ensures r.0 == Update(s, t)
    ensures r.1 == PickPs(r.0)
  {
    var u := Update(s, t);
    (u, PickPs(u))
  }

  /** FSP and FSP+PS agree whenever at most one job is late. */
  lemma PsAgreesWithSingleLate(u: State)
    requires |u.late| <= 1
    ensures PickPs(u) == Pick(u)
  {
    if |u.late| == 1 {
      assert LateSet(u) == {u.late[0]};
      AloneIsEqualShares(u.late[0]);
    }
  }
}

=== FILE: fsp_las.dfy ===
/** FSP+LAS (schedulers.py, class `FSP_plus_LAS`). Sizes and attained
    service are counted in whole `eps` steps. As in FSP, a virtual
    processor-sharing schedule runs on the size estimates, and a job that
    finishes virtually while still running in reality becomes late. Late
    jobs are filed in buckets by attained service (module `Buckets`) and the
    least bucket gets the whole resource; only when no job is late does the
    running job first in the virtual queue get it. */
module FspLas {
  import opened Base
  import opened Allocation
  import opened EntryQueue
  import opened Buckets
  import Fsp

  /** The virtual queue, the late jobs, the jobs running in reality, the
      late buckets, every enqueued job's attained service (never forgotten),
      the last allocation, the time of the last update and `eps`. */
  datatype State = State(queue: seq<Entry>, late: set<JobId>, running: set<JobId>,
                         lateQueue: Buckets, attained: map<JobId, int>, scheduled: Alloc,
                         lastT: real, eps: PosReal)

  function Init(eps: PosReal): State {
    State([], {}, {}, map[], map[], map[], 0.0, eps)
  }

  /** The virtual queue is ordered and holds each job once; late jobs run
      and are out of the virtual queue; every running job is virtual or
      late; every job in sight has an attained service; the late buckets
      index exactly the late jobs. */
  ghost predicate Inv(s: State) {
    && Sorted(s.queue) && DistinctIds(s.queue)
    && s.late <= s.running && s.late !! Ids(s.queue)
    && s.running <= Ids(s.queue) + s.late
    && Ids(s.queue) <= s.attained.Keys && s.running <= s.attained.Keys
    && s.scheduled.Keys <= s.attained.Keys
    && Indexes(s.lateQueue, s.attained, s.late)
  }

  /** One iteration of the real-service loop: a late job leaves its bucket
      and is filed again by `qinsert` at its new attained service; any other
      job just gains `work`. An unknown job is a KeyError. */
  function ServeOne(s: State, j: JobId, work: int): (r: Result<State>)
    ensures r.Ok? <==> j in s.attained && (j in s.late ==> Discard(s.lateQueue, s.attained[j], j).Ok?)
    ensures r.Ok? ==> r.value.queue == s.queue && r.value.late == s.late && r.value.running == s.running
                      && r.value.attained.Keys == s.attained.Keys && r.value.scheduled == s.scheduled
  {
    if j !in s.attained then Err(BrokenIndex)
    else if j in s.late then
      match Discard(s.lateQueue, s.attained[j], j)
      case Err(e) => Err(e)
      case Ok(q) =>
        var (q', k) := QInsert(q, j, s.attained[j] + work);
        Ok(s.(lateQueue := q', attained := s.attained[j := k]))
    else Ok(s.(attained := s.attained[j := s.attained[j] + work]))
  }

  /** The real-service loop over the last allocation, in the iteration order
      `order`; the first failure ends it. */
  function ServeAll(s: State, delta: int, order: seq<JobId>, shares: Alloc): (r: Result<State>)
    requires forall j :: j in order ==> j in shares
    ensures r.Ok? ==> r.value.queue == s.queue && r.value.late == s.late && r.value.running == s.running
                      && r.value.scheduled == s.scheduled && r.value.lastT == s.lastT
    decreases |order|
  {
    if order == [] then Ok(s)
    else
      match ServeOne(s, order[0], Work(shares[order[0]], delta))
      case Err(e) => Err(e)
      case Ok(s') => ServeAll(s', delta, order[1..], shares)
  }

  /** The virtual completions of one update, in queue order: each one whose
      job still runs turns late and is filed by `qinsert` at its attained
      service. */
  function MarkAll(s: State, done: seq<Entry>): (r: Result<State>)
    ensures r.Ok? ==> r.value.queue == s.queue && r.value.running == s.running
                      && r.value.scheduled == s.scheduled && r.value.lastT == s.lastT
                      && r.value.attained.Keys == s.attained.Keys
    decreases |done|
  {
    if done == [] then Ok(s)
    else
      var j := done[0].id;
      if j !in s.running then MarkAll(s, done[1..])
      else if j !in s.attained then Err(BrokenIndex)
      else
        var (q', k) := QInsert(s.lateQueue, j, s.attained[j]);
        MarkAll(s.(late := s.late + {j}, lateQueue := q', attained := s.attained[j := k]), done[1..])
  }

  /** The virtual part of `update` once the fair share `fs` (in steps) is
      known: the leading pairs with at most `fs + 1` left finish, and when
      `fs` is positive the rest age by `fs`. */
  function Finish(s: State, fs: int): (r: Result<State>)
    ensures r.Ok? ==> r.value.running == s.running && r.value.scheduled == s.scheduled
                      && r.value.lastT == s.lastT
                      && r.value.queue == Fsp.Survivors(s.queue, fs as real, 1.0)
  {
    var k := CountAtMost(s.queue, fs as real + 1.0);
    match MarkAll(s, s.queue[..k])
    case Err(e) => Err(e)
    case Ok(s') => Ok(s'.(queue := Fsp.Survivors(s.queue, fs as real, 1.0)))
  }

  /** The virtual share of each of `n` queued jobs over `delta` steps,
      rounded up. */
  function FairSteps(delta: int, n: nat): (fs: int)
    requires n > 0
    ensures delta >= 0 ==> fs >= 0
  {
    Ceil(delta as real / n as real)
  }

  /** `update` once the elapsed steps `delta` and the fair share `fs` are
      known: the real-service loop runs only when `delta` is not zero, in
      the dictionary's iteration order, which the model leaves open; the
      virtual part only when the virtual queue is not empty. */
  ghost function Advance(s: State, delta: int, fs: int, t: real): (r: Result<State>)
    ensures r.Ok? ==> r.value.lastT == t && r.value.scheduled == s.scheduled && r.value.running == s.running
  {
    var served := if delta != 0 then ServeAll(s, delta, Enumerate(s.scheduled.Keys), s.scheduled) else Ok(s);
    match served
    case Err(e) => Err(e)
    case Ok(s1) =>
      if s1.queue == [] then Ok(s1.(lastT := t))
      else
        match Finish(s1, fs)
        case Err(e) => Err(e)
        case Ok(s2) => Ok(s2.(lastT := t))
  }

  ghost function Update(s: State, t: real): (r: Result<State>)
    ensures var delta := StepsSince(s.lastT, t, s.eps);
      r == Advance(s, delta, if s.queue == [] then 0 else FairSteps(delta, |s.queue|), t)
  {
    var delta := StepsSince(s.lastT, t, s.eps);
    Advance(s, delta, if s.queue == [] then 0 else FairSteps(delta, |s.queue|), t)
  }

  /** A late job served keeps the invariant, and its new attained service is
      the key `qinsert` chose; any other served job gains exactly `work`. */
  lemma ServeOnePreservesInv(s: State, j: JobId, work: int)
    requires Inv(s) && j in s.attained
    ensures ServeOne(s, j, work).Ok?
    ensures var r := ServeOne(s, j, work).value;
      && Inv(r)
      && (j !in s.late ==> r.attained[j] == s.attained[j] + work)
      && (j in s.late ==> j in r.lateQueue[r.attained[j]]
                          && -1 <= r.attained[j] - (s.attained[j] + work) <= 1)
  {
    if j in s.late {
      DiscardIndexes(s.lateQueue, s.attained, s.late, j);
      var q := Discard(s.lateQueue, s.attained[j], j).value;
      QInsertIndexes(q, s.attained, s.late - {j}, j, s.attained[j] + work);
      SnapNeverAdjacent(q, s.attained[j] + work);
      assert s.late - {j} + {j} == s.late;
    } else {
      IndexesFrame(s.lateQueue, s.attained, s.attained[j := s.attained[j] + work], s.late);
    }
  }

  /** The whole real-service loop keeps the invariant, in any iteration
      order of jobs with an attained service. */
  lemma {:induction false} ServeAllPreservesInv(s: State, delta: int, order: seq<JobId>, shares: Alloc)
    requires Inv(s)
    requires forall j :: j in order ==> j in shares && j in s.attained
    ensures ServeAll(s, delta, order, shares).Ok?
    ensures Inv(ServeAll(s, delta, order, shares).value)
    ensures ServeAll(s, delta, order, shares).value.attained.Keys == s.attained.Keys
    decreases |order|
  {
    if order != [] {
      ServeOnePreservesInv(s, order[0], Work(shares[order[0]], delta));
      var s' := ServeOne(s, order[0], Work(shares[order[0]], delta)).value;
      ServeAllPreservesInv(s', delta, order[1..], shares);
    }
  }

  /** Marking the virtual completions late: running jobs of `done` (distinct,
      not yet late) turn late and are filed in the buckets; the index stays
      exact. */
  lemma {:induction false} MarkAllIndexes(s: State, done: seq<Entry>)
    requires Indexes(s.lateQueue, s.attained, s.late)
    requires DistinctIds(done) && Ids(done) !! s.late
    requires Ids(done) * s.running <= s.attained.Keys
    ensures MarkAll(s, done).Ok?
    ensures var r := MarkAll(s, done).value;
      && r.late == s.late + Ids(done) * s.running
      && Indexes(r.lateQueue, r.attained, r.late)
    decreases |done|
  {
    if done != [] {
      var j := done[0].id;
      var rest := done[1..];
      assert Ids(done) == {j} + Ids(rest) by {
        assert done == [done[0]] + rest;
        IdsOfConcat([done[0]], rest);
      }
      assert DistinctIds(rest) && j !in Ids(rest) by {
        forall e | e in rest ensures e.id != j {
          var m :| 0 <= m < |rest| && rest[m] == e;
          assert done[m + 1] == e;
        }
      }
      if j !in s.running {
        MarkAllIndexes(s, rest);
      } else {
        var (q', k) := QInsert(s.lateQueue, j, s.attained[j]);
        QInsertIndexes(s.lateQueue, s.attained, s.late, j, s.attained[j]);
        var s' := s.(late := s.late + {j}, lateQueue := q', attained := s.attained[j := k]);
        MarkAllIndexes(s', rest);
      }
    }
  }

  /** The attained service a job is filed under when it turns late: its own,
      give or take the one step `qinsert` may snap it by. Every job that
      does not turn late keeps its attained service. */
  lemma {:induction false} MarkAllAttained(s: State, done: seq<Entry>)
    requires DistinctIds(done)
    requires Ids(done) * s.running <= s.attained.Keys
    ensures MarkAll(s, done).Ok?
    ensures var r := MarkAll(s, done).value;
      && (forall j :: j in Ids(done) * s.running ==> -1 <= r.attained[j] - s.attained[j] <= 1)
      && (forall j :: j in s.attained && j !in Ids(done) * s.running ==> r.attained[j] == s.attained[j])
    decreases |done|
  {
    if done != [] {
      var j := done[0].id;
      var rest := done[1..];
      assert Ids(done) == {j} + Ids(rest) by {
        assert done == [done[0]] + rest;
        IdsOfConcat([done[0]], rest);
      }
      assert DistinctIds(rest) && j !in Ids(rest) by {
        forall e | e in rest ensures e.id != j {
          var m :| 0 <= m < |rest| && rest[m] == e;
          assert done[m + 1] == e;
        }
      }
      if j !in s.running {
        MarkAllAttained(s, rest);
      } else {
        var (q', k) := QInsert(s.lateQueue, j, s.attained[j]);
        SnapNeverAdjacent(s.lateQueue, s.attained[j]);
        var s' := s.(late := s.late + {j}, lateQueue := q', attained := s.attained[j := k]);
        MarkAllAttained(s', rest);
      }
    }
  }

  /** The virtual part keeps the invariant: the finished prefix leaves the
      queue, its running jobs are late, the survivors stay ordered. */
  lemma FinishPreservesInv(s: State, fs: int)
    requires Inv(s)
    ensures Finish(s, fs).Ok?
    ensures Inv(Finish(s, fs).value) && Finish(s, fs).value.attained.Keys == s.attained.Keys
  {
    var k := CountAtMost(s.queue, fs as real + 1.0);
    var done := s.queue[..k];
    SplitPreserves(s.queue, k);
    MarkAllIndexes(s, done);
  }

  /** `update` never fails on a well-formed state and keeps it well formed. */
  lemma AdvancePreservesInv(s: State, delta: int, fs: int, t: real)
    requires Inv(s)
    ensures Advance(s, delta, fs, t).Ok?
    ensures Inv(Advance(s, delta, fs, t).value)
    ensures Advance(s, delta, fs, t).value.attained.Keys == s.attained.Keys
  {
    var s1 := s;
    if delta != 0 {
      ServeAllPreservesInv(s, delta, Enumerate(s.scheduled.Keys), s.scheduled);
      s1 := ServeAll(s, delta, Enumerate(s.scheduled.Keys), s.scheduled).value;
    }
    if s1.queue != [] {
      FinishPreservesInv(s1, fs);
    }
  }

  lemma UpdatePreservesInv(s: State, t: real)
    requires Inv(s)
    ensures Update(s, t).Ok? && Inv(Update(s, t).value)
    ensures Update(s, t).value.running == s.running
    ensures Update(s, t).value.attained.Keys == s.attained.Keys
  {
    var delta := StepsSince(s.lastT, t, s.eps);
    AdvancePreservesInv(s, delta, if s.queue == [] then 0 else FairSteps(delta, |s.queue|), t);
  }

  /** One update's virtual part: with fair share `fs`, every pair with at
      most `fs + 1` steps left finishes and leaves the virtual queue, and its
      job turns late if it still runs. */
  lemma FinishFinishesExactly(s: State, fs: int)
    requires Inv(s)
    ensures Finish(s, fs).Ok?
    ensures forall e :: e in s.queue && e.rem <= fs as real + 1.0 ==>
      e.id !in Ids(Finish(s, fs).value.queue) && (e.id in s.running ==> e.id in Finish(s, fs).value.late)
  {
    FinishPreservesInv(s, fs);
    var k := CountAtMost(s.queue, fs as real + 1.0);
    var done := s.queue[..k];
    CountAtMostIsExact(s.queue, fs as real + 1.0);
    SplitPreserves(s.queue, k);
    MarkAllIndexes(s, done);
    assert Finish(s, fs).value.late == MarkAll(s, done).value.late;
    forall e | e in s.queue && e.rem <= fs as real + 1.0
      ensures e.id in Ids(done)
    {
      var i :| 0 <= i < |s.queue| && s.queue[i] == e;
      assert done[i] == e;
    }
  }

  /** The other pairs stay in the virtual queue and lose `fs` steps. */
  lemma FinishAgesTheRest(s: State, fs: int)
    requires Inv(s) && fs >= 0
    ensures Finish(s, fs).Ok?
    ensures forall e :: e in s.queue && e.rem > fs as real + 1.0 ==>
      Entry(e.rem - fs as real, e.id) in Finish(s, fs).value.queue
  {
    FinishPreservesInv(s, fs);
    var q := Fsp.Survivors(s.queue, fs as real, 1.0);
    assert Finish(s, fs).value.queue == q;
    forall e | e in s.queue && e.rem > fs as real + 1.0
      ensures Entry(e.rem - fs as real, e.id) in q
    {
    }
  }

  /** `enqueue`: bring everything up to `t`, then add the job to the virtual
      queue (its size in whole `eps` steps) and to the running set, with no
      attained service. */
  ghost function Enqueue(s: State, t: real, j: JobId, size: real): (r: Result<State>)
    ensures r.Ok? <==> Update(s, t).Ok?
    ensures r.Ok? ==> var u := Update(s, t).value;
      && r.value.running == u.running + {j} && r.value.late == u.late
      && r.value.attained == u.attained[j := 0]
      && multiset(r.value.queue) == multiset(u.queue) + multiset{Entry(Units(size, s.eps) as real, j)}
  {
    match Update(s, t)
    case Err(e) => Err(e)
    case Ok(u) =>
      Ok(u.(queue := Insert(u.queue, Entry(Units(size, s.eps) as real, j)),
            running := u.running + {j}, attained := u.attained[j := 0]))
  }

  /** Enqueuing a job never seen before keeps the state well formed. */
  lemma EnqueuePreservesInv(s: State, t: real, j: JobId, size: real)
    requires Inv(s) && j !in s.attained
    ensures Enqueue(s, t, j, size).Ok?
    ensures Inv(Enqueue(s, t, j, size).value)
  {
    UpdatePreservesInv(s, t);
    var u := Update(s, t).value;
    var e := Entry(Units(size, s.eps) as real, j);
    InsertSorted(u.queue, e);
    InsertIds(u.queue, e);
    DistinctAfterInsert(u.queue, e);
    IndexesFrame(u.lateQueue, u.attained, u.attained[j := 0], u.late);
  }

  /** `dequeue`: the job stops running; a late job also stops being late and
      leaves its bucket. The virtual queue and the attained service are left
      alone, and there is no update. Fails when the job is not running. */
  function Dequeue(s: State, j: JobId): (r: Result<State>)
    ensures j !in s.running ==> r == Err(MissingJob(j))
    ensures r.Ok? ==> && r.value.running == s.running - {j} && r.value.late == s.late - {j}
                      && r.value.queue == s.queue && r.value.attained == s.attained
    ensures r.Ok? && j in s.late ==> j in s.attained && Evict(s.lateQueue, s.attained[j], j) == Ok(r.value.lateQueue)
    ensures r.Ok? && j !in s.late ==> r.value.lateQueue == s.lateQueue
  {
    if j !in s.running then Err(MissingJob(j))
    else
      var s' := s.(running := s.running - {j});
      if j !in s.late then Ok(s')
      else if j !in s.attained then Err(BrokenIndex)
      else
        match Evict(s.lateQueue, s.attained[j], j)
        case Err(e) => Err(e)
        case Ok(q) => Ok(s'.(late := s.late - {j}, lateQueue := q))
  }

  lemma DequeuePreservesInv(s: State, j: JobId)
    requires Inv(s)
    ensures Dequeue(s, j).Ok? <==> j in s.running
    ensures Dequeue(s, j).Ok? ==> Inv(Dequeue(s, j).value)
  {
    if j in s.running && j in s.late {
      EvictIndexes(s.lateQueue, s.attained, s.late, j);
    }
  }

  /** The choice of `schedule` after the update: the least late bucket, and
      nothing else, when a job is late; otherwise the running job first in
      the virtual queue alone; nothing when no job runs. An empty least
      bucket divides by zero; jobs running but none virtual is a
      StopIteration. */
  ghost function Pick(u: State): (r: Result<Alloc>)
    ensures u.lateQueue != map[] ==>
      r == (if u.lateQueue[LeastKey(u.lateQueue)] == {} then Err(EmptyBucket)
            else Ok(EqualShares(u.lateQueue[LeastKey(u.lateQueue)])))
    ensures u.lateQueue == map[] && u.running == {} ==> r == Ok(map[])
  {
    if u.lateQueue != map[] then
      var b := u.lateQueue[LeastKey(u.lateQueue)];
      if b == {} then Err(EmptyBucket) else Ok(EqualShares(b))
    else if u.running == {} then Ok(map[])
    else
      match Fsp.FirstRunning(u.queue, u.running)
      case None => Err(NoRunningJob)
      case Some(i) => Ok(map[u.queue[i].id := 1.0])
  }

  /** `schedule`: update, then pick; the allocation becomes `scheduled`. */
  ghost function Schedule(s: State, t: real): (r: Result<(State, Alloc)>)
    ensures r.Ok? <==> Update(s, t).Ok? && Pick(Update(s, t).value).Ok?
    ensures r.Ok? ==> r.value.1 == Pick(Update(s, t).value).value
                      && r.value.0 == Update(s, t).value.(scheduled := r.value.1)
  {
    match Update(s, t)
    case Err(e) => Err(e)
    case Ok(u) =>
      match Pick(u)
      case Err(e) => Err(e)
      case Ok(a) => Ok((u.(scheduled := a), a))
  }

  /** On a well-formed state the pick never fails, and the late jobs come
      first: when some job is late, exactly the late jobs of least attained
      service share the resource, and no other job gets any. */
  lemma PickServesLeastLate(u: State)
    requires Inv(u) && u.late != {}
    ensures Pick(u).Ok?
    ensures var a := Pick(u).value;
      && a == EqualShares(a.Keys) && a.Keys <= u.late && a != map[]
      && forall j :: j in u.late ==> (j in a <==> forall j' :: j' in u.late ==> u.attained[j] <= u.attained[j'])
  {
    var j0 :| j0 in u.late;
    assert u.attained[j0] in u.lateQueue;
    var k := LeastKey(u.lateQueue);
    var b := u.lateQueue[k];
    LeastBucketIsLeastAttained(u.lateQueue, u.attained, u.late);
    var x :| x in b;
    assert Pick(u) == Ok(EqualShares(b));
    forall j | j in u.late && (forall j' :: j' in u.late ==> u.attained[j] <= u.attained[j'])
      ensures j in b
    {
      assert u.attained[j] <= u.attained[x];
    }
  }

  /** Without late jobs, the running job first in the virtual queue gets
      the whole resource, and nothing is served when no job runs. */
  lemma PickServesFirstVirtual(u: State)
    requires Inv(u) && u.late == {}
    ensures Pick(u).Ok?
    ensures u.running == {} ==> Pick(u).value == map[]
    ensures u.running != {} ==>
      exists e :: e in u.queue && e.id in u.running && Pick(u).value == map[e.id := 1.0]
                  && forall f :: f in u.queue && f.id in u.running ==> NotAfter(e, f)
  {
    if u.running != {} {
      var j :| j in u.running;
      assert j in Ids(u.queue);
      var e0 :| e0 in u.queue && e0.id == j;
      Fsp.FirstRunningIsLeast(u.queue, u.running, e0);
      var e := u.queue[Fsp.FirstRunning(u.queue, u.running).value];
      assert Pick(u).value == map[e.id := 1.0];
    }
  }

  /** `schedule` never fails on a well-formed state and keeps it well
      formed. */
  lemma ScheduleNeverFails(s: State, t: real)
    requires Inv(s)
    ensures Schedule(s, t).Ok? && Inv(Schedule(s, t).value.0)
  {
    UpdatePreservesInv(s, t);
    var u := Update(s, t).value;
    if u.late != {} {
      PickServesLeastLate(u);
    } else {
      PickServesFirstVirtual(u);
    }
  }

  /** Everything `schedule` promises its caller when time does not go back:
      it succeeds, keeps the state well formed, moves the clock to `t`,
      keeps the running jobs and the attained-service table, shares the
      resource equally among running jobs, serves someone whenever a job
      runs, and predicts its next internal event in the future. */
  lemma ScheduleServesRunning(s: State, t: real)
    requires Inv(s) && s.lastT <= t
    ensures Schedule(s, t).Ok?
    ensures var (u, a) := Schedule(s, t).value;
      && Inv(u) && u.lastT == t && u.running == s.running
      && u.attained.Keys == s.attained.Keys
      && a == EqualShares(a.Keys) && a.Keys <= s.running
      && (a == map[] <==> s.running == {})
      && (NextInternal(u).Some? ==> NextInternal(u).value > 0.0)
  {
    ScheduleNeverFails(s, t);
    UpdatePreservesInv(s, t);
    UpdateLeavesPositive(s, t);
    var u := Update(s, t).value;
    var (u', a) := Schedule(s, t).value;
    NextInternalPositive(u');
    if u.late != {} {
      PickServesLeastLate(u);
    } else {
      PickServesFirstVirtual(u);
      if u.running != {} {
        var e :| e in u.queue && e.id in u.running && a == map[e.id := 1.0];
        AloneIsEqualShares(e.id);
      }
    }
  }

  /** The time the virtual head needs to finish when every virtual job gets
      an equal share: its steps left, times the number of virtual jobs, in
      units of `eps`. */
  function VirtualDue(q: seq<Entry>, eps: PosReal): real
    requires q != []
  {
    q[0].rem * |q| as real * eps
  }

  /** `next_internal_event`: the earlier of the time until the virtual head
      finishes and, with two or more buckets, the time until the least
      bucket catches up with the next. A zero virtual prediction counts as
      none (`not res`). */
  ghost function NextInternal(s: State): (r: Option<real>)
    ensures r.None? <==> s.queue == [] && |s.lateQueue| < 2
  {
    var virtual := if s.queue == [] then None else Some(VirtualDue(s.queue, s.eps));
    if |s.lateQueue| >= 2 then
      var d := CatchUp(s.lateQueue, s.eps);
      if virtual.None? || virtual.value == 0.0 || virtual.value > d then Some(d) else virtual
    else virtual
  }

  /** The prediction is the least of the candidates, except that a virtual
      head with nothing left is passed over when buckets can merge. */
  lemma NextInternalIsEarliest(s: State, v: real, d: real)
    requires s.queue != [] && v == VirtualDue(s.queue, s.eps)
    requires |s.lateQueue| >= 2 && d == CatchUp(s.lateQueue, s.eps)
    ensures NextInternal(s).Some?
    ensures v != 0.0 && v <= d ==> NextInternal(s).value == v
    ensures v == 0.0 || v > d ==> NextInternal(s).value == d
  {
  }

  /** Every virtual pair left after advancing by a non-negative fair share
      has more than one step to go. */
  lemma AdvanceLeavesPositive(s: State, delta: int, fs: int, t: real)
    requires Inv(s) && fs >= 0
    ensures Advance(s, delta, fs, t).Ok?
    ensures forall e :: e in Advance(s, delta, fs, t).value.queue ==> e.rem > 1.0
  {
    AdvancePreservesInv(s, delta, fs, t);
    if delta != 0 {
      ServeAllPreservesInv(s, delta, Enumerate(s.scheduled.Keys), s.scheduled);
    }
  }

  lemma UpdateLeavesPositive(s: State, t: real)
    requires Inv(s) && s.lastT <= t
    ensures Update(s, t).Ok?
    ensures forall e :: e in Update(s, t).value.queue ==> e.rem > 1.0
  {
    var delta := StepsSince(s.lastT, t, s.eps);
    var fs := if s.queue == [] then 0 else FairSteps(delta, |s.queue|);
    assert Update(s, t) == Advance(s, delta, fs, t);
    AdvanceLeavesPositive(s, delta, fs, t);
  }

  /** With every virtual pair positive, the next internal event lies in the
      future. */
  lemma NextInternalPositive(s: State)
    requires Inv(s) && forall e :: e in s.queue ==> e.rem > 0.0
    ensures NextInternal(s).Some? ==> NextInternal(s).value > 0.0
  {
    if s.queue != [] {
      assert s.queue[0] in s.queue;
      var v := VirtualDue(s.queue, s.eps);
      MulRight(0.0, s.queue[0].rem, |s.queue| as real);
      MulRight(0.0, s.queue[0].rem * |s.queue| as real, s.eps);
      assert v > 0.0;
      if |s.lateQueue| >= 2 {
        NextInternalIsEarliest(s, v, CatchUp(s.lateQueue, s.eps));
      }
    }
  }

  /** The virtual prediction is safe: at the predicted instant the fair
      share covers the head's remaining steps, so the head finishes
      virtually and turns late if it still runs. */
  lemma NextInternalFinishesHead(s: State, t: real)
    requires Inv(s) && s.queue != [] && s.queue[0].rem >= 0.0
    requires t == s.lastT + s.queue[0].rem * |s.queue| as real * s.eps
    ensures Update(s, t).Ok?
    ensures s.queue[0].id !in Ids(Update(s, t).value.queue)
    ensures s.queue[0].id in s.running ==> s.queue[0].id in Update(s, t).value.late
  {
    var h := s.queue[0];
    var n := |s.queue|;
    var delta := StepsSince(s.lastT, t, s.eps);
    var fs := FairSteps(delta, n);
    StepsCoverVirtual(s.lastT, h.rem, n, s.eps);
    FairStepsCover(h.rem, n, delta);
    assert Update(s, t) == Advance(s, delta, fs, t);
    AdvanceFinishes(s, delta, fs, t, h);
  }

  /** Whatever was served, a pair within `fs + 1` of finishing leaves the
      virtual queue in the update, and its running job turns late. */
  lemma AdvanceFinishes(s: State, delta: int, fs: int, t: real, h: Entry)
    requires Inv(s) && h in s.queue && h.rem <= fs as real + 1.0
    ensures Advance(s, delta, fs, t).Ok?
    ensures h.id !in Ids(Advance(s, delta, fs, t).value.queue)
    ensures h.id in s.running ==> h.id in Advance(s, delta, fs, t).value.late
  {
    var s1 := s;
    if delta != 0 {
      ServeAllPreservesInv(s, delta, Enumerate(s.scheduled.Keys), s.scheduled);
      s1 := ServeAll(s, delta, Enumerate(s.scheduled.Keys), s.scheduled).value;
    }
    FinishFinishesExactly(s1, fs);
    assert Advance(s, delta, fs, t) == Ok(Finish(s1, fs).value.(lastT := t));
  }

  /** The steps counted at `lastT + rem * n * eps` are at least `rem * n`. */
  lemma StepsCoverVirtual(lastT: real, rem: real, n: nat, eps: PosReal)
    ensures StepsSince(lastT, lastT + rem * n as real * eps, eps) as real >= rem * n as real
  {
    var m := rem * n as real;
    var x := lastT + m * eps - lastT;
    assert x == m * eps;
    assert x / eps == m;
  }

  /** Dividing at least `rem * n` steps among `n` jobs gives each at least
      `rem`. */
  lemma FairStepsCover(rem: real, n: nat, delta: int)
    requires n > 0 && delta as real >= rem * n as real
    ensures FairSteps(delta, n) as real >= rem
  {
    var q := delta as real / n as real;
    assert q * n as real == delta as real;
    assert q >= rem by {
      if q < rem { MulRight(q, rem, n as real); }
    }
  }
}

=== FILE: las.dfy ===
/** Least attained service (schedulers.py, class `LAS`): the resource is
    shared equally among the jobs that have received the least service so
    far. Attained service is kept in whole multiples of `eps` and jobs are
    filed in buckets by it (module `Buckets`). The update after a schedule
    credits the jobs that were served, which is the hook the LAS hybrids
    build on. */
module Las {
  import opened Base
  import opened Allocation
  import opened Buckets

  /** The one entry of `scheduled`: the bucket key that was served, the share
      each of its jobs got, and the jobs. */
  datatype Sub = Sub(att: int, service: real, jobs: set<JobId>)

  /** The buckets, each job's attained service, what the last schedule
      served, the time of the last update and `eps`. */
  datatype State = State(queue: Buckets, attained: map<JobId, int>, scheduled: Option<Sub>,
                         lastT: real, eps: PosReal)

  function Init(eps: PosReal): State {
    State(map[], map[], None, 0.0, eps)
  }

  /** The buckets index exactly the jobs with an attained service. */
  ghost predicate Indexed(s: State) {
    Indexes(s.queue, s.attained, s.attained.Keys)
  }

  /** ... and the served jobs still held all sit at the served key. */
  ghost predicate Inv(s: State) {
    && Indexed(s)
    && (s.scheduled.Some? ==>
          forall j :: j in s.scheduled.value.jobs && j in s.attained ==> s.attained[j] == s.scheduled.value.att)
  }

  /** Whole `eps` steps elapsed since the last update, rounded up. */
  function Steps(s: State, t: real): (n: int)
    ensures s.lastT <= t ==> n >= 0
    ensures t == s.lastT ==> n == 0
  {
    StepsSince(s.lastT, t, s.eps)
  }

  /** Every job of `live` moves to key `k`; the others keep theirs. */
  function Reassign(att: map<JobId, int>, live: set<JobId>, k: int): (r: map<JobId, int>)
    ensures r.Keys == att.Keys
    ensures forall j :: j in r ==> r[j] == (if j in live then k else att[j])
  {
    map j | j in att :: if j in live then k else att[j]
  }

  /** The body of `update` once the elapsed steps `delta` are known: the
      served jobs are credited by `Credit`. */
  function Advance(s: State, delta: int, t: real): (r: State)
    ensures r.lastT == t && r.eps == s.eps && r.scheduled == s.scheduled
    ensures r.attained.Keys == s.attained.Keys
  {
    match s.scheduled
    case None => s.(lastT := t)
    case Some(sub) =>
      var c := Credit(s.queue, s.attained, sub, delta);
      s.(queue := c.0, attained := c.1, lastT := t)
  }

  /** The buckets and attained service after `sub` was served for `delta`
      steps: the served jobs leave their bucket; those still held gain
      `Work(service, delta)` steps, coalesced by `Snap`, and join the bucket
      of their new key. */
  function Credit(q: Buckets, att: map<JobId, int>, sub: Sub, delta: int): (r: (Buckets, map<JobId, int>))
    ensures r.1.Keys == att.Keys
  {
    var q1 := Strip(q, sub.att, sub.jobs);
    var live := sub.jobs * att.Keys;
    if live == {} then (q1, att)
    else
      var k := Snap(q1, sub.att + Work(sub.service, delta));
      (Join(q1, k, live), Reassign(att, live, k))
  }

  /** `update`. The source's in-place narrowing of the scheduled set is not
      kept: `schedule` replaces `scheduled` right after every update. */
  function Update(s: State, t: real): (r: State)
    ensures r == Advance(s, Steps(s, t), t)
  {
    Advance(s, Steps(s, t), t)
  }

  /** An update keeps the buckets an exact index of the attained service. */
  lemma AdvanceIndexes(s: State, delta: int, t: real)
    requires Inv(s)
    ensures Indexed(Advance(s, delta, t))
  {
    if s.scheduled.Some? {
      CreditIndexes(s.queue, s.attained, s.scheduled.value, delta);
    }
  }

  /** The served jobs still held leave their bucket and rejoin together at
      their coalesced new key; the index stays exact. */
  lemma CreditIndexes(q: Buckets, att: map<JobId, int>, sub: Sub, delta: int)
    requires Indexes(q, att, att.Keys)
    requires forall j :: j in sub.jobs && j in att ==> att[j] == sub.att
    ensures var c := Credit(q, att, sub, delta);
      Indexes(c.0, c.1, att.Keys)
  {
    var members := att.Keys;
    var q1 := Strip(q, sub.att, sub.jobs);
    StripIndexes(q, att, members, sub.att, sub.jobs);
    var live := sub.jobs * members;
    if live != {} {
      var k := Snap(q1, sub.att + Work(sub.service, delta));
      RejoinIndexes(q1, att, sub.jobs, k);
      assert Credit(q, att, sub, delta) == (Join(q1, k, live), Reassign(att, live, k));
    } else {
      forall j | j in members ensures j !in sub.jobs {
        assert j !in live;
      }
      assert members - sub.jobs == members;
      assert Credit(q, att, sub, delta) == (q1, att);
    }
  }

  /** The jobs of `js` still held, taken out of the index, rejoin it
      together at key `k`. */
  lemma RejoinIndexes(q1: Buckets, att: map<JobId, int>, js: set<JobId>, k: int)
    requires Indexes(q1, att, att.Keys - js)
    requires js * att.Keys != {}
    ensures var live := js * att.Keys;
      Indexes(Join(q1, k, live), Reassign(att, live, k), att.Keys)
  {
    var live := js * att.Keys;
    JoinIndexes(q1, att, att.Keys - js, k, live, Reassign(att, live, k));
    assert (att.Keys - js) + live == att.Keys;
  }

  /** An update credits exactly the served jobs still held, each with the
      steps it worked give or take the one step of coalescing; every other
      job keeps its attained service. */
  lemma AdvanceCreditsServed(s: State, delta: int, t: real)
    requires s.scheduled.Some?
    ensures var sub := s.scheduled.value;
      forall j :: j in s.attained ==>
        if j in sub.jobs then -1 <= Advance(s, delta, t).attained[j] - (sub.att + Work(sub.service, delta)) <= 1
        else Advance(s, delta, t).attained[j] == s.attained[j]
  {
    CreditAttained(s.queue, s.attained, s.scheduled.value, delta);
  }

  /** `Credit` moves exactly the served jobs still held, each to within one
      step of its old key plus the work done. */
  lemma CreditAttained(q: Buckets, att: map<JobId, int>, sub: Sub, delta: int)
    ensures var c := Credit(q, att, sub, delta);
      forall j :: j in att ==>
        if j in sub.jobs then -1 <= c.1[j] - (sub.att + Work(sub.service, delta)) <= 1
        else c.1[j] == att[j]
  {
    var live := sub.jobs * att.Keys;
    if live == {} {
      forall j | j in att ensures j !in sub.jobs {
        assert j !in live;
      }
    } else {
      SnapNeverAdjacent(Strip(q, sub.att, sub.jobs), sub.att + Work(sub.service, delta));
    }
  }

  /** Nothing is credited when nothing was scheduled. */
  lemma AdvanceWithoutSchedule(s: State, delta: int, t: real)
    requires s.scheduled.None?
    ensures Advance(s, delta, t) == s.(lastT := t)
  {
  }

  lemma UpdateIndexes(s: State, t: real)
    requires Inv(s)
    ensures Indexed(Update(s, t))
  {
    AdvanceIndexes(s, Steps(s, t), t);
  }

  /** `enqueue`: the job joins bucket 0 with no attained service; there is
      no update and no coalescing. */
  function Enqueue(s: State, j: JobId): (r: State)
    ensures r.attained == s.attained[j := 0]
    ensures 0 in r.queue && j in r.queue[0]
    ensures forall k :: k in s.queue && k != 0 ==> k in r.queue && r.queue[k] == s.queue[k]
  {
    s.(queue := Join(s.queue, 0, {j}), attained := s.attained[j := 0])
  }

  /** A job never seen before: not held and not among the last served. */
  ghost predicate Fresh(s: State, j: JobId) {
    j !in s.attained && (s.scheduled.Some? ==> j !in s.scheduled.value.jobs)
  }

  lemma EnqueuePreservesInv(s: State, j: JobId)
    requires Inv(s) && Fresh(s, j)
    ensures Inv(Enqueue(s, j))
  {
    JoinIndexes(s.queue, s.attained, s.attained.Keys, 0, {j}, s.attained[j := 0]);
  }

  /** `dequeue`: the job loses its attained service and leaves its bucket.
      Fails when the job is not held, or when its bucket does not hold it. */
  function Dequeue(s: State, j: JobId): (r: Result<State>)
    ensures j !in s.attained ==> r == Err(MissingJob(j))
    ensures r.Ok? ==> j in s.attained && r.value.attained == s.attained - {j}
    ensures r.Ok? ==> Evict(s.queue, s.attained[j], j).Ok? && r.value.queue == Evict(s.queue, s.attained[j], j).value
  {
    if j !in s.attained then Err(MissingJob(j))
    else
      match Evict(s.queue, s.attained[j], j)
      case Err(e) => Err(e)
      case Ok(q) => Ok(s.(queue := q, attained := s.attained - {j}))
  }

  /** With the index exact, dequeuing fails exactly for jobs not held, and
      keeps the index exact. */
  lemma DequeuePreservesInv(s: State, j: JobId)
    requires Inv(s)
    ensures Dequeue(s, j).Ok? <==> j in s.attained
    ensures Dequeue(s, j).Ok? ==> Inv(Dequeue(s, j).value)
  {
    if j in s.attained {
      EvictIndexes(s.queue, s.attained, s.attained.Keys, j);
      assert s.attained.Keys - {j} == (s.attained - {j}).Keys;
    }
  }

  /** The choice of `schedule` after the update: the least bucket shares the
      resource equally and becomes the new `scheduled`; nothing when no job
      is held. An empty bucket would divide by zero. */
  ghost function Pick(u: State): (r: (State, Result<Alloc>))
    ensures u.queue == map[] ==> r == (u.(scheduled := None), Ok(map[]))
    ensures u.queue != map[] ==> (r.1.Ok? <==> u.queue[LeastKey(u.queue)] != {})
    ensures u.queue != map[] && r.1.Ok? ==>
      var k := LeastKey(u.queue);
      && |u.queue[k]| > 0
      && r.1.value == EqualShares(u.queue[k])
      && r.0 == u.(scheduled := Some(Sub(k, 1.0 / |u.queue[k]| as real, u.queue[k])))
  {
    if u.queue == map[] then (u.(scheduled := None), Ok(map[]))
    else
      var k := LeastKey(u.queue);
      var b := u.queue[k];
      if |b| == 0 then (u, Err(EmptyBucket))
      else (u.(scheduled := Some(Sub(k, 1.0 / |b| as real, b))), Ok(EqualShares(b)))
  }

  /** `schedule`: update, then pick. */
  ghost function Schedule(s: State, t: real): (r: (State, Result<Alloc>))
    ensures r == Pick(Update(s, t))
  {
    Pick(Update(s, t))
  }

  /** On an exact index the choice never fails, shares the resource equally
      among jobs that all have the least attained service, serves something
      whenever a job is held, and re-establishes the invariant. */
  lemma PickServesLeastAttained(u: State)
    requires Indexed(u)
    ensures Pick(u).1.Ok?
    ensures Inv(Pick(u).0)
    ensures Pick(u).0.attained == u.attained
    ensures var a := Pick(u).1.value;
      && a == EqualShares(a.Keys)
      && (a == map[] <==> u.attained == map[])
      && a.Keys <= u.attained.Keys
      && forall j, j' :: j in a && j' in u.attained ==> u.attained[j] <= u.attained[j']
  {
    if u.queue != map[] {
      var k := LeastKey(u.queue);
      LeastBucketIsLeastAttained(u.queue, u.attained, u.attained.Keys);
      var x :| x in u.queue[k];
      assert x in u.attained;
    }
  }

  /** `schedule` keeps the invariant and serves the least attained jobs,
      whatever time elapsed. */
  lemma ScheduleServesLeastAttained(s: State, t: real)
    requires Inv(s)
    ensures var (u, res) := Schedule(s, t);
      && res.Ok? && Inv(u)
      && var a := res.value;
      && a == EqualShares(a.Keys)
      && (a == map[] <==> s.attained == map[])
      && a.Keys <= u.attained.Keys
      && forall j, j' :: j in a && j' in u.attained ==> u.attained[j] <= u.attained[j']
  {
    UpdateIndexes(s, t);
    PickServesLeastAttained(Update(s, t));
  }

  /** `next_internal_event`: with at least two buckets, the time until the
      least bucket, served at `1/|b|` per job, reaches the next key. */
  ghost function NextInternal(s: State): (r: Option<real>)
    ensures r.Some? <==> |s.queue| >= 2
  {
    if |s.queue| >= 2 then Some(CatchUp(s.queue, s.eps)) else None
  }

  /** The pick changes only what is remembered as served, which is held;
      and the next merge it leaves lies in the future. */
  lemma PickKeepsJobs(v: State)
    requires Indexed(v)
    ensures var u := Pick(v).0;
      && u == v.(scheduled := u.scheduled)
      && (u.scheduled.Some? ==> u.scheduled.value.jobs <= u.attained.Keys)
      && (NextInternal(u).Some? ==> NextInternal(u).value > 0.0)
  {
    if |v.queue| >= 2 {
      assert v.queue[LeastKey(v.queue)] != {};
    }
  }

  /** `schedule` keeps the jobs held and moves the clock to `t`; what it
      remembers as served is held; and its next merge lies in the future. */
  lemma ScheduleKeepsJobs(s: State, t: real)
    requires Inv(s)
    ensures var u := Schedule(s, t).0;
      && u.attained.Keys == s.attained.Keys && u.lastT == t
      && (u.scheduled.Some? ==> u.scheduled.value.jobs <= u.attained.Keys)
      && (NextInternal(u).Some? ==> NextInternal(u).value > 0.0)
  {
    UpdateIndexes(s, t);
    PickKeepsJobs(Update(s, t));
  }

  /** When a whole bucket was scheduled, the update moves the whole bucket
      to its new key. */
  lemma CreditMovesBucket(q: Buckets, att: map<JobId, int>, sub: Sub, delta: int)
    requires sub.att in q && sub.jobs == q[sub.att] && sub.jobs != {} && sub.jobs <= att.Keys
    ensures var k := Snap(q - {sub.att}, sub.att + Work(sub.service, delta));
      Credit(q, att, sub, delta) == (Join(q - {sub.att}, k, sub.jobs), Reassign(att, sub.jobs, k))
  {
    assert Strip(q, sub.att, sub.jobs) == q - {sub.att};
    assert sub.jobs * att.Keys == sub.jobs;
    var x :| x in sub.jobs;
  }

  /** Bucket `k0` of `q` has merged into bucket `k1` in `u`: `k0` is gone,
      `k1` holds the jobs of both, and every job of `k0` is recorded at
      `k1`. */
  ghost predicate MergedInto(q: Buckets, u: State, k0: int, k1: int)
    requires k0 in q && k1 in q
  {
    && k0 !in u.queue && k1 in u.queue
    && u.queue[k1] == q[k0] + q[k1]
    && forall j :: j in q[k0] ==> j in u.attained && u.attained[j] == k1
  }

  /** A whole scheduled bucket of held jobs credited exactly the distance to
      another key joins that key's bucket. */
  lemma AdvanceReachesKey(s: State, delta: int, t: real, k1: int)
    requires s.scheduled.Some?
    requires var sub := s.scheduled.value;
      && sub.att in s.queue && sub.jobs == s.queue[sub.att]
      && sub.jobs != {} && sub.jobs <= s.attained.Keys
      && k1 in s.queue && k1 != sub.att && sub.att + Work(sub.service, delta) == k1
    ensures MergedInto(s.queue, Advance(s, delta, t), s.scheduled.value.att, k1)
  {
    CreditReachesKey(s.queue, s.attained, s.scheduled.value, delta, k1);
  }

  /** Crediting a whole bucket exactly the distance to another key merges
      the two buckets. */
  lemma CreditReachesKey(q: Buckets, att: map<JobId, int>, sub: Sub, delta: int, k1: int)
    requires sub.att in q && sub.jobs == q[sub.att] && sub.jobs != {} && sub.jobs <= att.Keys
    requires k1 in q && k1 != sub.att && sub.att + Work(sub.service, delta) == k1
    ensures var c := Credit(q, att, sub, delta);
      && sub.att !in c.0 && k1 in c.0 && c.0[k1] == q[sub.att] + q[k1]
      && forall j :: j in q[sub.att] ==> j in c.1 && c.1[j] == k1
  {
    CreditMovesBucket(q, att, sub, delta);
    assert k1 in q - {sub.att};
  }

  /** The prediction is exact: when the least bucket `k0` was just
      scheduled, the update at the predicted instant credits each of its jobs
      exactly the gap to the next key `k1`, so the two buckets merge. */
  lemma NextInternalMerges(s: State, k0: int, k1: int)
    requires Inv(s) && |s.queue| >= 2
    requires k0 == LeastKey(s.queue) && k1 == SecondKey(s.queue)
    requires s.scheduled == Some(Sub(k0, 1.0 / |s.queue[k0]| as real, s.queue[k0]))
    ensures MergedInto(s.queue, Update(s, s.lastT + NextInternal(s).value), k0, k1)
  {
    assert s.queue[k0] != {} && s.queue[k0] <= s.attained.Keys;
    MergeAtPrediction(s, k0, k1);
  }

  /** The merge at the predicted instant, for a least bucket of held jobs. */
  lemma MergeAtPrediction(s: State, k0: int, k1: int)
    requires |s.queue| >= 2 && k0 == LeastKey(s.queue) && k1 == SecondKey(s.queue)
    requires s.queue[k0] != {} && s.queue[k0] <= s.attained.Keys
    requires s.scheduled == Some(Sub(k0, 1.0 / |s.queue[k0]| as real, s.queue[k0]))
    ensures MergedInto(s.queue, Update(s, s.lastT + NextInternal(s).value), k0, k1)
  {
    var gap := k1 - k0;
    var n := |s.queue[k0]|;
    assert n >= 1 by { var x :| x in s.queue[k0]; }
    var t := s.lastT + NextInternal(s).value;
    PredictionIsGap(s, k0, k1, gap, n);
    StepsAtPrediction(s, NextInternal(s).value, gap, n);
    WorkAtPrediction(gap, n);
    AdvanceReachesKey(s, gap * n, t, k1);
  }

  lemma PredictionIsGap(s: State, k0: int, k1: int, gap: int, n: nat)
    requires |s.queue| >= 2 && k0 == LeastKey(s.queue) && k1 == SecondKey(s.queue)
    requires gap == k1 - k0 && n == |s.queue[k0]|
    ensures NextInternal(s).Some? && NextInternal(s).value == gap as real * n as real * s.eps
  {
    CatchUpOf(s.queue, s.eps, k0, k1);
  }

  lemma StepsAtPrediction(s: State, o: real, gap: int, n: nat)
    requires o == gap as real * n as real * s.eps
    ensures Steps(s, s.lastT + o) == gap * n
  {
    var m := gap as real * n as real;
    var x := s.lastT + o - s.lastT;
    assert x == m * s.eps;
    assert x / s.eps == m;
    assert m == (gap * n) as real;
    CeilOfInt(gap * n);
  }

  lemma WorkAtPrediction(gap: int, n: nat)
    requires n >= 1
    ensures Work(1.0 / n as real, gap * n) == gap
  {
    var r := 1.0 / n as real;
    assert r * n as real == 1.0;
    assert (gap * n) as real == gap as real * n as real;
    assert r * (gap as real * n as real) == gap as real * (r * n as real);
    CeilOfInt(gap);
  }
}

=== FILE: policy.dfy ===
/** The nine scheduler classes of schedulers.py behind the one interface the
    simulator calls: `enqueue(t, jobid, size)`, `dequeue(t, jobid)`,
    `schedule(t)` and `next_internal_event()`. Each constructor holds the
    state of one class; every call goes to that class's model. */
module Policies {
  import opened Base
  import opened Allocation
  import opened EntryQueue
  import ProcessorSharing
  import Fifo
  import Srpt
  import SrptPs
  import Fsp
  import Las
  import SrptLas
  import FspLas

  datatype Policy =
    | PS(ps: ProcessorSharing.State)
    | FIFO(fifo: Fifo.State)
    | SRPT(srpt: Srpt.State)
    | SRPTPlusPS(srptPs: SrptPs.State)
    | FSP(fsp: Fsp.State)
    | FSPPlusPS(fspPs: Fsp.State)
    | LAS(las: Las.State)
    | SRPTPlusLAS(srptLas: SrptLas.State)
    | FSPPlusLAS(fspLas: FspLas.State)

  /** A scheduler as its constructor leaves it, for some positive `eps`. */
  predicate Initial(p: Policy) {
    match p
    case PS(s) => s == ProcessorSharing.Init()
    case FIFO(s) => s == Fifo.Init()
    case SRPT(s) => s == Srpt.Init()
    case SRPTPlusPS(s) => s == SrptPs.Init(s.eps)
    case FSP(s) => s == Fsp.Init(s.eps)
    case FSPPlusPS(s) => s == Fsp.Init(s.eps)
    case LAS(s) => s == Las.Init(s.eps)
    case SRPTPlusLAS(s) => s == SrptLas.Init(s.eps)
    case FSPPlusLAS(s) => s == FspLas.Init(s.eps)
  }

  /** The jobs the scheduler currently holds: enqueued and not yet
      dequeued. */
  function Tracked(p: Policy): set<JobId> {
    match p
    case PS(s) => s.running
    case FIFO(s) => Fifo.Waiting(s)
    case SRPT(s) => Ids(s.jobs)
    case SRPTPlusPS(s) => SrptPs.Tracked(s)
    case FSP(s) => s.running
    case FSPPlusPS(s) => s.running
    case LAS(s) => s.attained.Keys
    case SRPTPlusLAS(s) => SrptLas.Tracked(s)
    case FSPPlusLAS(s) => s.running
  }

  /** Every job the scheduler still remembers, held or not: FSP keeps
      dequeued jobs in its virtual queue, LAS in what it last served, FSP+LAS
      in its attained-service table. A job enqueued again while remembered
      would corrupt these tables. */
  function Known(p: Policy): set<JobId> {
    match p
    case FSP(s) => s.running + Ids(s.queue)
    case FSPPlusPS(s) => s.running + Ids(s.queue)
    case LAS(s) => s.attained.Keys + (if s.scheduled.Some? then s.scheduled.value.jobs else {})
    case FSPPlusLAS(s) => s.running + s.attained.Keys
    case _ => Tracked(p)
  }

  /** The time of the last update, for the classes that keep one. */
  function Clock(p: Policy): Option<real> {
    match p
    case PS(_) => None
    case FIFO(_) => None
    case SRPT(s) => Some(s.lastT)
    case SRPTPlusPS(s) => Some(s.lastT)
    case FSP(s) => Some(s.lastT)
    case FSPPlusPS(s) => Some(s.lastT)
    case LAS(s) => Some(s.lastT)
    case SRPTPlusLAS(s) => Some(s.lastT)
    case FSPPlusLAS(s) => Some(s.lastT)
  }

  /** The scheduler may be called at `t`: its clock is not past `t`. */
  predicate Ready(p: Policy, t: real) {
    Clock(p).None? || Clock(p).value <= t
  }

  /** Each class's own invariant; SRPT+LAS also keeps its estimates
      non-negative. */
  ghost predicate Inv(p: Policy) {
    match p
    case PS(_) => true
    case FIFO(s) => NoDuplicates(s.jobs)
    case SRPT(s) => Srpt.Inv(s)
    case SRPTPlusPS(s) => SrptPs.Inv(s)
    case FSP(s) => Fsp.Inv(s)
    case FSPPlusPS(s) => Fsp.Inv(s)
    case LAS(s) => Las.Inv(s)
    case SRPTPlusLAS(s) => SrptLas.Inv(s) && SrptLas.NonNegative(s)
    case FSPPlusLAS(s) => FspLas.Inv(s)
  }

  /** `enqueue(t, jobid, size)`. Only FSP+LAS can fail, in its update. */
  ghost function Enqueue(p: Policy, t: real, j: JobId, size: real): (r: Result<Policy>)
    ensures r.Err? ==> p.FSPPlusLAS?
  {
    match p
    case PS(s) => Ok(PS(ProcessorSharing.Enqueue(s, j)))
    case FIFO(s) => Ok(FIFO(Fifo.Enqueue(s, j)))
    case SRPT(s) => Ok(SRPT(Srpt.Enqueue(s, t, j, size)))
    case SRPTPlusPS(s) => Ok(SRPTPlusPS(SrptPs.Enqueue(s, t, j, size)))
    case FSP(s) => Ok(FSP(Fsp.Enqueue(s, t, j, size)))
    case FSPPlusPS(s) => Ok(FSPPlusPS(Fsp.Enqueue(s, t, j, size)))
    case LAS(s) => Ok(LAS(Las.Enqueue(s, j)))
    case SRPTPlusLAS(s) => Ok(SRPTPlusLAS(SrptLas.Enqueue(s, j, size)))
    case FSPPlusLAS(s) =>
      match FspLas.Enqueue(s, t, j, size)
      case Err(e) => Err(e)
      case Ok(s') => Ok(FSPPlusLAS(s'))
  }

  /** `dequeue(t, jobid)`. Dequeuing a job the scheduler does not hold
      fails, whatever the class. */
  ghost function Dequeue(p: Policy, t: real, j: JobId): (r: Result<Policy>)
  {
    match p
    case PS(s) =>
      (match ProcessorSharing.Dequeue(s, j)
       case Err(e) => Err(e)
       case Ok(s') => Ok(PS(s')))
    case FIFO(s) =>
      (match Fifo.Dequeue(s, j)
       case Err(e) => Err(e)
       case Ok(s') => Ok(FIFO(s')))
    case SRPT(s) =>
      (match Srpt.Dequeue(s, t, j)
       case Err(e) => Err(e)
       case Ok(s') => Ok(SRPT(s')))
    case SRPTPlusPS(s) =>
      (match SrptPs.Dequeue(s, t, j)
       case Err(e) => Err(e)
       case Ok(s') => Ok(SRPTPlusPS(s')))
    case FSP(s) =>
      (match Fsp.Dequeue(s, j)
       case Err(e) => Err(e)
       case Ok(s') => Ok(FSP(s')))
    case FSPPlusPS(s) =>
      (match Fsp.Dequeue(s, j)
       case Err(e) => Err(e)
       case Ok(s') => Ok(FSPPlusPS(s')))
    case LAS(s) =>
      (match Las.Dequeue(s, j)
       case Err(e) => Err(e)
       case Ok(s') => Ok(LAS(s')))
    case SRPTPlusLAS(s) =>
      (match SrptLas.Dequeue(s, j)
       case Err(e) => Err(e)
       case Ok(s') => Ok(SRPTPlusLAS(s')))
    case FSPPlusLAS(s) =>
      (match FspLas.Dequeue(s, j)
       case Err(e) => Err(e)
       case Ok(s') => Ok(FSPPlusLAS(s')))
  }

  /** `schedule(t)`: the scheduler after the call, and the allocation. The
      classes that never fail here are PS, FIFO, SRPT and SRPT+PS. */
  ghost function Schedule(p: Policy, t: real): (r: Result<(Policy, Alloc)>)
    ensures p.PS? || p.FIFO? || p.SRPT? || p.SRPTPlusPS? ==> r.Ok?
  {
    match p
    case PS(s) => Ok((p, ProcessorSharing.Schedule(s)))
    case FIFO(s) => Ok((p, Fifo.Schedule(s)))
    case SRPT(s) =>
      var (u, a) := Srpt.Schedule(s, t);
      Ok((SRPT(u), a))
    case SRPTPlusPS(s) =>
      var (u, a) := SrptPs.Schedule(s, t);
      Ok((SRPTPlusPS(u), a))
    case FSP(s) =>
      var (u, res) := Fsp.Schedule(s, t);
      (match res
       case Err(e) => Err(e)
       case Ok(a) => Ok((FSP(u), a)))
    case FSPPlusPS(s) =>
      var (u, res) := Fsp.SchedulePs(s, t);
      (match res
       case Err(e) => Err(e)
       case Ok(a) => Ok((FSPPlusPS(u), a)))
    case LAS(s) =>
      var (u, res) := Las.Schedule(s, t);
      (match res
       case Err(e) => Err(e)
       case Ok(a) => Ok((LAS(u), a)))
    case SRPTPlusLAS(s) =>
      (match SrptLas.Schedule(s, t)
       case Err(e) => Err(e)
       case Ok((u, a)) => Ok((SRPTPlusLAS(u), a)))
    case FSPPlusLAS(s) =>
      (match FspLas.Schedule(s, t)
       case Err(e) => Err(e)
       case Ok((u, a)) => Ok((FSPPlusLAS(u), a)))
  }

  /** `next_internal_event()`: the base class answers `None`, which PS, FIFO
      and SRPT inherit. */
  ghost function NextInternal(p: Policy): (r: Option<real>)
    ensures p.PS? || p.FIFO? || p.SRPT? ==> r.None?
  {
    match p
    case PS(_) => None
    case FIFO(_) => None
    case SRPT(_) => None
    case SRPTPlusPS(s) => SrptPs.NextInternal(s)
    case FSP(s) => Fsp.NextInternal(s)
    case FSPPlusPS(s) => Fsp.NextInternal(s)
    case LAS(s) => Las.NextInternal(s)
    case SRPTPlusLAS(s) => SrptLas.NextInternal(s)
    case FSPPlusLAS(s) => FspLas.NextInternal(s)
  }

  /** The guarantee `schedule` gives the simulator: the jobs named share the
      resource equally, all of them are held, and something is served
      whenever a job is held. */
  predicate Serves(a: Alloc, held: set<JobId>) {
    && a == EqualShares(a.Keys) && a.Keys <= held
    && (a == map[] <==> held == {})
  }

  /** The next internal event, if any, is not in the past. */
  ghost predicate Prompt(p: Policy) {
    NextInternal(p).None? || NextInternal(p).value >= 0.0
  }

  /** A freshly constructed scheduler holds and remembers nothing, keeps
      its invariant, may be called from time 0, and predicts nothing. */
  lemma InitialIsIdle(p: Policy)
    requires Initial(p)
    ensures Inv(p) && Ready(p, 0.0)
    ensures Tracked(p) == {} && Known(p) == {}
    ensures NextInternal(p) == None
  {
  }

  /** Everything the scheduler holds, it remembers. */
  lemma KnownCoversTracked(p: Policy)
    ensures Tracked(p) <= Known(p)
  {
  }

  /** What the simulator relies on from `schedule(t)`: the call succeeds,
      keeps the invariant, moves the clock to `t` at most, holds and
      remembers no new job, serves the held jobs as `Serves` says, and leaves
      no internal event in the past. */
  ghost predicate ScheduledWell(p: Policy, t: real, r: Result<(Policy, Alloc)>) {
    && r.Ok?
    && Inv(r.value.0) && Ready(r.value.0, t)
    && Tracked(r.value.0) == Tracked(p) && Known(r.value.0) <= Known(p)
    && Serves(r.value.1, Tracked(p)) && Prompt(r.value.0)
  }

  lemma ScheduleContract(p: Policy, t: real)
    requires Inv(p) && Ready(p, t)
    ensures ScheduledWell(p, t, Schedule(p, t))
  {
    match p
    case PS(s) =>
    case FIFO(s) =>
      if s.jobs != [] {
        AloneIsEqualShares(s.jobs[0]);
      }
    case SRPT(s) => ScheduleSrpt(s, t);
    case SRPTPlusPS(s) => ScheduleSrptPs(s, t);
    case FSP(s) => ScheduleFsp(s, t);
    case FSPPlusPS(s) => ScheduleFspPs(s, t);
    case LAS(s) => ScheduleLas(s, t);
    case SRPTPlusLAS(s) => ScheduleSrptLas(s, t);
    case FSPPlusLAS(s) => ScheduleFspLas(s, t);
  }

  lemma ScheduleSrpt(s: Srpt.State, t: real)
    requires Srpt.Inv(s) && s.lastT <= t
    ensures ScheduledWell(SRPT(s), t, Schedule(SRPT(s), t))
  {
    Srpt.UpdatePreservesInv(s, t);
    var u := Srpt.Update(s, t);
    if u.jobs != [] {
      AloneIsEqualShares(u.jobs[0].id);
      assert u.jobs[0].id in Ids(u.jobs);
    }
  }

  lemma ScheduleSrptPs(s: SrptPs.State, t: real)
    requires SrptPs.Inv(s) && s.lastT <= t
    ensures ScheduledWell(SRPTPlusPS(s), t, Schedule(SRPTPlusPS(s), t))
  {
    var (u, a) := SrptPs.Schedule(s, t);
    SrptPs.ScheduleServesHeld(s, t);
    assert Schedule(SRPTPlusPS(s), t) == Ok((SRPTPlusPS(u), a));
    SrptPsPicksWell(s, u, a, t);
  }

  /** The SRPT+PS allocation after an update that kept the jobs held. */
  lemma SrptPsPicksWell(s: SrptPs.State, u: SrptPs.State, a: Alloc, t: real)
    requires SrptPs.Inv(u) && SrptPs.Tracked(u) == SrptPs.Tracked(s) && u.lastT == t
    requires Serves(a, SrptPs.Tracked(s))
    requires SrptPs.NextInternal(u).Some? ==> SrptPs.NextInternal(u).value > 0.0
    ensures ScheduledWell(SRPTPlusPS(s), t, Ok((SRPTPlusPS(u), a)))
  {
  }

  lemma ScheduleFsp(s: Fsp.State, t: real)
    requires Fsp.Inv(s) && s.lastT <= t
    ensures ScheduledWell(FSP(s), t, Schedule(FSP(s), t))
  {
    var u := Fsp.Update(s, t);
    Fsp.UpdatePreservesInv(s, t);
    Fsp.UpdateShrinksQueue(s, t);
    Fsp.NextInternalAfterUpdate(s, t);
    FspPickServes(u);
    assert Schedule(FSP(s), t) == Ok((FSP(u), Fsp.Pick(u).value));
    FspPicksWell(s, u, t, false);
  }

  lemma ScheduleFspPs(s: Fsp.State, t: real)
    requires Fsp.Inv(s) && s.lastT <= t
    ensures ScheduledWell(FSPPlusPS(s), t, Schedule(FSPPlusPS(s), t))
  {
    var u := Fsp.Update(s, t);
    Fsp.UpdatePreservesInv(s, t);
    Fsp.UpdateShrinksQueue(s, t);
    Fsp.NextInternalAfterUpdate(s, t);
    FspPsPickServes(u);
    assert Schedule(FSPPlusPS(s), t) == Ok((FSPPlusPS(u), Fsp.PickPs(u).value));
    FspPicksWell(s, u, t, true);
  }

  /** FSP and FSP+PS after an update that kept the running jobs and only
      took jobs out of the virtual queue. */
  lemma FspPicksWell(s: Fsp.State, u: Fsp.State, t: real, shared: bool)
    requires Fsp.Inv(u) && u.running == s.running && Ids(u.queue) <= Ids(s.queue) && u.lastT == t
    requires Fsp.NextInternal(u).Some? ==> Fsp.NextInternal(u).value > 0.0
    requires !shared ==> Fsp.Pick(u).Ok? && Serves(Fsp.Pick(u).value, u.running)
    requires shared ==> Fsp.PickPs(u).Ok? && Serves(Fsp.PickPs(u).value, u.running)
    ensures !shared ==> ScheduledWell(FSP(s), t, Ok((FSP(u), Fsp.Pick(u).value)))
    ensures shared ==> ScheduledWell(FSPPlusPS(s), t, Ok((FSPPlusPS(u), Fsp.PickPs(u).value)))
  {
  }

  /** FSP's pick serves one running job alone, and one whenever a job
      runs. */
  lemma FspPickServes(u: Fsp.State)
    requires Fsp.Inv(u)
    ensures Fsp.Pick(u).Ok? && Serves(Fsp.Pick(u).value, u.running)
  {
    Fsp.PickServesFirstVirtual(u);
    var a := Fsp.Pick(u).value;
    if u.late != [] {
      AloneIsEqualShares(u.late[0]);
    } else if u.running != {} {
      var e :| e in u.queue && e.id in u.running && a == map[e.id := 1.0];
      AloneIsEqualShares(e.id);
    }
  }

  /** FSP+PS's pick: all late jobs share equally, otherwise as FSP. */
  lemma FspPsPickServes(u: Fsp.State)
    requires Fsp.Inv(u)
    ensures Fsp.PickPs(u).Ok? && Serves(Fsp.PickPs(u).value, u.running)
  {
    if u.late != [] {
      var a := Fsp.PickPs(u).value;
      SharesDetermined(a, Fsp.LateSet(u));
      assert u.late[0] in a;
    } else {
      FspPickServes(u);
    }
  }

  lemma ScheduleLas(s: Las.State, t: real)
    requires Las.Inv(s) && s.lastT <= t
    ensures ScheduledWell(LAS(s), t, Schedule(LAS(s), t))
  {
    Las.ScheduleServesLeastAttained(s, t);
    Las.ScheduleKeepsJobs(s, t);
  }

  lemma ScheduleSrptLas(s: SrptLas.State, t: real)
    requires SrptLas.Inv(s) && SrptLas.NonNegative(s) && s.lastT <= t
    ensures ScheduledWell(SRPTPlusLAS(s), t, Schedule(SRPTPlusLAS(s), t))
  {
    SrptLas.ScheduleServesHeld(s, t);
  }

  lemma ScheduleFspLas(s: FspLas.State, t: real)
    requires FspLas.Inv(s) && s.lastT <= t
    ensures ScheduledWell(FSPPlusLAS(s), t, Schedule(FSPPlusLAS(s), t))
  {
    FspLas.ScheduleServesRunning(s, t);
  }

  /** What the simulator relies on from `enqueue(t, jobid, size)` of a job
      the scheduler never saw: the call succeeds, keeps the invariant,
      moves the clock to `t` at most, and the job joins the held jobs. */
  ghost predicate EnqueuedWell(p: Policy, t: real, j: JobId, r: Result<Policy>) {
    && r.Ok? && Inv(r.value) && Ready(r.value, t)
    && Tracked(r.value) == Tracked(p) + {j} && Known(r.value) <= Known(p) + {j}
  }

  lemma EnqueueContract(p: Policy, t: real, j: JobId, size: real)
    requires Inv(p) && Ready(p, t) && j !in Known(p) && size >= 0.0
    ensures EnqueuedWell(p, t, j, Enqueue(p, t, j, size))
  {
    match p
    case PS(s) =>
    case FIFO(s) => Fifo.EnqueueAddsJob(s, j);
    case SRPT(s) => Srpt.EnqueuePreservesInv(s, t, j, size);
    case SRPTPlusPS(s) => EnqueueSrptPs(s, t, j, size);
    case FSP(s) => EnqueueFsp(s, t, j, size, false);
    case FSPPlusPS(s) => EnqueueFsp(s, t, j, size, true);
    case LAS(s) => Las.EnqueuePreservesInv(s, j);
    case SRPTPlusLAS(s) =>
      SrptLas.EnqueuePreservesInv(s, j, size);
      SrptLas.EnqueueKeepsNonNegative(s, j, size);
    case FSPPlusLAS(s) => EnqueueFspLas(s, t, j, size);
  }

  lemma EnqueueSrptPs(s: SrptPs.State, t: real, j: JobId, size: real)
    requires SrptPs.Inv(s) && s.lastT <= t && j !in SrptPs.Tracked(s)
    ensures EnqueuedWell(SRPTPlusPS(s), t, j, Enqueue(SRPTPlusPS(s), t, j, size))
  {
    var u := SrptPs.Update(s, t);
    SrptPs.UpdateMovesExhaustedToLate(s, t);
    assert Enqueue(SRPTPlusPS(s), t, j, size) == Ok(SRPTPlusPS(SrptPs.Push(u, j, size)));
    SrptPsPushWell(s, u, t, j, size);
  }

  /** The SRPT+PS push after an update that kept the jobs held. */
  lemma SrptPsPushWell(s: SrptPs.State, u: SrptPs.State, t: real, j: JobId, size: real)
    requires SrptPs.Inv(u) && SrptPs.Tracked(u) == SrptPs.Tracked(s) && u.lastT == t
    requires j !in SrptPs.Tracked(s)
    ensures EnqueuedWell(SRPTPlusPS(s), t, j, Ok(SRPTPlusPS(SrptPs.Push(u, j, size))))
  {
    SrptPs.PushPreservesInv(u, j, size);
  }

  lemma EnqueueFsp(s: Fsp.State, t: real, j: JobId, size: real, shared: bool)
    requires Fsp.Inv(s) && s.lastT <= t && j !in s.running && j !in Ids(s.queue)
    ensures !shared ==> EnqueuedWell(FSP(s), t, j, Enqueue(FSP(s), t, j, size))
    ensures shared ==> EnqueuedWell(FSPPlusPS(s), t, j, Enqueue(FSPPlusPS(s), t, j, size))
  {
    Fsp.EnqueuePreservesInv(s, t, j, size);
    var u := Fsp.Update(s, t);
    Fsp.UpdateShrinksQueue(s, t);
    InsertIds(u.queue, Entry(size, j));
    assert Fsp.Enqueue(s, t, j, size) == u.(queue := Insert(u.queue, Entry(size, j)), running := u.running + {j});
  }

  lemma EnqueueFspLas(s: FspLas.State, t: real, j: JobId, size: real)
    requires FspLas.Inv(s) && s.lastT <= t && j !in s.attained
    ensures EnqueuedWell(FSPPlusLAS(s), t, j, Enqueue(FSPPlusLAS(s), t, j, size))
  {
    FspLas.EnqueuePreservesInv(s, t, j, size);
    FspLas.UpdatePreservesInv(s, t);
    var u := FspLas.Update(s, t).value;
    var r := FspLas.Enqueue(s, t, j, size).value;
    assert r.lastT == u.lastT == t;
    assert r.running == s.running + {j};
    assert r.attained.Keys == s.attained.Keys + {j};
    assert Enqueue(FSPPlusLAS(s), t, j, size) == Ok(FSPPlusLAS(r));
  }

  /** What the simulator relies on from `dequeue(t, jobid)` of a held job:
      the call keeps the invariant, moves the clock to `t` at most, and
      only that job leaves. */
  ghost predicate DequeuedWell(p: Policy, t: real, j: JobId, r: Result<Policy>) {
    && r.Ok? && Inv(r.value) && Ready(r.value, t)
    && Tracked(r.value) == Tracked(p) - {j} && Known(r.value) <= Known(p)
  }

  /** Dequeuing succeeds exactly for the jobs held, and then does what the
      simulator relies on. */
  lemma DequeueContract(p: Policy, t: real, j: JobId)
    requires Inv(p) && Ready(p, t)
    ensures Dequeue(p, t, j).Ok? <==> j in Tracked(p)
    ensures j in Tracked(p) ==> DequeuedWell(p, t, j, Dequeue(p, t, j))
  {
    match p
    case PS(s) =>
    case FIFO(s) => Fifo.DequeueRemovesJob(s, j);
    case SRPT(s) =>
      if j in Ids(s.jobs) {
        Srpt.DequeuePreservesInv(s, t, j);
      }
    case SRPTPlusPS(s) =>
      if j in SrptPs.Tracked(s) {
        DequeueSrptPs(s, t, j);
      }
    case FSP(s) =>
      if j in s.running {
        Fsp.DequeuePreservesInv(s, j);
      }
    case FSPPlusPS(s) =>
      if j in s.running {
        Fsp.DequeuePreservesInv(s, j);
      }
    case LAS(s) => Las.DequeuePreservesInv(s, j);
    case SRPTPlusLAS(s) =>
      SrptLas.DequeuePreservesInv(s, j);
      SrptLas.DequeueKeepsNonNegative(s, j);
    case FSPPlusLAS(s) => FspLas.DequeuePreservesInv(s, j);
  }

  lemma DequeueSrptPs(s: SrptPs.State, t: real, j: JobId)
    requires SrptPs.Inv(s) && s.lastT <= t && j in SrptPs.Tracked(s)
    ensures DequeuedWell(SRPTPlusPS(s), t, j, Dequeue(SRPTPlusPS(s), t, j))
  {
    var u := SrptPs.Update(s, t);
    SrptPs.UpdateMovesExhaustedToLate(s, t);
    SrptPsRemoveWell(s, u, t, j);
    var r := SrptPs.Dequeue(s, t, j);
    assert r == SrptPs.Remove(u, j);
    assert Dequeue(SRPTPlusPS(s), t, j) == Ok(SRPTPlusPS(r.value));
    assert DequeuedWell(SRPTPlusPS(s), t, j, Ok(SRPTPlusPS(r.value)));
  }

  /** The SRPT+PS removal after an update that kept the jobs held. */
  lemma SrptPsRemoveWell(s: SrptPs.State, u: SrptPs.State, t: real, j: JobId)
    requires SrptPs.Inv(u) && SrptPs.Tracked(u) == SrptPs.Tracked(s) && u.lastT == t
    requires j in SrptPs.Tracked(s)
    ensures SrptPs.Remove(u, j).Ok?
    ensures DequeuedWell(SRPTPlusPS(s), t, j, Ok(SRPTPlusPS(SrptPs.Remove(u, j).value)))
  {
    SrptPs.RemovePreservesInv(u, j);
  }
}

=== FILE: ps.dfy ===
/** Processor sharing (schedulers.py, class `PS`): every admitted job gets an
    equal share of the resource. */
module ProcessorSharing {
  import opened Base
  import opened Allocation

  datatype State = State(running: set<JobId>)

  function Init(): State {
    State({})
  }

  /** `enqueue`: the job is added to the running set (a second enqueue of the
      same job changes nothing). */
  function Enqueue(s: State, j: JobId): (r: State)
    ensures r.running == s.running + {j}
  {
    State(s.running + {j})
  }

  /** `dequeue`: fails exactly when the job is not running; otherwise only
      that job leaves. */
  function Dequeue(s: State, j: JobId): (r: Result<State>)
    ensures r.Ok? <==> j in s.running
    ensures r.Ok? ==> r.value.running == s.running - {j}
    ensures r.Err? ==> r.error == MissingJob(j)
  {
    if j in s.running then Ok(State(s.running - {j})) else Err(MissingJob(j))
  }

  /** `schedule`: share `1/n` to each of the `n` running jobs, `{}` when
      there are none. */
  function Schedule(s: State): (a: Alloc)
    ensures a.Keys == s.running
    ensures forall j :: j in a ==> a[j] * |s.running| as real == 1.0
  {
    EqualShares(s.running)
  }

  /** The shares hand out the whole resource whenever a job is running. */
  lemma ScheduleUsesWholeResource(s: State)
    requires s.running != {}
    ensures Total(Schedule(s)) == 1.0
    ensures ValidShares(Schedule(s))
  {
    TotalOfEqualShares(s.running);
    EqualSharesValid(s.running);
  }

  /** Enqueue and dequeue of a new job are inverse to each other. */
  lemma DequeueUndoesEnqueue(s: State, j: JobId)
    requires j !in s.running
    ensures Dequeue(Enqueue(s, j), j) == Ok(s)
  {
  }
}

=== FILE: scenarios.dfy ===
/** Example runs of the repository's unit tests (test.py), worked out
    on the model: for each, the states the simulator loop passes through,
    one lemma per iteration, and the completions the whole run yields, each
    with no work left. The tests' ids `job1`, `job2`, ... are the ids 1, 2,
    ... here (their order is the same); each run is given the number of
    iterations it takes as fuel. */
module Scenarios {
  import opened Base
  import opened Allocation
  import opened Events
  import opened Estimators
  import opened Simulator
  import opened EntryQueue
  import Policies
  import ProcessorSharing
  import Fifo
  import Srpt
  import Fsp

  // ---------------------------------------------------------------------
  // One iteration, stage by stage
  // ---------------------------------------------------------------------

  /** An iteration that succeeds hands the run on to the state it leads to. */
  lemma Unroll(st: Sim, fuel: nat, rem: map<JobId, real>, next: Sim)
    requires st.events != [] && fuel > 0
    requires DebitSince(st) == Ok(rem) && After(st, rem) == Next(next)
    ensures Run(st, fuel) == Run(next, fuel - 1)
  {
    assert Run(st, fuel) == Iteration(st, fuel) == Resume(st, rem, fuel);
  }

  /** One iteration broken into its stages: the head `ev` is popped and the
      work since `last_t` debited, the event handled, the scheduler asked
      for its allocation, and the speculative INTERNAL and COMPLETE events
      pushed. */
  lemma Transition(st: Sim, fuel: nat, ev: Event, rest: seq<Event>, rem: map<JobId, real>,
                   handled: Sim, p: Policies.Policy, a: Alloc, q: seq<Event>, next: Sim)
    requires fuel > 0 && st.events == [ev] + rest
    requires DebitSince(st) == Ok(rem)
    requires Handle(st.(events := rest, remaining := rem), ev) == Next(handled)
    requires Policies.Schedule(handled.policy, ev.time) == Ok((p, a))
    requires PushComplete(PushInternal(handled.events, p, ev.time), handled.remaining, a, ev.time) == Ok(q)
    requires next == handled.(events := q, schedule := a, policy := p, lastT := ev.time)
    ensures Run(st, fuel) == Run(next, fuel - 1)
  {
    assert st.events[0] == ev && st.events[1..] == rest;
    Unroll(st, fuel, rem, next);
  }

  /** An arrival records the job's size and enqueues its estimate. */
  lemma Arrive(st: Sim, t: real, j: JobId, size: real, x: real, est: Estimator, p: Policies.Policy)
    requires Estimate(st.estimator, size) == Ok((x, est))
    requires Policies.Enqueue(st.policy, t, j, x) == Ok(p)
    ensures Handle(st, Arrival(t, j, size))
         == Next(st.(remaining := st.remaining[j := size], policy := p, estimator := est))
  {
  }

  /** A completion yields the job with the work it has left, forgets it and
      dequeues it. */
  lemma Leave(st: Sim, t: real, j: JobId, p: Policies.Policy)
    requires j in st.remaining && Policies.Dequeue(st.policy, t, j) == Ok(p)
    ensures Handle(st, Complete(t, j))
         == Next(st.(remaining := st.remaining - {j}, policy := p,
                     out := st.out + [Completion(t, j, Some(st.remaining[j]))]))
  {
  }

  /** The run ends when the heap and the work are both exhausted. */
  lemma Over(st: Sim, fuel: nat)
    requires st.events == [] && st.remaining == map[]
    ensures Run(st, fuel) == Done(st.out)
  {
  }

  // ---------------------------------------------------------------------
  // Debits and completion times of small schedules
  // ---------------------------------------------------------------------

  /** The only order in which a one-job schedule can be walked. */
  lemma EnumerateOne(j: JobId)
    ensures Enumerate({j}) == [j]
    ensures Enumerate(map[j := 1.0].Keys) == [j]
  {
    assert {j} - {j} == {};
    assert map[j := 1.0].Keys == {j};
  }

  /** Under an empty schedule no job is charged. */
  lemma DebitIdle(st: Sim)
    requires st.events != [] && st.schedule == map[]
    ensures DebitSince(st) == Ok(st.remaining)
  {
    assert st.schedule.Keys == {};
  }

  /** A job served alone is charged all the time elapsed. */
  lemma DebitAlone(st: Sim, j: JobId)
    requires st.events != [] && st.schedule == map[j := 1.0] && j in st.remaining
    ensures DebitSince(st) == Ok(st.remaining[j := st.remaining[j] - (st.events[0].time - st.lastT)])
  {
    var d := st.events[0].time - st.lastT;
    EnumerateOne(j);
    assert Enumerate(st.schedule.Keys) == [j] && [j][1..] == [];
    assert Work(d, 1.0) == d;
    var r := st.remaining[j := st.remaining[j] - d];
    assert Debit(r, st.schedule, d, []) == Ok(r);
  }

  /** Two jobs in the schedule are each charged their own share, in
      whichever order the schedule is walked. */
  lemma DebitPair(rem: map<JobId, real>, a: Alloc, d: real, i: JobId, j: JobId, rem': map<JobId, real>)
    requires i != j && a.Keys == {i, j} && rem.Keys == {i, j}
    requires rem' == map[i := rem[i] - Work(d, a[i]), j := rem[j] - Work(d, a[j])]
    ensures Debit(rem, a, d, Enumerate(a.Keys)) == Ok(rem')
  {
    var order := Enumerate(a.Keys);
    EnumerateDistinct(a.Keys);
    DebitIsPointwise(rem, a, d, order);
    assert i in order && j in order;
    var r := Debit(rem, a, d, order).value;
    assert r[i] == rem'[i];
    assert r[j] == rem'[j];
    assert r.Keys == rem'.Keys;
    assert forall k :: k in r.Keys ==> k == i || k == j;
    assert forall k :: k in r ==> r[k] == rem'[k];
    assert r == rem';
  }

  /** With one job served alone, its COMPLETE falls when its work runs out. */
  lemma CompleteAlone(q: seq<Event>, rem: map<JobId, real>, j: JobId, t: real)
    requires j in rem
    ensures PushComplete(q, rem, map[j := 1.0], t) == Ok(PushIfEarlier(q, Complete(t + rem[j], j)))
  {
    EnumerateOne(j);
    assert Earliest(rem, map[j := 1.0], []) == Ok(None);
    assert Earliest(rem, map[j := 1.0], [j]) == Ok(Some((rem[j] / 1.0, j)));
  }

  /** A job served alone whose work runs out before the heap's head: its
      COMPLETE becomes the head. */
  lemma PushAlone(q: seq<Event>, rem: map<JobId, real>, j: JobId, t: real, q': seq<Event>)
    requires j in rem && (q == [] || t + rem[j] < q[0].time)
    requires q' == [Complete(t + rem[j], j)] + q
    ensures PushComplete(q, rem, map[j := 1.0], t) == Ok(q')
  {
    CompleteAlone(q, rem, j, t);
  }

  /** A job served alone whose work does not run out before the heap's head:
      nothing is pushed. */
  lemma PushAloneNot(q: seq<Event>, rem: map<JobId, real>, j: JobId, t: real)
    requires j in rem && q != [] && q[0].time <= t + rem[j]
    ensures PushComplete(q, rem, map[j := 1.0], t) == Ok(q)
  {
    CompleteAlone(q, rem, j, t);
  }

  /** With two jobs scheduled, the COMPLETE pushed is the one of the job
      whose work at its share runs out first, the smaller id on a tie. */
  lemma PushFirstOfPair(q: seq<Event>, rem: map<JobId, real>, a: Alloc, i: JobId, j: JobId, t: real, q': seq<Event>)
    requires i < j && a.Keys == {i, j} && i in rem && j in rem && a[i] != 0.0 && a[j] != 0.0
    requires rem[i] / a[i] <= rem[j] / a[j]
    requires q' == PushIfEarlier(q, Complete(t + rem[i] / a[i], i))
    ensures PushComplete(q, rem, a, t) == Ok(q')
  {
    var order := Enumerate(a.Keys);
    EarliestIsLeast(rem, a, order);
    assert i in order;
    var (d, k) := Earliest(rem, a, order).value.value;
    assert PairNotAfter((d, k), (rem[i] / a[i], i));
    assert k in a.Keys;
  }

  /** The job FIFO serves is the first its dequeue finds. */
  lemma FifoHeadLeaves(jobs: seq<JobId>)
    requires jobs != []
    ensures Fifo.Dequeue(Fifo.State(jobs), jobs[0]) == Ok(Fifo.State(jobs[1..]))
  {
    assert FirstIndex(jobs, jobs[0]) == Some(0);
    assert RemoveAt(jobs, 0) == jobs[1..];
  }

  /** Two running jobs share the resource half and half. */
  lemma HalfShares(i: JobId, j: JobId)
    requires i != j
    ensures EqualShares({i, j}) == map[i := 0.5, j := 0.5]
  {
    var a := EqualShares({i, j});
    assert |{i, j}| == 2;
    assert a[i] * 2.0 == 1.0 && a[j] * 2.0 == 1.0;
  }

  /** FSP's enqueue is its update followed by the insertion of the new pair. */
  lemma FspEnqueueAfter(s: Fsp.State, t: real, j: JobId, x: real, u: Fsp.State)
    requires Fsp.Update(s, t) == u
    ensures Policies.Enqueue(Policies.FSP(s), t, j, x)
         == Ok(Policies.FSP(u.(queue := EntryQueue.Insert(u.queue, Entry(x, j)), running := u.running + {j})))
  {
  }

  /** FSP's schedule is its update followed by the pick. */
  lemma FspScheduleAfter(s: Fsp.State, t: real, u: Fsp.State, a: Alloc)
    requires Fsp.Update(s, t) == u && Fsp.Pick(u) == Ok(a)
    ensures Policies.Schedule(Policies.FSP(s), t) == Ok((Policies.FSP(u), a))
  {
  }

  /** FSP's update, once the fair share, the finished prefix, the survivors
      and the late marks are known. */
  lemma FspUpdateIs(s: Fsp.State, t: real, fs: real, k: nat, r: seq<Entry>, late: seq<JobId>)
    requires s.queue != [] && fs == (t - s.lastT) / |s.queue| as real
    requires k <= |s.queue| && CountAtMost(s.queue, fs + s.eps) == k
    requires Fsp.Survivors(s.queue, fs, s.eps) == r
    requires Fsp.MarkAll(s.late, s.queue[..k], s.running) == late
    ensures Fsp.Update(s, t) == Fsp.State(r, late, s.running, t, s.eps)
  {
  }

  /** The survivors of an update, once the finished prefix is known. */
  lemma FspSurvivorsAre(q: seq<Entry>, fs: real, eps: real, k: nat, r: seq<Entry>)
    requires k <= |q| && CountAtMost(q, fs + eps) == k
    requires r == if fs > 0.0 then Age(q[k..], fs) else q[k..]
    ensures Fsp.Survivors(q, fs, eps) == r
  {
  }

  /** SRPT's enqueue is its update followed by the insertion of the new pair. */
  lemma SrptEnqueueAfter(s: Srpt.State, t: real, j: JobId, x: real, u: Srpt.State)
    requires Srpt.Update(s, t) == u
    ensures Policies.Enqueue(Policies.SRPT(s), t, j, x)
         == Ok(Policies.SRPT(u.(jobs := EntryQueue.Insert(u.jobs, Entry(x, j)))))
  {
  }

  /** SRPT's dequeue of the job at the head of the updated heap pops it. */
  lemma SrptDequeueHead(s: Srpt.State, t: real, j: JobId, u: Srpt.State)
    requires Srpt.Update(s, t) == u && u.jobs != [] && u.jobs[0].id == j
    ensures Policies.Dequeue(Policies.SRPT(s), t, j) == Ok(Policies.SRPT(u.(jobs := u.jobs[1..])))
  {
  }

  /** `test_empty`: with no jobs, every scheduler finishes at once and
      yields nothing. */
  lemma Empty(p: Policies.Policy, e: Estimator, fuel: nat)
    requires Policies.Initial(p)
    ensures Simulate([], p, e, fuel) == Done([])
  {
    assert ArrivalsOf([]) == [];
  }

  /** The `eps` of FSP's constructor. */
  const Eps: PosReal := 0.000001

  // ---------------------------------------------------------------------
  // FifoOne: the state before each iteration (FifoOne0 at the start), and
  // the state once each iteration's event is handled (FifoOneH1, ...)
  // ---------------------------------------------------------------------

  const FifoOne0: Sim := Sim([Arrival(0.0, 1, 10.0)], map[], map[], Policies.FIFO(Fifo.Init()), Identity, 0.0, [])
  const FifoOne1: Sim := Sim([Complete(10.0, 1)], map[1 := 10.0], map[1 := 1.0], Policies.FIFO(Fifo.State([1])), Identity, 0.0, [])
  const FifoOne2: Sim := Sim([], map[], map[], Policies.FIFO(Fifo.State([])), Identity, 10.0, [Completion(10.0, 1, Some(0.0))])
  const FifoOneH1: Sim := Sim([], map[1 := 10.0], map[], Policies.FIFO(Fifo.State([1])), Identity, 0.0, [])
  const FifoOneH2: Sim := Sim([], map[], map[1 := 1.0], Policies.FIFO(Fifo.State([])), Identity, 0.0, [Completion(10.0, 1, Some(0.0))])

  // Iteration 1, stage by stage.

  lemma FifoOneMaps1()
    ensures map[][1 := 10.0] == map[1 := 10.0]
  {
  }

  lemma FifoOneEnqueue1()
    ensures Policies.Enqueue(Policies.FIFO(Fifo.State([])), 0.0, 1, 10.0) == Ok(Policies.FIFO(Fifo.State([1])))
  {
    assert [] + [1] == [1];
  }

  lemma FifoOneSchedule1()
    ensures Policies.Schedule(Policies.FIFO(Fifo.State([1])), 0.0) == Ok((Policies.FIFO(Fifo.State([1])), map[1 := 1.0]))
  {
  }

  lemma FifoOnePop1()
    ensures [Arrival(0.0, 1, 10.0)] == [Arrival(0.0, 1, 10.0)] + []
    ensures DebitSince(Sim([Arrival(0.0, 1, 10.0)], map[], map[], Policies.FIFO(Fifo.Init()), Identity, 0.0, [])) == Ok(map[])
  {
    assert [Arrival(0.0, 1, 10.0)] + [] == [Arrival(0.0, 1, 10.0)];
    DebitIdle(Sim([Arrival(0.0, 1, 10.0)], map[], map[], Policies.FIFO(Fifo.Init()), Identity, 0.0, []));
  }

  lemma FifoOneHandle1()
    ensures Handle(Sim([], map[], map[], Policies.FIFO(Fifo.Init()), Identity, 0.0, []), Arrival(0.0, 1, 10.0))
         == Next(Sim([], map[1 := 10.0], map[], Policies.FIFO(Fifo.State([1])), Identity, 0.0, []))
  {
    FifoOneEnqueue1();
    Arrive(Sim([], map[], map[], Policies.FIFO(Fifo.Init()), Identity, 0.0, []), 0.0, 1, 10.0, 10.0, Identity, Policies.FIFO(Fifo.State([1])));
    FifoOneMaps1();
  }

  lemma FifoOnePush1()
    ensures PushInternal([], Policies.FIFO(Fifo.State([1])), 0.0) == []
    ensures PushComplete([], map[1 := 10.0], map[1 := 1.0], 0.0) == Ok([Complete(10.0, 1)])
  {
    PushAlone([], map[1 := 10.0], 1, 0.0, [Complete(10.0, 1)]);
  }

  /** Iteration 1: job 1 arrives at 0.0 with size 10.0; then job 1 runs alone.
      */
  lemma FifoOneStep1(fuel: nat)
    requires fuel > 0
    ensures Run(FifoOne0, fuel) == Run(FifoOne1, fuel - 1)
  {
    FifoOnePop1();
    FifoOneHandle1();
    FifoOneSchedule1();
    FifoOnePush1();
    Transition(FifoOne0, fuel, Arrival(0.0, 1, 10.0), [], map[], FifoOneH1, FifoOne1.policy, FifoOne1.schedule, FifoOne1.events, FifoOne1);
  }

  // Iteration 2, stage by stage.

  lemma FifoOneMaps2()
    ensures map[1 := 10.0][1 := 10.0 - (10.0 - 0.0)] == map[1 := 0.0]
    ensures map[1 := 0.0] - {1} == map[]
  {
  }

  lemma FifoOneDequeue2()
    ensures Policies.Dequeue(Policies.FIFO(Fifo.State([1])), 10.0, 1) == Ok(Policies.FIFO(Fifo.State([])))
  {
    FifoHeadLeaves([1]);
    assert [1][1..] == [];
  }

  lemma FifoOneSchedule2()
    ensures Policies.Schedule(Policies.FIFO(Fifo.State([])), 10.0) == Ok((Policies.FIFO(Fifo.State([])), map[]))
  {
  }

  lemma FifoOnePop2()
    ensures [Complete(10.0, 1)] == [Complete(10.0, 1)] + []
    ensures DebitSince(Sim([Complete(10.0, 1)], map[1 := 10.0], map[1 := 1.0], Policies.FIFO(Fifo.State([1])), Identity, 0.0, [])) == Ok(map[1 := 0.0])
  {
    assert [Complete(10.0, 1)] + [] == [Complete(10.0, 1)];
    DebitAlone(Sim([Complete(10.0, 1)], map[1 := 10.0], map[1 := 1.0], Policies.FIFO(Fifo.State([1])), Identity, 0.0, []), 1);
    FifoOneMaps2();
  }

  lemma FifoOneLeave2(st: Sim)
    requires st.events == [] && st.remaining == map[1 := 0.0] && st.schedule == map[1 := 1.0]
    requires st.estimator == Identity && st.lastT == 0.0 && st.out == []
    requires Policies.Dequeue(st.policy, 10.0, 1) == Ok(Policies.FIFO(Fifo.State([])))
    ensures Handle(st, Complete(10.0, 1)) == Next(Sim([], map[], map[1 := 1.0], Policies.FIFO(Fifo.State([])), Identity, 0.0, [Completion(10.0, 1, Some(0.0))]))
  {
    Leave(st, 10.0, 1, Policies.FIFO(Fifo.State([])));
    FifoOneMaps2();
    assert [] + [Completion(10.0, 1, Some(0.0))] == [Completion(10.0, 1, Some(0.0))];
  }
  lemma FifoOneHandle2()
    ensures Handle(Sim([], map[1 := 0.0], map[1 := 1.0], Policies.FIFO(Fifo.State([1])), Identity, 0.0, []), Complete(10.0, 1))
         == Next(Sim([], map[], map[1 := 1.0], Policies.FIFO(Fifo.State([])), Identity, 0.0, [Completion(10.0, 1, Some(0.0))]))
  {
    FifoOneDequeue2();
    FifoOneLeave2(Sim([], map[1 := 0.0], map[1 := 1.0], Policies.FIFO(Fifo.State([1])), Identity, 0.0, []));
  }

  lemma FifoOnePush2()
    ensures PushInternal([], Policies.FIFO(Fifo.State([])), 10.0) == []
    ensures PushComplete([], map[], map[], 10.0) == Ok([])
  {
  }

  /** Iteration 2: job 1 completes at 10.0; then nothing runs. */
  lemma FifoOneStep2(fuel: nat)
    requires fuel > 0
    ensures Run(FifoOne1, fuel) == Run(FifoOne2, fuel - 1)
  {
    FifoOnePop2();
    FifoOneHandle2();
    FifoOneSchedule2();
    FifoOnePush2();
    Transition(FifoOne1, fuel, Complete(10.0, 1), [], map[1 := 0.0], FifoOneH2, FifoOne2.policy, FifoOne2.schedule, FifoOne2.events, FifoOne2);
  }

  lemma FifoOneHeap0()
    ensures Heapify([Arrival(0.0, 1, 10.0)]) == [Arrival(0.0, 1, 10.0)]
  {
    assert Heapify([]) == [];
    assert [Arrival(0.0, 1, 10.0)][1..] == [];
    assert Events.Insert([], Arrival(0.0, 1, 10.0)) == [Arrival(0.0, 1, 10.0)];
  }

  lemma FifoOneStart()
    ensures Start([Job(1, 0.0, 10.0)], Policies.FIFO(Fifo.Init()), Identity) == FifoOne0
  {
    assert ArrivalsOf([Job(1, 0.0, 10.0)]) == [Arrival(0.0, 1, 10.0)];
    FifoOneHeap0();
  }

  /** `test_one` under FIFO: one job of size 10 arriving at 0 completes at 10.
      */
  lemma FifoOne(fuel: nat)
    requires fuel >= 2
    ensures Simulate([Job(1, 0.0, 10.0)], Policies.FIFO(Fifo.Init()), Identity, fuel)
         == Done([Completion(10.0, 1, Some(0.0))])
  {
    FifoOneStart();
    FifoOneStep1(fuel);
    FifoOneStep2(fuel - 1);
    Over(FifoOne2, fuel - 2);
  }

  // ---------------------------------------------------------------------
  // FifoTwo: the state before each iteration (FifoTwo0 at the start), and
  // the state once each iteration's event is handled (FifoTwoH1, ...)
  // ---------------------------------------------------------------------

  const FifoTwo0: Sim := Sim([Arrival(0.0, 1, 10.0), Arrival(0.0, 2, 10.0)], map[], map[], Policies.FIFO(Fifo.Init()), Identity, 0.0, [])
  const FifoTwo1: Sim := Sim([Arrival(0.0, 2, 10.0)], map[1 := 10.0], map[1 := 1.0], Policies.FIFO(Fifo.State([1])), Identity, 0.0, [])
  const FifoTwo2: Sim := Sim([Complete(10.0, 1)], map[1 := 10.0, 2 := 10.0], map[1 := 1.0], Policies.FIFO(Fifo.State([1, 2])), Identity, 0.0, [])
  const FifoTwo3: Sim := Sim([Complete(20.0, 2)], map[2 := 10.0], map[2 := 1.0], Policies.FIFO(Fifo.State([2])), Identity, 10.0, [Completion(10.0, 1, Some(0.0))])
  const FifoTwo4: Sim := Sim([], map[], map[], Policies.FIFO(Fifo.State([])), Identity, 20.0, [Completion(10.0, 1, Some(0.0)), Completion(20.0, 2, Some(0.0))])
  const FifoTwoH1: Sim := Sim([Arrival(0.0, 2, 10.0)], map[1 := 10.0], map[], Policies.FIFO(Fifo.State([1])), Identity, 0.0, [])
  const FifoTwoH2: Sim := Sim([], map[1 := 10.0, 2 := 10.0], map[1 := 1.0], Policies.FIFO(Fifo.State([1, 2])), Identity, 0.0, [])
  const FifoTwoH3: Sim := Sim([], map[2 := 10.0], map[1 := 1.0], Policies.FIFO(Fifo.State([2])), Identity, 0.0, [Completion(10.0, 1, Some(0.0))])
  const FifoTwoH4: Sim := Sim([], map[], map[2 := 1.0], Policies.FIFO(Fifo.State([])), Identity, 10.0, [Completion(10.0, 1, Some(0.0)), Completion(20.0, 2, Some(0.0))])

  // Iteration 1, stage by stage.

  lemma FifoTwoMaps1()
    ensures map[][1 := 10.0] == map[1 := 10.0]
  {
  }

  lemma FifoTwoEnqueue1()
    ensures Policies.Enqueue(Policies.FIFO(Fifo.State([])), 0.0, 1, 10.0) == Ok(Policies.FIFO(Fifo.State([1])))
  {
    assert [] + [1] == [1];
  }

  lemma FifoTwoSchedule1()
    ensures Policies.Schedule(Policies.FIFO(Fifo.State([1])), 0.0) == Ok((Policies.FIFO(Fifo.State([1])), map[1 := 1.0]))
  {
  }

  lemma FifoTwoPop1()
    ensures [Arrival(0.0, 1, 10.0), Arrival(0.0, 2, 10.0)] == [Arrival(0.0, 1, 10.0)] + [Arrival(0.0, 2, 10.0)]
    ensures DebitSince(Sim([Arrival(0.0, 1, 10.0), Arrival(0.0, 2, 10.0)], map[], map[], Policies.FIFO(Fifo.Init()), Identity, 0.0, [])) == Ok(map[])
  {
    assert [Arrival(0.0, 1, 10.0)] + [Arrival(0.0, 2, 10.0)] == [Arrival(0.0, 1, 10.0), Arrival(0.0, 2, 10.0)];
    DebitIdle(Sim([Arrival(0.0, 1, 10.0), Arrival(0.0, 2, 10.0)], map[], map[], Policies.FIFO(Fifo.Init()), Identity, 0.0, []));
  }

  lemma FifoTwoHandle1()
    ensures Handle(Sim([Arrival(0.0, 2, 10.0)], map[], map[], Policies.FIFO(Fifo.Init()), Identity, 0.0, []), Arrival(0.0, 1, 10.0))
         == Next(Sim([Arrival(0.0, 2, 10.0)], map[1 := 10.0], map[], Policies.FIFO(Fifo.State([1])), Identity, 0.0, []))
  {
    FifoTwoEnqueue1();
    Arrive(Sim([Arrival(0.0, 2, 10.0)], map[], map[], Policies.FIFO(Fifo.Init()), Identity, 0.0, []), 0.0, 1, 10.0, 10.0, Identity, Policies.FIFO(Fifo.State([1])));
    FifoTwoMaps1();
  }

  lemma FifoTwoPush1()
    ensures PushInternal([Arrival(0.0, 2, 10.0)], Policies.FIFO(Fifo.State([1])), 0.0) == [Arrival(0.0, 2, 10.0)]
    ensures PushComplete([Arrival(0.0, 2, 10.0)], map[1 := 10.0], map[1 := 1.0], 0.0) == Ok([Arrival(0.0, 2, 10.0)])
  {
    PushAloneNot([Arrival(0.0, 2, 10.0)], map[1 := 10.0], 1, 0.0);
  }

  /** Iteration 1: job 1 arrives at 0.0 with size 10.0; then job 1 runs alone.
      */
  lemma FifoTwoStep1(fuel: nat)
    requires fuel > 0
    ensures Run(FifoTwo0, fuel) == Run(FifoTwo1, fuel - 1)
  {
    FifoTwoPop1();
    FifoTwoHandle1();
    FifoTwoSchedule1();
    FifoTwoPush1();
    Transition(FifoTwo0, fuel, Arrival(0.0, 1, 10.0), [Arrival(0.0, 2, 10.0)], map[], FifoTwoH1, FifoTwo1.policy, FifoTwo1.schedule, FifoTwo1.events, FifoTwo1);
  }

  // Iteration 2, stage by stage.

  lemma FifoTwoMaps2()
    ensures map[1 := 10.0][1 := 10.0 - (0.0 - 0.0)] == map[1 := 10.0]
    ensures map[1 := 10.0][2 := 10.0] == map[1 := 10.0, 2 := 10.0]
  {
  }

  lemma FifoTwoEnqueue2()
    ensures Policies.Enqueue(Policies.FIFO(Fifo.State([1])), 0.0, 2, 10.0) == Ok(Policies.FIFO(Fifo.State([1, 2])))
  {
    assert [1] + [2] == [1, 2];
  }

  lemma FifoTwoSchedule2()
    ensures Policies.Schedule(Policies.FIFO(Fifo.State([1, 2])), 0.0) == Ok((Policies.FIFO(Fifo.State([1, 2])), map[1 := 1.0]))
  {
  }

  lemma FifoTwoPop2()
    ensures [Arrival(0.0, 2, 10.0)] == [Arrival(0.0, 2, 10.0)] + []
    ensures DebitSince(Sim([Arrival(0.0, 2, 10.0)], map[1 := 10.0], map[1 := 1.0], Policies.FIFO(Fifo.State([1])), Identity, 0.0, [])) == Ok(map[1 := 10.0])
  {
    assert [Arrival(0.0, 2, 10.0)] + [] == [Arrival(0.0, 2, 10.0)];
    DebitAlone(Sim([Arrival(0.0, 2, 10.0)], map[1 := 10.0], map[1 := 1.0], Policies.FIFO(Fifo.State([1])), Identity, 0.0, []), 1);
    FifoTwoMaps2();
  }

  lemma FifoTwoHandle2()
    ensures Handle(Sim([], map[1 := 10.0], map[1 := 1.0], Policies.FIFO(Fifo.State([1])), Identity, 0.0, []), Arrival(0.0, 2, 10.0))
         == Next(Sim([], map[1 := 10.0, 2 := 10.0], map[1 := 1.0], Policies.FIFO(Fifo.State([1, 2])), Identity, 0.0, []))
  {
    FifoTwoEnqueue2();
    Arrive(Sim([], map[1 := 10.0], map[1 := 1.0], Policies.FIFO(Fifo.State([1])), Identity, 0.0, []), 0.0, 2, 10.0, 10.0, Identity, Policies.FIFO(Fifo.State([1, 2])));
    FifoTwoMaps2();
  }

  lemma FifoTwoPush2()
    ensures PushInternal([], Policies.FIFO(Fifo.State([1, 2])), 0.0) == []
    ensures PushComplete([], map[1 := 10.0, 2 := 10.0], map[1 := 1.0], 0.0) == Ok([Complete(10.0, 1)])
  {
    PushAlone([], map[1 := 10.0, 2 := 10.0], 1, 0.0, [Complete(10.0, 1)]);
  }

  /** Iteration 2: job 2 arrives at 0.0 with size 10.0; then job 1 runs alone.
      */
  lemma FifoTwoStep2(fuel: nat)
    requires fuel > 0
    ensures Run(FifoTwo1, fuel) == Run(FifoTwo2, fuel - 1)
  {
    FifoTwoPop2();
    FifoTwoHandle2();
    FifoTwoSchedule2();
    FifoTwoPush2();
    Transition(FifoTwo1, fuel, Arrival(0.0, 2, 10.0), [], map[1 := 10.0], FifoTwoH2, FifoTwo2.policy, FifoTwo2.schedule, FifoTwo2.events, FifoTwo2);
  }

  // Iteration 3, stage by stage.

  lemma FifoTwoMaps3()
    ensures map[1 := 10.0, 2 := 10.0][1 := 10.0 - (10.0 - 0.0)] == map[1 := 0.0, 2 := 10.0]
    ensures map[1 := 0.0, 2 := 10.0] - {1} == map[2 := 10.0]
  {
  }

  lemma FifoTwoDequeue3()
    ensures Policies.Dequeue(Policies.FIFO(Fifo.State([1, 2])), 10.0, 1) == Ok(Policies.FIFO(Fifo.State([2])))
  {
    FifoHeadLeaves([1, 2]);
    assert [1, 2][1..] == [2];
  }

  lemma FifoTwoSchedule3()
    ensures Policies.Schedule(Policies.FIFO(Fifo.State([2])), 10.0) == Ok((Policies.FIFO(Fifo.State([2])), map[2 := 1.0]))
  {
  }

  lemma FifoTwoPop3()
    ensures [Complete(10.0, 1)] == [Complete(10.0, 1)] + []
    ensures DebitSince(Sim([Complete(10.0, 1)], map[1 := 10.0, 2 := 10.0], map[1 := 1.0], Policies.FIFO(Fifo.State([1, 2])), Identity, 0.0, [])) == Ok(map[1 := 0.0, 2 := 10.0])
  {
    assert [Complete(10.0, 1)] + [] == [Complete(10.0, 1)];
    DebitAlone(Sim([Complete(10.0, 1)], map[1 := 10.0, 2 := 10.0], map[1 := 1.0], Policies.FIFO(Fifo.State([1, 2])), Identity, 0.0, []), 1);
    FifoTwoMaps3();
  }

  lemma FifoTwoLeave3(st: Sim)
    requires st.events == [] && st.remaining == map[1 := 0.0, 2 := 10.0] && st.schedule == map[1 := 1.0]
    requires st.estimator == Identity && st.lastT == 0.0 && st.out == []
    requires Policies.Dequeue(st.policy, 10.0, 1) == Ok(Policies.FIFO(Fifo.State([2])))
    ensures Handle(st, Complete(10.0, 1)) == Next(Sim([], map[2 := 10.0], map[1 := 1.0], Policies.FIFO(Fifo.State([2])), Identity, 0.0, [Completion(10.0, 1, Some(0.0))]))
  {
    Leave(st, 10.0, 1, Policies.FIFO(Fifo.State([2])));
    FifoTwoMaps3();
    assert [] + [Completion(10.0, 1, Some(0.0))] == [Completion(10.0, 1, Some(0.0))];
  }
  lemma FifoTwoHandle3()
    ensures Handle(Sim([], map[1 := 0.0, 2 := 10.0], map[1 := 1.0], Policies.FIFO(Fifo.State([1, 2])), Identity, 0.0, []), Complete(10.0, 1))
         == Next(Sim([], map[2 := 10.0], map[1 := 1.0], Policies.FIFO(Fifo.State([2])), Identity, 0.0, [Completion(10.0, 1, Some(0.0))]))
  {
    FifoTwoDequeue3();
    FifoTwoLeave3(Sim([], map[1 := 0.0, 2 := 10.0], map[1 := 1.0], Policies.FIFO(Fifo.State([1, 2])), Identity, 0.0, []));
  }

  lemma FifoTwoPush3()
    ensures PushInternal([], Policies.FIFO(Fifo.State([2])), 10.0) == []
    ensures PushComplete([], map[2 := 10.0], map[2 := 1.0], 10.0) == Ok([Complete(20.0, 2)])
  {
    PushAlone([], map[2 := 10.0], 2, 10.0, [Complete(20.0, 2)]);
  }

  /** Iteration 3: job 1 completes at 10.0; then job 2 runs alone. */
  lemma FifoTwoStep3(fuel: nat)
    requires fuel > 0
    ensures Run(FifoTwo2, fuel) == Run(FifoTwo3, fuel - 1)
  {
    FifoTwoPop3();
    FifoTwoHandle3();
    FifoTwoSchedule3();
    FifoTwoPush3();
    Transition(FifoTwo2, fuel, Complete(10.0, 1), [], map[1 := 0.0, 2 := 10.0], FifoTwoH3, FifoTwo3.policy, FifoTwo3.schedule, FifoTwo3.events, FifoTwo3);
  }

  // Iteration 4, stage by stage.

  lemma FifoTwoMaps4()
    ensures map[2 := 10.0][2 := 10.0 - (20.0 - 10.0)] == map[2 := 0.0]
    ensures map[2 := 0.0] - {2} == map[]
  {
  }

  lemma FifoTwoDequeue4()
    ensures Policies.Dequeue(Policies.FIFO(Fifo.State([2])), 20.0, 2) == Ok(Policies.FIFO(Fifo.State([])))
  {
    FifoHeadLeaves([2]);
    assert [2][1..] == [];
  }

  lemma FifoTwoSchedule4()
    ensures Policies.Schedule(Policies.FIFO(Fifo.State([])), 20.0) == Ok((Policies.FIFO(Fifo.State([])), map[]))
  {
  }

  lemma FifoTwoPop4()
    ensures [Complete(20.0, 2)] == [Complete(20.0, 2)] + []
    ensures DebitSince(Sim([Complete(20.0, 2)], map[2 := 10.0], map[2 := 1.0], Policies.FIFO(Fifo.State([2])), Identity, 10.0, [Completion(10.0, 1, Some(0.0))])) == Ok(map[2 := 0.0])
  {
    assert [Complete(20.0, 2)] + [] == [Complete(20.0, 2)];
    DebitAlone(Sim([Complete(20.0, 2)], map[2 := 10.0], map[2 := 1.0], Policies.FIFO(Fifo.State([2])), Identity, 10.0, [Completion(10.0, 1, Some(0.0))]), 2);
    FifoTwoMaps4();
  }

  lemma FifoTwoLeave4(st: Sim)
    requires st.events == [] && st.remaining == map[2 := 0.0] && st.schedule == map[2 := 1.0]
    requires st.estimator == Identity && st.lastT == 10.0 && st.out == [Completion(10.0, 1, Some(0.0))]
    requires Policies.Dequeue(st.policy, 20.0, 2) == Ok(Policies.FIFO(Fifo.State([])))
    ensures Handle(st, Complete(20.0, 2)) == Next(Sim([], map[], map[2 := 1.0], Policies.FIFO(Fifo.State([])), Identity, 10.0, [Completion(10.0, 1, Some(0.0)), Completion(20.0, 2, Some(0.0))]))
  {
    Leave(st, 20.0, 2, Policies.FIFO(Fifo.State([])));
    FifoTwoMaps4();
    assert [Completion(10.0, 1, Some(0.0))] + [Completion(20.0, 2, Some(0.0))] == [Completion(10.0, 1, Some(0.0)), Completion(20.0, 2, Some(0.0))];
  }
  lemma FifoTwoHandle4()
    ensures Handle(Sim([], map[2 := 0.0], map[2 := 1.0], Policies.FIFO(Fifo.State([2])), Identity, 10.0, [Completion(10.0, 1, Some(0.0))]), Complete(20.0, 2))
         == Next(Sim([], map[], map[2 := 1.0], Policies.FIFO(Fifo.State([])), Identity, 10.0, [Completion(10.0, 1, Some(0.0)), Completion(20.0, 2, Some(0.0))]))
  {
    FifoTwoDequeue4();
    FifoTwoLeave4(Sim([], map[2 := 0.0], map[2 := 1.0], Policies.FIFO(Fifo.State([2])), Identity, 10.0, [Completion(10.0, 1, Some(0.0))]));
  }

  lemma FifoTwoPush4()
    ensures PushInternal([], Policies.FIFO(Fifo.State([])), 20.0) == []
    ensures PushComplete([], map[], map[], 20.0) == Ok([])
  {
  }

  /** Iteration 4: job 2 completes at 20.0; then nothing runs. */
  lemma FifoTwoStep4(fuel: nat)
    requires fuel > 0
    ensures Run(FifoTwo3, fuel) == Run(FifoTwo4, fuel - 1)
  {
    FifoTwoPop4();
    FifoTwoHandle4();
    FifoTwoSchedule4();
    FifoTwoPush4();
    Transition(FifoTwo3, fuel, Complete(20.0, 2), [], map[2 := 0.0], FifoTwoH4, FifoTwo4.policy, FifoTwo4.schedule, FifoTwo4.events, FifoTwo4);
  }

  lemma FifoTwoHeap1()
    ensures Heapify([Arrival(0.0, 2, 10.0)]) == [Arrival(0.0, 2, 10.0)]
  {
    assert Heapify([]) == [];
    assert [Arrival(0.0, 2, 10.0)][1..] == [];
    assert Events.Insert([], Arrival(0.0, 2, 10.0)) == [Arrival(0.0, 2, 10.0)];
  }

  lemma FifoTwoHeap0()
    ensures Heapify([Arrival(0.0, 1, 10.0), Arrival(0.0, 2, 10.0)]) == [Arrival(0.0, 1, 10.0), Arrival(0.0, 2, 10.0)]
  {
    FifoTwoHeap1();
    assert [Arrival(0.0, 1, 10.0), Arrival(0.0, 2, 10.0)][1..] == [Arrival(0.0, 2, 10.0)];
    assert Events.Insert([Arrival(0.0, 2, 10.0)], Arrival(0.0, 1, 10.0)) == [Arrival(0.0, 1, 10.0), Arrival(0.0, 2, 10.0)];
  }

  lemma FifoTwoStart()
    ensures Start([Job(1, 0.0, 10.0), Job(2, 0.0, 10.0)], Policies.FIFO(Fifo.Init()), Identity) == FifoTwo0
  {
    assert ArrivalsOf([Job(1, 0.0, 10.0), Job(2, 0.0, 10.0)]) == [Arrival(0.0, 1, 10.0), Arrival(0.0, 2, 10.0)];
    FifoTwoHeap0();
  }

  /** `test_two` under FIFO: two jobs of size 10 arrive at 0; job 1, first in
      the queue, completes at 10 and job 2 at 20. */
  lemma FifoTwo(fuel: nat)
    requires fuel >= 4
    ensures Simulate([Job(1, 0.0, 10.0), Job(2, 0.0, 10.0)], Policies.FIFO(Fifo.Init()), Identity, fuel)
         == Done([Completion(10.0, 1, Some(0.0)), Completion(20.0, 2, Some(0.0))])
  {
    FifoTwoStart();
    FifoTwoStep1(fuel);
    FifoTwoStep2(fuel - 1);
    FifoTwoStep3(fuel - 2);
    FifoTwoStep4(fuel - 3);
    Over(FifoTwo4, fuel - 4);
  }

  // ---------------------------------------------------------------------
  // PsOne: the state before each iteration (PsOne0 at the start), and
  // the state once each iteration's event is handled (PsOneH1, ...)
  // ---------------------------------------------------------------------

  const PsOne0: Sim := Sim([Arrival(0.0, 1, 10.0)], map[], map[], Policies.PS(ProcessorSharing.Init()), Identity, 0.0, [])
  const PsOne1: Sim := Sim([Complete(10.0, 1)], map[1 := 10.0], map[1 := 1.0], Policies.PS(ProcessorSharing.State({1})), Identity, 0.0, [])
  const PsOne2: Sim := Sim([], map[], map[], Policies.PS(ProcessorSharing.State({})), Identity, 10.0, [Completion(10.0, 1, Some(0.0))])
  const PsOneH1: Sim := Sim([], map[1 := 10.0], map[], Policies.PS(ProcessorSharing.State({1})), Identity, 0.0, [])
  const PsOneH2: Sim := Sim([], map[], map[1 := 1.0], Policies.PS(ProcessorSharing.State({})), Identity, 0.0, [Completion(10.0, 1, Some(0.0))])

  // Iteration 1, stage by stage.

  lemma PsOneMaps1()
    ensures map[][1 := 10.0] == map[1 := 10.0]
  {
  }

  lemma PsOneEnqueue1()
    ensures Policies.Enqueue(Policies.PS(ProcessorSharing.State({})), 0.0, 1, 10.0) == Ok(Policies.PS(ProcessorSharing.State({1})))
  {
    assert {} + {1} == {1};
  }

  lemma PsOneSchedule1()
    ensures Policies.Schedule(Policies.PS(ProcessorSharing.State({1})), 0.0) == Ok((Policies.PS(ProcessorSharing.State({1})), map[1 := 1.0]))
  {
    AloneIsEqualShares(1);
  }

  lemma PsOnePop1()
    ensures [Arrival(0.0, 1, 10.0)] == [Arrival(0.0, 1, 10.0)] + []
    ensures DebitSince(Sim([Arrival(0.0, 1, 10.0)], map[], map[], Policies.PS(ProcessorSharing.Init()), Identity, 0.0, [])) == Ok(map[])
  {
    assert [Arrival(0.0, 1, 10.0)] + [] == [Arrival(0.0, 1, 10.0)];
    DebitIdle(Sim([Arrival(0.0, 1, 10.0)], map[], map[], Policies.PS(ProcessorSharing.Init()), Identity, 0.0, []));
  }

  lemma PsOneHandle1()
    ensures Handle(Sim([], map[], map[], Policies.PS(ProcessorSharing.Init()), Identity, 0.0, []), Arrival(0.0, 1, 10.0))
         == Next(Sim([], map[1 := 10.0], map[], Policies.PS(ProcessorSharing.State({1})), Identity, 0.0, []))
  {
    PsOneEnqueue1();
    Arrive(Sim([], map[], map[], Policies.PS(ProcessorSharing.Init()), Identity, 0.0, []), 0.0, 1, 10.0, 10.0, Identity, Policies.PS(ProcessorSharing.State({1})));
    PsOneMaps1();
  }

  lemma PsOnePush1()
    ensures PushInternal([], Policies.PS(ProcessorSharing.State({1})), 0.0) == []
    ensures PushComplete([], map[1 := 10.0], map[1 := 1.0], 0.0) == Ok([Complete(10.0, 1)])
  {
    PushAlone([], map[1 := 10.0], 1, 0.0, [Complete(10.0, 1)]);
  }

  /** Iteration 1: job 1 arrives at 0.0 with size 10.0; then job 1 runs alone.
      */
  lemma PsOneStep1(fuel: nat)
    requires fuel > 0
    ensures Run(PsOne0, fuel) == Run(PsOne1, fuel - 1)
  {
    PsOnePop1();
    PsOneHandle1();
    PsOneSchedule1();
    PsOnePush1();
    Transition(PsOne0, fuel, Arrival(0.0, 1, 10.0), [], map[], PsOneH1, PsOne1.policy, PsOne1.schedule, PsOne1.events, PsOne1);
  }

  // Iteration 2, stage by stage.

  lemma PsOneMaps2()
    ensures map[1 := 10.0][1 := 10.0 - (10.0 - 0.0)] == map[1 := 0.0]
    ensures map[1 := 0.0] - {1} == map[]
  {
  }

  lemma PsOneDequeue2()
    ensures Policies.Dequeue(Policies.PS(ProcessorSharing.State({1})), 10.0, 1) == Ok(Policies.PS(ProcessorSharing.State({})))
  {
    assert {1} - {1} == {};
  }

  lemma PsOneSchedule2()
    ensures Policies.Schedule(Policies.PS(ProcessorSharing.State({})), 10.0) == Ok((Policies.PS(ProcessorSharing.State({})), map[]))
  {
  }

  lemma PsOnePop2()
    ensures [Complete(10.0, 1)] == [Complete(10.0, 1)] + []
    ensures DebitSince(Sim([Complete(10.0, 1)], map[1 := 10.0], map[1 := 1.0], Policies.PS(ProcessorSharing.State({1})), Identity, 0.0, [])) == Ok(map[1 := 0.0])
  {
    assert [Complete(10.0, 1)] + [] == [Complete(10.0, 1)];
    DebitAlone(Sim([Complete(10.0, 1)], map[1 := 10.0], map[1 := 1.0], Policies.PS(ProcessorSharing.State({1})), Identity, 0.0, []), 1);
    PsOneMaps2();
  }

  lemma PsOneLeave2(st: Sim)
    requires st.events == [] && st.remaining == map[1 := 0.0] && st.schedule == map[1 := 1.0]
    requires st.estimator == Identity && st.lastT == 0.0 && st.out == []
    requires Policies.Dequeue(st.policy, 10.0, 1) == Ok(Policies.PS(ProcessorSharing.State({})))
    ensures Handle(st, Complete(10.0, 1)) == Next(Sim([], map[], map[1 := 1.0], Policies.PS(ProcessorSharing.State({})), Identity, 0.0, [Completion(10.0, 1, Some(0.0))]))
  {
    Leave(st, 10.0, 1, Policies.PS(ProcessorSharing.State({})));
    PsOneMaps2();
    assert [] + [Completion(10.0, 1, Some(0.0))] == [Completion(10.0, 1, Some(0.0))];
  }
  lemma PsOneHandle2()
    ensures Handle(Sim([], map[1 := 0.0], map[1 := 1.0], Policies.PS(ProcessorSharing.State({1})), Identity, 0.0, []), Complete(10.0, 1))
         == Next(Sim([], map[], map[1 := 1.0], Policies.PS(ProcessorSharing.State({})), Identity, 0.0, [Completion(10.0, 1, Some(0.0))]))
  {
    PsOneDequeue2();
    PsOneLeave2(Sim([], map[1 := 0.0], map[1 := 1.0], Policies.PS(ProcessorSharing.State({1})), Identity, 0.0, []));
  }

  lemma PsOnePush2()
    ensures PushInternal([], Policies.PS(ProcessorSharing.State({})), 10.0) == []
    ensures PushComplete([], map[], map[], 10.0) == Ok([])
  {
  }

  /** Iteration 2: job 1 completes at 10.0; then nothing runs. */
  lemma PsOneStep2(fuel: nat)
    requires fuel > 0
    ensures Run(PsOne1, fuel) == Run(PsOne2, fuel - 1)
  {
    PsOnePop2();
    PsOneHandle2();
    PsOneSchedule2();
    PsOnePush2();
    Transition(PsOne1, fuel, Complete(10.0, 1), [], map[1 := 0.0], PsOneH2, PsOne2.policy, PsOne2.schedule, PsOne2.events, PsOne2);
  }

  lemma PsOneHeap0()
    ensures Heapify([Arrival(0.0, 1, 10.0)]) == [Arrival(0.0, 1, 10.0)]
  {
    assert Heapify([]) == [];
    assert [Arrival(0.0, 1, 10.0)][1..] == [];
    assert Events.Insert([], Arrival(0.0, 1, 10.0)) == [Arrival(0.0, 1, 10.0)];
  }

  lemma PsOneStart()
    ensures Start([Job(1, 0.0, 10.0)], Policies.PS(ProcessorSharing.Init()), Identity) == PsOne0
  {
    assert ArrivalsOf([Job(1, 0.0, 10.0)]) == [Arrival(0.0, 1, 10.0)];
    PsOneHeap0();
  }

  /** `test_one` under PS: one job of size 10 arriving at 0 completes at 10. */
  lemma PsOne(fuel: nat)
    requires fuel >= 2
    ensures Simulate([Job(1, 0.0, 10.0)], Policies.PS(ProcessorSharing.Init()), Identity, fuel)
         == Done([Completion(10.0, 1, Some(0.0))])
  {
    PsOneStart();
    PsOneStep1(fuel);
    PsOneStep2(fuel - 1);
    Over(PsOne2, fuel - 2);
  }

  // ---------------------------------------------------------------------
  // PsTwo: the state before each iteration (PsTwo0 at the start), and
  // the state once each iteration's event is handled (PsTwoH1, ...)
  // ---------------------------------------------------------------------

  const PsTwo0: Sim := Sim([Arrival(0.0, 1, 10.0), Arrival(0.0, 2, 10.0)], map[], map[], Policies.PS(ProcessorSharing.Init()), Identity, 0.0, [])
  const PsTwo1: Sim := Sim([Arrival(0.0, 2, 10.0)], map[1 := 10.0], map[1 := 1.0], Policies.PS(ProcessorSharing.State({1})), Identity, 0.0, [])
  const PsTwo2: Sim := Sim([Complete(20.0, 1)], map[1 := 10.0, 2 := 10.0], map[1 := (1.0 / 2.0), 2 := (1.0 / 2.0)], Policies.PS(ProcessorSharing.State({1, 2})), Identity, 0.0, [])
  const PsTwo3: Sim := Sim([Complete(20.0, 2)], map[2 := 0.0], map[2 := 1.0], Policies.PS(ProcessorSharing.State({2})), Identity, 20.0, [Completion(20.0, 1, Some(0.0))])
  const PsTwo4: Sim := Sim([], map[], map[], Policies.PS(ProcessorSharing.State({})), Identity, 20.0, [Completion(20.0, 1, Some(0.0)), Completion(20.0, 2, Some(0.0))])
  const PsTwoH1: Sim := Sim([Arrival(0.0, 2, 10.0)], map[1 := 10.0], map[], Policies.PS(ProcessorSharing.State({1})), Identity, 0.0, [])
  const PsTwoH2: Sim := Sim([], map[1 := 10.0, 2 := 10.0], map[1 := 1.0], Policies.PS(ProcessorSharing.State({1, 2})), Identity, 0.0, [])
  const PsTwoH3: Sim := Sim([], map[2 := 0.0], map[1 := (1.0 / 2.0), 2 := (1.0 / 2.0)], Policies.PS(ProcessorSharing.State({2})), Identity, 0.0, [Completion(20.0, 1, Some(0.0))])
  const PsTwoH4: Sim := Sim([], map[], map[2 := 1.0], Policies.PS(ProcessorSharing.State({})), Identity, 20.0, [Completion(20.0, 1, Some(0.0)), Completion(20.0, 2, Some(0.0))])

  // Iteration 1, stage by stage.

  lemma PsTwoMaps1()
    ensures map[][1 := 10.0] == map[1 := 10.0]
  {
  }

  lemma PsTwoEnqueue1()
    ensures Policies.Enqueue(Policies.PS(ProcessorSharing.State({})), 0.0, 1, 10.0) == Ok(Policies.PS(ProcessorSharing.State({1})))
  {
    assert {} + {1} == {1};
  }

  lemma PsTwoSchedule1()
    ensures Policies.Schedule(Policies.PS(ProcessorSharing.State({1})), 0.0) == Ok((Policies.PS(ProcessorSharing.State({1})), map[1 := 1.0]))
  {
    AloneIsEqualShares(1);
  }

  lemma PsTwoPop1()
    ensures [Arrival(0.0, 1, 10.0), Arrival(0.0, 2, 10.0)] == [Arrival(0.0, 1, 10.0)] + [Arrival(0.0, 2, 10.0)]
    ensures DebitSince(Sim([Arrival(0.0, 1, 10.0), Arrival(0.0, 2, 10.0)], map[], map[], Policies.PS(ProcessorSharing.Init()), Identity, 0.0, [])) == Ok(map[])
  {
    assert [Arrival(0.0, 1, 10.0)] + [Arrival(0.0, 2, 10.0)] == [Arrival(0.0, 1, 10.0), Arrival(0.0, 2, 10.0)];
    DebitIdle(Sim([Arrival(0.0, 1, 10.0), Arrival(0.0, 2, 10.0)], map[], map[], Policies.PS(ProcessorSharing.Init()), Identity, 0.0, []));
  }

  lemma PsTwoHandle1()
    ensures Handle(Sim([Arrival(0.0, 2, 10.0)], map[], map[], Policies.PS(ProcessorSharing.Init()), Identity, 0.0, []), Arrival(0.0, 1, 10.0))
         == Next(Sim([Arrival(0.0, 2, 10.0)], map[1 := 10.0], map[], Policies.PS(ProcessorSharing.State({1})), Identity, 0.0, []))
  {
    PsTwoEnqueue1();
    Arrive(Sim([Arrival(0.0, 2, 10.0)], map[], map[], Policies.PS(ProcessorSharing.Init()), Identity, 0.0, []), 0.0, 1, 10.0, 10.0, Identity, Policies.PS(ProcessorSharing.State({1})));
    PsTwoMaps1();
  }

  lemma PsTwoPush1()
    ensures PushInternal([Arrival(0.0, 2, 10.0)], Policies.PS(ProcessorSharing.State({1})), 0.0) == [Arrival(0.0, 2, 10.0)]
    ensures PushComplete([Arrival(0.0, 2, 10.0)], map[1 := 10.0], map[1 := 1.0], 0.0) == Ok([Arrival(0.0, 2, 10.0)])
  {
    PushAloneNot([Arrival(0.0, 2, 10.0)], map[1 := 10.0], 1, 0.0);
  }

  /** Iteration 1: job 1 arrives at 0.0 with size 10.0; then job 1 runs alone.
      */
  lemma PsTwoStep1(fuel: nat)
    requires fuel > 0
    ensures Run(PsTwo0, fuel) == Run(PsTwo1, fuel - 1)
  {
    PsTwoPop1();
    PsTwoHandle1();
    PsTwoSchedule1();
    PsTwoPush1();
    Transition(PsTwo0, fuel, Arrival(0.0, 1, 10.0), [Arrival(0.0, 2, 10.0)], map[], PsTwoH1, PsTwo1.policy, PsTwo1.schedule, PsTwo1.events, PsTwo1);
  }

  // Iteration 2, stage by stage.

  lemma PsTwoMaps2()
    ensures map[1 := 10.0][1 := 10.0 - (0.0 - 0.0)] == map[1 := 10.0]
    ensures map[1 := 10.0][2 := 10.0] == map[1 := 10.0, 2 := 10.0]
  {
  }

  lemma PsTwoEnqueue2()
    ensures Policies.Enqueue(Policies.PS(ProcessorSharing.State({1})), 0.0, 2, 10.0) == Ok(Policies.PS(ProcessorSharing.State({1, 2})))
  {
    assert {1} + {2} == {1, 2};
  }

  lemma PsTwoSchedule2()
    ensures Policies.Schedule(Policies.PS(ProcessorSharing.State({1, 2})), 0.0) == Ok((Policies.PS(ProcessorSharing.State({1, 2})), map[1 := (1.0 / 2.0), 2 := (1.0 / 2.0)]))
  {
    HalfShares(1, 2);
  }

  lemma PsTwoPop2()
    ensures [Arrival(0.0, 2, 10.0)] == [Arrival(0.0, 2, 10.0)] + []
    ensures DebitSince(Sim([Arrival(0.0, 2, 10.0)], map[1 := 10.0], map[1 := 1.0], Policies.PS(ProcessorSharing.State({1})), Identity, 0.0, [])) == Ok(map[1 := 10.0])
  {
    assert [Arrival(0.0, 2, 10.0)] + [] == [Arrival(0.0, 2, 10.0)];
    DebitAlone(Sim([Arrival(0.0, 2, 10.0)], map[1 := 10.0], map[1 := 1.0], Policies.PS(ProcessorSharing.State({1})), Identity, 0.0, []), 1);
    PsTwoMaps2();
  }

  lemma PsTwoHandle2()
    ensures Handle(Sim([], map[1 := 10.0], map[1 := 1.0], Policies.PS(ProcessorSharing.State({1})), Identity, 0.0, []), Arrival(0.0, 2, 10.0))
         == Next(Sim([], map[1 := 10.0, 2 := 10.0], map[1 := 1.0], Policies.PS(ProcessorSharing.State({1, 2})), Identity, 0.0, []))
  {
    PsTwoEnqueue2();
    Arrive(Sim([], map[1 := 10.0], map[1 := 1.0], Policies.PS(ProcessorSharing.State({1})), Identity, 0.0, []), 0.0, 2, 10.0, 10.0, Identity, Policies.PS(ProcessorSharing.State({1, 2})));
    PsTwoMaps2();
  }

  lemma PsTwoPush2()
    ensures PushInternal([], Policies.PS(ProcessorSharing.State({1, 2})), 0.0) == []
    ensures PushComplete([], map[1 := 10.0, 2 := 10.0], map[1 := (1.0 / 2.0), 2 := (1.0 / 2.0)], 0.0) == Ok([Complete(20.0, 1)])
  {
    PushFirstOfPair([], map[1 := 10.0, 2 := 10.0], map[1 := (1.0 / 2.0), 2 := (1.0 / 2.0)], 1, 2, 0.0, [Complete(20.0, 1)]);
  }

  /** Iteration 2: job 2 arrives at 0.0 with size 10.0; then jobs 1 and 2 share
      the resource. */
  lemma PsTwoStep2(fuel: nat)
    requires fuel > 0
    ensures Run(PsTwo1, fuel) == Run(PsTwo2, fuel - 1)
  {
    PsTwoPop2();
    PsTwoHandle2();
    PsTwoSchedule2();
    PsTwoPush2();
    Transition(PsTwo1, fuel, Arrival(0.0, 2, 10.0), [], map[1 := 10.0], PsTwoH2, PsTwo2.policy, PsTwo2.schedule, PsTwo2.events, PsTwo2);
  }

  // Iteration 3, stage by stage.

  lemma PsTwoMaps3()
    ensures map[1 := 0.0, 2 := 0.0] - {1} == map[2 := 0.0]
  {
  }

  lemma PsTwoDequeue3()
    ensures Policies.Dequeue(Policies.PS(ProcessorSharing.State({1, 2})), 20.0, 1) == Ok(Policies.PS(ProcessorSharing.State({2})))
  {
    assert {1, 2} - {1} == {2};
  }

  lemma PsTwoSchedule3()
    ensures Policies.Schedule(Policies.PS(ProcessorSharing.State({2})), 20.0) == Ok((Policies.PS(ProcessorSharing.State({2})), map[2 := 1.0]))
  {
    AloneIsEqualShares(2);
  }

  lemma PsTwoPop3()
    ensures [Complete(20.0, 1)] == [Complete(20.0, 1)] + []
    ensures DebitSince(Sim([Complete(20.0, 1)], map[1 := 10.0, 2 := 10.0], map[1 := (1.0 / 2.0), 2 := (1.0 / 2.0)], Policies.PS(ProcessorSharing.State({1, 2})), Identity, 0.0, [])) == Ok(map[1 := 0.0, 2 := 0.0])
  {
    assert [Complete(20.0, 1)] + [] == [Complete(20.0, 1)];
    assert Work(20.0 - 0.0, 0.5) == 10.0;
    DebitPair(map[1 := 10.0, 2 := 10.0], map[1 := (1.0 / 2.0), 2 := (1.0 / 2.0)], 20.0 - 0.0, 1, 2, map[1 := 0.0, 2 := 0.0]);
  }

  lemma PsTwoLeave3(st: Sim)
    requires st.events == [] && st.remaining == map[1 := 0.0, 2 := 0.0] && st.schedule == map[1 := (1.0 / 2.0), 2 := (1.0 / 2.0)]
    requires st.estimator == Identity && st.lastT == 0.0 && st.out == []
    requires Policies.Dequeue(st.policy, 20.0, 1) == Ok(Policies.PS(ProcessorSharing.State({2})))
    ensures Handle(st, Complete(20.0, 1)) == Next(Sim([], map[2 := 0.0], map[1 := (1.0 / 2.0), 2 := (1.0 / 2.0)], Policies.PS(ProcessorSharing.State({2})), Identity, 0.0, [Completion(20.0, 1, Some(0.0))]))
  {
    Leave(st, 20.0, 1, Policies.PS(ProcessorSharing.State({2})));
    PsTwoMaps3();
    assert [] + [Completion(20.0, 1, Some(0.0))] == [Completion(20.0, 1, Some(0.0))];
  }
  lemma PsTwoHandle3()
    ensures Handle(Sim([], map[1 := 0.0, 2 := 0.0], map[1 := (1.0 / 2.0), 2 := (1.0 / 2.0)], Policies.PS(ProcessorSharing.State({1, 2})), Identity, 0.0, []), Complete(20.0, 1))
         == Next(Sim([], map[2 := 0.0], map[1 := (1.0 / 2.0), 2 := (1.0 / 2.0)], Policies.PS(ProcessorSharing.State({2})), Identity, 0.0, [Completion(20.0, 1, Some(0.0))]))
  {
    PsTwoDequeue3();
    PsTwoLeave3(Sim([], map[1 := 0.0, 2 := 0.0], map[1 := (1.0 / 2.0), 2 := (1.0 / 2.0)], Policies.PS(ProcessorSharing.State({1, 2})), Identity, 0.0, []));
  }

  lemma PsTwoPush3()
    ensures PushInternal([], Policies.PS(ProcessorSharing.State({2})), 20.0) == []
    ensures PushComplete([], map[2 := 0.0], map[2 := 1.0], 20.0) == Ok([Complete(20.0, 2)])
  {
    PushAlone([], map[2 := 0.0], 2, 20.0, [Complete(20.0, 2)]);
  }

  /** Iteration 3: job 1 completes at 20.0; then job 2 runs alone. */
  lemma PsTwoStep3(fuel: nat)
    requires fuel > 0
    ensures Run(PsTwo2, fuel) == Run(PsTwo3, fuel - 1)
  {
    PsTwoPop3();
    PsTwoHandle3();
    PsTwoSchedule3();
    PsTwoPush3();
    Transition(PsTwo2, fuel, Complete(20.0, 1), [], map[1 := 0.0, 2 := 0.0], PsTwoH3, PsTwo3.policy, PsTwo3.schedule, PsTwo3.events, PsTwo3);
  }

  // Iteration 4, stage by stage.

  lemma PsTwoMaps4()
    ensures map[2 := 0.0][2 := 0.0 - (20.0 - 20.0)] == map[2 := 0.0]
    ensures map[2 := 0.0] - {2} == map[]
  {
  }

  lemma PsTwoDequeue4()
    ensures Policies.Dequeue(Policies.PS(ProcessorSharing.State({2})), 20.0, 2) == Ok(Policies.PS(ProcessorSharing.State({})))
  {
    assert {2} - {2} == {};
  }

  lemma PsTwoSchedule4()
    ensures Policies.Schedule(Policies.PS(ProcessorSharing.State({})), 20.0) == Ok((Policies.PS(ProcessorSharing.State({})), map[]))
  {
  }

  lemma PsTwoPop4()
    ensures [Complete(20.0, 2)] == [Complete(20.0, 2)] + []
    ensures DebitSince(Sim([Complete(20.0, 2)], map[2 := 0.0], map[2 := 1.0], Policies.PS(ProcessorSharing.State({2})), Identity, 20.0, [Completion(20.0, 1, Some(0.0))])) == Ok(map[2 := 0.0])
  {
    assert [Complete(20.0, 2)] + [] == [Complete(20.0, 2)];
    DebitAlone(Sim([Complete(20.0, 2)], map[2 := 0.0], map[2 := 1.0], Policies.PS(ProcessorSharing.State({2})), Identity, 20.0, [Completion(20.0, 1, Some(0.0))]), 2);
    PsTwoMaps4();
  }

  lemma PsTwoLeave4(st: Sim)
    requires st.events == [] && st.remaining == map[2 := 0.0] && st.schedule == map[2 := 1.0]
    requires st.estimator == Identity && st.lastT == 20.0 && st.out == [Completion(20.0, 1, Some(0.0))]
    requires Policies.Dequeue(st.policy, 20.0, 2) == Ok(Policies.PS(ProcessorSharing.State({})))
    ensures Handle(st, Complete(20.0, 2)) == Next(Sim([], map[], map[2 := 1.0], Policies.PS(ProcessorSharing.State({})), Identity, 20.0, [Completion(20.0, 1, Some(0.0)), Completion(20.0, 2, Some(0.0))]))
  {
    Leave(st, 20.0, 2, Policies.PS(ProcessorSharing.State({})));
    PsTwoMaps4();
    assert [Completion(20.0, 1, Some(0.0))] + [Completion(20.0, 2, Some(0.0))] == [Completion(20.0, 1, Some(0.0)), Completion(20.0, 2, Some(0.0))];
  }
  lemma PsTwoHandle4()
    ensures Handle(Sim([], map[2 := 0.0], map[2 := 1.0], Policies.PS(ProcessorSharing.State({2})), Identity, 20.0, [Completion(20.0, 1, Some(0.0))]), Complete(20.0, 2))
         == Next(Sim([], map[], map[2 := 1.0], Policies.PS(ProcessorSharing.State({})), Identity, 20.0, [Completion(20.0, 1, Some(0.0)), Completion(20.0, 2, Some(0.0))]))
  {
    PsTwoDequeue4();
    PsTwoLeave4(Sim([], map[2 := 0.0], map[2 := 1.0], Policies.PS(ProcessorSharing.State({2})), Identity, 20.0, [Completion(20.0, 1, Some(0.0))]));
  }

  lemma PsTwoPush4()
    ensures PushInternal([], Policies.PS(ProcessorSharing.State({})), 20.0) == []
    ensures PushComplete([], map[], map[], 20.0) == Ok([])
  {
  }

  /** Iteration 4: job 2 completes at 20.0; then nothing runs. */
  lemma PsTwoStep4(fuel: nat)
    requires fuel > 0
    ensures Run(PsTwo3, fuel) == Run(PsTwo4, fuel - 1)
  {
    PsTwoPop4();
    PsTwoHandle4();
    PsTwoSchedule4();
    PsTwoPush4();
    Transition(PsTwo3, fuel, Complete(20.0, 2), [], map[2 := 0.0], PsTwoH4, PsTwo4.policy, PsTwo4.schedule, PsTwo4.events, PsTwo4);
  }

  lemma PsTwoHeap1()
    ensures Heapify([Arrival(0.0, 2, 10.0)]) == [Arrival(0.0, 2, 10.0)]
  {
    assert Heapify([]) == [];
    assert [Arrival(0.0, 2, 10.0)][1..] == [];
    assert Events.Insert([], Arrival(0.0, 2, 10.0)) == [Arrival(0.0, 2, 10.0)];
  }

  lemma PsTwoHeap0()
    ensures Heapify([Arrival(0.0, 1, 10.0), Arrival(0.0, 2, 10.0)]) == [Arrival(0.0, 1, 10.0), Arrival(0.0, 2, 10.0)]
  {
    PsTwoHeap1();
    assert [Arrival(0.0, 1, 10.0), Arrival(0.0, 2, 10.0)][1..] == [Arrival(0.0, 2, 10.0)];
    assert Events.Insert([Arrival(0.0, 2, 10.0)], Arrival(0.0, 1, 10.0)) == [Arrival(0.0, 1, 10.0), Arrival(0.0, 2, 10.0)];
  }

  lemma PsTwoStart()
    ensures Start([Job(1, 0.0, 10.0), Job(2, 0.0, 10.0)], Policies.PS(ProcessorSharing.Init()), Identity) == PsTwo0
  {
    assert ArrivalsOf([Job(1, 0.0, 10.0), Job(2, 0.0, 10.0)]) == [Arrival(0.0, 1, 10.0), Arrival(0.0, 2, 10.0)];
    PsTwoHeap0();
  }

  /** `test_two` under PS: two jobs of size 10 arriving at 0 share the resource
      and both complete at 20. */
  lemma PsTwo(fuel: nat)
    requires fuel >= 4
    ensures Simulate([Job(1, 0.0, 10.0), Job(2, 0.0, 10.0)], Policies.PS(ProcessorSharing.Init()), Identity, fuel)
         == Done([Completion(20.0, 1, Some(0.0)), Completion(20.0, 2, Some(0.0))])
  {
    PsTwoStart();
    PsTwoStep1(fuel);
    PsTwoStep2(fuel - 1);
    PsTwoStep3(fuel - 2);
    PsTwoStep4(fuel - 3);
    Over(PsTwo4, fuel - 4);
  }

  // ---------------------------------------------------------------------
  // SrptOne: the state before each iteration (SrptOne0 at the start), and
  // the state once each iteration's event is handled (SrptOneH1, ...)
  // ---------------------------------------------------------------------

  const SrptOne0: Sim := Sim([Arrival(0.0, 1, 10.0)], map[], map[], Policies.SRPT(Srpt.Init()), Identity, 0.0, [])
  const SrptOne1: Sim := Sim([Complete(10.0, 1)], map[1 := 10.0], map[1 := 1.0], Policies.SRPT(Srpt.State([Entry(10.0, 1)], 0.0)), Identity, 0.0, [])
  const SrptOne2: Sim := Sim([], map[], map[], Policies.SRPT(Srpt.State([], 10.0)), Identity, 10.0, [Completion(10.0, 1, Some(0.0))])
  const SrptOneH1: Sim := Sim([], map[1 := 10.0], map[], Policies.SRPT(Srpt.State([Entry(10.0, 1)], 0.0)), Identity, 0.0, [])
  const SrptOneH2: Sim := Sim([], map[], map[1 := 1.0], Policies.SRPT(Srpt.State([], 10.0)), Identity, 0.0, [Completion(10.0, 1, Some(0.0))])

  // Iteration 1, stage by stage.

  lemma SrptOneEnqueue1Update()
    ensures Srpt.Update(Srpt.State([], 0.0), 0.0) == Srpt.State([], 0.0)
  {
  }

  lemma SrptOneEnqueue1Insert()
    ensures EntryQueue.Insert([], Entry(10.0, 1)) == [Entry(10.0, 1)]
  {
  }

  lemma SrptOneMaps1()
    ensures map[][1 := 10.0] == map[1 := 10.0]
  {
  }

  lemma SrptOneEnqueue1()
    ensures Policies.Enqueue(Policies.SRPT(Srpt.State([], 0.0)), 0.0, 1, 10.0) == Ok(Policies.SRPT(Srpt.State([Entry(10.0, 1)], 0.0)))
  {
    SrptOneEnqueue1Update();
    SrptOneEnqueue1Insert();
    SrptEnqueueAfter(Srpt.State([], 0.0), 0.0, 1, 10.0, Srpt.State([], 0.0));
  }

  lemma SrptOneSchedule1()
    ensures Policies.Schedule(Policies.SRPT(Srpt.State([Entry(10.0, 1)], 0.0)), 0.0) == Ok((Policies.SRPT(Srpt.State([Entry(10.0, 1)], 0.0)), map[1 := 1.0]))
  {
    assert Srpt.Update(Srpt.State([Entry(10.0, 1)], 0.0), 0.0) == Srpt.State([Entry(10.0, 1)], 0.0);
  }

  lemma SrptOnePop1()
    ensures [Arrival(0.0, 1, 10.0)] == [Arrival(0.0, 1, 10.0)] + []
    ensures DebitSince(Sim([Arrival(0.0, 1, 10.0)], map[], map[], Policies.SRPT(Srpt.Init()), Identity, 0.0, [])) == Ok(map[])
  {
    assert [Arrival(0.0, 1, 10.0)] + [] == [Arrival(0.0, 1, 10.0)];
    DebitIdle(Sim([Arrival(0.0, 1, 10.0)], map[], map[], Policies.SRPT(Srpt.Init()), Identity, 0.0, []));
  }

  lemma SrptOneHandle1()
    ensures Handle(Sim([], map[], map[], Policies.SRPT(Srpt.Init()), Identity, 0.0, []), Arrival(0.0, 1, 10.0))
         == Next(Sim([], map[1 := 10.0], map[], Policies.SRPT(Srpt.State([Entry(10.0, 1)], 0.0)), Identity, 0.0, []))
  {
    SrptOneEnqueue1();
    Arrive(Sim([], map[], map[], Policies.SRPT(Srpt.Init()), Identity, 0.0, []), 0.0, 1, 10.0, 10.0, Identity, Policies.SRPT(Srpt.State([Entry(10.0, 1)], 0.0)));
    SrptOneMaps1();
  }

  lemma SrptOnePush1()
    ensures PushInternal([], Policies.SRPT(Srpt.State([Entry(10.0, 1)], 0.0)), 0.0) == []
    ensures PushComplete([], map[1 := 10.0], map[1 := 1.0], 0.0) == Ok([Complete(10.0, 1)])
  {
    PushAlone([], map[1 := 10.0], 1, 0.0, [Complete(10.0, 1)]);
  }

  /** Iteration 1: job 1 arrives at 0.0 with size 10.0; then job 1 runs alone.
      */
  lemma SrptOneStep1(fuel: nat)
    requires fuel > 0
    ensures Run(SrptOne0, fuel) == Run(SrptOne1, fuel - 1)
  {
    SrptOnePop1();
    SrptOneHandle1();
    SrptOneSchedule1();
    SrptOnePush1();
    Transition(SrptOne0, fuel, Arrival(0.0, 1, 10.0), [], map[], SrptOneH1, SrptOne1.policy, SrptOne1.schedule, SrptOne1.events, SrptOne1);
  }

  // Iteration 2, stage by stage.

  lemma SrptOneMaps2()
    ensures map[1 := 10.0][1 := 10.0 - (10.0 - 0.0)] == map[1 := 0.0]
    ensures map[1 := 0.0] - {1} == map[]
  {
  }

  lemma SrptOneDequeue2()
    ensures Policies.Dequeue(Policies.SRPT(Srpt.State([Entry(10.0, 1)], 0.0)), 10.0, 1) == Ok(Policies.SRPT(Srpt.State([], 10.0)))
  {
    assert Srpt.Update(Srpt.State([Entry(10.0, 1)], 0.0), 10.0) == Srpt.State([Entry(0.0, 1)], 10.0);
    assert [Entry(0.0, 1)][1..] == [];
    SrptDequeueHead(Srpt.State([Entry(10.0, 1)], 0.0), 10.0, 1, Srpt.State([Entry(0.0, 1)], 10.0));
  }

  lemma SrptOneSchedule2()
    ensures Policies.Schedule(Policies.SRPT(Srpt.State([], 10.0)), 10.0) == Ok((Policies.SRPT(Srpt.State([], 10.0)), map[]))
  {
    assert Srpt.Update(Srpt.State([], 10.0), 10.0) == Srpt.State([], 10.0);
  }

  lemma SrptOnePop2()
    ensures [Complete(10.0, 1)] == [Complete(10.0, 1)] + []
    ensures DebitSince(Sim([Complete(10.0, 1)], map[1 := 10.0], map[1 := 1.0], Policies.SRPT(Srpt.State([Entry(10.0, 1)], 0.0)), Identity, 0.0, [])) == Ok(map[1 := 0.0])
  {
    assert [Complete(10.0, 1)] + [] == [Complete(10.0, 1)];
    DebitAlone(Sim([Complete(10.0, 1)], map[1 := 10.0], map[1 := 1.0], Policies.SRPT(Srpt.State([Entry(10.0, 1)], 0.0)), Identity, 0.0, []), 1);
    SrptOneMaps2();
  }

  lemma SrptOneLeave2(st: Sim)
    requires st.events == [] && st.remaining == map[1 := 0.0] && st.schedule == map[1 := 1.0]
    requires st.estimator == Identity && st.lastT == 0.0 && st.out == []
    requires Policies.Dequeue(st.policy, 10.0, 1) == Ok(Policies.SRPT(Srpt.State([], 10.0)))
    ensures Handle(st, Complete(10.0, 1)) == Next(Sim([], map[], map[1 := 1.0], Policies.SRPT(Srpt.State([], 10.0)), Identity, 0.0, [Completion(10.0, 1, Some(0.0))]))
  {
    Leave(st, 10.0, 1, Policies.SRPT(Srpt.State([], 10.0)));
    SrptOneMaps2();
    assert [] + [Completion(10.0, 1, Some(0.0))] == [Completion(10.0, 1, Some(0.0))];
  }
  lemma SrptOneHandle2()
    ensures Handle(Sim([], map[1 := 0.0], map[1 := 1.0], Policies.SRPT(Srpt.State([Entry(10.0, 1)], 0.0)), Identity, 0.0, []), Complete(10.0, 1))
         == Next(Sim([], map[], map[1 := 1.0], Policies.SRPT(Srpt.State([], 10.0)), Identity, 0.0, [Completion(10.0, 1, Some(0.0))]))
  {
    SrptOneDequeue2();
    SrptOneLeave2(Sim([], map[1 := 0.0], map[1 := 1.0], Policies.SRPT(Srpt.State([Entry(10.0, 1)], 0.0)), Identity, 0.0, []));
  }

  lemma SrptOnePush2()
    ensures PushInternal([], Policies.SRPT(Srpt.State([], 10.0)), 10.0) == []
    ensures PushComplete([], map[], map[], 10.0) == Ok([])
  {
  }

  /** Iteration 2: job 1 completes at 10.0; then nothing runs. */
  lemma SrptOneStep2(fuel: nat)
    requires fuel > 0
    ensures Run(SrptOne1, fuel) == Run(SrptOne2, fuel - 1)
  {
    SrptOnePop2();
    SrptOneHandle2();
    SrptOneSchedule2();
    SrptOnePush2();
    Transition(SrptOne1, fuel, Complete(10.0, 1), [], map[1 := 0.0], SrptOneH2, SrptOne2.policy, SrptOne2.schedule, SrptOne2.events, SrptOne2);
  }

  lemma SrptOneHeap0()
    ensures Heapify([Arrival(0.0, 1, 10.0)]) == [Arrival(0.0, 1, 10.0)]
  {
    assert Heapify([]) == [];
    assert [Arrival(0.0, 1, 10.0)][1..] == [];
    assert Events.Insert([], Arrival(0.0, 1, 10.0)) == [Arrival(0.0, 1, 10.0)];
  }

  lemma SrptOneStart()
    ensures Start([Job(1, 0.0, 10.0)], Policies.SRPT(Srpt.Init()), Identity) == SrptOne0
  {
    assert ArrivalsOf([Job(1, 0.0, 10.0)]) == [Arrival(0.0, 1, 10.0)];
    SrptOneHeap0();
  }

  /** `test_one` under SRPT: one job of size 10 arriving at 0 completes at 10.
      */
  lemma SrptOne(fuel: nat)
    requires fuel >= 2
    ensures Simulate([Job(1, 0.0, 10.0)], Policies.SRPT(Srpt.Init()), Identity, fuel)
         == Done([Completion(10.0, 1, Some(0.0))])
  {
    SrptOneStart();
    SrptOneStep1(fuel);
    SrptOneStep2(fuel - 1);
    Over(SrptOne2, fuel - 2);
  }

  // ---------------------------------------------------------------------
  // SrptDelayed: the state before each iteration (SrptDelayed0 at the start), and
  // the state once each iteration's event is handled (SrptDelayedH1, ...)
  // ---------------------------------------------------------------------

  const SrptDelayed0: Sim := Sim([Arrival(0.0, 1, 20.0), Arrival(5.0, 2, 10.0)], map[], map[], Policies.SRPT(Srpt.Init()), Identity, 0.0, [])
  const SrptDelayed1: Sim := Sim([Arrival(5.0, 2, 10.0)], map[1 := 20.0], map[1 := 1.0], Policies.SRPT(Srpt.State([Entry(20.0, 1)], 0.0)), Identity, 0.0, [])
  const SrptDelayed2: Sim := Sim([Complete(15.0, 2)], map[1 := 15.0, 2 := 10.0], map[2 := 1.0], Policies.SRPT(Srpt.State([Entry(10.0, 2), Entry(15.0, 1)], 5.0)), Identity, 5.0, [])
  const SrptDelayed3: Sim := Sim([Complete(30.0, 1)], map[1 := 15.0], map[1 := 1.0], Policies.SRPT(Srpt.State([Entry(15.0, 1)], 15.0)), Identity, 15.0, [Completion(15.0, 2, Some(0.0))])
  const SrptDelayed4: Sim := Sim([], map[], map[], Policies.SRPT(Srpt.State([], 30.0)), Identity, 30.0, [Completion(15.0, 2, Some(0.0)), Completion(30.0, 1, Some(0.0))])
  const SrptDelayedH1: Sim := Sim([Arrival(5.0, 2, 10.0)], map[1 := 20.0], map[], Policies.SRPT(Srpt.State([Entry(20.0, 1)], 0.0)), Identity, 0.0, [])
  const SrptDelayedH2: Sim := Sim([], map[1 := 15.0, 2 := 10.0], map[1 := 1.0], Policies.SRPT(Srpt.State([Entry(10.0, 2), Entry(15.0, 1)], 5.0)), Identity, 0.0, [])
  const SrptDelayedH3: Sim := Sim([], map[1 := 15.0], map[2 := 1.0], Policies.SRPT(Srpt.State([Entry(15.0, 1)], 15.0)), Identity, 5.0, [Completion(15.0, 2, Some(0.0))])
  const SrptDelayedH4: Sim := Sim([], map[], map[1 := 1.0], Policies.SRPT(Srpt.State([], 30.0)), Identity, 15.0, [Completion(15.0, 2, Some(0.0)), Completion(30.0, 1, Some(0.0))])

  // Iteration 1, stage by stage.

  lemma SrptDelayedEnqueue1Update()
    ensures Srpt.Update(Srpt.State([], 0.0), 0.0) == Srpt.State([], 0.0)
  {
  }

  lemma SrptDelayedEnqueue1Insert()
    ensures EntryQueue.Insert([], Entry(20.0, 1)) == [Entry(20.0, 1)]
  {
  }

  lemma SrptDelayedMaps1()
    ensures map[][1 := 20.0] == map[1 := 20.0]
  {
  }

  lemma SrptDelayedEnqueue1()
    ensures Policies.Enqueue(Policies.SRPT(Srpt.State([], 0.0)), 0.0, 1, 20.0) == Ok(Policies.SRPT(Srpt.State([Entry(20.0, 1)], 0.0)))
  {
    SrptDelayedEnqueue1Update();
    SrptDelayedEnqueue1Insert();
    SrptEnqueueAfter(Srpt.State([], 0.0), 0.0, 1, 20.0, Srpt.State([], 0.0));
  }

  lemma SrptDelayedSchedule1()
    ensures Policies.Schedule(Policies.SRPT(Srpt.State([Entry(20.0, 1)], 0.0)), 0.0) == Ok((Policies.SRPT(Srpt.State([Entry(20.0, 1)], 0.0)), map[1 := 1.0]))
  {
    assert Srpt.Update(Srpt.State([Entry(20.0, 1)], 0.0), 0.0) == Srpt.State([Entry(20.0, 1)], 0.0);
  }

  lemma SrptDelayedPop1()
    ensures [Arrival(0.0, 1, 20.0), Arrival(5.0, 2, 10.0)] == [Arrival(0.0, 1, 20.0)] + [Arrival(5.0, 2, 10.0)]
    ensures DebitSince(Sim([Arrival(0.0, 1, 20.0), Arrival(5.0, 2, 10.0)], map[], map[], Policies.SRPT(Srpt.Init()), Identity, 0.0, [])) == Ok(map[])
  {
    assert [Arrival(0.0, 1, 20.0)] + [Arrival(5.0, 2, 10.0)] == [Arrival(0.0, 1, 20.0), Arrival(5.0, 2, 10.0)];
    DebitIdle(Sim([Arrival(0.0, 1, 20.0), Arrival(5.0, 2, 10.0)], map[], map[], Policies.SRPT(Srpt.Init()), Identity, 0.0, []));
  }

  lemma SrptDelayedHandle1()
    ensures Handle(Sim([Arrival(5.0, 2, 10.0)], map[], map[], Policies.SRPT(Srpt.Init()), Identity, 0.0, []), Arrival(0.0, 1, 20.0))
         == Next(Sim([Arrival(5.0, 2, 10.0)], map[1 := 20.0], map[], Policies.SRPT(Srpt.State([Entry(20.0, 1)], 0.0)), Identity, 0.0, []))
  {
    SrptDelayedEnqueue1();
    Arrive(Sim([Arrival(5.0, 2, 10.0)], map[], map[], Policies.SRPT(Srpt.Init()), Identity, 0.0, []), 0.0, 1, 20.0, 20.0, Identity, Policies.SRPT(Srpt.State([Entry(20.0, 1)], 0.0)));
    SrptDelayedMaps1();
  }

  lemma SrptDelayedPush1()
    ensures PushInternal([Arrival(5.0, 2, 10.0)], Policies.SRPT(Srpt.State([Entry(20.0, 1)], 0.0)), 0.0) == [Arrival(5.0, 2, 10.0)]
    ensures PushComplete([Arrival(5.0, 2, 10.0)], map[1 := 20.0], map[1 := 1.0], 0.0) == Ok([Arrival(5.0, 2, 10.0)])
  {
    PushAloneNot([Arrival(5.0, 2, 10.0)], map[1 := 20.0], 1, 0.0);
  }

  /** Iteration 1: job 1 arrives at 0.0 with size 20.0; then job 1 runs alone.
      */
  lemma SrptDelayedStep1(fuel: nat)
    requires fuel > 0
    ensures Run(SrptDelayed0, fuel) == Run(SrptDelayed1, fuel - 1)
  {
    SrptDelayedPop1();
    SrptDelayedHandle1();
    SrptDelayedSchedule1();
    SrptDelayedPush1();
    Transition(SrptDelayed0, fuel, Arrival(0.0, 1, 20.0), [Arrival(5.0, 2, 10.0)], map[], SrptDelayedH1, SrptDelayed1.policy, SrptDelayed1.schedule, SrptDelayed1.events, SrptDelayed1);
  }

  // Iteration 2, stage by stage.

  lemma SrptDelayedEnqueue2Update()
    ensures Srpt.Update(Srpt.State([Entry(20.0, 1)], 0.0), 5.0) == Srpt.State([Entry(15.0, 1)], 5.0)
  {
  }

  lemma SrptDelayedEnqueue2Insert()
    ensures EntryQueue.Insert([Entry(15.0, 1)], Entry(10.0, 2)) == [Entry(10.0, 2), Entry(15.0, 1)]
  {
  }

  lemma SrptDelayedMaps2()
    ensures map[1 := 20.0][1 := 20.0 - (5.0 - 0.0)] == map[1 := 15.0]
    ensures map[1 := 15.0][2 := 10.0] == map[1 := 15.0, 2 := 10.0]
  {
  }

  lemma SrptDelayedEnqueue2()
    ensures Policies.Enqueue(Policies.SRPT(Srpt.State([Entry(20.0, 1)], 0.0)), 5.0, 2, 10.0) == Ok(Policies.SRPT(Srpt.State([Entry(10.0, 2), Entry(15.0, 1)], 5.0)))
  {
    SrptDelayedEnqueue2Update();
    SrptDelayedEnqueue2Insert();
    SrptEnqueueAfter(Srpt.State([Entry(20.0, 1)], 0.0), 5.0, 2, 10.0, Srpt.State([Entry(15.0, 1)], 5.0));
  }

  lemma SrptDelayedSchedule2()
    ensures Policies.Schedule(Policies.SRPT(Srpt.State([Entry(10.0, 2), Entry(15.0, 1)], 5.0)), 5.0) == Ok((Policies.SRPT(Srpt.State([Entry(10.0, 2), Entry(15.0, 1)], 5.0)), map[2 := 1.0]))
  {
    assert Srpt.Update(Srpt.State([Entry(10.0, 2), Entry(15.0, 1)], 5.0), 5.0) == Srpt.State([Entry(10.0, 2), Entry(15.0, 1)], 5.0);
  }

  lemma SrptDelayedPop2()
    ensures [Arrival(5.0, 2, 10.0)] == [Arrival(5.0, 2, 10.0)] + []
    ensures DebitSince(Sim([Arrival(5.0, 2, 10.0)], map[1 := 20.0], map[1 := 1.0], Policies.SRPT(Srpt.State([Entry(20.0, 1)], 0.0)), Identity, 0.0, [])) == Ok(map[1 := 15.0])
  {
    assert [Arrival(5.0, 2, 10.0)] + [] == [Arrival(5.0, 2, 10.0)];
    DebitAlone(Sim([Arrival(5.0, 2, 10.0)], map[1 := 20.0], map[1 := 1.0], Policies.SRPT(Srpt.State([Entry(20.0, 1)], 0.0)), Identity, 0.0, []), 1);
    SrptDelayedMaps2();
  }

  lemma SrptDelayedHandle2()
    ensures Handle(Sim([], map[1 := 15.0], map[1 := 1.0], Policies.SRPT(Srpt.State([Entry(20.0, 1)], 0.0)), Identity, 0.0, []), Arrival(5.0, 2, 10.0))
         == Next(Sim([], map[1 := 15.0, 2 := 10.0], map[1 := 1.0], Policies.SRPT(Srpt.State([Entry(10.0, 2), Entry(15.0, 1)], 5.0)), Identity, 0.0, []))
  {
    SrptDelayedEnqueue2();
    Arrive(Sim([], map[1 := 15.0], map[1 := 1.0], Policies.SRPT(Srpt.State([Entry(20.0, 1)], 0.0)), Identity, 0.0, []), 5.0, 2, 10.0, 10.0, Identity, Policies.SRPT(Srpt.State([Entry(10.0, 2), Entry(15.0, 1)], 5.0)));
    SrptDelayedMaps2();
  }

  lemma SrptDelayedPush2()
    ensures PushInternal([], Policies.SRPT(Srpt.State([Entry(10.0, 2), Entry(15.0, 1)], 5.0)), 5.0) == []
    ensures PushComplete([], map[1 := 15.0, 2 := 10.0], map[2 := 1.0], 5.0) == Ok([Complete(15.0, 2)])
  {
    PushAlone([], map[1 := 15.0, 2 := 10.0], 2, 5.0, [Complete(15.0, 2)]);
  }

  /** Iteration 2: job 2 arrives at 5.0 with size 10.0; then job 2 runs alone.
      */
  lemma SrptDelayedStep2(fuel: nat)
    requires fuel > 0
    ensures Run(SrptDelayed1, fuel) == Run(SrptDelayed2, fuel - 1)
  {
    SrptDelayedPop2();
    SrptDelayedHandle2();
    SrptDelayedSchedule2();
    SrptDelayedPush2();
    Transition(SrptDelayed1, fuel, Arrival(5.0, 2, 10.0), [], map[1 := 15.0], SrptDelayedH2, SrptDelayed2.policy, SrptDelayed2.schedule, SrptDelayed2.events, SrptDelayed2);
  }

  // Iteration 3, stage by stage.

  lemma SrptDelayedMaps3()
    ensures map[1 := 15.0, 2 := 10.0][2 := 10.0 - (15.0 - 5.0)] == map[1 := 15.0, 2 := 0.0]
    ensures map[1 := 15.0, 2 := 0.0] - {2} == map[1 := 15.0]
  {
  }

  lemma SrptDelayedDequeue3()
    ensures Policies.Dequeue(Policies.SRPT(Srpt.State([Entry(10.0, 2), Entry(15.0, 1)], 5.0)), 15.0, 2) == Ok(Policies.SRPT(Srpt.State([Entry(15.0, 1)], 15.0)))
  {
    assert Srpt.Update(Srpt.State([Entry(10.0, 2), Entry(15.0, 1)], 5.0), 15.0) == Srpt.State([Entry(0.0, 2), Entry(15.0, 1)], 15.0);
    assert [Entry(0.0, 2), Entry(15.0, 1)][1..] == [Entry(15.0, 1)];
    SrptDequeueHead(Srpt.State([Entry(10.0, 2), Entry(15.0, 1)], 5.0), 15.0, 2, Srpt.State([Entry(0.0, 2), Entry(15.0, 1)], 15.0));
  }

  lemma SrptDelayedSchedule3()
    ensures Policies.Schedule(Policies.SRPT(Srpt.State([Entry(15.0, 1)], 15.0)), 15.0) == Ok((Policies.SRPT(Srpt.State([Entry(15.0, 1)], 15.0)), map[1 := 1.0]))
  {
    assert Srpt.Update(Srpt.State([Entry(15.0, 1)], 15.0), 15.0) == Srpt.State([Entry(15.0, 1)], 15.0);
  }

  lemma SrptDelayedPop3()
    ensures [Complete(15.0, 2)] == [Complete(15.0, 2)] + []
    ensures DebitSince(Sim([Complete(15.0, 2)], map[1 := 15.0, 2 := 10.0], map[2 := 1.0], Policies.SRPT(Srpt.State([Entry(10.0, 2), Entry(15.0, 1)], 5.0)), Identity, 5.0, [])) == Ok(map[1 := 15.0, 2 := 0.0])
  {
    assert [Complete(15.0, 2)] + [] == [Complete(15.0, 2)];
    DebitAlone(Sim([Complete(15.0, 2)], map[1 := 15.0, 2 := 10.0], map[2 := 1.0], Policies.SRPT(Srpt.State([Entry(10.0, 2), Entry(15.0, 1)], 5.0)), Identity, 5.0, []), 2);
    SrptDelayedMaps3();
  }

  lemma SrptDelayedLeave3(st: Sim)
    requires st.events == [] && st.remaining == map[1 := 15.0, 2 := 0.0] && st.schedule == map[2 := 1.0]
    requires st.estimator == Identity && st.lastT == 5.0 && st.out == []
    requires Policies.Dequeue(st.policy, 15.0, 2) == Ok(Policies.SRPT(Srpt.State([Entry(15.0, 1)], 15.0)))
    ensures Handle(st, Complete(15.0, 2)) == Next(Sim([], map[1 := 15.0], map[2 := 1.0], Policies.SRPT(Srpt.State([Entry(15.0, 1)], 15.0)), Identity, 5.0, [Completion(15.0, 2, Some(0.0))]))
  {
    Leave(st, 15.0, 2, Policies.SRPT(Srpt.State([Entry(15.0, 1)], 15.0)));
    SrptDelayedMaps3();
    assert [] + [Completion(15.0, 2, Some(0.0))] == [Completion(15.0, 2, Some(0.0))];
  }
  lemma SrptDelayedHandle3()
    ensures Handle(Sim([], map[1 := 15.0, 2 := 0.0], map[2 := 1.0], Policies.SRPT(Srpt.State([Entry(10.0, 2), Entry(15.0, 1)], 5.0)), Identity, 5.0, []), Complete(15.0, 2))
         == Next(Sim([], map[1 := 15.0], map[2 := 1.0], Policies.SRPT(Srpt.State([Entry(15.0, 1)], 15.0)), Identity, 5.0, [Completion(15.0, 2, Some(0.0))]))
  {
    SrptDelayedDequeue3();
    SrptDelayedLeave3(Sim([], map[1 := 15.0, 2 := 0.0], map[2 := 1.0], Policies.SRPT(Srpt.State([Entry(10.0, 2), Entry(15.0, 1)], 5.0)), Identity, 5.0, []));
  }

  lemma SrptDelayedPush3()
    ensures PushInternal([], Policies.SRPT(Srpt.State([Entry(15.0, 1)], 15.0)), 15.0) == []
    ensures PushComplete([], map[1 := 15.0], map[1 := 1.0], 15.0) == Ok([Complete(30.0, 1)])
  {
    PushAlone([], map[1 := 15.0], 1, 15.0, [Complete(30.0, 1)]);
  }

  /** Iteration 3: job 2 completes at 15.0; then job 1 runs alone. */
  lemma SrptDelayedStep3(fuel: nat)
    requires fuel > 0
    ensures Run(SrptDelayed2, fuel) == Run(SrptDelayed3, fuel - 1)
  {
    SrptDelayedPop3();
    SrptDelayedHandle3();
    SrptDelayedSchedule3();
    SrptDelayedPush3();
    Transition(SrptDelayed2, fuel, Complete(15.0, 2), [], map[1 := 15.0, 2 := 0.0], SrptDelayedH3, SrptDelayed3.policy, SrptDelayed3.schedule, SrptDelayed3.events, SrptDelayed3);
  }

  // Iteration 4, stage by stage.

  lemma SrptDelayedMaps4()
    ensures map[1 := 15.0][1 := 15.0 - (30.0 - 15.0)] == map[1 := 0.0]
    ensures map[1 := 0.0] - {1} == map[]
  {
  }

  lemma SrptDelayedDequeue4()
    ensures Policies.Dequeue(Policies.SRPT(Srpt.State([Entry(15.0, 1)], 15.0)), 30.0, 1) == Ok(Policies.SRPT(Srpt.State([], 30.0)))
  {
    assert Srpt.Update(Srpt.State([Entry(15.0, 1)], 15.0), 30.0) == Srpt.State([Entry(0.0, 1)], 30.0);
    assert [Entry(0.0, 1)][1..] == [];
    SrptDequeueHead(Srpt.State([Entry(15.0, 1)], 15.0), 30.0, 1, Srpt.State([Entry(0.0, 1)], 30.0));
  }

  lemma SrptDelayedSchedule4()
    ensures Policies.Schedule(Policies.SRPT(Srpt.State([], 30.0)), 30.0) == Ok((Policies.SRPT(Srpt.State([], 30.0)), map[]))
  {
    assert Srpt.Update(Srpt.State([], 30.0), 30.0) == Srpt.State([], 30.0);
  }

  lemma SrptDelayedPop4()
    ensures [Complete(30.0, 1)] == [Complete(30.0, 1)] + []
    ensures DebitSince(Sim([Complete(30.0, 1)], map[1 := 15.0], map[1 := 1.0], Policies.SRPT(Srpt.State([Entry(15.0, 1)], 15.0)), Identity, 15.0, [Completion(15.0, 2, Some(0.0))])) == Ok(map[1 := 0.0])
  {
    assert [Complete(30.0, 1)] + [] == [Complete(30.0, 1)];
    DebitAlone(Sim([Complete(30.0, 1)], map[1 := 15.0], map[1 := 1.0], Policies.SRPT(Srpt.State([Entry(15.0, 1)], 15.0)), Identity, 15.0, [Completion(15.0, 2, Some(0.0))]), 1);
    SrptDelayedMaps4();
  }

  lemma SrptDelayedLeave4(st: Sim)
    requires st.events == [] && st.remaining == map[1 := 0.0] && st.schedule == map[1 := 1.0]
    requires st.estimator == Identity && st.lastT == 15.0 && st.out == [Completion(15.0, 2, Some(0.0))]
    requires Policies.Dequeue(st.policy, 30.0, 1) == Ok(Policies.SRPT(Srpt.State([], 30.0)))
    ensures Handle(st, Complete(30.0, 1)) == Next(Sim([], map[], map[1 := 1.0], Policies.SRPT(Srpt.State([], 30.0)), Identity, 15.0, [Completion(15.0, 2, Some(0.0)), Completion(30.0, 1, Some(0.0))]))
  {
    Leave(st, 30.0, 1, Policies.SRPT(Srpt.State([], 30.0)));
    SrptDelayedMaps4();
    assert [Completion(15.0, 2, Some(0.0))] + [Completion(30.0, 1, Some(0.0))] == [Completion(15.0, 2, Some(0.0)), Completion(30.0, 1, Some(0.0))];
  }
  lemma SrptDelayedHandle4()
    ensures Handle(Sim([], map[1 := 0.0], map[1 := 1.0], Policies.SRPT(Srpt.State([Entry(15.0, 1)], 15.0)), Identity, 15.0, [Completion(15.0, 2, Some(0.0))]), Complete(30.0, 1))
         == Next(Sim([], map[], map[1 := 1.0], Policies.SRPT(Srpt.State([], 30.0)), Identity, 15.0, [Completion(15.0, 2, Some(0.0)), Completion(30.0, 1, Some(0.0))]))
  {
    SrptDelayedDequeue4();
    SrptDelayedLeave4(Sim([], map[1 := 0.0], map[1 := 1.0], Policies.SRPT(Srpt.State([Entry(15.0, 1)], 15.0)), Identity, 15.0, [Completion(15.0, 2, Some(0.0))]));
  }

  lemma SrptDelayedPush4()
    ensures PushInternal([], Policies.SRPT(Srpt.State([], 30.0)), 30.0) == []
    ensures PushComplete([], map[], map[], 30.0) == Ok([])
  {
  }

  /** Iteration 4: job 1 completes at 30.0; then nothing runs. */
  lemma SrptDelayedStep4(fuel: nat)
    requires fuel > 0
    ensures Run(SrptDelayed3, fuel) == Run(SrptDelayed4, fuel - 1)
  {
    SrptDelayedPop4();
    SrptDelayedHandle4();
    SrptDelayedSchedule4();
    SrptDelayedPush4();
    Transition(SrptDelayed3, fuel, Complete(30.0, 1), [], map[1 := 0.0], SrptDelayedH4, SrptDelayed4.policy, SrptDelayed4.schedule, SrptDelayed4.events, SrptDelayed4);
  }

  lemma SrptDelayedHeap1()
    ensures Heapify([Arrival(5.0, 2, 10.0)]) == [Arrival(5.0, 2, 10.0)]
  {
    assert Heapify([]) == [];
    assert [Arrival(5.0, 2, 10.0)][1..] == [];
    assert Events.Insert([], Arrival(5.0, 2, 10.0)) == [Arrival(5.0, 2, 10.0)];
  }

  lemma SrptDelayedHeap0()
    ensures Heapify([Arrival(0.0, 1, 20.0), Arrival(5.0, 2, 10.0)]) == [Arrival(0.0, 1, 20.0), Arrival(5.0, 2, 10.0)]
  {
    SrptDelayedHeap1();
    assert [Arrival(0.0, 1, 20.0), Arrival(5.0, 2, 10.0)][1..] == [Arrival(5.0, 2, 10.0)];
    assert Events.Insert([Arrival(5.0, 2, 10.0)], Arrival(0.0, 1, 20.0)) == [Arrival(0.0, 1, 20.0), Arrival(5.0, 2, 10.0)];
  }

  lemma SrptDelayedStart()
    ensures Start([Job(1, 0.0, 20.0), Job(2, 5.0, 10.0)], Policies.SRPT(Srpt.Init()), Identity) == SrptDelayed0
  {
    assert ArrivalsOf([Job(1, 0.0, 20.0), Job(2, 5.0, 10.0)]) == [Arrival(0.0, 1, 20.0), Arrival(5.0, 2, 10.0)];
    SrptDelayedHeap0();
  }

  /** `test_two_delayed` under SRPT: job 2 (size 10) arrives at 5, when job 1
      has 15 left, preempts it and completes at 15; job 1 completes at 30. */
  lemma SrptDelayed(fuel: nat)
    requires fuel >= 4
    ensures Simulate([Job(1, 0.0, 20.0), Job(2, 5.0, 10.0)], Policies.SRPT(Srpt.Init()), Identity, fuel)
         == Done([Completion(15.0, 2, Some(0.0)), Completion(30.0, 1, Some(0.0))])
  {
    SrptDelayedStart();
    SrptDelayedStep1(fuel);
    SrptDelayedStep2(fuel - 1);
    SrptDelayedStep3(fuel - 2);
    SrptDelayedStep4(fuel - 3);
    Over(SrptDelayed4, fuel - 4);
  }

  // ---------------------------------------------------------------------
  // FspOne: the state before each iteration (FspOne0 at the start), and
  // the state once each iteration's event is handled (FspOneH1, ...)
  // ---------------------------------------------------------------------

  const FspOne0: Sim := Sim([Arrival(0.0, 1, 10.0)], map[], map[], Policies.FSP(Fsp.Init(Eps)), Identity, 0.0, [])
  const FspOne1: Sim := Sim([Internal(10.0)], map[1 := 10.0], map[1 := 1.0], Policies.FSP(Fsp.State([Entry(10.0, 1)], [], {1}, 0.0, Eps)), Identity, 0.0, [])
  const FspOne2: Sim := Sim([Complete(10.0, 1)], map[1 := 0.0], map[1 := 1.0], Policies.FSP(Fsp.State([], [1], {1}, 10.0, Eps)), Identity, 10.0, [])
  const FspOne3: Sim := Sim([], map[], map[], Policies.FSP(Fsp.State([], [], {}, 10.0, Eps)), Identity, 10.0, [Completion(10.0, 1, Some(0.0))])
  const FspOneH1: Sim := Sim([], map[1 := 10.0], map[], Policies.FSP(Fsp.State([Entry(10.0, 1)], [], {1}, 0.0, Eps)), Identity, 0.0, [])
  const FspOneH2: Sim := Sim([], map[1 := 0.0], map[1 := 1.0], Policies.FSP(Fsp.State([Entry(10.0, 1)], [], {1}, 0.0, Eps)), Identity, 0.0, [])
  const FspOneH3: Sim := Sim([], map[], map[1 := 1.0], Policies.FSP(Fsp.State([], [], {}, 10.0, Eps)), Identity, 10.0, [Completion(10.0, 1, Some(0.0))])

  // Iteration 1, stage by stage.

  lemma FspOneSchedule1UpdateCount()
    ensures CountAtMost([Entry(10.0, 1)], 0.0 + Eps) == 0
  {
  }

  lemma FspOneSchedule1UpdateSurvivors()
    ensures Fsp.Survivors([Entry(10.0, 1)], 0.0, Eps) == [Entry(10.0, 1)]
  {
    FspOneSchedule1UpdateCount();
    assert [Entry(10.0, 1)][0..] == [Entry(10.0, 1)];
    FspSurvivorsAre([Entry(10.0, 1)], 0.0, Eps, 0, [Entry(10.0, 1)]);
  }

  lemma FspOneSchedule1UpdateMarks()
    ensures Fsp.MarkAll([], [], {1}) == []
  {
  }

  lemma FspOneSchedule1Update()
    ensures Fsp.Update(Fsp.State([Entry(10.0, 1)], [], {1}, 0.0, Eps), 0.0) == Fsp.State([Entry(10.0, 1)], [], {1}, 0.0, Eps)
  {
    assert (0.0 - 0.0) / (1 as real) == 0.0;
    FspOneSchedule1UpdateCount();
    assert [Entry(10.0, 1)][..0] == [];
    FspOneSchedule1UpdateSurvivors();
    FspOneSchedule1UpdateMarks();
    FspUpdateIs(Fsp.State([Entry(10.0, 1)], [], {1}, 0.0, Eps), 0.0, 0.0, 0, [Entry(10.0, 1)], []);
  }

  lemma FspOneSchedule1Pick()
    ensures Fsp.Pick(Fsp.State([Entry(10.0, 1)], [], {1}, 0.0, Eps)) == Ok(map[1 := 1.0])
  {
    assert Fsp.FirstRunning([Entry(10.0, 1)], {1}) == Some(0);
  }

  lemma FspOneMaps1()
    ensures map[][1 := 10.0] == map[1 := 10.0]
  {
  }

  lemma FspOneEnqueue1()
    ensures Policies.Enqueue(Policies.FSP(Fsp.State([], [], {}, 0.0, Eps)), 0.0, 1, 10.0) == Ok(Policies.FSP(Fsp.State([Entry(10.0, 1)], [], {1}, 0.0, Eps)))
  {
    assert EntryQueue.Insert([], Entry(10.0, 1)) == [Entry(10.0, 1)];
    assert {} + {1} == {1};
    FspEnqueueAfter(Fsp.State([], [], {}, 0.0, Eps), 0.0, 1, 10.0, Fsp.State([], [], {}, 0.0, Eps));
  }

  lemma FspOneSchedule1()
    ensures Policies.Schedule(Policies.FSP(Fsp.State([Entry(10.0, 1)], [], {1}, 0.0, Eps)), 0.0) == Ok((Policies.FSP(Fsp.State([Entry(10.0, 1)], [], {1}, 0.0, Eps)), map[1 := 1.0]))
  {
    FspOneSchedule1Update();
    FspOneSchedule1Pick();
    FspScheduleAfter(Fsp.State([Entry(10.0, 1)], [], {1}, 0.0, Eps), 0.0, Fsp.State([Entry(10.0, 1)], [], {1}, 0.0, Eps), map[1 := 1.0]);
  }

  lemma FspOneNext1()
    ensures Policies.NextInternal(Policies.FSP(Fsp.State([Entry(10.0, 1)], [], {1}, 0.0, Eps))) == Some(10.0)
  {
  }

  lemma FspOnePop1()
    ensures [Arrival(0.0, 1, 10.0)] == [Arrival(0.0, 1, 10.0)] + []
    ensures DebitSince(Sim([Arrival(0.0, 1, 10.0)], map[], map[], Policies.FSP(Fsp.Init(Eps)), Identity, 0.0, [])) == Ok(map[])
  {
    assert [Arrival(0.0, 1, 10.0)] + [] == [Arrival(0.0, 1, 10.0)];
    DebitIdle(Sim([Arrival(0.0, 1, 10.0)], map[], map[], Policies.FSP(Fsp.Init(Eps)), Identity, 0.0, []));
  }

  lemma FspOneHandle1()
    ensures Handle(Sim([], map[], map[], Policies.FSP(Fsp.Init(Eps)), Identity, 0.0, []), Arrival(0.0, 1, 10.0))
         == Next(Sim([], map[1 := 10.0], map[], Policies.FSP(Fsp.State([Entry(10.0, 1)], [], {1}, 0.0, Eps)), Identity, 0.0, []))
  {
    FspOneEnqueue1();
    Arrive(Sim([], map[], map[], Policies.FSP(Fsp.Init(Eps)), Identity, 0.0, []), 0.0, 1, 10.0, 10.0, Identity, Policies.FSP(Fsp.State([Entry(10.0, 1)], [], {1}, 0.0, Eps)));
    FspOneMaps1();
  }

  lemma FspOnePush1()
    ensures PushInternal([], Policies.FSP(Fsp.State([Entry(10.0, 1)], [], {1}, 0.0, Eps)), 0.0) == [Internal(10.0)]
    ensures PushComplete([Internal(10.0)], map[1 := 10.0], map[1 := 1.0], 0.0) == Ok([Internal(10.0)])
  {
    FspOneNext1();
    PushAloneNot([Internal(10.0)], map[1 := 10.0], 1, 0.0);
  }

  /** Iteration 1: job 1 arrives at 0.0 with size 10.0; then job 1 runs alone.
      */
  lemma FspOneStep1(fuel: nat)
    requires fuel > 0
    ensures Run(FspOne0, fuel) == Run(FspOne1, fuel - 1)
  {
    FspOnePop1();
    FspOneHandle1();
    FspOneSchedule1();
    FspOnePush1();
    Transition(FspOne0, fuel, Arrival(0.0, 1, 10.0), [], map[], FspOneH1, FspOne1.policy, FspOne1.schedule, FspOne1.events, FspOne1);
  }

  // Iteration 2, stage by stage.

  lemma FspOneSchedule2UpdateCount()
    ensures CountAtMost([Entry(10.0, 1)], 10.0 + Eps) == 1
  {
    assert CountAtMost([], 10.0 + Eps) == 0;
    assert [Entry(10.0, 1)][1..] == [];
  }

  lemma FspOneSchedule2UpdateAge()
    ensures Age([], 10.0) == []
  {
  }

  lemma FspOneSchedule2UpdateSurvivors()
    ensures Fsp.Survivors([Entry(10.0, 1)], 10.0, Eps) == []
  {
    FspOneSchedule2UpdateCount();
    assert [Entry(10.0, 1)][1..] == [];
    FspOneSchedule2UpdateAge();
    FspSurvivorsAre([Entry(10.0, 1)], 10.0, Eps, 1, []);
  }

  lemma FspOneSchedule2UpdateMarks()
    ensures Fsp.MarkAll([], [Entry(10.0, 1)], {1}) == [1]
  {
    assert Fsp.MarkAll([1], [], {1}) == [1];
    assert [Entry(10.0, 1)][1..] == [];
  }

  lemma FspOneSchedule2Update()
    ensures Fsp.Update(Fsp.State([Entry(10.0, 1)], [], {1}, 0.0, Eps), 10.0) == Fsp.State([], [1], {1}, 10.0, Eps)
  {
    assert (10.0 - 0.0) / (1 as real) == 10.0;
    FspOneSchedule2UpdateCount();
    assert [Entry(10.0, 1)][..1] == [Entry(10.0, 1)];
    FspOneSchedule2UpdateSurvivors();
    FspOneSchedule2UpdateMarks();
    FspUpdateIs(Fsp.State([Entry(10.0, 1)], [], {1}, 0.0, Eps), 10.0, 10.0, 1, [], [1]);
  }

  lemma FspOneSchedule2Pick()
    ensures Fsp.Pick(Fsp.State([], [1], {1}, 10.0, Eps)) == Ok(map[1 := 1.0])
  {
  }

  lemma FspOneMaps2()
    ensures map[1 := 10.0][1 := 10.0 - (10.0 - 0.0)] == map[1 := 0.0]
  {
  }

  lemma FspOneSchedule2()
    ensures Policies.Schedule(Policies.FSP(Fsp.State([Entry(10.0, 1)], [], {1}, 0.0, Eps)), 10.0) == Ok((Policies.FSP(Fsp.State([], [1], {1}, 10.0, Eps)), map[1 := 1.0]))
  {
    FspOneSchedule2Update();
    FspOneSchedule2Pick();
    FspScheduleAfter(Fsp.State([Entry(10.0, 1)], [], {1}, 0.0, Eps), 10.0, Fsp.State([], [1], {1}, 10.0, Eps), map[1 := 1.0]);
  }

  lemma FspOneNext2()
    ensures Policies.NextInternal(Policies.FSP(Fsp.State([], [1], {1}, 10.0, Eps))) == None
  {
  }

  lemma FspOnePop2()
    ensures [Internal(10.0)] == [Internal(10.0)] + []
    ensures DebitSince(Sim([Internal(10.0)], map[1 := 10.0], map[1 := 1.0], Policies.FSP(Fsp.State([Entry(10.0, 1)], [], {1}, 0.0, Eps)), Identity, 0.0, [])) == Ok(map[1 := 0.0])
  {
    assert [Internal(10.0)] + [] == [Internal(10.0)];
    DebitAlone(Sim([Internal(10.0)], map[1 := 10.0], map[1 := 1.0], Policies.FSP(Fsp.State([Entry(10.0, 1)], [], {1}, 0.0, Eps)), Identity, 0.0, []), 1);
    FspOneMaps2();
  }

  lemma FspOneHandle2()
    ensures Handle(Sim([], map[1 := 0.0], map[1 := 1.0], Policies.FSP(Fsp.State([Entry(10.0, 1)], [], {1}, 0.0, Eps)), Identity, 0.0, []), Internal(10.0))
         == Next(Sim([], map[1 := 0.0], map[1 := 1.0], Policies.FSP(Fsp.State([Entry(10.0, 1)], [], {1}, 0.0, Eps)), Identity, 0.0, []))
  {
  }

  lemma FspOnePush2()
    ensures PushInternal([], Policies.FSP(Fsp.State([], [1], {1}, 10.0, Eps)), 10.0) == []
    ensures PushComplete([], map[1 := 0.0], map[1 := 1.0], 10.0) == Ok([Complete(10.0, 1)])
  {
    FspOneNext2();
    PushAlone([], map[1 := 0.0], 1, 10.0, [Complete(10.0, 1)]);
  }

  /** Iteration 2: the head of the virtual queue finishes at 10.0; then job 1
      runs alone. */
  lemma FspOneStep2(fuel: nat)
    requires fuel > 0
    ensures Run(FspOne1, fuel) == Run(FspOne2, fuel - 1)
  {
    FspOnePop2();
    FspOneHandle2();
    FspOneSchedule2();
    FspOnePush2();
    Transition(FspOne1, fuel, Internal(10.0), [], map[1 := 0.0], FspOneH2, FspOne2.policy, FspOne2.schedule, FspOne2.events, FspOne2);
  }

  // Iteration 3, stage by stage.

  lemma FspOneSchedule3Pick()
    ensures Fsp.Pick(Fsp.State([], [], {}, 10.0, Eps)) == Ok(map[])
  {
  }

  lemma FspOneMaps3()
    ensures map[1 := 0.0][1 := 0.0 - (10.0 - 10.0)] == map[1 := 0.0]
    ensures map[1 := 0.0] - {1} == map[]
  {
  }

  lemma FspOneDequeue3()
    ensures Policies.Dequeue(Policies.FSP(Fsp.State([], [1], {1}, 10.0, Eps)), 10.0, 1) == Ok(Policies.FSP(Fsp.State([], [], {}, 10.0, Eps)))
  {
    assert Without([1], 1) == [];
    assert {1} - {1} == {};
  }

  lemma FspOneSchedule3()
    ensures Policies.Schedule(Policies.FSP(Fsp.State([], [], {}, 10.0, Eps)), 10.0) == Ok((Policies.FSP(Fsp.State([], [], {}, 10.0, Eps)), map[]))
  {
    FspOneSchedule3Pick();
    FspScheduleAfter(Fsp.State([], [], {}, 10.0, Eps), 10.0, Fsp.State([], [], {}, 10.0, Eps), map[]);
  }

  lemma FspOneNext3()
    ensures Policies.NextInternal(Policies.FSP(Fsp.State([], [], {}, 10.0, Eps))) == None
  {
  }

  lemma FspOnePop3()
    ensures [Complete(10.0, 1)] == [Complete(10.0, 1)] + []
    ensures DebitSince(Sim([Complete(10.0, 1)], map[1 := 0.0], map[1 := 1.0], Policies.FSP(Fsp.State([], [1], {1}, 10.0, Eps)), Identity, 10.0, [])) == Ok(map[1 := 0.0])
  {
    assert [Complete(10.0, 1)] + [] == [Complete(10.0, 1)];
    DebitAlone(Sim([Complete(10.0, 1)], map[1 := 0.0], map[1 := 1.0], Policies.FSP(Fsp.State([], [1], {1}, 10.0, Eps)), Identity, 10.0, []), 1);
    FspOneMaps3();
  }

  lemma FspOneLeave3(st: Sim)
    requires st.events == [] && st.remaining == map[1 := 0.0] && st.schedule == map[1 := 1.0]
    requires st.estimator == Identity && st.lastT == 10.0 && st.out == []
    requires Policies.Dequeue(st.policy, 10.0, 1) == Ok(Policies.FSP(Fsp.State([], [], {}, 10.0, Eps)))
    ensures Handle(st, Complete(10.0, 1)) == Next(Sim([], map[], map[1 := 1.0], Policies.FSP(Fsp.State([], [], {}, 10.0, Eps)), Identity, 10.0, [Completion(10.0, 1, Some(0.0))]))
  {
    Leave(st, 10.0, 1, Policies.FSP(Fsp.State([], [], {}, 10.0, Eps)));
    FspOneMaps3();
    assert [] + [Completion(10.0, 1, Some(0.0))] == [Completion(10.0, 1, Some(0.0))];
  }
  lemma FspOneHandle3()
    ensures Handle(Sim([], map[1 := 0.0], map[1 := 1.0], Policies.FSP(Fsp.State([], [1], {1}, 10.0, Eps)), Identity, 10.0, []), Complete(10.0, 1))
         == Next(Sim([], map[], map[1 := 1.0], Policies.FSP(Fsp.State([], [], {}, 10.0, Eps)), Identity, 10.0, [Completion(10.0, 1, Some(0.0))]))
  {
    FspOneDequeue3();
    FspOneLeave3(Sim([], map[1 := 0.0], map[1 := 1.0], Policies.FSP(Fsp.State([], [1], {1}, 10.0, Eps)), Identity, 10.0, []));
  }

  lemma FspOnePush3()
    ensures PushInternal([], Policies.FSP(Fsp.State([], [], {}, 10.0, Eps)), 10.0) == []
    ensures PushComplete([], map[], map[], 10.0) == Ok([])
  {
    FspOneNext3();
  }

  /** Iteration 3: job 1 completes at 10.0; then nothing runs. */
  lemma FspOneStep3(fuel: nat)
    requires fuel > 0
    ensures Run(FspOne2, fuel) == Run(FspOne3, fuel - 1)
  {
    FspOnePop3();
    FspOneHandle3();
    FspOneSchedule3();
    FspOnePush3();
    Transition(FspOne2, fuel, Complete(10.0, 1), [], map[1 := 0.0], FspOneH3, FspOne3.policy, FspOne3.schedule, FspOne3.events, FspOne3);
  }

  lemma FspOneHeap0()
    ensures Heapify([Arrival(0.0, 1, 10.0)]) == [Arrival(0.0, 1, 10.0)]
  {
    assert Heapify([]) == [];
    assert [Arrival(0.0, 1, 10.0)][1..] == [];
    assert Events.Insert([], Arrival(0.0, 1, 10.0)) == [Arrival(0.0, 1, 10.0)];
  }

  lemma FspOneStart()
    ensures Start([Job(1, 0.0, 10.0)], Policies.FSP(Fsp.Init(Eps)), Identity) == FspOne0
  {
    assert ArrivalsOf([Job(1, 0.0, 10.0)]) == [Arrival(0.0, 1, 10.0)];
    FspOneHeap0();
  }

  /** `test_one` under FSP: one job of size 10 arriving at 0 completes at 10. */
  lemma FspOne(fuel: nat)
    requires fuel >= 3
    ensures Simulate([Job(1, 0.0, 10.0)], Policies.FSP(Fsp.Init(Eps)), Identity, fuel)
         == Done([Completion(10.0, 1, Some(0.0))])
  {
    FspOneStart();
    FspOneStep1(fuel);
    FspOneStep2(fuel - 1);
    FspOneStep3(fuel - 2);
    Over(FspOne3, fuel - 3);
  }

  // ---------------------------------------------------------------------
  // FspError: the state before each iteration (FspError0 at the start), and
  // the state once each iteration's event is handled (FspErrorH1, ...)
  // ---------------------------------------------------------------------

  const FspError0: Sim := Sim([Arrival(0.0, 1, 10.0), Arrival(0.0, 2, 10.0)], map[], map[], Policies.FSP(Fsp.Init(Eps)), Fixed([15.0, 20.0]), 0.0, [])
  const FspError1: Sim := Sim([Arrival(0.0, 2, 10.0)], map[1 := 10.0], map[1 := 1.0], Policies.FSP(Fsp.State([Entry(15.0, 1)], [], {1}, 0.0, Eps)), Fixed([20.0]), 0.0, [])
  const FspError2: Sim := Sim([Complete(10.0, 1), Internal(30.0)], map[1 := 10.0, 2 := 10.0], map[1 := 1.0], Policies.FSP(Fsp.State([Entry(15.0, 1), Entry(20.0, 2)], [], {1, 2}, 0.0, Eps)), Fixed([]), 0.0, [])
  const FspError3: Sim := Sim([Complete(20.0, 2), Internal(30.0)], map[2 := 10.0], map[2 := 1.0], Policies.FSP(Fsp.State([Entry(10.0, 1), Entry(15.0, 2)], [], {2}, 10.0, Eps)), Fixed([]), 10.0, [Completion(10.0, 1, Some(0.0))])
  const FspError4: Sim := Sim([Internal(30.0)], map[], map[], Policies.FSP(Fsp.State([Entry(5.0, 1), Entry(10.0, 2)], [], {}, 20.0, Eps)), Fixed([]), 20.0, [Completion(10.0, 1, Some(0.0)), Completion(20.0, 2, Some(0.0))])
  const FspError5: Sim := Sim([Internal(35.0)], map[], map[], Policies.FSP(Fsp.State([Entry(5.0, 2)], [], {}, 30.0, Eps)), Fixed([]), 30.0, [Completion(10.0, 1, Some(0.0)), Completion(20.0, 2, Some(0.0))])
  const FspError6: Sim := Sim([], map[], map[], Policies.FSP(Fsp.State([], [], {}, 35.0, Eps)), Fixed([]), 35.0, [Completion(10.0, 1, Some(0.0)), Completion(20.0, 2, Some(0.0))])
  const FspErrorH1: Sim := Sim([Arrival(0.0, 2, 10.0)], map[1 := 10.0], map[], Policies.FSP(Fsp.State([Entry(15.0, 1)], [], {1}, 0.0, Eps)), Fixed([20.0]), 0.0, [])
  const FspErrorH2: Sim := Sim([], map[1 := 10.0, 2 := 10.0], map[1 := 1.0], Policies.FSP(Fsp.State([Entry(15.0, 1), Entry(20.0, 2)], [], {1, 2}, 0.0, Eps)), Fixed([]), 0.0, [])
  const FspErrorH3: Sim := Sim([Internal(30.0)], map[2 := 10.0], map[1 := 1.0], Policies.FSP(Fsp.State([Entry(15.0, 1), Entry(20.0, 2)], [], {2}, 0.0, Eps)), Fixed([]), 0.0, [Completion(10.0, 1, Some(0.0))])
  const FspErrorH4: Sim := Sim([Internal(30.0)], map[], map[2 := 1.0], Policies.FSP(Fsp.State([Entry(10.0, 1), Entry(15.0, 2)], [], {}, 10.0, Eps)), Fixed([]), 10.0, [Completion(10.0, 1, Some(0.0)), Completion(20.0, 2, Some(0.0))])
  const FspErrorH5: Sim := Sim([], map[], map[], Policies.FSP(Fsp.State([Entry(5.0, 1), Entry(10.0, 2)], [], {}, 20.0, Eps)), Fixed([]), 20.0, [Completion(10.0, 1, Some(0.0)), Completion(20.0, 2, Some(0.0))])
  const FspErrorH6: Sim := Sim([], map[], map[], Policies.FSP(Fsp.State([Entry(5.0, 2)], [], {}, 30.0, Eps)), Fixed([]), 30.0, [Completion(10.0, 1, Some(0.0)), Completion(20.0, 2, Some(0.0))])

  // Iteration 1, stage by stage.

  lemma FspErrorSchedule1UpdateCount()
    ensures CountAtMost([Entry(15.0, 1)], 0.0 + Eps) == 0
  {
  }

  lemma FspErrorSchedule1UpdateSurvivors()
    ensures Fsp.Survivors([Entry(15.0, 1)], 0.0, Eps) == [Entry(15.0, 1)]
  {
    FspErrorSchedule1UpdateCount();
    assert [Entry(15.0, 1)][0..] == [Entry(15.0, 1)];
    FspSurvivorsAre([Entry(15.0, 1)], 0.0, Eps, 0, [Entry(15.0, 1)]);
  }

  lemma FspErrorSchedule1UpdateMarks()
    ensures Fsp.MarkAll([], [], {1}) == []
  {
  }

  lemma FspErrorSchedule1Update()
    ensures Fsp.Update(Fsp.State([Entry(15.0, 1)], [], {1}, 0.0, Eps), 0.0) == Fsp.State([Entry(15.0, 1)], [], {1}, 0.0, Eps)
  {
    assert (0.0 - 0.0) / (1 as real) == 0.0;
    FspErrorSchedule1UpdateCount();
    assert [Entry(15.0, 1)][..0] == [];
    FspErrorSchedule1UpdateSurvivors();
    FspErrorSchedule1UpdateMarks();
    FspUpdateIs(Fsp.State([Entry(15.0, 1)], [], {1}, 0.0, Eps), 0.0, 0.0, 0, [Entry(15.0, 1)], []);
  }

  lemma FspErrorSchedule1Pick()
    ensures Fsp.Pick(Fsp.State([Entry(15.0, 1)], [], {1}, 0.0, Eps)) == Ok(map[1 := 1.0])
  {
    assert Fsp.FirstRunning([Entry(15.0, 1)], {1}) == Some(0);
  }

  lemma FspErrorMaps1()
    ensures map[][1 := 10.0] == map[1 := 10.0]
  {
  }

  lemma FspErrorEnqueue1()
    ensures Policies.Enqueue(Policies.FSP(Fsp.State([], [], {}, 0.0, Eps)), 0.0, 1, 15.0) == Ok(Policies.FSP(Fsp.State([Entry(15.0, 1)], [], {1}, 0.0, Eps)))
  {
    assert EntryQueue.Insert([], Entry(15.0, 1)) == [Entry(15.0, 1)];
    assert {} + {1} == {1};
    FspEnqueueAfter(Fsp.State([], [], {}, 0.0, Eps), 0.0, 1, 15.0, Fsp.State([], [], {}, 0.0, Eps));
  }

  lemma FspErrorSchedule1()
    ensures Policies.Schedule(Policies.FSP(Fsp.State([Entry(15.0, 1)], [], {1}, 0.0, Eps)), 0.0) == Ok((Policies.FSP(Fsp.State([Entry(15.0, 1)], [], {1}, 0.0, Eps)), map[1 := 1.0]))
  {
    FspErrorSchedule1Update();
    FspErrorSchedule1Pick();
    FspScheduleAfter(Fsp.State([Entry(15.0, 1)], [], {1}, 0.0, Eps), 0.0, Fsp.State([Entry(15.0, 1)], [], {1}, 0.0, Eps), map[1 := 1.0]);
  }

  lemma FspErrorNext1()
    ensures Policies.NextInternal(Policies.FSP(Fsp.State([Entry(15.0, 1)], [], {1}, 0.0, Eps))) == Some(15.0)
  {
  }

  lemma FspErrorPop1()
    ensures [Arrival(0.0, 1, 10.0), Arrival(0.0, 2, 10.0)] == [Arrival(0.0, 1, 10.0)] + [Arrival(0.0, 2, 10.0)]
    ensures DebitSince(Sim([Arrival(0.0, 1, 10.0), Arrival(0.0, 2, 10.0)], map[], map[], Policies.FSP(Fsp.Init(Eps)), Fixed([15.0, 20.0]), 0.0, [])) == Ok(map[])
  {
    assert [Arrival(0.0, 1, 10.0)] + [Arrival(0.0, 2, 10.0)] == [Arrival(0.0, 1, 10.0), Arrival(0.0, 2, 10.0)];
    DebitIdle(Sim([Arrival(0.0, 1, 10.0), Arrival(0.0, 2, 10.0)], map[], map[], Policies.FSP(Fsp.Init(Eps)), Fixed([15.0, 20.0]), 0.0, []));
  }

  lemma FspErrorHandle1()
    ensures Handle(Sim([Arrival(0.0, 2, 10.0)], map[], map[], Policies.FSP(Fsp.Init(Eps)), Fixed([15.0, 20.0]), 0.0, []), Arrival(0.0, 1, 10.0))
         == Next(Sim([Arrival(0.0, 2, 10.0)], map[1 := 10.0], map[], Policies.FSP(Fsp.State([Entry(15.0, 1)], [], {1}, 0.0, Eps)), Fixed([20.0]), 0.0, []))
  {
    assert [15.0, 20.0][1..] == [20.0];
    FspErrorEnqueue1();
    Arrive(Sim([Arrival(0.0, 2, 10.0)], map[], map[], Policies.FSP(Fsp.Init(Eps)), Fixed([15.0, 20.0]), 0.0, []), 0.0, 1, 10.0, 15.0, Fixed([20.0]), Policies.FSP(Fsp.State([Entry(15.0, 1)], [], {1}, 0.0, Eps)));
    FspErrorMaps1();
  }

  lemma FspErrorPush1()
    ensures PushInternal([Arrival(0.0, 2, 10.0)], Policies.FSP(Fsp.State([Entry(15.0, 1)], [], {1}, 0.0, Eps)), 0.0) == [Arrival(0.0, 2, 10.0)]
    ensures PushComplete([Arrival(0.0, 2, 10.0)], map[1 := 10.0], map[1 := 1.0], 0.0) == Ok([Arrival(0.0, 2, 10.0)])
  {
    FspErrorNext1();
    PushAloneNot([Arrival(0.0, 2, 10.0)], map[1 := 10.0], 1, 0.0);
  }

  /** Iteration 1: job 1 arrives at 0.0 with size 10.0, estimated at 15.0; then
      job 1 runs alone. */
  lemma FspErrorStep1(fuel: nat)
    requires fuel > 0
    ensures Run(FspError0, fuel) == Run(FspError1, fuel - 1)
  {
    FspErrorPop1();
    FspErrorHandle1();
    FspErrorSchedule1();
    FspErrorPush1();
    Transition(FspError0, fuel, Arrival(0.0, 1, 10.0), [Arrival(0.0, 2, 10.0)], map[], FspErrorH1, FspError1.policy, FspError1.schedule, FspError1.events, FspError1);
  }

  // Iteration 2, stage by stage.

  lemma FspErrorEnqueue2UpdateCount()
    ensures CountAtMost([Entry(15.0, 1)], 0.0 + Eps) == 0
  {
  }

  lemma FspErrorEnqueue2UpdateSurvivors()
    ensures Fsp.Survivors([Entry(15.0, 1)], 0.0, Eps) == [Entry(15.0, 1)]
  {
    FspErrorEnqueue2UpdateCount();
    assert [Entry(15.0, 1)][0..] == [Entry(15.0, 1)];
    FspSurvivorsAre([Entry(15.0, 1)], 0.0, Eps, 0, [Entry(15.0, 1)]);
  }

  lemma FspErrorEnqueue2UpdateMarks()
    ensures Fsp.MarkAll([], [], {1}) == []
  {
  }

  lemma FspErrorEnqueue2Update()
    ensures Fsp.Update(Fsp.State([Entry(15.0, 1)], [], {1}, 0.0, Eps), 0.0) == Fsp.State([Entry(15.0, 1)], [], {1}, 0.0, Eps)
  {
    assert (0.0 - 0.0) / (1 as real) == 0.0;
    FspErrorEnqueue2UpdateCount();
    assert [Entry(15.0, 1)][..0] == [];
    FspErrorEnqueue2UpdateSurvivors();
    FspErrorEnqueue2UpdateMarks();
    FspUpdateIs(Fsp.State([Entry(15.0, 1)], [], {1}, 0.0, Eps), 0.0, 0.0, 0, [Entry(15.0, 1)], []);
  }

  lemma FspErrorEnqueue2Insert()
    ensures EntryQueue.Insert([Entry(15.0, 1)], Entry(20.0, 2)) == [Entry(15.0, 1), Entry(20.0, 2)]
  {
    assert EntryQueue.Insert([], Entry(20.0, 2)) == [Entry(20.0, 2)];
    assert [Entry(15.0, 1)][1..] == [];
  }

  lemma FspErrorSchedule2UpdateCount()
    ensures CountAtMost([Entry(15.0, 1), Entry(20.0, 2)], 0.0 + Eps) == 0
  {
  }

  lemma FspErrorSchedule2UpdateSurvivors()
    ensures Fsp.Survivors([Entry(15.0, 1), Entry(20.0, 2)], 0.0, Eps) == [Entry(15.0, 1), Entry(20.0, 2)]
  {
    FspErrorSchedule2UpdateCount();
    assert [Entry(15.0, 1), Entry(20.0, 2)][0..] == [Entry(15.0, 1), Entry(20.0, 2)];
    FspSurvivorsAre([Entry(15.0, 1), Entry(20.0, 2)], 0.0, Eps, 0, [Entry(15.0, 1), Entry(20.0, 2)]);
  }

  lemma FspErrorSchedule2UpdateMarks()
    ensures Fsp.MarkAll([], [], {1, 2}) == []
  {
  }

  lemma FspErrorSchedule2Update()
    ensures Fsp.Update(Fsp.State([Entry(15.0, 1), Entry(20.0, 2)], [], {1, 2}, 0.0, Eps), 0.0) == Fsp.State([Entry(15.0, 1), Entry(20.0, 2)], [], {1, 2}, 0.0, Eps)
  {
    assert (0.0 - 0.0) / (2 as real) == 0.0;
    FspErrorSchedule2UpdateCount();
    assert [Entry(15.0, 1), Entry(20.0, 2)][..0] == [];
    FspErrorSchedule2UpdateSurvivors();
    FspErrorSchedule2UpdateMarks();
    FspUpdateIs(Fsp.State([Entry(15.0, 1), Entry(20.0, 2)], [], {1, 2}, 0.0, Eps), 0.0, 0.0, 0, [Entry(15.0, 1), Entry(20.0, 2)], []);
  }

  lemma FspErrorSchedule2Pick()
    ensures Fsp.Pick(Fsp.State([Entry(15.0, 1), Entry(20.0, 2)], [], {1, 2}, 0.0, Eps)) == Ok(map[1 := 1.0])
  {
    assert Fsp.FirstRunning([Entry(15.0, 1), Entry(20.0, 2)], {1, 2}) == Some(0);
  }

  lemma FspErrorMaps2()
    ensures map[1 := 10.0][1 := 10.0 - (0.0 - 0.0)] == map[1 := 10.0]
    ensures map[1 := 10.0][2 := 10.0] == map[1 := 10.0, 2 := 10.0]
  {
  }

  lemma FspErrorEnqueue2()
    ensures Policies.Enqueue(Policies.FSP(Fsp.State([Entry(15.0, 1)], [], {1}, 0.0, Eps)), 0.0, 2, 20.0) == Ok(Policies.FSP(Fsp.State([Entry(15.0, 1), Entry(20.0, 2)], [], {1, 2}, 0.0, Eps)))
  {
    FspErrorEnqueue2Update();
    FspErrorEnqueue2Insert();
    assert {1} + {2} == {1, 2};
    FspEnqueueAfter(Fsp.State([Entry(15.0, 1)], [], {1}, 0.0, Eps), 0.0, 2, 20.0, Fsp.State([Entry(15.0, 1)], [], {1}, 0.0, Eps));
  }

  lemma FspErrorSchedule2()
    ensures Policies.Schedule(Policies.FSP(Fsp.State([Entry(15.0, 1), Entry(20.0, 2)], [], {1, 2}, 0.0, Eps)), 0.0) == Ok((Policies.FSP(Fsp.State([Entry(15.0, 1), Entry(20.0, 2)], [], {1, 2}, 0.0, Eps)), map[1 := 1.0]))
  {
    FspErrorSchedule2Update();
    FspErrorSchedule2Pick();
    FspScheduleAfter(Fsp.State([Entry(15.0, 1), Entry(20.0, 2)], [], {1, 2}, 0.0, Eps), 0.0, Fsp.State([Entry(15.0, 1), Entry(20.0, 2)], [], {1, 2}, 0.0, Eps), map[1 := 1.0]);
  }

  lemma FspErrorNext2()
    ensures Policies.NextInternal(Policies.FSP(Fsp.State([Entry(15.0, 1), Entry(20.0, 2)], [], {1, 2}, 0.0, Eps))) == Some(30.0)
  {
  }

  lemma FspErrorPop2()
    ensures [Arrival(0.0, 2, 10.0)] == [Arrival(0.0, 2, 10.0)] + []
    ensures DebitSince(Sim([Arrival(0.0, 2, 10.0)], map[1 := 10.0], map[1 := 1.0], Policies.FSP(Fsp.State([Entry(15.0, 1)], [], {1}, 0.0, Eps)), Fixed([20.0]), 0.0, [])) == Ok(map[1 := 10.0])
  {
    assert [Arrival(0.0, 2, 10.0)] + [] == [Arrival(0.0, 2, 10.0)];
    DebitAlone(Sim([Arrival(0.0, 2, 10.0)], map[1 := 10.0], map[1 := 1.0], Policies.FSP(Fsp.State([Entry(15.0, 1)], [], {1}, 0.0, Eps)), Fixed([20.0]), 0.0, []), 1);
    FspErrorMaps2();
  }

  lemma FspErrorHandle2()
    ensures Handle(Sim([], map[1 := 10.0], map[1 := 1.0], Policies.FSP(Fsp.State([Entry(15.0, 1)], [], {1}, 0.0, Eps)), Fixed([20.0]), 0.0, []), Arrival(0.0, 2, 10.0))
         == Next(Sim([], map[1 := 10.0, 2 := 10.0], map[1 := 1.0], Policies.FSP(Fsp.State([Entry(15.0, 1), Entry(20.0, 2)], [], {1, 2}, 0.0, Eps)), Fixed([]), 0.0, []))
  {
    assert [20.0][1..] == [];
    FspErrorEnqueue2();
    Arrive(Sim([], map[1 := 10.0], map[1 := 1.0], Policies.FSP(Fsp.State([Entry(15.0, 1)], [], {1}, 0.0, Eps)), Fixed([20.0]), 0.0, []), 0.0, 2, 10.0, 20.0, Fixed([]), Policies.FSP(Fsp.State([Entry(15.0, 1), Entry(20.0, 2)], [], {1, 2}, 0.0, Eps)));
    FspErrorMaps2();
  }

  lemma FspErrorPush2()
    ensures PushInternal([], Policies.FSP(Fsp.State([Entry(15.0, 1), Entry(20.0, 2)], [], {1, 2}, 0.0, Eps)), 0.0) == [Internal(30.0)]
    ensures PushComplete([Internal(30.0)], map[1 := 10.0, 2 := 10.0], map[1 := 1.0], 0.0) == Ok([Complete(10.0, 1), Internal(30.0)])
  {
    FspErrorNext2();
    PushAlone([Internal(30.0)], map[1 := 10.0, 2 := 10.0], 1, 0.0, [Complete(10.0, 1), Internal(30.0)]);
  }

  /** Iteration 2: job 2 arrives at 0.0 with size 10.0, estimated at 20.0; then
      job 1 runs alone. */
  lemma FspErrorStep2(fuel: nat)
    requires fuel > 0
    ensures Run(FspError1, fuel) == Run(FspError2, fuel - 1)
  {
    FspErrorPop2();
    FspErrorHandle2();
    FspErrorSchedule2();
    FspErrorPush2();
    Transition(FspError1, fuel, Arrival(0.0, 2, 10.0), [], map[1 := 10.0], FspErrorH2, FspError2.policy, FspError2.schedule, FspError2.events, FspError2);
  }

  // Iteration 3, stage by stage.

  lemma FspErrorSchedule3UpdateCount()
    ensures CountAtMost([Entry(15.0, 1), Entry(20.0, 2)], 5.0 + Eps) == 0
  {
  }

  lemma FspErrorSchedule3UpdateAge()
    ensures Age([Entry(15.0, 1), Entry(20.0, 2)], 5.0) == [Entry(10.0, 1), Entry(15.0, 2)]
  {
    assert Age([], 5.0) == [];
    assert [Entry(20.0, 2)][1..] == [];
    assert Age([Entry(20.0, 2)], 5.0) == [Entry(15.0, 2)];
    assert [Entry(15.0, 1), Entry(20.0, 2)][1..] == [Entry(20.0, 2)];
  }

  lemma FspErrorSchedule3UpdateSurvivors()
    ensures Fsp.Survivors([Entry(15.0, 1), Entry(20.0, 2)], 5.0, Eps) == [Entry(10.0, 1), Entry(15.0, 2)]
  {
    FspErrorSchedule3UpdateCount();
    assert [Entry(15.0, 1), Entry(20.0, 2)][0..] == [Entry(15.0, 1), Entry(20.0, 2)];
    FspErrorSchedule3UpdateAge();
    FspSurvivorsAre([Entry(15.0, 1), Entry(20.0, 2)], 5.0, Eps, 0, [Entry(10.0, 1), Entry(15.0, 2)]);
  }

  lemma FspErrorSchedule3UpdateMarks()
    ensures Fsp.MarkAll([], [], {2}) == []
  {
  }

  lemma FspErrorSchedule3Update()
    ensures Fsp.Update(Fsp.State([Entry(15.0, 1), Entry(20.0, 2)], [], {2}, 0.0, Eps), 10.0) == Fsp.State([Entry(10.0, 1), Entry(15.0, 2)], [], {2}, 10.0, Eps)
  {
    assert (10.0 - 0.0) / (2 as real) == 5.0;
    FspErrorSchedule3UpdateCount();
    assert [Entry(15.0, 1), Entry(20.0, 2)][..0] == [];
    FspErrorSchedule3UpdateSurvivors();
    FspErrorSchedule3UpdateMarks();
    FspUpdateIs(Fsp.State([Entry(15.0, 1), Entry(20.0, 2)], [], {2}, 0.0, Eps), 10.0, 5.0, 0, [Entry(10.0, 1), Entry(15.0, 2)], []);
  }

  lemma FspErrorSchedule3Pick()
    ensures Fsp.Pick(Fsp.State([Entry(10.0, 1), Entry(15.0, 2)], [], {2}, 10.0, Eps)) == Ok(map[2 := 1.0])
  {
    assert Fsp.FirstRunning([Entry(15.0, 2)], {2}) == Some(0);
    assert [Entry(10.0, 1), Entry(15.0, 2)][1..] == [Entry(15.0, 2)];
    assert Fsp.FirstRunning([Entry(10.0, 1), Entry(15.0, 2)], {2}) == Some(1);
  }

  lemma FspErrorMaps3()
    ensures map[1 := 10.0, 2 := 10.0][1 := 10.0 - (10.0 - 0.0)] == map[1 := 0.0, 2 := 10.0]
    ensures map[1 := 0.0, 2 := 10.0] - {1} == map[2 := 10.0]
  {
  }

  lemma FspErrorDequeue3()
    ensures Policies.Dequeue(Policies.FSP(Fsp.State([Entry(15.0, 1), Entry(20.0, 2)], [], {1, 2}, 0.0, Eps)), 10.0, 1) == Ok(Policies.FSP(Fsp.State([Entry(15.0, 1), Entry(20.0, 2)], [], {2}, 0.0, Eps)))
  {
    assert Without([], 1) == [];
    assert {1, 2} - {1} == {2};
  }

  lemma FspErrorSchedule3()
    ensures Policies.Schedule(Policies.FSP(Fsp.State([Entry(15.0, 1), Entry(20.0, 2)], [], {2}, 0.0, Eps)), 10.0) == Ok((Policies.FSP(Fsp.State([Entry(10.0, 1), Entry(15.0, 2)], [], {2}, 10.0, Eps)), map[2 := 1.0]))
  {
    FspErrorSchedule3Update();
    FspErrorSchedule3Pick();
    FspScheduleAfter(Fsp.State([Entry(15.0, 1), Entry(20.0, 2)], [], {2}, 0.0, Eps), 10.0, Fsp.State([Entry(10.0, 1), Entry(15.0, 2)], [], {2}, 10.0, Eps), map[2 := 1.0]);
  }

  lemma FspErrorNext3()
    ensures Policies.NextInternal(Policies.FSP(Fsp.State([Entry(10.0, 1), Entry(15.0, 2)], [], {2}, 10.0, Eps))) == Some(20.0)
  {
  }

  lemma FspErrorPop3()
    ensures [Complete(10.0, 1), Internal(30.0)] == [Complete(10.0, 1)] + [Internal(30.0)]
    ensures DebitSince(Sim([Complete(10.0, 1), Internal(30.0)], map[1 := 10.0, 2 := 10.0], map[1 := 1.0], Policies.FSP(Fsp.State([Entry(15.0, 1), Entry(20.0, 2)], [], {1, 2}, 0.0, Eps)), Fixed([]), 0.0, [])) == Ok(map[1 := 0.0, 2 := 10.0])
  {
    assert [Complete(10.0, 1)] + [Internal(30.0)] == [Complete(10.0, 1), Internal(30.0)];
    DebitAlone(Sim([Complete(10.0, 1), Internal(30.0)], map[1 := 10.0, 2 := 10.0], map[1 := 1.0], Policies.FSP(Fsp.State([Entry(15.0, 1), Entry(20.0, 2)], [], {1, 2}, 0.0, Eps)), Fixed([]), 0.0, []), 1);
    FspErrorMaps3();
  }

  lemma FspErrorLeave3(st: Sim)
    requires st.events == [Internal(30.0)] && st.remaining == map[1 := 0.0, 2 := 10.0] && st.schedule == map[1 := 1.0]
    requires st.estimator == Fixed([]) && st.lastT == 0.0 && st.out == []
    requires Policies.Dequeue(st.policy, 10.0, 1) == Ok(Policies.FSP(Fsp.State([Entry(15.0, 1), Entry(20.0, 2)], [], {2}, 0.0, Eps)))
    ensures Handle(st, Complete(10.0, 1)) == Next(Sim([Internal(30.0)], map[2 := 10.0], map[1 := 1.0], Policies.FSP(Fsp.State([Entry(15.0, 1), Entry(20.0, 2)], [], {2}, 0.0, Eps)), Fixed([]), 0.0, [Completion(10.0, 1, Some(0.0))]))
  {
    Leave(st, 10.0, 1, Policies.FSP(Fsp.State([Entry(15.0, 1), Entry(20.0, 2)], [], {2}, 0.0, Eps)));
    FspErrorMaps3();
    assert [] + [Completion(10.0, 1, Some(0.0))] == [Completion(10.0, 1, Some(0.0))];
  }
  lemma FspErrorHandle3()
    ensures Handle(Sim([Internal(30.0)], map[1 := 0.0, 2 := 10.0], map[1 := 1.0], Policies.FSP(Fsp.State([Entry(15.0, 1), Entry(20.0, 2)], [], {1, 2}, 0.0, Eps)), Fixed([]), 0.0, []), Complete(10.0, 1))
         == Next(Sim([Internal(30.0)], map[2 := 10.0], map[1 := 1.0], Policies.FSP(Fsp.State([Entry(15.0, 1), Entry(20.0, 2)], [], {2}, 0.0, Eps)), Fixed([]), 0.0, [Completion(10.0, 1, Some(0.0))]))
  {
    FspErrorDequeue3();
    FspErrorLeave3(Sim([Internal(30.0)], map[1 := 0.0, 2 := 10.0], map[1 := 1.0], Policies.FSP(Fsp.State([Entry(15.0, 1), Entry(20.0, 2)], [], {1, 2}, 0.0, Eps)), Fixed([]), 0.0, []));
  }

  lemma FspErrorPush3()
    ensures PushInternal([Internal(30.0)], Policies.FSP(Fsp.State([Entry(10.0, 1), Entry(15.0, 2)], [], {2}, 10.0, Eps)), 10.0) == [Internal(30.0)]
    ensures PushComplete([Internal(30.0)], map[2 := 10.0], map[2 := 1.0], 10.0) == Ok([Complete(20.0, 2), Internal(30.0)])
  {
    FspErrorNext3();
    PushAlone([Internal(30.0)], map[2 := 10.0], 2, 10.0, [Complete(20.0, 2), Internal(30.0)]);
  }

  /** Iteration 3: job 1 completes at 10.0; then job 2 runs alone. */
  lemma FspErrorStep3(fuel: nat)
    requires fuel > 0
    ensures Run(FspError2, fuel) == Run(FspError3, fuel - 1)
  {
    FspErrorPop3();
    FspErrorHandle3();
    FspErrorSchedule3();
    FspErrorPush3();
    Transition(FspError2, fuel, Complete(10.0, 1), [Internal(30.0)], map[1 := 0.0, 2 := 10.0], FspErrorH3, FspError3.policy, FspError3.schedule, FspError3.events, FspError3);
  }

  // Iteration 4, stage by stage.

  lemma FspErrorSchedule4UpdateCount()
    ensures CountAtMost([Entry(10.0, 1), Entry(15.0, 2)], 5.0 + Eps) == 0
  {
  }

  lemma FspErrorSchedule4UpdateAge()
    ensures Age([Entry(10.0, 1), Entry(15.0, 2)], 5.0) == [Entry(5.0, 1), Entry(10.0, 2)]
  {
    assert Age([], 5.0) == [];
    assert [Entry(15.0, 2)][1..] == [];
    assert Age([Entry(15.0, 2)], 5.0) == [Entry(10.0, 2)];
    assert [Entry(10.0, 1), Entry(15.0, 2)][1..] == [Entry(15.0, 2)];
  }

  lemma FspErrorSchedule4UpdateSurvivors()
    ensures Fsp.Survivors([Entry(10.0, 1), Entry(15.0, 2)], 5.0, Eps) == [Entry(5.0, 1), Entry(10.0, 2)]
  {
    FspErrorSchedule4UpdateCount();
    assert [Entry(10.0, 1), Entry(15.0, 2)][0..] == [Entry(10.0, 1), Entry(15.0, 2)];
    FspErrorSchedule4UpdateAge();
    FspSurvivorsAre([Entry(10.0, 1), Entry(15.0, 2)], 5.0, Eps, 0, [Entry(5.0, 1), Entry(10.0, 2)]);
  }

  lemma FspErrorSchedule4UpdateMarks()
    ensures Fsp.MarkAll([], [], {}) == []
  {
  }

  lemma FspErrorSchedule4Update()
    ensures Fsp.Update(Fsp.State([Entry(10.0, 1), Entry(15.0, 2)], [], {}, 10.0, Eps), 20.0) == Fsp.State([Entry(5.0, 1), Entry(10.0, 2)], [], {}, 20.0, Eps)
  {
    assert (20.0 - 10.0) / (2 as real) == 5.0;
    FspErrorSchedule4UpdateCount();
    assert [Entry(10.0, 1), Entry(15.0, 2)][..0] == [];
    FspErrorSchedule4UpdateSurvivors();
    FspErrorSchedule4UpdateMarks();
    FspUpdateIs(Fsp.State([Entry(10.0, 1), Entry(15.0, 2)], [], {}, 10.0, Eps), 20.0, 5.0, 0, [Entry(5.0, 1), Entry(10.0, 2)], []);
  }

  lemma FspErrorSchedule4Pick()
    ensures Fsp.Pick(Fsp.State([Entry(5.0, 1), Entry(10.0, 2)], [], {}, 20.0, Eps)) == Ok(map[])
  {
  }

  lemma FspErrorMaps4()
    ensures map[2 := 10.0][2 := 10.0 - (20.0 - 10.0)] == map[2 := 0.0]
    ensures map[2 := 0.0] - {2} == map[]
  {
  }

  lemma FspErrorDequeue4()
    ensures Policies.Dequeue(Policies.FSP(Fsp.State([Entry(10.0, 1), Entry(15.0, 2)], [], {2}, 10.0, Eps)), 20.0, 2) == Ok(Policies.FSP(Fsp.State([Entry(10.0, 1), Entry(15.0, 2)], [], {}, 10.0, Eps)))
  {
    assert Without([], 2) == [];
    assert {2} - {2} == {};
  }

  lemma FspErrorSchedule4()
    ensures Policies.Schedule(Policies.FSP(Fsp.State([Entry(10.0, 1), Entry(15.0, 2)], [], {}, 10.0, Eps)), 20.0) == Ok((Policies.FSP(Fsp.State([Entry(5.0, 1), Entry(10.0, 2)], [], {}, 20.0, Eps)), map[]))
  {
    FspErrorSchedule4Update();
    FspErrorSchedule4Pick();
    FspScheduleAfter(Fsp.State([Entry(10.0, 1), Entry(15.0, 2)], [], {}, 10.0, Eps), 20.0, Fsp.State([Entry(5.0, 1), Entry(10.0, 2)], [], {}, 20.0, Eps), map[]);
  }

  lemma FspErrorNext4()
    ensures Policies.NextInternal(Policies.FSP(Fsp.State([Entry(5.0, 1), Entry(10.0, 2)], [], {}, 20.0, Eps))) == Some(10.0)
  {
  }

  lemma FspErrorPop4()
    ensures [Complete(20.0, 2), Internal(30.0)] == [Complete(20.0, 2)] + [Internal(30.0)]
    ensures DebitSince(Sim([Complete(20.0, 2), Internal(30.0)], map[2 := 10.0], map[2 := 1.0], Policies.FSP(Fsp.State([Entry(10.0, 1), Entry(15.0, 2)], [], {2}, 10.0, Eps)), Fixed([]), 10.0, [Completion(10.0, 1, Some(0.0))])) == Ok(map[2 := 0.0])
  {
    assert [Complete(20.0, 2)] + [Internal(30.0)] == [Complete(20.0, 2), Internal(30.0)];
    DebitAlone(Sim([Complete(20.0, 2), Internal(30.0)], map[2 := 10.0], map[2 := 1.0], Policies.FSP(Fsp.State([Entry(10.0, 1), Entry(15.0, 2)], [], {2}, 10.0, Eps)), Fixed([]), 10.0, [Completion(10.0, 1, Some(0.0))]), 2);
    FspErrorMaps4();
  }

  lemma FspErrorLeave4(st: Sim)
    requires st.events == [Internal(30.0)] && st.remaining == map[2 := 0.0] && st.schedule == map[2 := 1.0]
    requires st.estimator == Fixed([]) && st.lastT == 10.0 && st.out == [Completion(10.0, 1, Some(0.0))]
    requires Policies.Dequeue(st.policy, 20.0, 2) == Ok(Policies.FSP(Fsp.State([Entry(10.0, 1), Entry(15.0, 2)], [], {}, 10.0, Eps)))
    ensures Handle(st, Complete(20.0, 2)) == Next(Sim([Internal(30.0)], map[], map[2 := 1.0], Policies.FSP(Fsp.State([Entry(10.0, 1), Entry(15.0, 2)], [], {}, 10.0, Eps)), Fixed([]), 10.0, [Completion(10.0, 1, Some(0.0)), Completion(20.0, 2, Some(0.0))]))
  {
    Leave(st, 20.0, 2, Policies.FSP(Fsp.State([Entry(10.0, 1), Entry(15.0, 2)], [], {}, 10.0, Eps)));
    FspErrorMaps4();
    assert [Completion(10.0, 1, Some(0.0))] + [Completion(20.0, 2, Some(0.0))] == [Completion(10.0, 1, Some(0.0)), Completion(20.0, 2, Some(0.0))];
  }
  lemma FspErrorHandle4()
    ensures Handle(Sim([Internal(30.0)], map[2 := 0.0], map[2 := 1.0], Policies.FSP(Fsp.State([Entry(10.0, 1), Entry(15.0, 2)], [], {2}, 10.0, Eps)), Fixed([]), 10.0, [Completion(10.0, 1, Some(0.0))]), Complete(20.0, 2))
         == Next(Sim([Internal(30.0)], map[], map[2 := 1.0], Policies.FSP(Fsp.State([Entry(10.0, 1), Entry(15.0, 2)], [], {}, 10.0, Eps)), Fixed([]), 10.0, [Completion(10.0, 1, Some(0.0)), Completion(20.0, 2, Some(0.0))]))
  {
    FspErrorDequeue4();
    FspErrorLeave4(Sim([Internal(30.0)], map[2 := 0.0], map[2 := 1.0], Policies.FSP(Fsp.State([Entry(10.0, 1), Entry(15.0, 2)], [], {2}, 10.0, Eps)), Fixed([]), 10.0, [Completion(10.0, 1, Some(0.0))]));
  }

  lemma FspErrorPush4()
    ensures PushInternal([Internal(30.0)], Policies.FSP(Fsp.State([Entry(5.0, 1), Entry(10.0, 2)], [], {}, 20.0, Eps)), 20.0) == [Internal(30.0)]
    ensures PushComplete([Internal(30.0)], map[], map[], 20.0) == Ok([Internal(30.0)])
  {
    FspErrorNext4();
  }

  /** Iteration 4: job 2 completes at 20.0; then nothing runs. */
  lemma FspErrorStep4(fuel: nat)
    requires fuel > 0
    ensures Run(FspError3, fuel) == Run(FspError4, fuel - 1)
  {
    FspErrorPop4();
    FspErrorHandle4();
    FspErrorSchedule4();
    FspErrorPush4();
    Transition(FspError3, fuel, Complete(20.0, 2), [Internal(30.0)], map[2 := 0.0], FspErrorH4, FspError4.policy, FspError4.schedule, FspError4.events, FspError4);
  }

  // Iteration 5, stage by stage.

  lemma FspErrorSchedule5UpdateCount()
    ensures CountAtMost([Entry(5.0, 1), Entry(10.0, 2)], 5.0 + Eps) == 1
  {
    assert CountAtMost([Entry(10.0, 2)], 5.0 + Eps) == 0;
    assert [Entry(5.0, 1), Entry(10.0, 2)][1..] == [Entry(10.0, 2)];
  }

  lemma FspErrorSchedule5UpdateAge()
    ensures Age([Entry(10.0, 2)], 5.0) == [Entry(5.0, 2)]
  {
    assert Age([], 5.0) == [];
    assert [Entry(10.0, 2)][1..] == [];
  }

  lemma FspErrorSchedule5UpdateSurvivors()
    ensures Fsp.Survivors([Entry(5.0, 1), Entry(10.0, 2)], 5.0, Eps) == [Entry(5.0, 2)]
  {
    FspErrorSchedule5UpdateCount();
    assert [Entry(5.0, 1), Entry(10.0, 2)][1..] == [Entry(10.0, 2)];
    FspErrorSchedule5UpdateAge();
    FspSurvivorsAre([Entry(5.0, 1), Entry(10.0, 2)], 5.0, Eps, 1, [Entry(5.0, 2)]);
  }

  lemma FspErrorSchedule5UpdateMarks()
    ensures Fsp.MarkAll([], [Entry(5.0, 1)], {}) == []
  {
    assert Fsp.MarkAll([], [], {}) == [];
    assert [Entry(5.0, 1)][1..] == [];
  }

  lemma FspErrorSchedule5Update()
    ensures Fsp.Update(Fsp.State([Entry(5.0, 1), Entry(10.0, 2)], [], {}, 20.0, Eps), 30.0) == Fsp.State([Entry(5.0, 2)], [], {}, 30.0, Eps)
  {
    assert (30.0 - 20.0) / (2 as real) == 5.0;
    FspErrorSchedule5UpdateCount();
    assert [Entry(5.0, 1), Entry(10.0, 2)][..1] == [Entry(5.0, 1)];
    FspErrorSchedule5UpdateSurvivors();
    FspErrorSchedule5UpdateMarks();
    FspUpdateIs(Fsp.State([Entry(5.0, 1), Entry(10.0, 2)], [], {}, 20.0, Eps), 30.0, 5.0, 1, [Entry(5.0, 2)], []);
  }

  lemma FspErrorSchedule5Pick()
    ensures Fsp.Pick(Fsp.State([Entry(5.0, 2)], [], {}, 30.0, Eps)) == Ok(map[])
  {
  }

  lemma FspErrorSchedule5()
    ensures Policies.Schedule(Policies.FSP(Fsp.State([Entry(5.0, 1), Entry(10.0, 2)], [], {}, 20.0, Eps)), 30.0) == Ok((Policies.FSP(Fsp.State([Entry(5.0, 2)], [], {}, 30.0, Eps)), map[]))
  {
    FspErrorSchedule5Update();
    FspErrorSchedule5Pick();
    FspScheduleAfter(Fsp.State([Entry(5.0, 1), Entry(10.0, 2)], [], {}, 20.0, Eps), 30.0, Fsp.State([Entry(5.0, 2)], [], {}, 30.0, Eps), map[]);
  }

  lemma FspErrorNext5()
    ensures Policies.NextInternal(Policies.FSP(Fsp.State([Entry(5.0, 2)], [], {}, 30.0, Eps))) == Some(5.0)
  {
  }

  lemma FspErrorPop5()
    ensures [Internal(30.0)] == [Internal(30.0)] + []
    ensures DebitSince(Sim([Internal(30.0)], map[], map[], Policies.FSP(Fsp.State([Entry(5.0, 1), Entry(10.0, 2)], [], {}, 20.0, Eps)), Fixed([]), 20.0, [Completion(10.0, 1, Some(0.0)), Completion(20.0, 2, Some(0.0))])) == Ok(map[])
  {
    assert [Internal(30.0)] + [] == [Internal(30.0)];
    DebitIdle(Sim([Internal(30.0)], map[], map[], Policies.FSP(Fsp.State([Entry(5.0, 1), Entry(10.0, 2)], [], {}, 20.0, Eps)), Fixed([]), 20.0, [Completion(10.0, 1, Some(0.0)), Completion(20.0, 2, Some(0.0))]));
  }

  lemma FspErrorHandle5()
    ensures Handle(Sim([], map[], map[], Policies.FSP(Fsp.State([Entry(5.0, 1), Entry(10.0, 2)], [], {}, 20.0, Eps)), Fixed([]), 20.0, [Completion(10.0, 1, Some(0.0)), Completion(20.0, 2, Some(0.0))]), Internal(30.0))
         == Next(Sim([], map[], map[], Policies.FSP(Fsp.State([Entry(5.0, 1), Entry(10.0, 2)], [], {}, 20.0, Eps)), Fixed([]), 20.0, [Completion(10.0, 1, Some(0.0)), Completion(20.0, 2, Some(0.0))]))
  {
  }

  lemma FspErrorPush5()
    ensures PushInternal([], Policies.FSP(Fsp.State([Entry(5.0, 2)], [], {}, 30.0, Eps)), 30.0) == [Internal(35.0)]
    ensures PushComplete([Internal(35.0)], map[], map[], 30.0) == Ok([Internal(35.0)])
  {
    FspErrorNext5();
  }

  /** Iteration 5: the head of the virtual queue finishes at 30.0; then nothing
      runs. */
  lemma FspErrorStep5(fuel: nat)
    requires fuel > 0
    ensures Run(FspError4, fuel) == Run(FspError5, fuel - 1)
  {
    FspErrorPop5();
    FspErrorHandle5();
    FspErrorSchedule5();
    FspErrorPush5();
    Transition(FspError4, fuel, Internal(30.0), [], map[], FspErrorH5, FspError5.policy, FspError5.schedule, FspError5.events, FspError5);
  }

  // Iteration 6, stage by stage.

  lemma FspErrorSchedule6UpdateCount()
    ensures CountAtMost([Entry(5.0, 2)], 5.0 + Eps) == 1
  {
    assert CountAtMost([], 5.0 + Eps) == 0;
    assert [Entry(5.0, 2)][1..] == [];
  }

  lemma FspErrorSchedule6UpdateAge()
    ensures Age([], 5.0) == []
  {
  }

  lemma FspErrorSchedule6UpdateSurvivors()
    ensures Fsp.Survivors([Entry(5.0, 2)], 5.0, Eps) == []
  {
    FspErrorSchedule6UpdateCount();
    assert [Entry(5.0, 2)][1..] == [];
    FspErrorSchedule6UpdateAge();
    FspSurvivorsAre([Entry(5.0, 2)], 5.0, Eps, 1, []);
  }

  lemma FspErrorSchedule6UpdateMarks()
    ensures Fsp.MarkAll([], [Entry(5.0, 2)], {}) == []
  {
    assert Fsp.MarkAll([], [], {}) == [];
    assert [Entry(5.0, 2)][1..] == [];
  }

  lemma FspErrorSchedule6Update()
    ensures Fsp.Update(Fsp.State([Entry(5.0, 2)], [], {}, 30.0, Eps), 35.0) == Fsp.State([], [], {}, 35.0, Eps)
  {
    assert (35.0 - 30.0) / (1 as real) == 5.0;
    FspErrorSchedule6UpdateCount();
    assert [Entry(5.0, 2)][..1] == [Entry(5.0, 2)];
    FspErrorSchedule6UpdateSurvivors();
    FspErrorSchedule6UpdateMarks();
    FspUpdateIs(Fsp.State([Entry(5.0, 2)], [], {}, 30.0, Eps), 35.0, 5.0, 1, [], []);
  }

  lemma FspErrorSchedule6Pick()
    ensures Fsp.Pick(Fsp.State([], [], {}, 35.0, Eps)) == Ok(map[])
  {
  }

  lemma FspErrorSchedule6()
    ensures Policies.Schedule(Policies.FSP(Fsp.State([Entry(5.0, 2)], [], {}, 30.0, Eps)), 35.0) == Ok((Policies.FSP(Fsp.State([], [], {}, 35.0, Eps)), map[]))
  {
    FspErrorSchedule6Update();
    FspErrorSchedule6Pick();
    FspScheduleAfter(Fsp.State([Entry(5.0, 2)], [], {}, 30.0, Eps), 35.0, Fsp.State([], [], {}, 35.0, Eps), map[]);
  }

  lemma FspErrorNext6()
    ensures Policies.NextInternal(Policies.FSP(Fsp.State([], [], {}, 35.0, Eps))) == None
  {
  }

  lemma FspErrorPop6()
    ensures [Internal(35.0)] == [Internal(35.0)] + []
    ensures DebitSince(Sim([Internal(35.0)], map[], map[], Policies.FSP(Fsp.State([Entry(5.0, 2)], [], {}, 30.0, Eps)), Fixed([]), 30.0, [Completion(10.0, 1, Some(0.0)), Completion(20.0, 2, Some(0.0))])) == Ok(map[])
  {
    assert [Internal(35.0)] + [] == [Internal(35.0)];
    DebitIdle(Sim([Internal(35.0)], map[], map[], Policies.FSP(Fsp.State([Entry(5.0, 2)], [], {}, 30.0, Eps)), Fixed([]), 30.0, [Completion(10.0, 1, Some(0.0)), Completion(20.0, 2, Some(0.0))]));
  }

  lemma FspErrorHandle6()
    ensures Handle(Sim([], map[], map[], Policies.FSP(Fsp.State([Entry(5.0, 2)], [], {}, 30.0, Eps)), Fixed([]), 30.0, [Completion(10.0, 1, Some(0.0)), Completion(20.0, 2, Some(0.0))]), Internal(35.0))
         == Next(Sim([], map[], map[], Policies.FSP(Fsp.State([Entry(5.0, 2)], [], {}, 30.0, Eps)), Fixed([]), 30.0, [Completion(10.0, 1, Some(0.0)), Completion(20.0, 2, Some(0.0))]))
  {
  }

  lemma FspErrorPush6()
    ensures PushInternal([], Policies.FSP(Fsp.State([], [], {}, 35.0, Eps)), 35.0) == []
    ensures PushComplete([], map[], map[], 35.0) == Ok([])
  {
    FspErrorNext6();
  }

  /** Iteration 6: the head of the virtual queue finishes at 35.0; then nothing
      runs. */
  lemma FspErrorStep6(fuel: nat)
    requires fuel > 0
    ensures Run(FspError5, fuel) == Run(FspError6, fuel - 1)
  {
    FspErrorPop6();
    FspErrorHandle6();
    FspErrorSchedule6();
    FspErrorPush6();
    Transition(FspError5, fuel, Internal(35.0), [], map[], FspErrorH6, FspError6.policy, FspError6.schedule, FspError6.events, FspError6);
  }

  lemma FspErrorHeap1()
    ensures Heapify([Arrival(0.0, 2, 10.0)]) == [Arrival(0.0, 2, 10.0)]
  {
    assert Heapify([]) == [];
    assert [Arrival(0.0, 2, 10.0)][1..] == [];
    assert Events.Insert([], Arrival(0.0, 2, 10.0)) == [Arrival(0.0, 2, 10.0)];
  }

  lemma FspErrorHeap0()
    ensures Heapify([Arrival(0.0, 1, 10.0), Arrival(0.0, 2, 10.0)]) == [Arrival(0.0, 1, 10.0), Arrival(0.0, 2, 10.0)]
  {
    FspErrorHeap1();
    assert [Arrival(0.0, 1, 10.0), Arrival(0.0, 2, 10.0)][1..] == [Arrival(0.0, 2, 10.0)];
    assert Events.Insert([Arrival(0.0, 2, 10.0)], Arrival(0.0, 1, 10.0)) == [Arrival(0.0, 1, 10.0), Arrival(0.0, 2, 10.0)];
  }

  lemma FspErrorStart()
    ensures Start([Job(1, 0.0, 10.0), Job(2, 0.0, 10.0)], Policies.FSP(Fsp.Init(Eps)), Fixed([15.0, 20.0])) == FspError0
  {
    assert ArrivalsOf([Job(1, 0.0, 10.0), Job(2, 0.0, 10.0)]) == [Arrival(0.0, 1, 10.0), Arrival(0.0, 2, 10.0)];
    FspErrorHeap0();
  }

  /** `test_error` under FSP: two jobs of size 10 arrive at 0 with estimates 15
      and 20; job 1, the smaller estimate, completes at 10 and job 2 at 20. */
  lemma FspError(fuel: nat)
    requires fuel >= 6
    ensures Simulate([Job(1, 0.0, 10.0), Job(2, 0.0, 10.0)], Policies.FSP(Fsp.Init(Eps)), Fixed([15.0, 20.0]), fuel)
         == Done([Completion(10.0, 1, Some(0.0)), Completion(20.0, 2, Some(0.0))])
  {
    FspErrorStart();
    FspErrorStep1(fuel);
    FspErrorStep2(fuel - 1);
    FspErrorStep3(fuel - 2);
    FspErrorStep4(fuel - 3);
    FspErrorStep5(fuel - 4);
    FspErrorStep6(fuel - 5);
    Over(FspError6, fuel - 6);
  }

}

=== FILE: simulator.dfy ===
/** The event loop of simulator.py: the generator `simulator(jobs,
    scheduler_factory, size_estimation)` that replays job arrivals, asks the
    scheduler for an allocation after every event, debits the work done in
    between, and yields `(t, jobid)` for every completion. */
module Simulator {
  import opened Base
  import opened Allocation
  import opened Events
  import opened Estimators
  import Policies

  /** One item the generator yields: `(t, jobid)`. The model also records
      `left`, the job's remaining work at that moment, which is what the
      commented-out assertion of simulator.py:63 inspects (`None` when the
      job has no entry in `remaining`); the generator itself yields only
      the first two. */
  datatype Completion = Completion(time: real, id: JobId, left: Option<real>)

  /** The loop's variables: the event heap, `remaining`, `schedule`, the
      scheduler, the estimator as it stands, `last_t`, and what has been
      yielded so far. */
  datatype Sim = Sim(events: seq<Event>, remaining: map<JobId, real>, schedule: Alloc,
                     policy: Policies.Policy, estimator: Estimator, lastT: real,
                     out: seq<Completion>)

  /** What one iteration of the loop leaves: the next state, or the
      exception it raises together with everything yielded before it. */
  datatype StepResult = Next(next: Sim) | Stop(yielded: seq<Completion>, error: Error)

  /** What the whole generator produces: every completion, or the
      completions yielded before it raised. */
  datatype Outcome = Done(out: seq<Completion>) | Failed(yielded: seq<Completion>, error: Error)

  /** The state before the loop: the arrivals heapified, nothing remaining,
      an empty schedule, and `last_t = 0`. */
  function Start(jobs: seq<Job>, p: Policies.Policy, e: Estimator): (st: Sim)
    ensures multiset(st.events) == multiset(ArrivalsOf(jobs)) && HeapOrder(st.events)
  {
    HeapifyOrders(ArrivalsOf(jobs));
    Sim(Heapify(ArrivalsOf(jobs)), map[], map[], p, e, 0.0, [])
  }

  /** The work a job with share `share` receives in `delta` time. */
  function Work(delta: real, share: real): real {
    delta * share
  }

  /** Charges every scheduled job, visited in the iteration order `order`,
      the work its share earned over `delta`; a scheduled job with no entry
      in the remaining-work table is a KeyError. */
  function Debit(remaining: map<JobId, real>, schedule: Alloc, delta: real, order: seq<JobId>)
    : (r: Result<map<JobId, real>>)
    requires forall k :: k in order ==> k in schedule
    ensures r.Ok? ==> r.value.Keys == remaining.Keys
    decreases |order|
  {
    if order == [] then Ok(remaining)
    else
      var k := order[0];
      if k !in remaining then Err(UnknownJob(k))
      else Debit(remaining[k := remaining[k] - Work(delta, schedule[k])], schedule, delta, order[1..])
  }

  /** The loop debits each scheduled job once, whatever the iteration
      order: it fails exactly when a scheduled job has no remaining work,
      and otherwise only the scheduled jobs lose `delta` times their share. */
  lemma {:induction false} DebitIsPointwise(remaining: map<JobId, real>, schedule: Alloc, delta: real, order: seq<JobId>)
    requires forall k :: k in order ==> k in schedule
    requires NoDuplicates(order)
    ensures Debit(remaining, schedule, delta, order).Ok? <==> forall k :: k in order ==> k in remaining
    ensures Debit(remaining, schedule, delta, order).Ok? ==>
      forall k :: k in remaining ==>
        Debit(remaining, schedule, delta, order).value[k]
          == (if k in order then remaining[k] - Work(delta, schedule[k]) else remaining[k])
    decreases |order|
  {
    if order != [] {
      var k := order[0];
      if k in remaining {
        var rem := remaining[k := remaining[k] - Work(delta, schedule[k])];
        assert NoDuplicates(order[1..]) by {
          forall a, b | 0 <= a < b < |order[1..]| ensures order[1..][a] != order[1..][b] {
            assert order[1..][a] == order[a + 1] && order[1..][b] == order[b + 1];
          }
        }
        assert Debit(remaining, schedule, delta, order) == Debit(rem, schedule, delta, order[1..]);
        assert rem.Keys == remaining.Keys;
        DebitIsPointwise(rem, schedule, delta, order[1..]);
        assert k !in order[1..] by {
          forall m | 0 <= m < |order[1..]| ensures order[1..][m] != k {
            assert order[1..][m] == order[m + 1];
          }
        }
        forall x ensures x in order <==> x == k || x in order[1..] {
          if x in order {
            var m :| 0 <= m < |order| && order[m] == x;
            if m > 0 { assert order[1..][m - 1] == x; }
          }
          if x in order[1..] {
            var m :| 0 <= m < |order[1..]| && order[1..][m] == x;
            assert order[m + 1] == x;
          }
        }
      }
    }
  }

  /** Python's ordering of `(time, jobid)` pairs. */
  predicate PairNotAfter(a: (real, JobId), b: (real, JobId)) {
    a.0 < b.0 || (a.0 == b.0 && a.1 <= b.1)
  }

  /** The scheduled job that would finish first at its current share, with
      the time it needs, ties going to the smaller id; the schedule is
      visited in the iteration order `order`. `None` is the ValueError of an
      empty schedule, which the loop catches; a scheduled job with no entry
      in the remaining-work table is a KeyError, a zero share a
      ZeroDivisionError, raised at the first such job met. */
  function Earliest(remaining: map<JobId, real>, schedule: Alloc, order: seq<JobId>)
    : (r: Result<Option<(real, JobId)>>)
    requires forall k :: k in order ==> k in schedule
    ensures r.Ok? ==> (r.value.None? <==> order == [])
    decreases |order|
  {
    if order == [] then Ok(None)
    else
      var k := order[0];
      if k !in remaining then Err(UnknownJob(k))
      else if schedule[k] == 0.0 then Err(ZeroShare(k))
      else
        var c := (remaining[k] / schedule[k], k);
        match Earliest(remaining, schedule, order[1..])
        case Err(e) => Err(e)
        case Ok(None) => Ok(Some(c))
        case Ok(Some(m)) => Ok(Some(if PairNotAfter(c, m) then c else m))
  }

  /** The minimum is the least pair over the whole schedule, found exactly
      when every scheduled job has remaining work and a non-zero share. */
  lemma {:induction false} EarliestIsLeast(remaining: map<JobId, real>, schedule: Alloc, order: seq<JobId>)
    requires forall k :: k in order ==> k in schedule
    ensures Earliest(remaining, schedule, order).Ok? <==>
      forall k :: k in order ==> k in remaining && schedule[k] != 0.0
    ensures Earliest(remaining, schedule, order).Ok? && Earliest(remaining, schedule, order).value.Some? ==>
      var (d, j) := Earliest(remaining, schedule, order).value.value;
      && j in order && j in remaining && schedule[j] != 0.0 && d == remaining[j] / schedule[j]
      && forall k :: k in order ==> PairNotAfter((d, j), (remaining[k] / schedule[k], k))
    decreases |order|
  {
    if order != [] {
      var k := order[0];
      forall x | x in order ensures x == k || x in order[1..] {
        var m :| 0 <= m < |order| && order[m] == x;
        if m > 0 { assert order[1..][m - 1] == x; }
      }
      EarliestIsLeast(remaining, schedule, order[1..]);
    }
  }

  /** The event's own work: an arrival records the job's size, asks the
      estimator and enqueues the estimate; a completion yields `(t, jobid)`,
      forgets the job and dequeues it; an internal event does nothing. */
  ghost function Handle(st: Sim, ev: Event): (r: StepResult)
    ensures r.Next? ==> r.next.schedule == st.schedule && r.next.lastT == st.lastT
                        && r.next.events == st.events
  {
    match ev
    case Arrival(t, j, size) =>
      (match Estimate(st.estimator, size)
       case Err(e) => Stop(st.out, e)
       case Ok((x, est)) =>
         match Policies.Enqueue(st.policy, t, j, x)
         case Err(e) => Stop(st.out, e)
         case Ok(p) => Next(st.(remaining := st.remaining[j := size], policy := p, estimator := est)))
    case Complete(t, j) =>
      if j !in st.remaining then Stop(st.out + [Completion(t, j, None)], UnknownJob(j))
      else
        var out := st.out + [Completion(t, j, Some(st.remaining[j]))];
        (match Policies.Dequeue(st.policy, t, j)
         case Err(e) => Stop(out, e)
         case Ok(p) => Next(st.(remaining := st.remaining - {j}, policy := p, out := out)))
    case Internal(_) => Next(st)
  }

  /** The speculative INTERNAL push: `t + next_internal_event()` goes in
      when it comes before the head. */
  ghost function PushInternal(q: seq<Event>, p: Policies.Policy, t: real): (r: seq<Event>)
    ensures Policies.NextInternal(p).None? ==> r == q
    ensures Policies.NextInternal(p).Some? ==> r == PushIfEarlier(q, Internal(t + Policies.NextInternal(p).value))
  {
    match Policies.NextInternal(p)
    case None => q
    case Some(d) => PushIfEarlier(q, Internal(t + d))
  }

  /** The speculative COMPLETE push: when jobs remain and something is
      scheduled, the earliest completion goes in when it comes strictly
      before the head. */
  ghost function PushComplete(q: seq<Event>, remaining: map<JobId, real>, a: Alloc, t: real)
    : (r: Result<seq<Event>>)
  {
    if remaining == map[] then Ok(q)
    else
      match Earliest(remaining, a, Enumerate(a.Keys))
      case Err(e) => Err(e)
      case Ok(None) => Ok(q)
      case Ok(Some((d, j))) => Ok(PushIfEarlier(q, Complete(t + d, j)))
  }

  /** The rest of one iteration once the work since `last_t` is debited:
      handle the popped event, schedule, push the speculative events, and
      move `last_t`. */
  ghost function After(st: Sim, rem: map<JobId, real>): (r: StepResult)
    requires st.events != []
  {
    var ev := st.events[0];
    var t := ev.time;
    match Handle(st.(events := st.events[1..], remaining := rem), ev)
    case Stop(out, e) => Stop(out, e)
    case Next(st1) =>
      match Policies.Schedule(st1.policy, t)
      case Err(e) => Stop(st1.out, e)
      case Ok((p, a)) =>
        var q := PushInternal(st1.events, p, t);
        match PushComplete(q, st1.remaining, a, t)
        case Err(e) => Stop(st1.out, e)
        case Ok(q') => Next(st1.(events := q', schedule := a, policy := p, lastT := t))
  }

  /** The work done between `last_t` and the head event's time, under the
      schedule in force. */
  ghost function DebitSince(st: Sim): Result<map<JobId, real>>
    requires st.events != []
  {
    Debit(st.remaining, st.schedule, st.events[0].time - st.lastT, Enumerate(st.schedule.Keys))
  }

  /** One iteration of `while events`: pop the head, debit the work done
      since `last_t` under the old schedule, then the rest. */
  ghost function Step(st: Sim): (r: StepResult)
    requires st.events != []
  {
    match DebitSince(st)
    case Err(e) => Stop(st.out, e)
    case Ok(rem) => After(st, rem)
  }

  /** The loop, for at most `fuel` iterations. When the heap runs out with
      work remaining, the final `assert not remaining` fails. */
  ghost function Run(st: Sim, fuel: nat): (r: Outcome)
    decreases fuel, 2
  {
    if st.events == [] then
      if st.remaining == map[] then Done(st.out) else Failed(st.out, WorkLeft)
    else if fuel == 0 then Failed(st.out, OutOfFuel)
    else Iteration(st, fuel)
  }

  /** One more iteration of the loop, then the rest of it. */
  ghost function Iteration(st: Sim, fuel: nat): (r: Outcome)
    requires st.events != [] && fuel > 0
    decreases fuel, 1
  {
    match DebitSince(st)
    case Err(e) => Failed(st.out, e)
    case Ok(rem) => Resume(st, rem, fuel)
  }

  /** The iteration after the debit, then the loop with one less fuel. */
  ghost function Resume(st: Sim, rem: map<JobId, real>, fuel: nat): (r: Outcome)
    requires st.events != [] && fuel > 0
    decreases fuel, 0
  {
    match After(st, rem)
    case Stop(out, e) => Failed(out, e)
    case Next(st') => Run(st', fuel - 1)
  }

  /** `simulator(jobs, scheduler_factory, size_estimation)` with the
      scheduler `p` its factory built. */
  ghost function Simulate(jobs: seq<Job>, p: Policies.Policy, e: Estimator, fuel: nat): Outcome {
    Run(Start(jobs, p, e), fuel)
  }
}

=== FILE: simulator_safety.dfy ===
/** What the event loop of simulator.py guarantees when it is fed valid
    jobs: it never raises, and when the heap runs out every job has been
    yielded exactly once, in order of completion time. The argument is an
    invariant of the loop state that every iteration preserves. */
module SimulatorSafety {
  import opened Base
  import opened Allocation
  import opened Events
  import opened Estimators
  import opened Simulator
  import Policies

  /** The ids of the arrivals still waiting in the heap. */
  function Pending(q: seq<Event>): set<JobId> {
    set e | e in q && e.Arrival? :: e.id
  }

  /** The ids yielded so far. */
  function Emitted(out: seq<Completion>): set<JobId> {
    set c | c in out :: c.id
  }

  /** The ids of the input jobs. */
  function JobIds(jobs: seq<Job>): set<JobId> {
    set i | 0 <= i < |jobs| :: jobs[i].id
  }

  /** Every arrival in the heap occurs once, and no two arrivals share an id. */
  predicate ArrivalsUnique(q: seq<Event>) {
    && (forall e :: e in multiset(q) && e.Arrival? ==> multiset(q)[e] == 1)
    && (forall e1, e2 :: e1 in q && e2 in q && e1.Arrival? && e2.Arrival? && e1.id == e2.id ==> e1 == e2)
  }

  /** Every completion is yielded at the moment its job's remaining work,
      debited up to that moment, is exactly zero. */
  predicate Exhausted(out: seq<Completion>) {
    forall c :: c in out ==> c.left == Some(0.0)
  }

  /** Yielded in order of time, each job at most once. */
  predicate Chronicle(out: seq<Completion>) {
    forall i, k :: 0 <= i < k < |out| ==> out[i].time <= out[k].time && out[i].id != out[k].id
  }

  /** The arrivals of `q'` are those of `q`, each as often. */
  ghost predicate SameArrivals(q: seq<Event>, q': seq<Event>) {
    forall x: Event :: x.Arrival? ==> multiset(q')[x] == multiset(q)[x]
  }

  /** No remaining work is negative. */
  predicate NonNegative(rem: map<JobId, real>) {
    forall k :: k in rem ==> rem[k] >= 0.0
  }

  /** The waiting arrivals are unique, of non-negative size, and none of
      them is among the `running` jobs. */
  predicate Waiting(q: seq<Event>, running: set<JobId>) {
    && ArrivalsUnique(q)
    && forall e :: e in q && e.Arrival? ==> e.size >= 0.0 && e.id !in running
  }

  /** The completions yielded are in order, each when its job's work ran
      out, none later than `t`, and none for a running or waiting job. */
  predicate Yielded(out: seq<Completion>, t: real, running: set<JobId>, q: seq<Event>) {
    && Chronicle(out) && Exhausted(out)
    && forall c :: c in out ==> c.time <= t && c.id !in running && c.id !in Pending(q)
  }

  /** Every job of `all` is yielded, running or waiting. */
  predicate Conserved(out: seq<Completion>, running: set<JobId>, q: seq<Event>, all: set<JobId>) {
    && (forall j {:trigger j in all} :: j in all ==> j in Emitted(out) || j in running || j in Pending(q))
    && (forall j {:trigger j in Emitted(out)} :: j in Emitted(out) ==> j in all)
    && (forall j {:trigger j in running} :: j in running ==> j in all)
    && (forall j {:trigger j in Pending(q)} :: j in Pending(q) ==> j in all)
  }

  /** The estimator has an estimate, never negative, for every waiting
      arrival. */
  predicate Stocked(est: Estimator, q: seq<Event>) {
    && (Supply(est).None? || Supply(est).value >= |Pending(q)|)
    && (est.Fixed? ==> forall x :: x in est.pending ==> x >= 0.0)
  }

  /** The loop's bookkeeping at time `t`, apart from the scheduler. */
  predicate Books(q: seq<Event>, rem: map<JobId, real>, out: seq<Completion>, est: Estimator,
                  t: real, all: set<JobId>) {
    && NonNegative(rem) && Waiting(q, rem.Keys) && Yielded(out, t, rem.Keys, q)
    && Conserved(out, rem.Keys, q, all) && Stocked(est, q)
  }

  /** The scheduler keeps its invariant, has not moved past `t`, and tracks
      exactly the jobs with remaining work. */
  ghost predicate Tracking(p: Policies.Policy, t: real, rem: map<JobId, real>) {
    Policies.Inv(p) && Policies.Ready(p, t) && rem.Keys == Policies.Tracked(p)
  }

  /** No waiting arrival is among the jobs `known` to the scheduler. */
  predicate Unseen(q: seq<Event>, known: set<JobId>) {
    forall e :: e in q && e.Arrival? ==> e.id !in known
  }

  ghost predicate Accounted(st: Sim, t: real, all: set<JobId>) {
    && Tracking(st.policy, t, st.remaining)
    && Unseen(st.events, Policies.Known(st.policy))
    && Books(st.events, st.remaining, st.out, st.estimator, t, all)
  }

  /** The heap between iterations: in heap order, nothing before `t`, and
      a COMPLETE, if any, only at its head. */
  predicate HeapShape(q: seq<Event>, t: real) {
    && HeapOrder(q)
    && (q != [] ==> q[0].time >= t)
    && (forall i :: 1 <= i < |q| ==> !q[i].Complete?)
  }

  /** The heap once its head is popped and the event handled: in heap
      order, nothing before `t`, and no COMPLETE at all. */
  predicate Calm(q: seq<Event>, t: real) {
    && HeapOrder(q)
    && (q != [] ==> q[0].time >= t)
    && (forall i :: 0 <= i < |q| ==> !q[i].Complete?)
  }

  /** How the heap, the remaining work and the schedule `a` chosen at `t`
      fit together: a COMPLETE at the head is for a scheduled job with work
      left, due exactly when that work runs out at the job's share; the
      schedule splits the resource equally among jobs with work left and
      serves some job whenever work is left; no scheduled job runs out of
      work before the next event; and the heap empties only once no work is
      left. */
  predicate Paced(q: seq<Event>, rem: map<JobId, real>, a: Alloc, t: real) {
    && (q != [] && q[0].Complete? ==> q[0].id in rem && q[0].id in a
                                      && a[q[0].id] > 0.0 && q[0].time - t == rem[q[0].id] / a[q[0].id])
    && Policies.Serves(a, rem.Keys)
    && (q != [] ==> forall k :: k in a ==> Work(q[0].time - t, a[k]) <= rem[k])
    && (q == [] ==> rem == map[])
  }

  /** The loop invariant. */
  ghost predicate SimInv(st: Sim, all: set<JobId>) {
    && Accounted(st, st.lastT, all)
    && HeapShape(st.events, st.lastT)
    && Paced(st.events, st.remaining, st.schedule, st.lastT)
  }

  /** The state after the event is handled and before the scheduler is
      asked. */
  ghost predicate Handled(st: Sim, t: real, all: set<JobId>) {
    Accounted(st, t, all) && Calm(st.events, t)
  }

  /** Popping the head removes at most its own id from the waiting ones. */
  lemma PopFacts(q: seq<Event>)
    requires q != [] && ArrivalsUnique(q)
    ensures ArrivalsUnique(q[1..])
    ensures forall e :: e in q[1..] ==> e in q
    ensures q[0].Arrival? ==> q[0].id !in Pending(q[1..]) && Pending(q) == Pending(q[1..]) + {q[0].id}
    ensures !q[0].Arrival? ==> Pending(q) == Pending(q[1..])
  {
    assert q == [q[0]] + q[1..];
    assert multiset(q) == multiset{q[0]} + multiset(q[1..]);
    forall e | e in q ensures e == q[0] || e in q[1..] {
      var m :| 0 <= m < |q| && q[m] == e;
      if m > 0 { assert q[1..][m - 1] == e; }
    }
    if q[0].Arrival? {
      assert q[0] !in multiset(q[1..]);
    }
  }

  /** Popping the head of a well-shaped heap leaves a calm one, from the
      head's time on. */
  lemma PopCalm(q: seq<Event>, t0: real)
    requires HeapShape(q, t0) && q != []
    ensures Calm(q[1..], q[0].time)
  {
    HeapOrderIsTimeOrder(q);
    forall i | 0 <= i < |q[1..]| ensures !q[1..][i].Complete? {
      assert q[1..][i] == q[i + 1];
    }
  }

  /** Heaps with the same arrivals wait for the same jobs. */
  lemma SameArrivalsFacts(q: seq<Event>, q': seq<Event>)
    requires SameArrivals(q, q')
    ensures forall x :: x in q' && x.Arrival? ==> x in q
    ensures forall x :: x in q && x.Arrival? ==> x in q'
    ensures Pending(q') == Pending(q)
    ensures ArrivalsUnique(q) ==> ArrivalsUnique(q')
  {
    forall x | x in q' && x.Arrival? ensures x in q {
      assert multiset(q')[x] > 0;
    }
    forall x | x in q && x.Arrival? ensures x in q' {
      assert multiset(q)[x] > 0;
    }
  }

  /** A speculative push of a COMPLETE or INTERNAL event leaves the arrivals
      as they were. */
  lemma PushFacts(q: seq<Event>, e: Event)
    requires !e.Arrival?
    ensures SameArrivals(q, PushIfEarlier(q, e))
  {
    if q == [] || e.time < q[0].time {
      assert multiset([e] + q) == multiset{e} + multiset(q);
    }
  }

  /** The bookkeeping depends on the heap only through its arrivals. */
  lemma BooksCarry(q: seq<Event>, q': seq<Event>, rem: map<JobId, real>, out: seq<Completion>,
                   est: Estimator, t: real, all: set<JobId>)
    requires Books(q, rem, out, est, t, all) && SameArrivals(q, q')
    ensures Books(q', rem, out, est, t, all)
  {
    SameArrivalsFacts(q, q');
  }

  /** The bookkeeping depends on the remaining work only through who has
      some and that none is negative, and holds from any later time on. */
  lemma BooksDebited(q: seq<Event>, rem: map<JobId, real>, rem': map<JobId, real>,
                     out: seq<Completion>, est: Estimator, t: real, t': real, all: set<JobId>)
    requires Books(q, rem, out, est, t, all) && t <= t'
    requires rem'.Keys == rem.Keys && NonNegative(rem')
    ensures Books(q, rem', out, est, t', all)
  {
  }

  /** Popping the head keeps the rest waiting; a popped arrival starts
      running, and was waiting alone under its id. */
  lemma WaitingPop(q: seq<Event>, running: set<JobId>, running': set<JobId>)
    requires Waiting(q, running) && q != []
    requires q[0].Arrival? ==> running' == running + {q[0].id}
    requires !q[0].Arrival? ==> running' <= running
    ensures Waiting(q[1..], running')
    ensures q[0].Arrival? ==> q[0].size >= 0.0 && q[0].id !in running && q[0].id !in Pending(q[1..])
  {
    PopFacts(q);
    assert q[0] in q;
    forall e | e in q[1..] && e.Arrival? ensures e.id !in running' {
      assert e.id in Pending(q[1..]);
    }
  }

  /** What a popped arrival does to the yielded completions' facts. */
  lemma YieldedArrival(out: seq<Completion>, t0: real, running: set<JobId>, q: seq<Event>)
    requires Yielded(out, t0, running, q) && q != [] && q[0].Arrival? && t0 <= q[0].time
    requires ArrivalsUnique(q)
    ensures Yielded(out, q[0].time, running + {q[0].id}, q[1..])
  {
    PopFacts(q);
  }

  /** A popped completion of a running job is yielded. */
  lemma YieldedComplete(out: seq<Completion>, t0: real, running: set<JobId>, q: seq<Event>)
    requires Yielded(out, t0, running, q) && q != [] && q[0].Complete? && t0 <= q[0].time
    requires Waiting(q, running) && q[0].id in running
    ensures Yielded(out + [Completion(q[0].time, q[0].id, Some(0.0))], q[0].time, running - {q[0].id}, q[1..])
  {
    var t := q[0].time;
    var j := q[0].id;
    var out' := out + [Completion(t, j, Some(0.0))];
    PopFacts(q);
    assert j !in Pending(q) by {
      forall e | e in q && e.Arrival? ensures e.id != j { }
    }
    forall c | c in out' ensures c.time <= t && c.id !in running - {j} && c.id !in Pending(q[1..]) {
      if c != Completion(t, j, Some(0.0)) {
        assert c in out;
      }
    }
    forall i, k | 0 <= i < k < |out'| ensures out'[i].time <= out'[k].time && out'[i].id != out'[k].id {
      if k == |out'| - 1 {
        assert out'[i] in out;
      }
    }
  }

  /** A popped internal event changes nothing yielded. */
  lemma YieldedInternal(out: seq<Completion>, t0: real, running: set<JobId>, q: seq<Event>)
    requires Yielded(out, t0, running, q) && q != [] && q[0].Internal? && t0 <= q[0].time
    requires ArrivalsUnique(q)
    ensures Yielded(out, q[0].time, running, q[1..])
  {
    PopFacts(q);
  }

  /** Every job stays yielded, running or waiting. */
  lemma ConservedPop(out: seq<Completion>, running: set<JobId>, q: seq<Event>, all: set<JobId>)
    requires Conserved(out, running, q, all) && q != [] && ArrivalsUnique(q)
    ensures q[0].Arrival? ==> Conserved(out, running + {q[0].id}, q[1..], all)
    ensures q[0].Complete? && q[0].id in running ==>
      Conserved(out + [Completion(q[0].time, q[0].id, Some(0.0))], running - {q[0].id}, q[1..], all)
    ensures q[0].Internal? ==> Conserved(out, running, q[1..], all)
  {
    PopFacts(q);
    if q[0].Complete? {
      assert Emitted(out + [Completion(q[0].time, q[0].id, Some(0.0))]) == Emitted(out) + {q[0].id};
    }
  }

  /** A popped arrival uses one estimate, which is not negative. */
  lemma StockedArrival(est: Estimator, q: seq<Event>)
    requires Stocked(est, q) && q != [] && q[0].Arrival? && ArrivalsUnique(q)
    requires q[0].size >= 0.0
    ensures Estimate(est, q[0].size).Ok? && Estimate(est, q[0].size).value.0 >= 0.0
    ensures Stocked(Estimate(est, q[0].size).value.1, q[1..])
  {
    PopFacts(q);
    assert |Pending(q)| == |Pending(q[1..])| + 1;
    EstimateUsesSupply(est, q[0].size);
    if est.Fixed? {
      var e' := Estimate(est, q[0].size).value.1;
      assert Estimate(est, q[0].size).value.0 == est.pending[0];
      assert est.pending[0] in est.pending;
      assert forall y :: y in e'.pending ==> y in est.pending;
    }
  }

  /** Any other popped event leaves the estimator's stock as it was. */
  lemma StockedOther(est: Estimator, q: seq<Event>)
    requires Stocked(est, q) && q != [] && !q[0].Arrival? && ArrivalsUnique(q)
    ensures Stocked(est, q[1..])
  {
    PopFacts(q);
  }

  /** Tracking survives a debit, which keeps who has work left, and holds
      from any later time on. */
  lemma TrackingLater(p: Policies.Policy, t: real, t': real, rem: map<JobId, real>, rem': map<JobId, real>)
    requires Tracking(p, t, rem) && t <= t' && rem'.Keys == rem.Keys
    ensures Tracking(p, t', rem')
  {
  }

  /** Enqueueing an unknown job tracks it. */
  lemma TrackingArrival(p: Policies.Policy, t: real, j: JobId, x: real, rem: map<JobId, real>, size: real)
    requires Tracking(p, t, rem) && j !in Policies.Known(p) && x >= 0.0
    ensures Policies.Enqueue(p, t, j, x).Ok?
    ensures Tracking(Policies.Enqueue(p, t, j, x).value, t, rem[j := size])
    ensures Policies.Known(Policies.Enqueue(p, t, j, x).value) <= Policies.Known(p) + {j}
  {
    Policies.EnqueueContract(p, t, j, x);
  }

  /** Dequeueing a tracked job stops tracking it. */
  lemma TrackingComplete(p: Policies.Policy, t: real, j: JobId, rem: map<JobId, real>)
    requires Tracking(p, t, rem) && j in rem
    ensures Policies.Dequeue(p, t, j).Ok?
    ensures Tracking(Policies.Dequeue(p, t, j).value, t, rem - {j})
    ensures Policies.Known(Policies.Dequeue(p, t, j).value) <= Policies.Known(p)
  {
    Policies.DequeueContract(p, t, j);
  }

  /** A non-negative amount of work scaled by at most the time the work
      lasts at share `s` is at most that work. */
  lemma WorkWithin(x: real, r: real, s: real)
    requires 0.0 <= x && 0.0 <= r && s > 0.0 && x <= r / s
    ensures Work(x, s) <= r
  {
    assert (r / s) * s == r;
    assert (r / s - x) * s >= 0.0;
  }

  /** The debit succeeds when every scheduled job has work left, and
      leaves no work negative when no scheduled job would run out within
      `delta`. */
  lemma DebitSafe(remaining: map<JobId, real>, schedule: Alloc, delta: real)
    requires schedule.Keys <= remaining.Keys
    requires forall k :: k in remaining ==> remaining[k] >= 0.0
    requires forall k :: k in schedule ==> Work(delta, schedule[k]) <= remaining[k]
    ensures var d := Debit(remaining, schedule, delta, Enumerate(schedule.Keys));
      && d.Ok? && d.value.Keys == remaining.Keys
      && forall k :: k in d.value ==> d.value[k] >= 0.0
    ensures var d := Debit(remaining, schedule, delta, Enumerate(schedule.Keys));
      forall k :: k in schedule ==> d.value[k] == remaining[k] - Work(delta, schedule[k])
  {
    EnumerateDistinct(schedule.Keys);
    DebitIsPointwise(remaining, schedule, delta, Enumerate(schedule.Keys));
  }

  /** The INTERNAL push keeps a calm heap calm and its arrivals as they
      were, since the scheduler never asks for a wake-up in the past. */
  lemma InternalPushCalm(q: seq<Event>, p: Policies.Policy, t: real)
    requires Calm(q, t) && Policies.Prompt(p)
    ensures Calm(PushInternal(q, p, t), t) && SameArrivals(q, PushInternal(q, p, t))
  {
    if Policies.NextInternal(p).Some? {
      var e := Internal(t + Policies.NextInternal(p).value);
      PushFacts(q, e);
      PushKeepsOrder(q, e);
    } else {
      assert multiset(PushInternal(q, p, t)) == multiset(q);
    }
  }

  /** When work is left, the earliest completion under the schedule is
      found, is for a scheduled job, and is not in the past. */
  lemma EarliestFound(rem: map<JobId, real>, a: Alloc)
    requires Policies.Serves(a, rem.Keys) && NonNegative(rem) && rem != map[]
    ensures var m := Earliest(rem, a, Enumerate(a.Keys));
      && m.Ok? && m.value.Some? && m.value.value.0 >= 0.0 && m.value.value.1 in rem
      && m.value.value.1 in a && m.value.value.0 == rem[m.value.value.1] / a[m.value.value.1]
      && forall k :: k in a ==> m.value.value.0 <= rem[k] / a[k] && a[k] > 0.0
  {
    ServedShares(rem, a);
    var order := Enumerate(a.Keys);
    EarliestIsLeast(rem, a, order);
    var (d, j) := Earliest(rem, a, order).value.value;
    QuotientNonNegative(rem[j], a[j]);
  }

  /** A schedule serving the jobs with work left gives each scheduled job a
      positive share, and schedules some job when work is left. */
  lemma ServedShares(rem: map<JobId, real>, a: Alloc)
    requires Policies.Serves(a, rem.Keys) && rem != map[]
    ensures forall k :: k in a ==> a[k] > 0.0 && k in rem
    ensures Enumerate(a.Keys) != []
  {
    EqualSharesValid(a.Keys);
    KeysOfNonEmpty(rem);
    assert a != map[];
    var k :| k in a;
    assert k in Enumerate(a.Keys);
  }

  /** A map with an entry has a key. */
  lemma KeysOfNonEmpty(m: map<JobId, real>)
    requires m != map[]
    ensures m.Keys != {}
  {
  }

  /** Dividing by a positive share keeps a quantity non-negative. */
  lemma QuotientNonNegative(x: real, y: real)
    requires x >= 0.0 && y > 0.0
    ensures x / y >= 0.0
  {
  }

  /** Pushing the earliest completion `c`, due `d` after `t`, onto a calm
      heap leaves it well shaped and paced. */
  lemma CompleteHeadPaced(q: seq<Event>, rem: map<JobId, real>, a: Alloc, t: real, d: real, j: JobId)
    requires Calm(q, t) && Policies.Serves(a, rem.Keys) && NonNegative(rem)
    requires d >= 0.0 && j in rem && j in a && d == rem[j] / a[j]
    requires forall k :: k in a ==> d <= rem[k] / a[k] && a[k] > 0.0
    ensures var q' := PushIfEarlier(q, Complete(t + d, j));
      HeapShape(q', t) && Paced(q', rem, a, t) && SameArrivals(q, q')
  {
    var c := Complete(t + d, j);
    var q' := PushIfEarlier(q, c);
    PushFacts(q, c);
    PushKeepsOrder(q, c);
    assert q' != [] && t <= q'[0].time <= t + d;
    forall k | k in a ensures Work(q'[0].time - t, a[k]) <= rem[k] {
      WorkWithin(q'[0].time - t, rem[k], a[k]);
    }
  }

  /** The COMPLETE push succeeds on a calm heap when the schedule serves
      jobs with work left, and leaves the heap well shaped and paced. */
  lemma CompletePushSafe(q: seq<Event>, rem: map<JobId, real>, a: Alloc, t: real)
    requires Calm(q, t) && Policies.Serves(a, rem.Keys) && NonNegative(rem)
    ensures PushComplete(q, rem, a, t).Ok?
    ensures var q' := PushComplete(q, rem, a, t).value;
      HeapShape(q', t) && Paced(q', rem, a, t) && SameArrivals(q, q')
  {
    if rem == map[] {
      NothingToComplete(q, rem, a, t);
    } else {
      EarliestPushed(q, rem, a, t);
    }
  }

  /** With no work left nothing is scheduled, and the heap stays as it was. */
  lemma NothingToComplete(q: seq<Event>, rem: map<JobId, real>, a: Alloc, t: real)
    requires Calm(q, t) && Policies.Serves(a, rem.Keys) && rem == map[]
    ensures PushComplete(q, rem, a, t) == Ok(q)
    ensures HeapShape(q, t) && Paced(q, rem, a, t)
  {
    assert a == map[];
    assert Enumerate(a.Keys) == [];
  }

  /** With work left the earliest completion is found and pushed. */
  lemma EarliestPushed(q: seq<Event>, rem: map<JobId, real>, a: Alloc, t: real)
    requires Calm(q, t) && Policies.Serves(a, rem.Keys) && NonNegative(rem) && rem != map[]
    ensures PushComplete(q, rem, a, t).Ok?
    ensures var q' := PushComplete(q, rem, a, t).value;
      HeapShape(q', t) && Paced(q', rem, a, t) && SameArrivals(q, q')
  {
    EarliestFound(rem, a);
    var (d, j) := Earliest(rem, a, Enumerate(a.Keys)).value.value;
    assert PushComplete(q, rem, a, t) == Ok(PushIfEarlier(q, Complete(t + d, j)));
    CompleteHeadPaced(q, rem, a, t, d, j);
  }

  /** A popped arrival is estimated and starts running. */
  lemma BooksArrival(q: seq<Event>, rem: map<JobId, real>, out: seq<Completion>, est: Estimator,
                     t0: real, all: set<JobId>)
    requires Books(q, rem, out, est, t0, all) && q != [] && q[0].Arrival? && t0 <= q[0].time
    ensures Estimate(est, q[0].size).Ok? && Estimate(est, q[0].size).value.0 >= 0.0
    ensures q[0].id !in rem && q[0].id !in Pending(q[1..])
    ensures Books(q[1..], rem[q[0].id := q[0].size], out, Estimate(est, q[0].size).value.1, q[0].time, all)
  {
    var running' := rem[q[0].id := q[0].size].Keys;
    assert running' == rem.Keys + {q[0].id};
    WaitingPop(q, rem.Keys, running');
    YieldedArrival(out, t0, rem.Keys, q);
    ConservedPop(out, rem.Keys, q, all);
    StockedArrival(est, q);
  }

  /** A popped completion of a running job is yielded, and the job stops
      running. */
  lemma BooksComplete(q: seq<Event>, rem: map<JobId, real>, out: seq<Completion>, est: Estimator,
                      t0: real, all: set<JobId>)
    requires Books(q, rem, out, est, t0, all) && q != [] && q[0].Complete? && t0 <= q[0].time
    requires q[0].id in rem
    ensures Books(q[1..], rem - {q[0].id}, out + [Completion(q[0].time, q[0].id, Some(0.0))], est, q[0].time, all)
  {
    WaitingPop(q, rem.Keys, rem.Keys - {q[0].id});
    YieldedComplete(out, t0, rem.Keys, q);
    ConservedPop(out, rem.Keys, q, all);
    StockedOther(est, q);
    assert (rem - {q[0].id}).Keys == rem.Keys - {q[0].id};
  }

  /** A popped internal event leaves the bookkeeping as it was. */
  lemma BooksInternal(q: seq<Event>, rem: map<JobId, real>, out: seq<Completion>, est: Estimator,
                      t0: real, all: set<JobId>)
    requires Books(q, rem, out, est, t0, all) && q != [] && q[0].Internal? && t0 <= q[0].time
    ensures Books(q[1..], rem, out, est, q[0].time, all)
  {
    WaitingPop(q, rem.Keys, rem.Keys);
    YieldedInternal(out, t0, rem.Keys, q);
    ConservedPop(out, rem.Keys, q, all);
    StockedOther(est, q);
  }

  /** The arrivals still waiting after a pop stay unknown to a scheduler
      that learnt at most the popped job `j`, when `j` no longer waits. */
  lemma UnseenPop(q: seq<Event>, known: set<JobId>, known': set<JobId>, j: JobId)
    requires Unseen(q, known) && q != [] && known' <= known + {j} && j !in Pending(q[1..])
    ensures Unseen(q[1..], known')
  {
    forall e | e in q[1..] && e.Arrival? ensures e.id !in known' {
      assert e.id in Pending(q[1..]);
      assert e in q by { PopFactsIn(q, e); }
    }
  }

  /** An element of the popped heap is in the heap. */
  lemma PopFactsIn(q: seq<Event>, e: Event)
    requires q != [] && e in q[1..]
    ensures e in q
  {
  }

  /** The arrivals still waiting after a pop stay unknown to a scheduler
      that learnt nothing. */
  lemma UnseenKeep(q: seq<Event>, known: set<JobId>, known': set<JobId>)
    requires Unseen(q, known) && q != [] && known' <= known
    ensures Unseen(q[1..], known')
  {
    forall e | e in q[1..] && e.Arrival? ensures e.id !in known' {
      PopFactsIn(q, e);
    }
  }

  /** An arrival is estimated and enqueued, and its job starts running. */
  lemma HandleArrival(st: Sim, rem: map<JobId, real>, all: set<JobId>)
    requires Accounted(st, st.lastT, all) && HeapShape(st.events, st.lastT)
    requires st.events != [] && st.events[0].Arrival?
    requires rem.Keys == st.remaining.Keys && NonNegative(rem)
    ensures Handle(st.(events := st.events[1..], remaining := rem), st.events[0]).Next?
    ensures Handled(Handle(st.(events := st.events[1..], remaining := rem), st.events[0]).next,
                    st.events[0].time, all)
  {
    var q := st.events;
    var ev := q[0];
    var t := ev.time;
    var j := ev.id;
    BooksDebited(q, st.remaining, rem, st.out, st.estimator, st.lastT, st.lastT, all);
    BooksArrival(q, rem, st.out, st.estimator, st.lastT, all);
    var (x, e') := Estimate(st.estimator, ev.size).value;
    TrackingLater(st.policy, st.lastT, t, st.remaining, rem);
    TrackingArrival(st.policy, t, j, x, rem, ev.size);
    var p := Policies.Enqueue(st.policy, t, j, x).value;
    UnseenPop(q, Policies.Known(st.policy), Policies.Known(p), j);
    PopCalm(q, st.lastT);
    var st1 := st.(events := q[1..], remaining := rem[j := ev.size], policy := p, estimator := e');
    assert Handle(st.(events := q[1..], remaining := rem), ev) == Next(st1);
  }

  /** A completion is yielded, and its job stops running. */
  lemma HandleComplete(st: Sim, rem: map<JobId, real>, all: set<JobId>)
    requires Accounted(st, st.lastT, all) && HeapShape(st.events, st.lastT)
    requires st.events != [] && st.events[0].Complete? && st.events[0].id in st.remaining
    requires rem.Keys == st.remaining.Keys && NonNegative(rem) && rem[st.events[0].id] == 0.0
    ensures Handle(st.(events := st.events[1..], remaining := rem), st.events[0]).Next?
    ensures Handled(Handle(st.(events := st.events[1..], remaining := rem), st.events[0]).next,
                    st.events[0].time, all)
  {
    var q := st.events;
    var ev := q[0];
    var t := ev.time;
    var j := ev.id;
    BooksDebited(q, st.remaining, rem, st.out, st.estimator, st.lastT, st.lastT, all);
    BooksComplete(q, rem, st.out, st.estimator, st.lastT, all);
    TrackingLater(st.policy, st.lastT, t, st.remaining, rem);
    TrackingComplete(st.policy, t, j, rem);
    var p := Policies.Dequeue(st.policy, t, j).value;
    UnseenKeep(q, Policies.Known(st.policy), Policies.Known(p));
    PopCalm(q, st.lastT);
    var st1 := st.(events := q[1..], remaining := rem - {j}, policy := p,
                   out := st.out + [Completion(t, j, Some(0.0))]);
    assert Handle(st.(events := q[1..], remaining := rem), ev) == Next(st1);
  }

  /** An internal event only moves the clock. */
  lemma HandleInternal(st: Sim, rem: map<JobId, real>, all: set<JobId>)
    requires Accounted(st, st.lastT, all) && HeapShape(st.events, st.lastT)
    requires st.events != [] && st.events[0].Internal?
    requires rem.Keys == st.remaining.Keys && NonNegative(rem)
    ensures Handle(st.(events := st.events[1..], remaining := rem), st.events[0]).Next?
    ensures Handled(Handle(st.(events := st.events[1..], remaining := rem), st.events[0]).next,
                    st.events[0].time, all)
  {
    var q := st.events;
    BooksDebited(q, st.remaining, rem, st.out, st.estimator, st.lastT, st.lastT, all);
    BooksInternal(q, rem, st.out, st.estimator, st.lastT, all);
    TrackingLater(st.policy, st.lastT, q[0].time, st.remaining, rem);
    UnseenKeep(q, Policies.Known(st.policy), Policies.Known(st.policy));
    PopCalm(q, st.lastT);
  }

  /** After the event is handled, the scheduler answers, both speculative
      pushes succeed, and the invariant holds again at the event's time. */
  lemma ScheduleSafe(st: Sim, t: real, all: set<JobId>)
    requires Handled(st, t, all)
    ensures Policies.Schedule(st.policy, t).Ok?
    ensures var (p, a) := Policies.Schedule(st.policy, t).value;
      var r := PushComplete(PushInternal(st.events, p, t), st.remaining, a, t);
      && r.Ok? && SimInv(st.(events := r.value, schedule := a, policy := p, lastT := t), all)
  {
    Policies.ScheduleContract(st.policy, t);
    var (p, a) := Policies.Schedule(st.policy, t).value;
    var q := PushInternal(st.events, p, t);
    InternalPushCalm(st.events, p, t);
    CompletePushSafe(q, st.remaining, a, t);
    var q' := PushComplete(q, st.remaining, a, t).value;
    assert SameArrivals(st.events, q');
    SameArrivalsFacts(st.events, q');
    BooksCarry(st.events, q', st.remaining, st.out, st.estimator, t, all);
  }

  /** An iteration whose parts all succeed moves to the state they build. */
  lemma AfterIs(st: Sim, rem: map<JobId, real>, st1: Sim, p: Policies.Policy, a: Alloc, q: seq<Event>)
    requires st.events != []
    requires Handle(st.(events := st.events[1..], remaining := rem), st.events[0]) == Next(st1)
    requires Policies.Schedule(st1.policy, st.events[0].time) == Ok((p, a))
    requires PushComplete(PushInternal(st1.events, p, st.events[0].time), st1.remaining, a, st.events[0].time) == Ok(q)
    ensures After(st, rem) == Next(st1.(events := q, schedule := a, policy := p, lastT := st.events[0].time))
  {
  }

  /** The popped event is handled without error under the invariant. */
  lemma HandleSafe(st: Sim, rem: map<JobId, real>, all: set<JobId>) returns (st1: Sim)
    requires SimInv(st, all) && st.events != []
    requires rem.Keys == st.remaining.Keys && NonNegative(rem)
    requires st.events[0].Complete? ==> rem[st.events[0].id] == 0.0
    ensures Handle(st.(events := st.events[1..], remaining := rem), st.events[0]) == Next(st1)
    ensures Handled(st1, st.events[0].time, all)
  {
    var ev := st.events[0];
    if ev.Arrival? {
      HandleArrival(st, rem, all);
    } else if ev.Complete? {
      HandleComplete(st, rem, all);
    } else {
      HandleInternal(st, rem, all);
    }
    st1 := Handle(st.(events := st.events[1..], remaining := rem), ev).next;
  }

  /** Once the work is debited, the rest of the iteration succeeds and
      restores the invariant at the popped event's time. */
  lemma AfterSafe(st: Sim, rem: map<JobId, real>, all: set<JobId>)
    requires SimInv(st, all) && st.events != []
    requires rem.Keys == st.remaining.Keys && NonNegative(rem)
    requires st.events[0].Complete? ==> rem[st.events[0].id] == 0.0
    ensures After(st, rem).Next? && SimInv(After(st, rem).next, all)
    ensures After(st, rem).next.lastT == st.events[0].time
  {
    var t := st.events[0].time;
    var st1 := HandleSafe(st, rem, all);
    ScheduleSafe(st1, t, all);
    var (p, a) := Policies.Schedule(st1.policy, t).value;
    var q := PushComplete(PushInternal(st1.events, p, t), st1.remaining, a, t).value;
    AfterIs(st, rem, st1, p, a, q);
  }

  /** One iteration under the invariant never raises and restores the
      invariant at the popped event's time. */
  lemma StepSafe(st: Sim, all: set<JobId>)
    requires SimInv(st, all) && st.events != []
    ensures Step(st).Next? && SimInv(Step(st).next, all)
    ensures Step(st).next.lastT == st.events[0].time
  {
    DebitSinceSafe(st, all);
    var rem := DebitSince(st).value;
    AfterSafe(st, rem, all);
    assert Step(st) == After(st, rem);
  }

  /** Under the invariant, debiting the work done since the last event
      succeeds and leaves no job with negative work. */
  lemma DebitSinceSafe(st: Sim, all: set<JobId>)
    requires SimInv(st, all) && st.events != []
    ensures DebitSince(st).Ok? && DebitSince(st).value.Keys == st.remaining.Keys
    ensures NonNegative(DebitSince(st).value)
    ensures st.events[0].Complete? ==> DebitSince(st).value[st.events[0].id] == 0.0
  {
    DebitSafe(st.remaining, st.schedule, st.events[0].time - st.lastT);
    if st.events[0].Complete? {
      var j := st.events[0].id;
      EqualSharesValid(st.schedule.Keys);
      DueWork(st.remaining[j], st.schedule[j]);
    }
  }

  /** At its share `s`, a job with work `r` left finishes it in `r / s`. */
  lemma DueWork(r: real, s: real)
    requires s > 0.0
    ensures Work(r / s, s) == r
  {
  }

  /** What the generator may produce from a state whose jobs are `all`: it
      stops only for want of fuel, and when it finishes every job of `all`
      has been yielded, once each, in order of time, each at the moment its
      remaining work ran out. */
  predicate Sound(r: Outcome, all: set<JobId>) {
    && (r.Failed? ==> r.error == OutOfFuel && Emitted(r.yielded) <= all && Chronicle(r.yielded)
                      && Exhausted(r.yielded))
    && (r.Done? ==> Emitted(r.out) == all && Chronicle(r.out) && Exhausted(r.out))
  }

  /** Once the heap is empty no work is left, so the final assertion holds,
      and every job has been yielded. */
  lemma Drained(st: Sim, all: set<JobId>)
    requires SimInv(st, all) && st.events == []
    ensures st.remaining == map[] && Emitted(st.out) == all
  {
    assert Pending(st.events) == {};
  }

  /** What an induction over the loop asks of a property `inv` of states:
      an iteration from a state satisfying it succeeds and leads to another
      such state; the completions such a state has yielded are in order and
      among `all`; and once its heap is empty no work is left and every job
      of `all` has been yielded. */
  ghost predicate Inductive(inv: (Sim, set<JobId>) -> bool, all: set<JobId>) {
    && (forall s {:trigger Step(s)} :: inv(s, all) && s.events != [] ==> Step(s).Next? && inv(Step(s).next, all))
    && (forall s :: inv(s, all) ==> Emitted(s.out) <= all && Chronicle(s.out) && Exhausted(s.out))
    && (forall s :: inv(s, all) && s.events == [] ==> s.remaining == map[] && Emitted(s.out) == all)
  }

  /** Induction over the loop: the run from a state satisfying an inductive
      property is sound. */
  lemma {:induction false} RunSound(st: Sim, fuel: nat, all: set<JobId>, inv: (Sim, set<JobId>) -> bool)
    requires Inductive(inv, all) && inv(st, all)
    ensures Sound(Run(st, fuel), all)
    decreases fuel
  {
    if st.events != [] && fuel > 0 {
      var next := Iterate(st, fuel, all, inv);
      RunSound(next, fuel - 1, all, inv);
    }
  }

  /** An iteration from a state satisfying an inductive property leads to
      another such state, and the run from there decides the run from here. */
  lemma Iterate(st: Sim, fuel: nat, all: set<JobId>, inv: (Sim, set<JobId>) -> bool) returns (next: Sim)
    requires Inductive(inv, all) && inv(st, all) && st.events != [] && fuel > 0
    ensures inv(next, all)
    ensures Sound(Run(next, fuel - 1), all) ==> Sound(Run(st, fuel), all)
  {
    next := Step(st).next;
    IterationIs(st, fuel, next, all);
  }

  /** The loop invariant is inductive. */
  lemma InvariantInductive(all: set<JobId>)
    ensures Inductive(SimInv, all)
  {
    forall s | SimInv(s, all) && s.events != [] ensures Step(s).Next? && SimInv(Step(s).next, all) {
      StepSafe(s, all);
    }
    forall s | SimInv(s, all) && s.events == [] ensures s.remaining == map[] && Emitted(s.out) == all {
      Drained(s, all);
    }
  }

  /** The loop run from any state satisfying the invariant is sound. */
  lemma RunSafe(st: Sim, fuel: nat, all: set<JobId>)
    requires SimInv(st, all)
    ensures Sound(Run(st, fuel), all)
  {
    InvariantInductive(all);
    RunSound(st, fuel, all, SimInv);
  }

  /** A run whose next iteration succeeds is the run from where it leads. */
  lemma IterationIs(st: Sim, fuel: nat, next: Sim, all: set<JobId>)
    requires st.events != [] && fuel > 0 && Step(st) == Next(next)
    ensures Sound(Run(next, fuel - 1), all) ==> Sound(Run(st, fuel), all)
  {
    var rem := DebitSince(st).value;
    assert After(st, rem) == Next(next);
    assert Run(st, fuel) == Iteration(st, fuel) == Resume(st, rem, fuel);
    assert Resume(st, rem, fuel) == Run(next, fuel - 1);
  }

  /** Valid input: distinct ids, and no arrival time or size negative. */
  predicate ValidJobs(jobs: seq<Job>) {
    && (forall i, k :: 0 <= i < k < |jobs| ==> jobs[i].id != jobs[k].id)
    && (forall i :: 0 <= i < |jobs| ==> jobs[i].arrival >= 0.0 && jobs[i].size >= 0.0)
  }

  /** The estimator can answer `n` calls, never with a negative estimate. */
  predicate Covers(e: Estimator, n: nat) {
    && (Supply(e).None? || Supply(e).value >= n)
    && (e.Fixed? ==> forall x :: x in e.pending ==> x >= 0.0)
  }

  /** Jobs with distinct ids have as many ids as jobs. */
  lemma {:induction false} JobIdsCount(jobs: seq<Job>)
    requires forall i, k :: 0 <= i < k < |jobs| ==> jobs[i].id != jobs[k].id
    ensures |JobIds(jobs)| == |jobs|
    decreases |jobs|
  {
    if jobs != [] {
      var rest := jobs[1..];
      forall i, k | 0 <= i < k < |rest| ensures rest[i].id != rest[k].id {
        assert rest[i] == jobs[i + 1] && rest[k] == jobs[k + 1];
      }
      JobIdsCount(rest);
      assert JobIds(jobs) == {jobs[0].id} + JobIds(rest) by {
        forall x | x in JobIds(jobs) ensures x in {jobs[0].id} + JobIds(rest) {
          var i :| 0 <= i < |jobs| && jobs[i].id == x;
          if i > 0 { assert rest[i - 1] == jobs[i]; }
        }
        forall x | x in JobIds(rest) ensures x in JobIds(jobs) {
          var i :| 0 <= i < |rest| && rest[i].id == x;
          assert jobs[i + 1] == rest[i];
        }
      }
      assert jobs[0].id !in JobIds(rest) by {
        forall i | 0 <= i < |rest| ensures rest[i].id != jobs[0].id {
          assert rest[i] == jobs[i + 1];
        }
      }
    }
  }

  /** Completions of distinct jobs have as many ids as completions. */
  lemma {:induction false} EmittedCount(out: seq<Completion>)
    requires Chronicle(out)
    ensures |Emitted(out)| == |out|
    decreases |out|
  {
    if out != [] {
      var init := out[..|out| - 1];
      var last := out[|out| - 1];
      ChronicleSplit(out);
      EmittedCount(init);
      assert Emitted(out) == Emitted(init) + {last.id} by {
        assert out == init + [last];
      }
    }
  }

  /** Dropping the last completion of a chronicle leaves a chronicle that
      does not yield the last one's id. */
  lemma ChronicleSplit(out: seq<Completion>)
    requires Chronicle(out) && out != []
    ensures Chronicle(out[..|out| - 1])
    ensures out[|out| - 1].id !in Emitted(out[..|out| - 1])
  {
    var init := out[..|out| - 1];
    forall i, k | 0 <= i < k < |init| ensures init[i].time <= init[k].time && init[i].id != init[k].id {
      assert init[i] == out[i] && init[k] == out[k];
    }
    forall c | c in init ensures c.id != out[|out| - 1].id {
      var i :| 0 <= i < |init| && init[i] == c;
      assert out[i] == c;
    }
  }

  /** A sequence without duplicates holds each element at most once. */
  lemma {:induction false} CountAtMostOne(s: seq<Event>)
    requires NoDuplicates(s)
    ensures forall x :: multiset(s)[x] <= 1
    decreases |s|
  {
    if s != [] {
      var rest := s[1..];
      assert NoDuplicates(rest) by {
        forall a, b | 0 <= a < b < |rest| ensures rest[a] != rest[b] {
          assert rest[a] == s[a + 1] && rest[b] == s[b + 1];
        }
      }
      CountAtMostOne(rest);
      assert s == [s[0]] + rest;
      assert multiset(s) == multiset{s[0]} + multiset(rest);
      assert s[0] !in rest by {
        forall i | 0 <= i < |rest| ensures rest[i] != s[0] {
          assert rest[i] == s[i + 1];
        }
      }
    }
  }

  /** The heap built from valid jobs: exactly their arrivals, each once. */
  lemma StartHeap(jobs: seq<Job>, q: seq<Event>)
    requires ValidJobs(jobs) && multiset(q) == multiset(ArrivalsOf(jobs))
    ensures ArrivalsUnique(q) && Pending(q) == JobIds(jobs)
    ensures forall e :: e in q ==> e.Arrival? && e.time >= 0.0 && e.size >= 0.0
  {
    var arr := ArrivalsOf(jobs);
    forall e | e in q ensures e in arr {
      assert e in multiset(q);
    }
    forall e | e in arr ensures e in q {
      assert e in multiset(arr);
    }
    assert NoDuplicates(arr) by {
      forall a, b | 0 <= a < b < |arr| ensures arr[a] != arr[b] {
        assert arr[a].id == jobs[a].id && arr[b].id == jobs[b].id;
      }
    }
    CountAtMostOne(arr);
    forall e | e in multiset(q) && e.Arrival? ensures multiset(q)[e] == 1 {
      assert multiset(arr)[e] <= 1;
    }
    forall x | x in JobIds(jobs) ensures x in Pending(q) {
      var i :| 0 <= i < |jobs| && jobs[i].id == x;
      assert arr[i] in arr;
    }
  }

  /** The state before the loop satisfies the invariant for the input's ids. */
  lemma StartInv(jobs: seq<Job>, p: Policies.Policy, e: Estimator)
    requires ValidJobs(jobs) && Policies.Initial(p) && Covers(e, |jobs|)
    ensures SimInv(Start(jobs, p, e), JobIds(jobs))
  {
    var st := Start(jobs, p, e);
    StartBooks(jobs, st.events, e);
    Policies.InitialIsIdle(p);
    assert Policies.Serves(map[], {}) by {
      assert EqualShares({}) == map[];
    }
  }

  /** The heap of arrivals, with nothing run and nothing yielded, keeps the
      loop's books at time 0 and holds no COMPLETE. */
  lemma StartBooks(jobs: seq<Job>, q: seq<Event>, e: Estimator)
    requires ValidJobs(jobs) && multiset(q) == multiset(ArrivalsOf(jobs)) && Covers(e, |jobs|)
    ensures Books(q, map[], [], e, 0.0, JobIds(jobs))
    ensures q != [] ==> q[0].time >= 0.0
    ensures forall i :: 0 <= i < |q| ==> !q[i].Complete?
  {
    StartHeap(jobs, q);
    JobIdsCount(jobs);
    if q != [] {
      assert q[0] in q;
    }
    forall i | 0 <= i < |q| ensures !q[i].Complete? {
      assert q[i] in q;
    }
  }

  /** The simulator on valid jobs with an adequate estimator never raises:
      it can only run out of fuel, and when it finishes it has yielded
      every job exactly once, in order of completion time. */
  lemma SimulateSafe(jobs: seq<Job>, p: Policies.Policy, e: Estimator, fuel: nat)
    requires ValidJobs(jobs) && Policies.Initial(p) && Covers(e, |jobs|)
    ensures Simulate(jobs, p, e, fuel).Failed? ==>
      Simulate(jobs, p, e, fuel).error == OutOfFuel && Exhausted(Simulate(jobs, p, e, fuel).yielded)
    ensures Simulate(jobs, p, e, fuel).Done? ==>
      var out := Simulate(jobs, p, e, fuel).out;
      Emitted(out) == JobIds(jobs) && |out| == |jobs| && Chronicle(out) && Exhausted(out)
  {
    StartInv(jobs, p, e);
    RunSafe(Start(jobs, p, e), fuel, JobIds(jobs));
    var r := Simulate(jobs, p, e, fuel);
    if r.Done? {
      EmittedCount(r.out);
      JobIdsCount(jobs);
    }
  }
}

=== FILE: srpt.dfy ===
/** Shortest remaining processing time (schedulers.py, class `SRPT`): the
    whole resource goes to the job with the least estimated remaining work,
    and only that job's estimate ages. */
module Srpt {
  import opened Base
  import opened Allocation
  import opened EntryQueue

  /** The heap of `[remaining estimate, jobid]` pairs and the time of the
      last update. */
  datatype State = State(jobs: seq<Entry>, lastT: real)

  function Init(): State {
    State([], 0.0)
  }

  /** The heap is ordered and holds each job once. */
  predicate Inv(s: State) {
    Sorted(s.jobs) && DistinctIds(s.jobs)
  }

  /** `update`: the head's estimate loses the time elapsed since the last
      update; every other estimate is untouched. At the same instant nothing
      changes. */
  function Update(s: State, t: real): (r: State)
    ensures r.lastT == t
    ensures s.jobs == [] ==> r.jobs == []
    ensures s.jobs != [] ==> r.jobs == [Entry(s.jobs[0].rem - (t - s.lastT), s.jobs[0].id)] + s.jobs[1..]
    ensures t == s.lastT ==> r == s
  {
    var delta := t - s.lastT;
    if delta == 0.0 then s
    else if s.jobs == [] then State([], t)
    else State([Entry(s.jobs[0].rem - delta, s.jobs[0].id)] + s.jobs[1..], t)
  }

  /** Ageing the head by a non-negative amount keeps the heap ordered and
      keeps the same jobs. */
  lemma UpdatePreservesInv(s: State, t: real)
    requires Inv(s) && s.lastT <= t
    ensures Inv(Update(s, t))
    ensures Ids(Update(s, t).jobs) == Ids(s.jobs)
  {
    var r := Update(s, t);
    if s.jobs != [] {
      forall i, j | 0 <= i < j < |r.jobs| ensures NotAfter(r.jobs[i], r.jobs[j]) {
        assert NotAfter(s.jobs[i], s.jobs[j]);
      }
      forall x | x in Ids(s.jobs) ensures x in Ids(r.jobs) {
        var k :| 0 <= k < |s.jobs| && s.jobs[k].id == x;
        assert r.jobs[k].id == x;
      }
      forall x | x in Ids(r.jobs) ensures x in Ids(s.jobs) {
        var k :| 0 <= k < |r.jobs| && r.jobs[k].id == x;
        assert s.jobs[k].id == x;
      }
    }
  }

  /** `enqueue`: bring the estimates up to `t`, then push the new pair. */
  function Enqueue(s: State, t: real, j: JobId, size: real): (r: State)
    ensures r.lastT == t
    ensures multiset(r.jobs) == multiset(Update(s, t).jobs) + multiset{Entry(size, j)}
  {
    var u := Update(s, t);
    u.(jobs := Insert(u.jobs, Entry(size, j)))
  }

  lemma EnqueuePreservesInv(s: State, t: real, j: JobId, size: real)
    requires Inv(s) && s.lastT <= t && j !in Ids(s.jobs)
    ensures Inv(Enqueue(s, t, j, size))
    ensures Ids(Enqueue(s, t, j, size).jobs) == Ids(s.jobs) + {j}
  {
    var u := Update(s, t);
    UpdatePreservesInv(s, t);
    InsertSorted(u.jobs, Entry(size, j));
    InsertIds(u.jobs, Entry(size, j));
    DistinctAfterInsert(u.jobs, Entry(size, j));
  }

  /** `dequeue` with the out-of-order branch doing what its comment and the
      swap/pop/heapify that follows intend: find the job's pair by id and
      take it out. The source's generator `for i, v in jobs` lacks
      `enumerate`; `DequeueAsWritten` models that text. Dequeuing fails
      exactly when the job is not in the heap. */
  function Dequeue(s: State, t: real, j: JobId): (r: Result<State>)
    ensures r.Ok? <==> j in Ids(s.jobs)
    ensures r.Ok? ==> r.value.lastT == t
    ensures r.Ok? ==> exists i :: 0 <= i < |s.jobs| && Update(s, t).jobs[i].id == j
                                && r.value.jobs == RemoveAt(Update(s, t).jobs, i)
  {
    var u := Update(s, t);
    assert Ids(u.jobs) == Ids(s.jobs) by {
      if s.jobs != [] {
        IdsOfConcat([s.jobs[0]], s.jobs[1..]);
        IdsOfConcat([u.jobs[0]], s.jobs[1..]);
        assert s.jobs == [s.jobs[0]] + s.jobs[1..];
      }
    }
    if u.jobs == [] then Err(EmptyHeap)
    else if u.jobs[0].id == j then
      assert u.jobs[1..] == RemoveAt(u.jobs, 0);
      Ok(u.(jobs := u.jobs[1..]))
    else
      match IndexOfId(u.jobs, j)
      case None => Err(MissingJob(j))
      case Some(i) => Ok(u.(jobs := RemoveAt(u.jobs, i)))
  }

  /** `dequeue` as written: the generator of schedulers.py:92 unpacks each
      pair as `i, v = remaining, jobid` and tests `v[1]`, which raises on an
      integer id and compares one character with the whole id on a string
      id; either way no job other than the head can ever be dequeued. The
      error reported is the one string ids of two or more characters meet:
      the search finds nothing and `dequeue` raises "dequeuing missing job". */
  function DequeueAsWritten(s: State, t: real, j: JobId): (r: Result<State>)
    ensures r.Ok? <==> s.jobs != [] && s.jobs[0].id == j
  {
    var u := Update(s, t);
    if u.jobs == [] then Err(EmptyHeap)
    else if u.jobs[0].id == j then Ok(u.(jobs := u.jobs[1..]))
    else Err(MissingJob(j))
  }

  /** The as-written dequeue rejects a tracked job: with jobs 1 and 2 in the
      heap, removing job 2 (not the head) fails, while `Dequeue` removes it. */
  lemma DequeueAsWrittenRejectsTrackedJob()
    ensures var s := State([Entry(5.0, 1), Entry(10.0, 2)], 0.0);
      && 2 in Ids(s.jobs)
      && DequeueAsWritten(s, 0.0, 2) == Err(MissingJob(2))
      && Dequeue(s, 0.0, 2) == Ok(State([Entry(5.0, 1)], 0.0))
  {
    var s := State([Entry(5.0, 1), Entry(10.0, 2)], 0.0);
    assert s.jobs[1] in s.jobs;
    assert IndexOfId(s.jobs, 2) == Some(1);
    assert RemoveAt(s.jobs, 1) == [Entry(5.0, 1)];
  }

  /** Dequeue keeps the heap well formed and takes out exactly the job. */
  lemma DequeuePreservesInv(s: State, t: real, j: JobId)
    requires Inv(s) && s.lastT <= t && j in Ids(s.jobs)
    ensures Inv(Dequeue(s, t, j).value)
    ensures Ids(Dequeue(s, t, j).value.jobs) == Ids(s.jobs) - {j}
  {
    var u := Update(s, t);
    UpdatePreservesInv(s, t);
    var i :| 0 <= i < |s.jobs| && u.jobs[i].id == j && Dequeue(s, t, j).value.jobs == RemoveAt(u.jobs, i);
    RemovePreservesSorted(u.jobs, i);
    IdsAfterRemove(u.jobs, i);
  }

  /** `schedule`: advance to `t`, then share 1 to the head, `{}` if empty. */
  function Schedule(s: State, t: real): (r: (State, Alloc))
    ensures r.0 == Update(s, t)
    ensures r.0.jobs == [] ==> r.1 == map[]
    ensures r.0.jobs != [] ==> r.1 == map[r.0.jobs[0].id := 1.0]
  {
    var u := Update(s, t);
    (u, if u.jobs == [] then map[] else map[u.jobs[0].id := 1.0])
  }

  /** The served job has the least remaining estimate of all jobs. */
  lemma ScheduleServesLeastRemaining(s: State, t: real)
    requires Inv(s) && s.lastT <= t
    ensures var (u, a) := Schedule(s, t);
      && (a == map[] <==> s.jobs == [])
      && (s.jobs != [] ==> exists e :: e in u.jobs && a == map[e.id := 1.0]
                                     && forall f :: f in u.jobs ==> e.rem <= f.rem)
  {
    var (u, a) := Schedule(s, t);
    UpdatePreservesInv(s, t);
    if s.jobs != [] {
      HeadIsLeast(u.jobs);
      assert u.jobs[0] in u.jobs;
      assert a != map[] by { assert u.jobs[0].id in a; }
    }
  }

  /** Scheduling twice at the same instant changes nothing the second time. */
  lemma ScheduleIdempotent(s: State, t: real)
    ensures Schedule(Schedule(s, t).0, t) == Schedule(s, t)
  {
  }
}

=== FILE: srpt_las.dfy ===
/** SRPT+LAS (schedulers.py, class `SRPT_plus_LAS`). Sizes and attained
    service are counted in whole `eps` steps. The job with the least
    estimated remaining work shares the resource equally with the late jobs
    of least attained service; a job becomes late when its estimate runs
    out, and from then on it is filed in the late buckets (module `Buckets`)
    by attained service. */
module SrptLas {
  import opened Base
  import opened Allocation
  import opened EntryQueue
  import opened Buckets

  /** The `sortedlist` of `[remaining, jobid]` pairs of the jobs that are not
      late, the late jobs, their buckets, every job's attained service, the
      last allocation, the time of the last update and `eps`. */
  datatype State = State(queue: seq<Entry>, late: set<JobId>, lateQueue: Buckets,
                         attained: map<JobId, int>, scheduled: Alloc,
                         lastT: real, eps: PosReal)

  function Init(eps: PosReal): State {
    State([], {}, map[], map[], map[], 0.0, eps)
  }

  /** The jobs held: those with an attained service. */
  function Tracked(s: State): set<JobId> {
    s.attained.Keys
  }

  /** The queue is ordered and holds each job once; a held job is either in
      the queue or late, never both; the late buckets index exactly the late
      jobs; the last allocation hands out shares in (0, 1]. */
  ghost predicate Inv(s: State) {
    && Sorted(s.queue) && DistinctIds(s.queue)
    && Ids(s.queue) !! s.late
    && s.attained.Keys == Ids(s.queue) + s.late
    && Indexes(s.lateQueue, s.attained, s.late)
    && ValidShares(s.scheduled)
  }

  /** `enqueue`: the job's size in whole `eps` steps enters the queue, with
      no attained service; there is no update. */
  function Enqueue(s: State, j: JobId, size: real): (r: State)
    ensures r.attained == s.attained[j := 0]
    ensures multiset(r.queue) == multiset(s.queue) + multiset{Entry(Units(size, s.eps) as real, j)}
    ensures r.late == s.late && r.lateQueue == s.lateQueue
  {
    s.(queue := Insert(s.queue, Entry(Units(size, s.eps) as real, j)), attained := s.attained[j := 0])
  }

  lemma EnqueuePreservesInv(s: State, j: JobId, size: real)
    requires Inv(s) && j !in Tracked(s)
    ensures Inv(Enqueue(s, j, size))
    ensures Tracked(Enqueue(s, j, size)) == Tracked(s) + {j}
  {
    var e := Entry(Units(size, s.eps) as real, j);
    InsertSorted(s.queue, e);
    InsertIds(s.queue, e);
    DistinctAfterInsert(s.queue, e);
    IndexesFrame(s.lateQueue, s.attained, s.attained[j := 0], s.late);
  }

  /** `dequeue`: the job loses its attained service; a late job also leaves
      the late set and its bucket, any other job leaves the queue (the scan
      silently finds nothing when it is absent). Fails when the job is not
      held or its bucket does not hold it. */
  function Dequeue(s: State, j: JobId): (r: Result<State>)
    ensures j !in s.attained ==> r == Err(MissingJob(j))
    ensures r.Ok? ==> j in s.attained && r.value.attained == s.attained - {j}
    ensures r.Ok? && j in s.late ==>
      && r.value.late == s.late - {j} && r.value.queue == s.queue
      && Evict(s.lateQueue, s.attained[j], j) == Ok(r.value.lateQueue)
    ensures r.Ok? && j !in s.late ==>
      && r.value.late == s.late && r.value.lateQueue == s.lateQueue
      && (j !in Ids(s.queue) ==> r.value.queue == s.queue)
      && (j in Ids(s.queue) ==> exists i :: 0 <= i < |s.queue| && s.queue[i].id == j
                                         && r.value.queue == RemoveAt(s.queue, i))
  {
    if j !in s.attained then Err(MissingJob(j))
    else
      var s' := s.(attained := s.attained - {j});
      if j in s.late then
        match Evict(s.lateQueue, s.attained[j], j)
        case Err(e) => Err(e)
        case Ok(q) => Ok(s'.(late := s.late - {j}, lateQueue := q))
      else
        match IndexOfId(s.queue, j)
        case None => Ok(s')
        case Some(i) => Ok(s'.(queue := RemoveAt(s.queue, i)))
  }

  /** Under the invariant, dequeuing fails exactly for jobs not held, and
      keeps the invariant. */
  lemma DequeuePreservesInv(s: State, j: JobId)
    requires Inv(s)
    ensures Dequeue(s, j).Ok? <==> j in Tracked(s)
    ensures Dequeue(s, j).Ok? ==> Inv(Dequeue(s, j).value) && Tracked(Dequeue(s, j).value) == Tracked(s) - {j}
  {
    if j in s.attained {
      var r := Dequeue(s, j).value;
      if j in s.late {
        EvictIndexes(s.lateQueue, s.attained, s.late, j);
        IndexesFrame(r.lateQueue, s.attained, r.attained, s.late - {j});
      } else {
        var i := IndexOfId(s.queue, j).value;
        RemovePreservesSorted(s.queue, i);
        IdsAfterRemove(s.queue, i);
        IndexesFrame(s.lateQueue, s.attained, r.attained, s.late);
      }
    }
  }

  /** One late job's share of an update: it leaves its bucket (a KeyError if
      the bucket does not hold it) and is filed again, by `qinsert`, at its
      new attained service. */
  function ServeLate(s: State, j: JobId, work: int): (r: Result<State>)
    requires j in s.attained
    ensures r.Ok? <==> Discard(s.lateQueue, s.attained[j], j).Ok?
    ensures r.Ok? ==> r.value.queue == s.queue && r.value.late == s.late
                      && r.value.attained.Keys == s.attained.Keys
  {
    match Discard(s.lateQueue, s.attained[j], j)
    case Err(e) => Err(e)
    case Ok(q) =>
      var (q', k) := QInsert(q, j, s.attained[j] + work);
      Ok(s.(lateQueue := q', attained := s.attained[j := k]))
  }

  /** One queued job's share of an update. A job missing from the queue is a
      StopIteration. */
  function ServeQueued(s: State, j: JobId, work: int): (r: Result<State>)
    requires j in s.attained
    ensures r.Ok? <==> j in Ids(s.queue)
  {
    match IndexOfId(s.queue, j)
    case None => Err(BrokenIndex)
    case Some(i) => Ok(ServeAt(s, i, work))
  }

  /** The queued job at index `i` works `work` steps: its remaining estimate
      and its attained service move by `work`; when nothing is left it turns
      late. */
  function ServeAt(s: State, i: nat, work: int): (r: State)
    requires i < |s.queue| && s.queue[i].id in s.attained
  {
    var rem := s.queue[i].rem - work as real;
    var att := s.attained[s.queue[i].id] + work;
    if rem <= 0.0 then MakeLate(s, i, att) else Reduce(s, i, rem, att)
  }

  /** The job at index `i` leaves the queue and is filed, by `qinsert`, among
      the late jobs with attained service `att`. */
  function MakeLate(s: State, i: nat, att: int): (r: State)
    requires i < |s.queue|
    ensures r.queue == RemoveAt(s.queue, i) && r.late == s.late + {s.queue[i].id}
    ensures r.attained == s.attained[s.queue[i].id := Snap(s.lateQueue, att)]
  {
    var j := s.queue[i].id;
    var (q', k) := QInsert(s.lateQueue, j, att);
    s.(queue := RemoveAt(s.queue, i), late := s.late + {j}, lateQueue := q', attained := s.attained[j := k])
  }

  /** The job at index `i` stays queued with estimate `rem` and attained
      service `att`. */
  function Reduce(s: State, i: nat, rem: real, att: int): (r: State)
    requires i < |s.queue|
    ensures r.late == s.late && r.lateQueue == s.lateQueue
    ensures r.attained == s.attained[s.queue[i].id := att]
    ensures Entry(rem, s.queue[i].id) in r.queue
  {
    s.(queue := Requeue(s.queue, i, rem), attained := s.attained[s.queue[i].id := att])
  }

  /** The queue with the estimate at index `i` lowered to `rem`: the head is
      changed in place, any other entry is taken out and re-inserted. */
  function Requeue(q: seq<Entry>, i: nat, rem: real): (r: seq<Entry>)
    requires i < |q|
    ensures Entry(rem, q[i].id) in r
  {
    var e := Entry(rem, q[i].id);
    if i == 0 then
      assert q[0 := e][0] == e;
      q[0 := e]
    else
      var r := Insert(RemoveAt(q, i), e);
      assert e in multiset(r);
      r
  }

  /** One iteration of the update loop; a job no longer held is skipped. */
  function ServeOne(s: State, delta: int, j: JobId, service: real): (r: Result<State>)
    ensures j !in s.attained ==> r == Ok(s)
    ensures j in s.attained && j in s.late ==> r == ServeLate(s, j, Work(service, delta))
    ensures j in s.attained && j !in s.late ==> r == ServeQueued(s, j, Work(service, delta))
  {
    if j !in s.attained then Ok(s)
    else if j in s.late then ServeLate(s, j, Work(service, delta))
    else ServeQueued(s, j, Work(service, delta))
  }

  /** The update loop over the last allocation, in the iteration order
      `order`; the first failure ends it. */
  function ServeAll(s: State, delta: int, order: seq<JobId>, shares: Alloc): (r: Result<State>)
    requires forall j :: j in order ==> j in shares
    ensures r.Ok? ==> r.value.scheduled == s.scheduled && r.value.lastT == s.lastT && r.value.eps == s.eps
    decreases |order|
  {
    if order == [] then Ok(s)
    else
      match ServeOne(s, delta, order[0], shares[order[0]])
      case Err(e) => Err(e)
      case Ok(s') => ServeAll(s', delta, order[1..], shares)
  }

  /** `update` once the elapsed steps `delta` are known. The allocation is
      walked in the dictionary's iteration order, which the model leaves
      open (`Enumerate`). */
  ghost function Advance(s: State, delta: int, t: real): (r: Result<State>)
    ensures r.Ok? ==> r.value.lastT == t && r.value.scheduled == s.scheduled
  {
    match ServeAll(s, delta, Enumerate(s.scheduled.Keys), s.scheduled)
    case Err(e) => Err(e)
    case Ok(u) => Ok(u.(lastT := t))
  }

  ghost function Update(s: State, t: real): (r: Result<State>)
    ensures r == Advance(s, StepsSince(s.lastT, t, s.eps), t)
  {
    Advance(s, StepsSince(s.lastT, t, s.eps), t)
  }

  /** A non-negative service over a non-negative time credits non-negative
      work. */
  lemma WorkNonNegative(service: real, delta: int)
    requires service >= 0.0 && delta >= 0
    ensures Work(service, delta) >= 0
  {
    assert service * delta as real >= 0.0;
  }

  /** Serving a late job keeps it late, keeps the queue, and keeps the
      invariant. Its attained service grows by `work`, give or take the one
      step `qinsert` may snap it by, and it is filed under that key; every
      other job keeps its attained service. */
  lemma ServeLatePreservesInv(s: State, j: JobId, work: int)
    requires Inv(s) && j in s.late
    ensures ServeLate(s, j, work).Ok?
    ensures var r := ServeLate(s, j, work).value;
      && Inv(r)
      && j in r.lateQueue[r.attained[j]]
      && -1 <= r.attained[j] - (s.attained[j] + work) <= 1
      && forall k :: k in s.attained && k != j ==> r.attained[k] == s.attained[k]
  {
    DiscardIndexes(s.lateQueue, s.attained, s.late, j);
    var q := Discard(s.lateQueue, s.attained[j], j).value;
    QInsertIndexes(q, s.attained, s.late - {j}, j, s.attained[j] + work);
    SnapNeverAdjacent(q, s.attained[j] + work);
    assert s.late - {j} + {j} == s.late;
  }

  /** A job whose estimate runs out leaves the queue for the late bucket
      chosen by `qinsert`, and the invariant holds after. */
  lemma MakeLatePreservesInv(s: State, i: nat, att: int)
    requires Inv(s) && i < |s.queue|
    ensures var r := MakeLate(s, i, att);
      && Inv(r) && Tracked(r) == Tracked(s)
      && s.queue[i].id !in Ids(r.queue) && s.queue[i].id in r.lateQueue[r.attained[s.queue[i].id]]
  {
    var j := s.queue[i].id;
    assert j in Ids(s.queue);
    IdsAfterRemove(s.queue, i);
    RemovePreservesSorted(s.queue, i);
    QInsertIndexes(s.lateQueue, s.attained, s.late, j, att);
  }

  /** Lowering a queued job's estimate keeps the invariant. */
  lemma ReducePreservesInv(s: State, i: nat, rem: real, att: int)
    requires Inv(s) && i < |s.queue| && rem <= s.queue[i].rem
    ensures var r := Reduce(s, i, rem, att);
      Inv(r) && Tracked(r) == Tracked(s)
  {
    assert s.queue[i].id in Ids(s.queue);
    RequeuePreserves(s.queue, i, rem);
    IndexesFrame(s.lateQueue, s.attained, Reduce(s, i, rem, att).attained, s.late);
  }

  /** Lowering one estimate keeps the queue ordered, with the same jobs,
      each once. */
  lemma RequeuePreserves(q: seq<Entry>, i: nat, rem: real)
    requires Sorted(q) && DistinctIds(q) && i < |q| && rem <= q[i].rem
    ensures var r := Requeue(q, i, rem);
      Sorted(r) && DistinctIds(r) && Ids(r) == Ids(q)
  {
    if i == 0 {
      HeadReplacePreserves(q, rem);
    } else {
      var e := Entry(rem, q[i].id);
      var q' := RemoveAt(q, i);
      IdsAfterRemove(q, i);
      RemovePreservesSorted(q, i);
      InsertSorted(q', e);
      InsertIds(q', e);
      DistinctAfterInsert(q', e);
    }
  }

  /** Serving a queued job by non-negative work keeps the invariant. */
  lemma ServeQueuedPreservesInv(s: State, j: JobId, work: int)
    requires Inv(s) && j in Ids(s.queue) && work >= 0
    ensures ServeQueued(s, j, work).Ok?
    ensures var r := ServeQueued(s, j, work).value;
      && Inv(r) && Tracked(r) == Tracked(s)
      && s.late <= r.late
  {
    var i := IndexOfId(s.queue, j).value;
    var rem := s.queue[i].rem - work as real;
    var att := s.attained[j] + work;
    assert ServeQueued(s, j, work).value == ServeAt(s, i, work);
    ServeAtPreservesInv(s, i, work);
  }

  lemma ServeAtPreservesInv(s: State, i: nat, work: int)
    requires Inv(s) && i < |s.queue| && work >= 0
    ensures s.queue[i].id in s.attained
    ensures var r := ServeAt(s, i, work);
      && Inv(r) && Tracked(r) == Tracked(s)
      && s.late <= r.late
  {
    assert s.queue[i].id in Ids(s.queue);
    var rem := s.queue[i].rem - work as real;
    var att := s.attained[s.queue[i].id] + work;
    if rem <= 0.0 {
      assert ServeAt(s, i, work) == MakeLate(s, i, att);
      MakeLatePreservesInv(s, i, att);
    } else {
      assert ServeAt(s, i, work) == Reduce(s, i, rem, att);
      ReducePreservesInv(s, i, rem, att);
    }
  }

  /** Lowering the head's estimate in place keeps the queue ordered, with
      the same jobs. */
  lemma HeadReplacePreserves(q: seq<Entry>, rem: real)
    requires Sorted(q) && DistinctIds(q) && q != [] && rem <= q[0].rem
    ensures var r := q[0 := Entry(rem, q[0].id)];
      Sorted(r) && DistinctIds(r) && Ids(r) == Ids(q)
  {
    var r := q[0 := Entry(rem, q[0].id)];
    forall x | x in Ids(q) ensures x in Ids(r) {
      var k :| 0 <= k < |q| && q[k].id == x;
      assert r[k].id == x;
    }
    forall x | x in Ids(r) ensures x in Ids(q) {
      var k :| 0 <= k < |r| && r[k].id == x;
      assert q[k].id == x;
    }
  }

  /** The update's effect on the queued job at index `i` when its estimate
      outlasts the work: it stays queued, its estimate down and its attained
      service up by the same `work`. */
  lemma ServeAtReduces(s: State, i: nat, work: int)
    requires Inv(s) && i < |s.queue| && s.queue[i].rem - work as real > 0.0
    ensures s.queue[i].id in s.attained
    ensures var j := s.queue[i].id;
      var r := ServeAt(s, i, work);
      && Entry(s.queue[i].rem - work as real, j) in r.queue
      && r.attained[j] == s.attained[j] + work && j !in r.late
  {
    assert s.queue[i].id in Ids(s.queue);
    ReduceAt(s, i, work);
  }

  /** `ServeAt` on a queued job, not late, whose estimate outlasts the work. */
  lemma ReduceAt(s: State, i: nat, work: int)
    requires i < |s.queue| && s.queue[i].id in s.attained && s.queue[i].id !in s.late
    requires s.queue[i].rem - work as real > 0.0
    ensures var j := s.queue[i].id;
      var r := ServeAt(s, i, work);
      && Entry(s.queue[i].rem - work as real, j) in r.queue
      && r.attained[j] == s.attained[j] + work && j !in r.late
  {
    var rem := s.queue[i].rem - work as real;
    assert ServeAt(s, i, work) == Reduce(s, i, rem, s.attained[s.queue[i].id] + work);
  }

  /** The update's effect on the queued job at index `i` when the work uses
      up its estimate: it leaves the queue and turns late, filed under the
      key `qinsert` chooses for its new attained service. */
  lemma ServeAtTurnsLate(s: State, i: nat, work: int)
    requires Inv(s) && i < |s.queue| && s.queue[i].rem - work as real <= 0.0
    ensures s.queue[i].id in s.attained
    ensures var j := s.queue[i].id;
      var r := ServeAt(s, i, work);
      && j in r.late && j !in Ids(r.queue)
      && r.attained[j] == Snap(s.lateQueue, s.attained[j] + work)
      && j in r.lateQueue[r.attained[j]]
  {
    var j := s.queue[i].id;
    assert j in Ids(s.queue);
    var att := s.attained[j] + work;
    assert ServeAt(s, i, work) == MakeLate(s, i, att);
    MakeLatePreservesInv(s, i, att);
  }

  /** One iteration keeps the invariant: it never fails, keeps the jobs
      held, and only ever adds to the late set. */
  lemma ServeOnePreservesInv(s: State, delta: int, j: JobId, service: real)
    requires Inv(s) && delta >= 0 && service >= 0.0
    ensures ServeOne(s, delta, j, service).Ok?
    ensures var r := ServeOne(s, delta, j, service).value;
      && Inv(r) && Tracked(r) == Tracked(s) && s.late <= r.late
      && r.scheduled == s.scheduled
  {
    if j in s.attained {
      WorkNonNegative(service, delta);
      if j in s.late {
        ServeLatePreservesInv(s, j, Work(service, delta));
      } else {
        ServeQueuedPreservesInv(s, j, Work(service, delta));
      }
    }
  }

  /** The whole loop keeps the invariant, in any iteration order. */
  lemma {:induction false} ServeAllPreservesInv(s: State, delta: int, order: seq<JobId>, shares: Alloc)
    requires Inv(s) && delta >= 0
    requires forall j :: j in order ==> j in shares && shares[j] >= 0.0
    ensures ServeAll(s, delta, order, shares).Ok?
    ensures var r := ServeAll(s, delta, order, shares).value;
      Inv(r) && Tracked(r) == Tracked(s) && s.late <= r.late
    decreases |order|
  {
    if order != [] {
      ServeOnePreservesInv(s, delta, order[0], shares[order[0]]);
      var s' := ServeOne(s, delta, order[0], shares[order[0]]).value;
      ServeAllPreservesInv(s', delta, order[1..], shares);
    }
  }

  /** `update` never fails on a well-formed state when time does not go
      back, keeps the invariant and the jobs held, and never un-lates a job. */
  lemma UpdatePreservesInv(s: State, t: real)
    requires Inv(s) && s.lastT <= t
    ensures Update(s, t).Ok?
    ensures var u := Update(s, t).value;
      Inv(u) && Tracked(u) == Tracked(s) && s.late <= u.late && u.lastT == t
  {
    var delta := StepsSince(s.lastT, t, s.eps);
    var order := Enumerate(s.scheduled.Keys);
    ServeAllPreservesInv(s, delta, order, s.scheduled);
    var u := ServeAll(s, delta, order, s.scheduled).value;
    assert Update(s, t) == Ok(u.(lastT := t));
  }

  /** No queued estimate is negative: a job whose estimate runs out turns
      late instead of staying queued. */
  predicate NonNegative(s: State) {
    forall e :: e in s.queue ==> e.rem >= 0.0
  }

  /** A size that is not negative is not negative in whole steps either. */
  lemma UnitsNonNegative(size: real, eps: PosReal)
    requires size >= 0.0
    ensures Units(size, eps) >= 0
  {
    var n := Units(size, eps);
    if n < 0 {
      MulRight(n as real, 0.0, eps);
    }
  }

  lemma EnqueueKeepsNonNegative(s: State, j: JobId, size: real)
    requires NonNegative(s) && size >= 0.0
    ensures NonNegative(Enqueue(s, j, size))
  {
    var e := Entry(Units(size, s.eps) as real, j);
    UnitsNonNegative(size, s.eps);
    forall x | x in Enqueue(s, j, size).queue ensures x.rem >= 0.0 {
      assert x in multiset(Enqueue(s, j, size).queue);
      assert x == e || x in multiset(s.queue);
    }
  }

  lemma DequeueKeepsNonNegative(s: State, j: JobId)
    requires NonNegative(s)
    ensures Dequeue(s, j).Ok? ==> NonNegative(Dequeue(s, j).value)
  {
    if Dequeue(s, j).Ok? && j !in s.late && j in Ids(s.queue) {
      var i :| 0 <= i < |s.queue| && s.queue[i].id == j && Dequeue(s, j).value.queue == RemoveAt(s.queue, i);
      RemoveKeepsNonNegative(s.queue, i);
    }
  }

  /** Removing an entry leaves no negative estimate behind. */
  lemma RemoveKeepsNonNegative(q: seq<Entry>, i: nat)
    requires i < |q| && forall e :: e in q ==> e.rem >= 0.0
    ensures forall e :: e in RemoveAt(q, i) ==> e.rem >= 0.0
  {
    forall x | x in RemoveAt(q, i) ensures x.rem >= 0.0 {
      assert x in multiset(RemoveAt(q, i));
    }
  }

  lemma ReduceKeepsNonNegative(s: State, i: nat, rem: real, att: int)
    requires NonNegative(s) && i < |s.queue| && rem >= 0.0
    ensures NonNegative(Reduce(s, i, rem, att))
  {
    var q := s.queue;
    var r := Requeue(q, i, rem);
    if i == 0 {
      forall x | x in r ensures x.rem >= 0.0 {
        var k :| 0 <= k < |r| && r[k] == x;
        if k != 0 { assert x == q[k]; }
      }
    } else {
      RemoveKeepsNonNegative(q, i);
      assert r == Insert(RemoveAt(q, i), Entry(rem, q[i].id));
      forall x | x in r ensures x.rem >= 0.0 {
        assert x in multiset(r);
      }
    }
  }

  lemma ServeAtKeepsNonNegative(s: State, i: nat, work: int)
    requires NonNegative(s) && i < |s.queue| && s.queue[i].id in s.attained
    ensures NonNegative(ServeAt(s, i, work))
  {
    var rem := s.queue[i].rem - work as real;
    var att := s.attained[s.queue[i].id] + work;
    if rem <= 0.0 {
      assert ServeAt(s, i, work) == MakeLate(s, i, att);
      RemoveKeepsNonNegative(s.queue, i);
    } else {
      assert ServeAt(s, i, work) == Reduce(s, i, rem, att);
      ReduceKeepsNonNegative(s, i, rem, att);
    }
  }

  lemma ServeOneKeepsNonNegative(s: State, delta: int, j: JobId, service: real)
    requires NonNegative(s)
    ensures ServeOne(s, delta, j, service).Ok? ==> NonNegative(ServeOne(s, delta, j, service).value)
  {
    if j in s.attained && j !in s.late {
      var work := Work(service, delta);
      match IndexOfId(s.queue, j)
      case None =>
      case Some(i) =>
        assert ServeOne(s, delta, j, service) == Ok(ServeAt(s, i, work));
        ServeAtKeepsNonNegative(s, i, work);
    }
  }

  lemma {:induction false} ServeAllKeepsNonNegative(s: State, delta: int, order: seq<JobId>, shares: Alloc)
    requires NonNegative(s)
    requires forall j :: j in order ==> j in shares
    ensures ServeAll(s, delta, order, shares).Ok? ==> NonNegative(ServeAll(s, delta, order, shares).value)
    decreases |order|
  {
    if order != [] {
      ServeOneKeepsNonNegative(s, delta, order[0], shares[order[0]]);
      match ServeOne(s, delta, order[0], shares[order[0]])
      case Err(_) =>
      case Ok(s') => ServeAllKeepsNonNegative(s', delta, order[1..], shares);
    }
  }

  /** `update` leaves no negative estimate in the queue. */
  lemma UpdateKeepsNonNegative(s: State, t: real)
    requires NonNegative(s)
    ensures Update(s, t).Ok? ==> NonNegative(Update(s, t).value)
  {
    ServeAllKeepsNonNegative(s, StepsSince(s.lastT, t, s.eps), Enumerate(s.scheduled.Keys), s.scheduled);
  }

  /** Late jobs of least attained service: the least late bucket. */
  ghost function LeastLate(u: State): (b: set<JobId>)
    ensures u.lateQueue == map[] ==> b == {}
    ensures u.lateQueue != map[] ==> b == u.lateQueue[LeastKey(u.lateQueue)]
  {
    if u.lateQueue == map[] then {} else u.lateQueue[LeastKey(u.lateQueue)]
  }

  /** The jobs `schedule` serves: the queue's head and the least late
      bucket. */
  ghost function Chosen(u: State): (c: set<JobId>)
    ensures u.queue != [] ==> u.queue[0].id in c
    ensures LeastLate(u) <= c
  {
    (if u.queue == [] then {} else {u.queue[0].id}) + LeastLate(u)
  }

  /** The choice of `schedule` after the update: the chosen jobs share the
      resource equally, and the allocation becomes `scheduled`. */
  ghost function Pick(u: State): (r: (State, Alloc))
    ensures r.1 == EqualShares(r.1.Keys) && r.1.Keys == Chosen(u)
    ensures r.0 == u.(scheduled := r.1)
  {
    var a := EqualShares(Chosen(u));
    (u.(scheduled := a), a)
  }

  /** `schedule`: update, then pick. */
  ghost function Schedule(s: State, t: real): (r: Result<(State, Alloc)>)
    ensures r.Ok? <==> Update(s, t).Ok?
    ensures r.Ok? ==> r.value == Pick(Update(s, t).value)
  {
    match Update(s, t)
    case Err(e) => Err(e)
    case Ok(u) => Ok(Pick(u))
  }

  /** The pick keeps the invariant: the new allocation's shares lie in
      (0, 1]. */
  lemma PickKeepsInv(u: State)
    requires Inv(u)
    ensures Inv(Pick(u).0)
  {
    EqualSharesValid(Chosen(u));
  }

  /** Only held jobs are served, and something is served whenever a job is
      held. */
  lemma ChosenIsNonEmpty(u: State)
    requires Inv(u)
    ensures Chosen(u) <= Tracked(u)
    ensures Chosen(u) == {} <==> Tracked(u) == {}
  {
    if u.queue != [] {
      assert u.queue[0] in u.queue;
    }
    if u.lateQueue != map[] {
      var k := LeastKey(u.lateQueue);
      var x :| x in u.lateQueue[k];
    }
    if Tracked(u) != {} {
      var j :| j in Tracked(u);
      if j in u.late {
        assert u.attained[j] in u.lateQueue;
      } else {
        assert j in Ids(u.queue);
      }
    }
  }

  /** The one job served that is not late is the queue's head, whose
      estimate is the least of the queue. */
  lemma ChosenHead(u: State)
    requires Inv(u)
    ensures forall j :: j in Chosen(u) && j !in u.late ==> u.queue != [] && j == u.queue[0].id
    ensures u.queue != [] ==> forall e :: e in u.queue ==> u.queue[0].rem <= e.rem
  {
    if u.queue != [] {
      HeadIsLeast(u.queue);
    }
  }

  /** A late job is served exactly when no late job has less attained
      service. */
  lemma ChosenLeastLate(u: State)
    requires Inv(u)
    ensures forall j :: j in u.late ==>
      (j in Chosen(u) <==> forall j' :: j' in u.late ==> u.attained[j] <= u.attained[j'])
  {
    if u.lateQueue != map[] {
      LeastBucketIsLeastAttained(u.lateQueue, u.attained, u.late);
      var k := LeastKey(u.lateQueue);
      var x :| x in u.lateQueue[k];
      forall j | j in u.late && (forall j' :: j' in u.late ==> u.attained[j] <= u.attained[j'])
        ensures j in Chosen(u)
      {
        assert u.attained[j] <= u.attained[x];
      }
      forall j | j in u.late && j in Chosen(u)
        ensures forall j' :: j' in u.late ==> u.attained[j] <= u.attained[j']
      {
        assert j !in Ids(u.queue);
        assert j in LeastLate(u);
      }
    }
  }

  /** `schedule` never fails on a well-formed state when time does not go
      back, and keeps the invariant. */
  lemma ScheduleNeverFails(s: State, t: real)
    requires Inv(s) && s.lastT <= t
    ensures Schedule(s, t).Ok?
    ensures Inv(Schedule(s, t).value.0) && Tracked(Schedule(s, t).value.0) == Tracked(s)
    ensures Schedule(s, t).value == Pick(Update(s, t).value)
  {
    UpdatePreservesInv(s, t);
    PickKeepsInv(Update(s, t).value);
  }

  /** Everything `schedule` promises its caller: it succeeds, keeps the
      invariant and the estimates non-negative, moves the clock to `t`,
      holds the same jobs, shares the resource equally among held jobs,
      serves someone whenever a job is held, and predicts no internal event
      in the past. */
  lemma ScheduleServesHeld(s: State, t: real)
    requires Inv(s) && NonNegative(s) && s.lastT <= t
    ensures Schedule(s, t).Ok?
    ensures var (u, a) := Schedule(s, t).value;
      && Inv(u) && NonNegative(u) && u.lastT == t && Tracked(u) == Tracked(s)
      && a == EqualShares(a.Keys) && a.Keys <= Tracked(s)
      && (a == map[] <==> Tracked(s) == {})
      && (NextInternal(u).Some? ==> NextInternal(u).value >= 0.0)
  {
    ScheduleNeverFails(s, t);
    UpdatePreservesInv(s, t);
    UpdateKeepsNonNegative(s, t);
    var v := Update(s, t).value;
    ChosenIsNonEmpty(v);
    NextInternalNotPast(Pick(v).0);
  }

  /** `next_internal_event`: the head's remaining steps, stretched by the
      `1 + |late|` jobs it may share with, or `None` with an empty queue. */
  function NextInternal(s: State): (r: Option<real>)
    ensures r.None? <==> s.queue == []
  {
    if s.queue == [] then None
    else Some(s.queue[0].rem * (|s.late| + 1) as real * s.eps)
  }

  /** With no negative estimate queued, the next internal event is never in
      the past. */
  lemma NextInternalNotPast(s: State)
    requires NonNegative(s)
    ensures NextInternal(s).Some? ==> NextInternal(s).value >= 0.0
  {
    if s.queue != [] {
      assert s.queue[0] in s.queue;
      var m := (|s.late| + 1) as real;
      MulRight(0.0, s.queue[0].rem, m);
      MulRight(0.0, s.queue[0].rem * m, s.eps);
    }
  }

  /** The head's share in the last pick is at least `1/(1 + |late|)`. */
  lemma PickHeadShare(u: State)
    requires Inv(u) && u.queue != []
    ensures u.queue[0].id in Pick(u).1 && AtLeastOneIn(Pick(u).1[u.queue[0].id], |u.late| + 1)
  {
    var a := Pick(u).1;
    var h := u.queue[0].id;
    var m := |u.late| + 1;
    assert |a.Keys| <= m by {
      LeastLateIsLate(u);
      assert a.Keys <= {h} + u.late;
      SubsetSize(a.Keys, {h} + u.late);
    }
    EqualShareAtLeast(a, h, m);
  }

  lemma LeastLateIsLate(u: State)
    requires Inv(u)
    ensures LeastLate(u) <= u.late
  {
  }

  lemma PositiveFactor(a: real, c: real)
    requires c >= 0.0 && a * c > 0.0
    ensures a > 0.0
  {
  }

  lemma SubsetSize(a: set<JobId>, b: set<JobId>)
    requires a <= b
    ensures |a| <= |b|
  {
    assert b == a + (b - a);
  }

  /** The prediction is safe: with a non-negative estimate, a head served at
      least `1/(1 + |late|)` for the predicted time has nothing left and
      becomes late when its iteration of the update runs. */
  lemma NextInternalMakesHeadLate(s: State, service: real)
    requires Inv(s) && s.queue != [] && s.queue[0].rem >= 0.0
    requires AtLeastOneIn(service, |s.late| + 1)
    ensures var delta := StepsSince(s.lastT, s.lastT + NextInternal(s).value, s.eps);
      var r := ServeOne(s, delta, s.queue[0].id, service);
      && r.Ok? && s.queue[0].id in r.value.late && s.queue[0].id !in Ids(r.value.queue)
  {
    var h := s.queue[0];
    var m := |s.late| + 1;
    var o := NextInternal(s).value;
    var delta := StepsSince(s.lastT, s.lastT + o, s.eps);
    StepsCoverPrediction(s.lastT, h.rem * m as real, s.eps);
    WorkCoversEstimate(h.rem, m, delta, service);
    var work := Work(service, delta);
    assert work as real >= h.rem;
    assert h.id in s.attained && h.id !in s.late by { assert h in s.queue; }
    assert IndexOfId(s.queue, h.id) == Some(0);
    assert ServeOne(s, delta, h.id, service) == Ok(ServeAt(s, 0, work));
    ServeAtTurnsLate(s, 0, work);
  }

  /** Serving at least `1/n` for at least `rem * n` steps works at least
      `rem`. */
  lemma WorkCoversEstimate(rem: real, m: nat, delta: int, service: real)
    requires rem >= 0.0 && m >= 1 && delta as real >= rem * m as real && AtLeastOneIn(service, m)
    ensures Work(service, delta) as real >= rem
  {
    var n := m as real;
    PositiveFactor(service, n);
    MulRight(rem * n, delta as real, service);
    assert rem * n * service == (service * n) * rem;
    if rem > 0.0 {
      MulRight(1.0, service * n, rem);
    }
  }

  /** The steps counted at `lastT + m * eps` are at least `m`. */
  lemma StepsCoverPrediction(lastT: real, m: real, eps: PosReal)
    ensures StepsSince(lastT, lastT + m * eps, eps) as real >= m
  {
    var x := lastT + m * eps - lastT;
    assert x == m * eps;
    assert x / eps == m;
  }
}

=== FILE: srpt_ps.dfy ===
/** SRPT+PS (schedulers.py, class `SRPT_plus_PS`): SRPT on estimates, except
    that a job whose estimate runs out before it completes becomes "late" and
    from then on shares the resource equally with the SRPT head and the other
    late jobs until it is dequeued. */
module SrptPs {
  import opened Base
  import opened Allocation
  import opened EntryQueue

  /** The SRPT heap, the late set, the time of the last update and `eps`. */
  datatype State = State(jobs: seq<Entry>, late: set<JobId>, lastT: real, eps: PosReal)

  function Init(eps: PosReal): State {
    State([], {}, 0.0, eps)
  }

  /** The heap is ordered, holds each job once, and no late job is in it. */
  predicate Inv(s: State) {
    Sorted(s.jobs) && DistinctIds(s.jobs) && Ids(s.jobs) !! s.late
  }

  /** Jobs the policy currently holds. */
  function Tracked(s: State): set<JobId> {
    Ids(s.jobs) + s.late
  }

  /** Work the head received since the last update: it shared the resource
      with every late job, so it was served at rate `1/(1+|late|)`. */
  function Served(s: State, t: real): (d: real)
    ensures s.lastT <= t ==> d >= 0.0
    ensures t == s.lastT ==> d == 0.0
  {
    (t - s.lastT) / (1 + |s.late|) as real
  }

  /** The heap after the head has lost `d` of its estimate. */
  function Aged(q: seq<Entry>, d: real): (r: seq<Entry>)
    ensures |r| == |q|
    ensures q != [] ==> r == [Entry(q[0].rem - d, q[0].id)] + q[1..]
  {
    if q == [] then [] else [Entry(q[0].rem - d, q[0].id)] + q[1..]
  }

  lemma AgedIds(q: seq<Entry>, d: real)
    ensures Ids(Aged(q, d)) == Ids(q)
  {
    if q != [] {
      assert q == [q[0]] + q[1..];
      IdsOfConcat([q[0]], q[1..]);
      IdsOfConcat([Aged(q, d)[0]], q[1..]);
    }
  }

  lemma AgedPreserves(q: seq<Entry>, d: real)
    requires Sorted(q) && DistinctIds(q) && d >= 0.0
    ensures Sorted(Aged(q, d)) && DistinctIds(Aged(q, d))
    ensures Ids(Aged(q, d)) == Ids(q)
  {
    var r := Aged(q, d);
    if q != [] {
      forall i, j | 0 <= i < j < |r| ensures NotAfter(r[i], r[j]) && r[i].id != r[j].id {
        assert NotAfter(q[i], q[j]);
      }
    }
    AgedIds(q, d);
  }

  /** The body of `update` once the head's service `d` is known: age the
      head, then move every head whose estimate is below `eps` into the late
      set, for good. */
  function Advance(s: State, d: real, t: real): (r: State)
    ensures r.lastT == t && r.eps == s.eps
    ensures s.late <= r.late
    ensures r.jobs == [] || r.jobs[0].rem >= s.eps
    ensures Ids(r.jobs) + r.late == Ids(Aged(s.jobs, d)) + s.late
  {
    var aged := Aged(s.jobs, d);
    var k := CountBelow(aged, s.eps);
    IdsOfSplit(aged, k);
    State(aged[k..], s.late + Ids(aged[..k]), t, s.eps)
  }

  /** Advancing keeps the heap well formed and holds on to every job. */
  lemma AdvancePreservesInv(s: State, d: real, t: real)
    requires Inv(s) && d >= 0.0
    ensures Inv(Advance(s, d, t))
    ensures Tracked(Advance(s, d, t)) == Tracked(s)
  {
    var aged := Aged(s.jobs, d);
    AgedPreserves(s.jobs, d);
    SplitPreserves(aged, CountBelow(aged, s.eps));
  }

  /** Every job whose aged estimate fell below `eps` is now late and every job
      left in the heap has an estimate of at least `eps`. */
  lemma AdvanceMovesExhaustedToLate(s: State, d: real, t: real)
    requires Inv(s) && d >= 0.0
    ensures forall e :: e in Advance(s, d, t).jobs ==> e.rem >= s.eps
    ensures forall e :: e in Aged(s.jobs, d) && e.rem < s.eps ==> e.id in Advance(s, d, t).late
  {
    var aged := Aged(s.jobs, d);
    AgedPreserves(s.jobs, d);
    SplitBelow(aged, s.eps);
    var r := Advance(s, d, t);
    forall e | e in aged && e.rem < s.eps ensures e.id in r.late {
      assert e.id in Ids(aged[..CountBelow(aged, s.eps)]);
    }
  }

  /** `update`: the head is served `Served(s, t)`, then exhausted heads
      become late. */
  function Update(s: State, t: real): (r: State)
    ensures r == Advance(s, Served(s, t), t)
  {
    Advance(s, Served(s, t), t)
  }

  /** `update` keeps the state well formed and holds on to every job; after
      it every job in the heap has at least `eps` left, and every job whose
      estimate ran below `eps` is late. */
  lemma UpdateMovesExhaustedToLate(s: State, t: real)
    requires Inv(s) && s.lastT <= t
    ensures Inv(Update(s, t))
    ensures Tracked(Update(s, t)) == Tracked(s)
    ensures forall e :: e in Update(s, t).jobs ==> e.rem >= s.eps
    ensures forall e :: e in Aged(s.jobs, Served(s, t)) && e.rem < s.eps ==> e.id in Update(s, t).late
  {
    AdvancePreservesInv(s, Served(s, t), t);
    AdvanceMovesExhaustedToLate(s, Served(s, t), t);
  }

  /** While the head's aged estimate stays at or above `eps`, `update` only
      ages it. */
  lemma UpdateAgesHeadOnly(s: State, t: real)
    requires s.jobs != []
    requires s.jobs[0].rem - Served(s, t) >= s.eps
    ensures Update(s, t).late == s.late
    ensures Update(s, t).jobs == Aged(s.jobs, Served(s, t))
  {
  }

  /** Calling `update` again at the same instant changes nothing. */
  lemma UpdateIdempotent(s: State, t: real)
    ensures Update(Update(s, t), t) == Update(s, t)
  {
    var u := Update(s, t);
    assert Served(u, t) == 0.0;
    AdvanceAtNoService(u, t);
  }

  /** With no service and every estimate at or above `eps`, advancing only
      moves the clock. */
  lemma AdvanceAtNoService(s: State, t: real)
    requires s.jobs == [] || s.jobs[0].rem >= s.eps
    ensures Advance(s, 0.0, t) == s.(lastT := t)
  {
    assert Aged(s.jobs, 0.0) == s.jobs;
    assert CountBelow(s.jobs, s.eps) == 0;
  }

  /** `next_internal_event`: the head becomes late after its estimate times
      `1 + |late|` more time units; `None` when the heap is empty. */
  function NextInternal(s: State): (r: Option<real>)
    ensures r.None? <==> s.jobs == []
  {
    if s.jobs == [] then None else Some(s.jobs[0].rem * (1 + |s.late|) as real)
  }

  /** With every estimate at least `eps`, the prediction is in the future. */
  lemma NextInternalPositive(u: State)
    requires forall e :: e in u.jobs ==> e.rem >= u.eps
    ensures NextInternal(u).Some? ==> NextInternal(u).value > 0.0
  {
    if u.jobs != [] {
      assert u.jobs[0] in u.jobs;
      assert u.jobs[0].rem * (1 + |u.late|) as real >= u.jobs[0].rem * 1.0;
    }
  }

  /** After an update that does not go back in time, the next internal
      event is in the future. */
  lemma NextInternalAfterUpdate(s: State, t: real)
    requires Inv(s) && s.lastT <= t
    ensures NextInternal(Update(s, t)).Some? ==> NextInternal(Update(s, t)).value > 0.0
  {
    UpdateMovesExhaustedToLate(s, t);
    NextInternalPositive(Update(s, t));
  }

  /** The prediction is exact: updating at the predicted instant serves the
      head exactly its estimate, so it becomes late. */
  lemma NextInternalPredictsLateness(s: State)
    requires s.jobs != []
    ensures Served(s, s.lastT + NextInternal(s).value) == s.jobs[0].rem
    ensures s.jobs[0].id in Update(s, s.lastT + NextInternal(s).value).late
  {
    var t := s.lastT + NextInternal(s).value;
    ServedAtPrediction(s);
    var aged := Aged(s.jobs, s.jobs[0].rem);
    assert aged[0].rem == 0.0;
    assert CountBelow(aged, s.eps) >= 1;
    assert aged[0] in aged[..CountBelow(aged, s.eps)];
  }

  lemma ServedAtPrediction(s: State)
    requires s.jobs != []
    ensures Served(s, s.lastT + s.jobs[0].rem * (1 + |s.late|) as real) == s.jobs[0].rem
  {
    var n := (1 + |s.late|) as real;
    assert s.lastT + s.jobs[0].rem * n - s.lastT == s.jobs[0].rem * n;
  }

  /** The push of `enqueue`, once the heap is up to date. */
  function Push(u: State, j: JobId, size: real): (r: State)
    ensures r.late == u.late && r.lastT == u.lastT
    ensures multiset(r.jobs) == multiset(u.jobs) + multiset{Entry(size, j)}
  {
    u.(jobs := Insert(u.jobs, Entry(size, j)))
  }

  lemma PushPreservesInv(u: State, j: JobId, size: real)
    requires Inv(u) && j !in Tracked(u)
    ensures Inv(Push(u, j, size))
    ensures Tracked(Push(u, j, size)) == Tracked(u) + {j}
  {
    InsertSorted(u.jobs, Entry(size, j));
    InsertIds(u.jobs, Entry(size, j));
    DistinctAfterInsert(u.jobs, Entry(size, j));
  }

  /** `enqueue`: bring the heap up to `t`, then push the new pair. */
  function Enqueue(s: State, t: real, j: JobId, size: real): (r: State)
    ensures r == Push(Update(s, t), j, size)
  {
    Push(Update(s, t), j, size)
  }

  /** Enqueuing a new job keeps the state well formed and adds exactly that
      job. */
  lemma EnqueuePreservesInv(s: State, t: real, j: JobId, size: real)
    requires Inv(s) && s.lastT <= t && j !in Tracked(s)
    ensures Inv(Enqueue(s, t, j, size))
    ensures Tracked(Enqueue(s, t, j, size)) == Tracked(s) + {j}
  {
    UpdateMovesExhaustedToLate(s, t);
    PushPreservesInv(Update(s, t), j, size);
  }

  /** The removal of `dequeue`, once the heap is up to date: a late job leaves
      the late set; otherwise the job's pair leaves the heap. The out-of-order
      branch does what the swap/pop/heapify after it intends; the generator
      of schedulers.py:164 lacks `enumerate`, which `RemoveAsWritten` models.
      Fails exactly when the job is not held. */
  function Remove(u: State, j: JobId): (r: Result<State>)
    ensures r.Ok? <==> j in Tracked(u)
    ensures r.Ok? && j in u.late ==> r.value == u.(late := u.late - {j})
    ensures r.Ok? && j !in u.late ==>
      exists i :: 0 <= i < |u.jobs| && u.jobs[i].id == j && r.value == u.(jobs := RemoveAt(u.jobs, i))
  {
    if j in u.late then Ok(u.(late := u.late - {j}))
    else if u.jobs == [] then Err(EmptyHeap)
    else if u.jobs[0].id == j then
      assert u.jobs[1..] == RemoveAt(u.jobs, 0);
      Ok(u.(jobs := u.jobs[1..]))
    else
      match IndexOfId(u.jobs, j)
      case None => Err(MissingJob(j))
      case Some(i) => Ok(u.(jobs := RemoveAt(u.jobs, i)))
  }

  /** The removal as written: `for i, v in jobs` unpacks each pair into its
      remaining work and its id and then subscripts the id, so no job other
      than the head or a late job can be dequeued. As in `Srpt`, the error
      reported is the string-id outcome, "dequeuing missing job". */
  function RemoveAsWritten(u: State, j: JobId): (r: Result<State>)
    ensures r.Ok? <==> j in u.late || (u.jobs != [] && u.jobs[0].id == j)
  {
    if j in u.late then Ok(u.(late := u.late - {j}))
    else if u.jobs == [] then Err(EmptyHeap)
    else if u.jobs[0].id == j then Ok(u.(jobs := u.jobs[1..]))
    else Err(MissingJob(j))
  }

  /** A held job that the as-written removal rejects: job 2 waits behind job 1. */
  lemma RemoveAsWrittenRejectsTrackedJob()
    ensures var u := State([Entry(5.0, 1), Entry(10.0, 2)], {}, 0.0, 1.0);
      && 2 in Tracked(u)
      && RemoveAsWritten(u, 2) == Err(MissingJob(2))
      && Remove(u, 2) == Ok(u.(jobs := [Entry(5.0, 1)]))
  {
    var u := State([Entry(5.0, 1), Entry(10.0, 2)], {}, 0.0, 1.0);
    assert u.jobs[1] in u.jobs;
    assert IndexOfId(u.jobs, 2) == Some(1);
    assert RemoveAt(u.jobs, 1) == [Entry(5.0, 1)];
  }

  lemma RemovePreservesInv(u: State, j: JobId)
    requires Inv(u) && j in Tracked(u)
    ensures Inv(Remove(u, j).value)
    ensures Tracked(Remove(u, j).value) == Tracked(u) - {j}
  {
    var r := Remove(u, j).value;
    if j in u.late {
      assert j !in Ids(u.jobs);
      assert r == u.(late := u.late - {j});
    } else {
      var i :| 0 <= i < |u.jobs| && u.jobs[i].id == j && r == u.(jobs := RemoveAt(u.jobs, i));
      RemovedFromHeap(u, i);
    }
  }

  lemma RemovedFromHeap(u: State, i: nat)
    requires Inv(u) && i < |u.jobs|
    ensures Inv(u.(jobs := RemoveAt(u.jobs, i)))
    ensures Tracked(u.(jobs := RemoveAt(u.jobs, i))) == Tracked(u) - {u.jobs[i].id}
  {
    RemovePreservesSorted(u.jobs, i);
    IdsAfterRemove(u.jobs, i);
    assert u.jobs[i] in u.jobs;
  }

  /** `dequeue`: bring the heap up to `t`, then remove the job; fails exactly
      when the policy does not hold the job. */
  function Dequeue(s: State, t: real, j: JobId): (r: Result<State>)
    ensures r.Ok? <==> j in Tracked(s)
    ensures r == Remove(Update(s, t), j)
  {
    AgedIds(s.jobs, Served(s, t));
    Remove(Update(s, t), j)
  }

  lemma DequeuePreservesInv(s: State, t: real, j: JobId)
    requires Inv(s) && s.lastT <= t && j in Tracked(s)
    ensures Inv(Dequeue(s, t, j).value)
    ensures Tracked(Dequeue(s, t, j).value) == Tracked(s) - {j}
  {
    UpdateMovesExhaustedToLate(s, t);
    RemovePreservesInv(Update(s, t), j);
  }

  /** The jobs `schedule` serves: every late job and the SRPT head. */
  function Running(u: State): (r: set<JobId>)
    ensures u.late <= r <= Tracked(u)
    ensures u.jobs != [] ==> u.jobs[0].id in r
  {
    assert u.jobs != [] ==> u.jobs[0] in u.jobs;
    u.late + (if u.jobs == [] then {} else {u.jobs[0].id})
  }

  /** `schedule`: advance to `t`, then split the resource equally over the
      late jobs and the SRPT head. */
  function Schedule(s: State, t: real): (r: (State, Alloc))
    ensures r.0 == Update(s, t)
    ensures r.1.Keys == Running(r.0)
    ensures r.1 == EqualShares(r.1.Keys)
  {
    var u := Update(s, t);
    (u, EqualShares(Running(u)))
  }

  /** Everything `schedule` promises its caller when time does not go back:
      it keeps the state well formed, moves the clock to `t`, holds the same
      jobs, shares the resource equally among held jobs, serves someone
      whenever a job is held, and predicts its next internal event in the
      future. */
  lemma ScheduleServesHeld(s: State, t: real)
    requires Inv(s) && s.lastT <= t
    ensures var (u, a) := Schedule(s, t);
      && Inv(u) && u.lastT == t && Tracked(u) == Tracked(s)
      && a == EqualShares(a.Keys) && a.Keys <= Tracked(s)
      && (a == map[] <==> Tracked(s) == {})
      && (NextInternal(u).Some? ==> NextInternal(u).value > 0.0)
  {
    UpdateMovesExhaustedToLate(s, t);
    NextInternalAfterUpdate(s, t);
    RunningSharesEqually(Update(s, t));
  }

  /** With a non-empty heap the head and the late jobs make `1 + |late|`
      served jobs; something is served whenever a job is held, and then the
      shares sum to 1. */
  lemma RunningSharesEqually(u: State)
    requires Inv(u)
    ensures u.jobs != [] ==> |Running(u)| == 1 + |u.late|
    ensures Running(u) == {} <==> Tracked(u) == {}
    ensures Running(u) != {} ==> Total(EqualShares(Running(u))) == 1.0
  {
    if u.jobs != [] {
      assert u.jobs[0] in u.jobs;
      assert Running(u) == u.late + {u.jobs[0].id};
    } else {
      assert Ids(u.jobs) == {};
    }
    if Running(u) != {} {
      TotalOfEqualShares(Running(u));
    }
  }

  /** `schedule` serves every late job; with a non-empty heap each served
      job gets `1/(1+|late|)`; the whole resource is handed out whenever a
      job is held. */
  lemma ScheduleSharesEqually(s: State, t: real)
    requires Inv(s) && s.lastT <= t
    ensures var (u, a) := Schedule(s, t);
      && u.late <= a.Keys
      && (u.jobs != [] ==> |a| == 1 + |u.late|)
      && (Tracked(s) != {} ==> Total(a) == 1.0)
  {
    UpdateMovesExhaustedToLate(s, t);
    RunningSharesEqually(Update(s, t));
  }

  /** Scheduling twice at the same instant returns the same allocation. */
  lemma ScheduleIdempotent(s: State, t: real)
    ensures Schedule(Schedule(s, t).0, t) == Schedule(s, t)
  {
    UpdateIdempotent(s, t);
  }
}
